=== FILE: README.md ===
# LSFM preprocessing: selection and naming rules in Dafny

This project models the selection and naming rules of a set of light-sheet microscopy (LSFM) preprocessing scripts. The scripts prepare training data for a cell-segmentation model and masks for atlas registration. Each rule is written as a pure Dafny function over sequences, sets, maps and strings, and the properties the scripts rely on are proved about those functions.

Every random draw the scripts make is an explicit parameter with the contract of its generator:

- the spacing offset, a number in `[0, step)`;
- a permutation of `0..n-1`;
- the fill choices, drawn from the available set.

Every run is therefore determined by its inputs, and the proofs hold for every possible draw. Python exceptions become `Err` values of a `Result` type, with the exception's class as the error kind.

The modules follow the scripts:

- `Sections`, `LegacySections`, `ThresholdPicker`: the spaced section samplers (current, older, first generation) and their stack windows.
- `Coverage`, `LegacyCoverage`, `Proportional`: greedy label-coverage chunk selection with its random fill, in three versions, and the atlas-to-image pairing.
- `Pickers`: the evenly spaced random-chunk pickers and the every-k picker, with shuffle and counter prefixes.
- `Tiling`, `ChunkFilter`, `Recreate`: the chunk and MIP naming protocol. It covers tiling an image and naming the tiles, deriving atlas partners in the filter step, and parsing chunk names back when a selection is recreated.
- `Labels`, `Config`, `Folders`, `Mask`, `Collage`, `ZStack`: the small helpers. These are sequential relabelling, path normalisation and config precedence, folder-name tokens, mask slice indices, the collage layout and the crop grid.
- `Strings`, `Decimal`, `Sorting`, `Arith`, `Wrappers`: Python's `str.split`, `Path.stem`, `int()`, number formatting, `sorted`, integer division and `Result`. They are stated once and shared.

The filesystem is modelled as lists of names plus sets of existing paths. An image is modelled only by what the rules read from it: its shape, its labels, or its average value.

## Model

| member | source | states |
|---|---|---|
| Sections.SampleId | preprocess_for_cellpose/2_select_representative_sections.py:75-88 | The sample id is token `index` of the parent folder name split on `_`. An index at or past the token count raises RuntimeError. A negative index counts from the end, as Python indexing does. |
| Sections.SampleIdOfTokens | preprocess_for_cellpose/2_select_representative_sections.py:79-88 | For a folder name joined from underscore-free tokens, the extracted id is exactly the token at the index. An index past the tokens raises RuntimeError. |
| Sections.LittleEndianBound | preprocess_for_cellpose/2_select_representative_sections.py:63-67 | The little-endian value of `k` bytes is below 256^k, so a four-byte seed lies in [0, 2^32). |
| Sections.LittleEndianRoundTrip | preprocess_for_cellpose/2_select_representative_sections.py:63-67 | Reading bytes little-endian and writing the value back as the same number of bytes gives the bytes again. |
| Sections.StableSeed | preprocess_for_cellpose/2_select_representative_sections.py:63-67 | The seed lies in [0, 2^32) and its four little-endian bytes are the digest's first four bytes. |
| Sections.StableSeedInjective | preprocess_for_cellpose/2_select_representative_sections.py:63-67 | Two digests give the same seed exactly when their first four bytes agree, so equal ids give equal seeds. |
| Sections.Positions | preprocess_for_cellpose/2_select_representative_sections.py:119-122 | The filter keeps at most `count` positions, all below `n`. |
| Sections.PositionsAllBelow | preprocess_for_cellpose/2_select_representative_sections.py:119-122 | When every spaced position is below `n`, the filter removes nothing. |
| Sections.Step | preprocess_for_cellpose/2_select_representative_sections.py:113-116 | With `n >= s >= 2`, the step `n // (s-1)` is at least 1, so the offset range [0, step) is non-empty. It also satisfies `(s-1)*step <= n`. |
| Sections.SurvivorCount | preprocess_for_cellpose/2_select_representative_sections.py:113-122 | For any offset in [0, step), the first `s-1` spaced positions always survive the filter, so the survivor count is `s-1` or `s`. It is `s` exactly when the last position is below `n`. |
| Sections.ArangeIncreasing | preprocess_for_cellpose/2_select_representative_sections.py:119 | Spaced positions with a positive step strictly increase. |
| Sections.PositionsArePrefix | preprocess_for_cellpose/2_select_representative_sections.py:119-122 | The surviving positions are a prefix of the unfiltered spaced positions. |
| Sections.SpacedInRange | preprocess_for_cellpose/2_select_representative_sections.py:119-122 | The surviving positions strictly increase and lie in [0, n). |
| Sections.Picked | preprocess_for_cellpose/2_select_representative_sections.py:125-129 | Pick `k` is `perm[positions[k]]`. The picks lie below `n` and are pairwise distinct, because the positions are distinct and `perm` is a permutation. |
| Sections.SortPicked | preprocess_for_cellpose/2_select_representative_sections.py:131 | Sorting the picks keeps exactly the same elements and count, in strictly increasing listing order. |
| Sections.Trim | preprocess_for_cellpose/2_select_representative_sections.py:133-142 | `len(positions) - s` decides the trim. Zero drops the first and last items, -1 drops the first, and anything else skips the sample (`continue`). `del` on too short a list raises IndexError. |
| Sections.SelectSections | preprocess_for_cellpose/2_select_representative_sections.py:91-142 | An empty folder raises. With too few files the sample is emitted only when `n = sample_size + 1` and skipped otherwise. In the normal branch a selection is always emitted. Anything emitted has exactly `sample_size` strictly increasing indices below `n`. |
| Sections.NormalBranchEmits | preprocess_for_cellpose/2_select_representative_sections.py:106-142 | With `n >= sample_size + 2`, the `continue` is unreachable and exactly `sample_size` files are emitted. |
| Sections.SelectSectionsTrimmed | preprocess_for_cellpose/2_select_representative_sections.py:113-142 | In the normal branch exactly the sorted picks are emitted, minus their first item, and minus their last item too when all `s` spaced positions survive. |
| Sections.EmittedArePermutedPositions | preprocess_for_cellpose/2_select_representative_sections.py:119-131 | Every emitted index is `perm[p]` for a surviving spaced position `p`. |
| Sections.StackWindow | preprocess_for_cellpose/2_select_representative_sections.py:152-163 | The window is consecutive and stays in [0, n). It is non-empty iff `z >= 0`, and then it contains `i`. For `z >= 0` it has at most `2*(z//2)+1` entries, and exactly that many iff it is not clipped at either end. |
| Sections.StackWindowAtStart | preprocess_for_cellpose/2_select_representative_sections.py:155-157 | At the first section the window shrinks: index 0 of 20 with depth 5 gives [0, 1, 2]. |
| Sections.CopyNames | preprocess_for_cellpose/2_select_representative_sections.py:172-176 | Each destination name is `{sample_id}_{file}` for the emitted file at the same position. |
| Sections.Windows | preprocess_for_cellpose/2_select_representative_sections.py:147-163 | Each emitted index gets its own stack window. The window contains the index iff `z >= 0`, and it is empty iff `z < 0`. |
| Sections.SampleFolder | preprocess_for_cellpose/2_select_representative_sections.py:71-176 | An id index past the tokens raises RuntimeError, and so does an empty folder. Otherwise the output follows the selection. A selection error is passed on, and a skipped sample writes nothing. Copy mode writes one name `{sample_id}_{file}` per selected file, in order, for exactly `sample_size` files. Stack mode builds the stack window of each selected file. With a negative `z_stack_number` and at least one emitted file, stack mode raises ValueError, as `np.stack` of an empty list does. |
| Sections.SampleFolderCopiesDistinct | preprocess_for_cellpose/2_select_representative_sections.py:170-176 | When the folder's file names differ, no copy overwrites another: the destination names are pairwise distinct. |
| LegacySections.LegacySampleId | 2_select_representative_sections.py:62-63 | The id is token 5 of the parent folder name. It is unchecked, so a name with at most five tokens raises IndexError. |
| LegacySections.LegacySeed | 2_select_representative_sections.py:82 | `hash(id) % 2**32` lies in [0, 2^32) and is congruent to the hash. The hash itself is an input. |
| LegacySections.LegacySelect | 2_select_representative_sections.py:67-115 | An empty folder raises RuntimeError. The degenerate branch leaves `positions` as it was and raises NameError when no earlier folder set it. The normal branch selects exactly what the newer sampler selects and leaves `s-1` or `s` positions behind. |
| LegacySections.StaleCountEmits | 2_select_representative_sections.py:75-115 | Decides the degenerate branch from the stale count. A stale count of `s` drops first and last, which fails with IndexError on a single file. A stale count of `s-1` drops only the first. |
| LegacySections.LegacyStackWindow | 2_select_representative_sections.py:125-133 | The window is consecutive from `max(i - z//2, 0)`, stays below `n`, is non-empty iff `z >= 1` and then contains `i`, and has length `min(z, n - start)`. At the low boundary it keeps all `z` planes. |
| LegacySections.LegacyOutput | 2_select_representative_sections.py:117-143 | A skipped sample writes nothing. Copy mode writes `{sample_id}_{file}` for each emitted file. Stack mode builds one window per emitted file. |
| LegacySections.LegacyFolder | 2_select_representative_sections.py:60-145 | Stack windows it returns are never empty, because an empty window raises ValueError in `np.stack`. In stack mode, until some folder has bound `destination_path`, a folder that is not skipped fails at the closing message. `destination_path` becomes bound only by copying at least one file. |
| LegacySections.LegacySelectInRange | 2_select_representative_sections.py:75-115 | Every emitted index is a valid listing index, in either branch. |
| LegacySections.LegacyRun | 2_select_representative_sections.py:60-145 | A completed run produces one output per folder, with `positions` and `destination_path` carried from folder to folder. |
| LegacySections.LegacyFolderKeepsCount | 2_select_representative_sections.py:92-95 | The carried-over position count is always `s-1` or `s`. |
| LegacySections.FirstSmallFolderFails | 2_select_representative_sections.py:75-107 | When the first folder has files but fewer than `s`, the run raises NameError because `positions` was never bound. |
| LegacySections.StackModeMessageFails | 2_select_representative_sections.py:118-145 | In stack mode a first folder with enough files fails. With a non-positive depth and at least one emitted file it raises ValueError at the first empty window. Otherwise it fails at the message that names the unbound `destination_path`. |
| ThresholdPicker.Kept | 1_select_representative_sections.py:18-23 | The kept indices are exactly those whose average is strictly above the threshold, in listing order. |
| ThresholdPicker.Picks | 1_select_representative_sections.py:46-54 | With at least one kept file there are exactly `max(s, 0)` picks `min(i*step, len-1)`, each a valid index. |
| ThresholdPicker.PickPair | 1_select_representative_sections.py:46-54 | For `2 <= s <= len`, an earlier pick is strictly below a later one. |
| ThresholdPicker.PicksIncreasing | 1_select_representative_sections.py:46-54 | When `s <= len`, the picks strictly increase, so they are distinct. They start at index 0 and there are exactly `s` of them. |
| ThresholdPicker.ClampFires | 1_select_representative_sections.py:46-53 | The clamp to `len-1` changes some pick iff `s > 1` and `s-1` divides `len`. |
| ThresholdPicker.SelectFirstGen | 1_select_representative_sections.py:18-54 | No kept file makes the preview raise IndexError. With fewer than `sample_size` kept files all of them are returned. Otherwise exactly `sample_size` kept indices are returned, in increasing order, starting with the first kept file. |
| ThresholdPicker.GatherIncreasing | 1_select_representative_sections.py:52-54 | Reading a strictly increasing index list through strictly increasing picks gives a strictly increasing list of kept indices. |
| ThresholdPicker.FirstGenRunAsWritten | 1_select_representative_sections.py:1-61 | The script as written always fails. It fails at the preview when nothing is kept and otherwise at `os.path`, because `os` is never imported. |
| ThresholdPicker.FirstGenRun | 1_select_representative_sections.py:18-72 | With the import added, the run fails exactly when no file is kept. Every copied file is one whose average exceeds the threshold. |
| ThresholdPicker.FirstGenRunDistinct | 1_select_representative_sections.py:52-72 | With distinct file names, no file is copied twice. |
| ThresholdPicker.FirstGenMissingImport | 1_select_representative_sections.py:1-61 | Whenever something is kept, the script as written raises NameError while the corrected run succeeds. |
| Coverage.AllRegionsMember | preprocess_for_cellpose/5b_select_representative_chunks.py:59-71 | A label is among all labels iff some chunk's label set contains it. |
| Coverage.RegionIndex | preprocess_for_cellpose/5b_select_representative_chunks.py:59-71 | The keys of `region_counts` are exactly the labels that occur. Chunk `i` is listed under label `r` iff `r` is among chunk `i`'s labels. |
| Coverage.AddChunk | preprocess_for_cellpose/5b_select_representative_chunks.py:66-69 | Adding one chunk adds its labels as keys and adds its index under exactly those labels, leaving the other entries alone. |
| Coverage.RegionIndexStep | preprocess_for_cellpose/5b_select_representative_chunks.py:62-69 | One pass of the indexing loop preserves the index invariant. |
| Coverage.RegionTotal | preprocess_for_cellpose/5b_select_representative_chunks.py:71-82 | `len(region_counts)` is the number of distinct labels over all chunks. |
| Coverage.UnionMember | preprocess_for_cellpose/5b_select_representative_chunks.py:100-101 | A label is covered iff some selected chunk has it. |
| Coverage.UnionInAll | preprocess_for_cellpose/5b_select_representative_chunks.py:78-101 | The covered labels are always among all labels. |
| Coverage.UnionMonotone | preprocess_for_cellpose/5b_select_representative_chunks.py:100-101 | Selecting more chunks never uncovers a label. |
| Coverage.ScanBest | preprocess_for_cellpose/5b_select_representative_chunks.py:84-95 | After scanning the first `k` chunks, the best gain bounds every unselected gain so far. The candidate is the first unselected chunk reaching it. There is no candidate iff the best gain is 0, because of the strict `>`. |
| Coverage.Best | preprocess_for_cellpose/5b_select_representative_chunks.py:84-95 | A found chunk is the greedy choice: unselected, gain at least 1, maximal gain, lowest index among the maximal. None is found iff every unselected chunk has gain 0. |
| Coverage.GreedyChoiceUnique | preprocess_for_cellpose/5b_select_representative_chunks.py:87-95 | At most one chunk satisfies the greedy rule, so the tie-break fully determines the pick. |
| Coverage.ZeroGainCovers | preprocess_for_cellpose/5b_select_representative_chunks.py:91-98 | If no unselected chunk adds a label, every label is covered. |
| Coverage.UncoveredHasGain | preprocess_for_cellpose/5b_select_representative_chunks.py:80-98 | While fewer labels are covered than exist, some pick is found, so the `break` is unreachable. |
| Coverage.NoGainMeansCovered | preprocess_for_cellpose/5b_select_representative_chunks.py:97-98 | Reaching `best_image is None` implies full coverage. |
| Coverage.TraceFacts | preprocess_for_cellpose/5b_select_representative_chunks.py:88-100 | A sequence of greedy picks holds valid, pairwise distinct indices. |
| Coverage.TraceExtend | preprocess_for_cellpose/5b_select_representative_chunks.py:100-101 | Appending the greedy choice extends the trace and adds exactly that chunk's labels to the covered set. |
| Coverage.GreedyTraceUnique | preprocess_for_cellpose/5b_select_representative_chunks.py:84-101 | Two greedy traces of the same length are equal. |
| Coverage.TracePrefix | preprocess_for_cellpose/5b_select_representative_chunks.py:80-101 | Every prefix of a greedy trace is a greedy trace. |
| Coverage.LongerTraceUncovers | preprocess_for_cellpose/5b_select_representative_chunks.py:80-98 | A trace that can be extended does not yet cover everything. |
| Coverage.GreedyRunUnique | preprocess_for_cellpose/5b_select_representative_chunks.py:80-101 | Any two finished runs under the same budget, whether they stopped on the budget or on full coverage, pick the same chunks in the same order. |
| Coverage.GreedyStep | preprocess_for_cellpose/5b_select_representative_chunks.py:100-101 | Each pick extends the trace and covers at least one more label, which is why the loop terminates. |
| Coverage.Greedy | preprocess_for_cellpose/5b_select_representative_chunks.py:77-101 | The loop ends. Covered equals the union of the selected chunks' labels, picks are distinct greedy choices, and there are at most `min(N, #labels)` of them. Stopping below `N` means full coverage, and so does `N >= #labels`. |
| Coverage.GreedyExit | preprocess_for_cellpose/5b_select_representative_chunks.py:77-101 | When the loop condition fails, the picks are distinct and no more than the labels. A stop below `N`, or `N >= #labels`, means every label is covered. |
| Coverage.Fill | preprocess_for_cellpose/5b_select_representative_chunks.py:109-116 | The fill keeps the greedy picks, adds only valid indices and ends with `max(len(selected), min(N, pool))` chunks. |
| Coverage.PairUp | preprocess_for_cellpose/5b_select_representative_chunks.py:138-152 | Pairing fails iff some wanted image is missing. Otherwise each atlas chunk is paired with its wanted image, in order. |
| Coverage.Pairs | preprocess_for_cellpose/5b_select_representative_chunks.py:138-152 | Each picked atlas chunk is paired with its partner name. Copying fails iff some partner is absent. |
| Coverage.SelectIndices | preprocess_for_cellpose/5b_select_representative_chunks.py:77-120 | The greedy picks and the fill give `min(N, pool)` indices in ascending order. They include every greedy pick and cover every label when `N >= #labels`. |
| Coverage.SelectRepresentativeChunks | preprocess_for_cellpose/5b_select_representative_chunks.py:46-157 | An empty atlas folder raises RuntimeError. Otherwise the selection has `min(N, pool)` chunks and the pairs are those of the partner rule. |
| LegacyCoverage.LegacyGreedy | 5b_select_representative_chunks.py:41-60 | The loop without a `break` still always progresses and ends. Its picks form a finished greedy run under the budget, covered equals their union, and there are at most `#labels` picks. With `N >= #labels` every label is covered. |
| LegacyCoverage.LegacyFillAsWritten | 5b_select_representative_chunks.py:1-67 | As written the fill raises NameError exactly when it is entered, because `random` is never imported. Otherwise the selection is unchanged. |
| LegacyCoverage.LegacyFill | 5b_select_representative_chunks.py:62-67 | With the import added, the unguarded fill raises IndexError when the budget exceeds the pool. Otherwise it keeps the greedy picks and ends with exactly `max(N, len(selected))` valid indices. |
| LegacyCoverage.LegacyFillFails | 5b_select_representative_chunks.py:62-67 | Any selection below the budget makes the fill as written raise NameError. |
| LegacyCoverage.LegacyPairs | 5b_select_representative_chunks.py:79-88 | On success, pair `k` holds the `k`-th selected atlas chunk in ascending index order, together with its partner in the sibling `filtered_image_chunks` folder. There is one pair per selected chunk. The copy fails with FileNotFoundError iff some partner is absent. |
| LegacyCoverage.LegacySelectionAsWritten | 5b_select_representative_chunks.py:28-88 | The script as written fails with NameError whenever the greedy phase stops below the budget, and pairs the greedy picks otherwise. |
| LegacyCoverage.LegacySelection | 5b_select_representative_chunks.py:28-88 | With the import added, a budget above the pool raises IndexError. Otherwise exactly `N` valid chunks are paired, and every label is covered when `N >= #labels`. |
| Proportional.LabelSets | 5_select_representative_chunks.py:16-20 | Each chunk's label set is the set of values in its image. |
| Proportional.HoldersCount | 5_select_representative_chunks.py:22-50 | The count of chunks holding a label equals the size of the set of their indices. |
| Proportional.HoldersIndexed | 5_select_representative_chunks.py:22-50 | `len(region_counts[r])` equals the number of chunks holding `r`. |
| Proportional.SelectedHoldersAtMost | 5_select_representative_chunks.py:49-50 | The selected chunks holding a label are never more than all chunks holding it. |
| Proportional.ImbalanceNonPositive | 5_select_representative_chunks.py:49-50 | Every term `selected holders - all holders` is at most 0, so each sum is at most 0. |
| Proportional.ScoreNonPositive | 5_select_representative_chunks.py:50 | Every imbalance score is at most 0. |
| Proportional.ScanMax | 5_select_representative_chunks.py:52 | `max` over the scores returns the first index of maximal score among all indices, selected ones included. |
| Proportional.ProportionalFill | 5_select_representative_chunks.py:46-53 | A fill that finishes within the fuel keeps the earlier picks and reaches at least 100 valid indices. An empty pool raises ValueError from `max` of an empty dict. Each chunk's label list is `np.unique` output, ascending without repeats, so scores sum over label sets. |
| Proportional.FillStuck | 5_select_representative_chunks.py:47-53 | Once the first maximal-score index is already selected, the fill adds nothing and never finishes. |
| Proportional.SmallPoolNeverFinishes | 5_select_representative_chunks.py:47 | A pool of fewer than 100 chunks can never reach 100 picks, so the loop never ends. |
| Proportional.UniformGreedy | 5_select_representative_chunks.py:29-44 | When every chunk holds only label 0, the greedy phase picks chunk 0 alone. |
| Proportional.UniformPoolNeverFinishes | 5_select_representative_chunks.py:46-53 | With any pool size and every chunk holding only label 0, the fill keeps choosing the selected chunk 0 and never finishes. |
| Proportional.ProportionalSelection | 5_select_representative_chunks.py:25-53 | The greedy phase with budget 100 is a finished greedy run, followed by the fill. A pool of 1 to 99 chunks never finishes. |
| Proportional.ScanMaxUnselected | 5_select_representative_chunks.py:50-52 | Among unselected indices only, it finds the first of maximal score, or none when all are selected. |
| Proportional.IntendedFill | 5_select_representative_chunks.py:46-53 | The argmax restricted to unselected chunks always progresses. It keeps the earlier picks and ends with `max(len(selected), min(100, pool))` valid indices. |
| Pickers.Clamp | preprocess_for_cellpose/5a_select_random_chunks.py:54-56 | A request above the number of files is lowered to that number; the result never exceeds either, and is one of the two. |
| Pickers.SpacedPicks | preprocess_for_cellpose/5a_select_random_chunks.py:58-61 | A zero count divides by zero; a negative count picks nothing; otherwise there are exactly `num` picks and pick `i` is the floor of `i * total / num`: the largest `p` with `p * num <= i * total`. |
| Pickers.SpacedPicksFacts | preprocess_for_cellpose/5a_select_random_chunks.py:53-61 | With a positive count no larger than the listing, the picks start at 0, strictly increase and stay inside the listing, so no file is picked twice. |
| Pickers.PermutationOnto | preprocess_for_cellpose/5a_select_random_chunks.py:64 | A permutation of `0..n-1` hits every index below `n`. |
| Pickers.Shuffle | preprocess_for_cellpose/5a_select_random_chunks.py:64 | Shuffling by a permutation keeps the length, and the result holds exactly the elements of the input. |
| Pickers.ShufflePermutes | preprocess_for_cellpose/5a_select_random_chunks.py:64 | Shuffling a duplicate-free list gives a duplicate-free list with the same multiset. |
| Pickers.Prefixed | preprocess_for_cellpose/5a_select_random_chunks.py:69-72 | The destination name starts with the decimal counter, which holds no underscore, followed by one underscore and the original name. |
| Pickers.PrefixedInjective | preprocess_for_cellpose/5a_select_random_chunks.py:67-72 | Two equal destination names carry the same counter, so different counters never collide whatever the file names. |
| Pickers.Copies | preprocess_for_cellpose/5a_select_random_chunks.py:67-77 | There is one copy per selected file, in the shuffled order, and copy `k` goes to the name prefixed with `k`. |
| Pickers.CopiesDistinct | preprocess_for_cellpose/5a_select_random_chunks.py:67-77 | No two copies of one run share a destination, so no copy overwrites another. |
| Pickers.RandomChunks | preprocess_for_cellpose/5a_select_random_chunks.py:47-77 | An empty folder raises RuntimeError; a zero request divides by zero; otherwise the run copies min(request, files) files, never fewer than none, all from the listing. |
| Pickers.RandomChunksCopies | preprocess_for_cellpose/5a_select_random_chunks.py:58-77 | A successful run copies every evenly spaced pick exactly once, from distinct sources to distinct destinations. |
| Pickers.ShuffledCopies | preprocess_for_cellpose/5a_select_random_chunks.py:61-77 | Copying a shuffled duplicate-free selection gives distinct destinations and distinct sources, and covers exactly the selection. |
| Pickers.LegacyRandomChunks | 5a_select_random_chunks.py:26-53 | Without the empty-folder guard, an empty folder reaches the division and raises ZeroDivisionError; the run fails exactly when the clamped request is 0. |
| Pickers.LegacyAgreesOnNonEmpty | 5a_select_random_chunks.py:26-53 | On a non-empty folder the older script and the newer one select and name exactly the same copies. |
| Pickers.Multiples | select_images_and_randomize_order.py:14-17 | The kept indices are exactly the listing positions divisible by `select_every`, in increasing order. |
| Pickers.MultiplesCount | select_images_and_randomize_order.py:17 | There are ceil(n / abs(k)) such positions. |
| Pickers.EveryK | select_images_and_randomize_order.py:8-35 | A step of 0 on a non-empty listing divides by zero; otherwise one copy per kept index, each from a position divisible by the step. |
| Pickers.EveryKCopies | select_images_and_randomize_order.py:17-35 | Every position divisible by the step is copied exactly once, to distinct destinations. |
| Recreate.Token | preprocess_for_cellpose/6_recreate_chunk_selection.py:54-66 | Indexing the name's tokens succeeds exactly when Python indexing does, negative indices included, and otherwise raises IndexError. |
| Recreate.TokenInt | preprocess_for_cellpose/6_recreate_chunk_selection.py:64-65 | A token converts exactly when it is an optionally signed decimal number, to that number; anything else raises ValueError. |
| Recreate.ParseChunk | preprocess_for_cellpose/6_recreate_chunk_selection.py:41-70 | A parsed name has more tokens than every configured index, `MIP` and `chunk` at their indices, the sample id at its index, y and x read from the two tokens after `chunk`, and a non-empty source stem. |
| Recreate.ParseChunkShape | preprocess_for_cellpose/6_recreate_chunk_selection.py:43-70 | With non-negative indices the token-count guard rules out IndexError. A chunk index at or before the MIP index always fails. On success the source stem is the tokens from `MIP` up to `chunk`, joined with underscores. |
| Recreate.ParseChunkRoundTrip | preprocess_for_cellpose/6_recreate_chunk_selection.py:41-70 | A name built as `{sid}_MIP_{a}_{b}_chunk_{y}_{x}` parses back, with the default indices, to exactly that y, x, sample id and source stem. |
| Recreate.Candidates | preprocess_for_cellpose/6_recreate_chunk_selection.py:31-32 | The candidates are exactly the subject's files whose stem contains the source stem, in listing order. |
| Recreate.OnlyCandidate | preprocess_for_cellpose/6_recreate_chunk_selection.py:174-180 | A single candidate is the one and only file of the subject that matches the source stem. |
| Recreate.Classify | preprocess_for_cellpose/6_recreate_chunk_selection.py:168-180 | A key is a missing subject, a missing stem, or ambiguous exactly in the source's three cases; otherwise it resolves to the unique matching file. |
| Recreate.Preflight | preprocess_for_cellpose/6_recreate_chunk_selection.py:162-193 | The check fails with RuntimeError exactly when some key does not resolve; on success every key maps to its unique source, before anything is written. |
| Recreate.CheckJob | preprocess_for_cellpose/6_recreate_chunk_selection.py:212-269 | A chunk is written exactly when its dimensionality, z-size and bounds fit the source; a misfit raises RuntimeError exactly in strict mode and is skipped otherwise. |
| Recreate.Run | preprocess_for_cellpose/6_recreate_chunk_selection.py:202-285 | The safety half of the loop. Written plus skipped equals the job count. Nothing written or copied already existed, and every annotation copied exists beside the old chunk. No output name is produced twice, every written chunk fits its source, and strict mode skips nothing. Every failure is RuntimeError. |
| Recreate.RunOutcome | preprocess_for_cellpose/6_recreate_chunk_selection.py:202-285 | The loop gets through exactly when strict mode meets no misfit and every chunk and annotation the fitting jobs produce is new and unique. It then writes exactly the fitting chunks, in order, with their existing annotations, and counts every other job as skipped. |
| Recreate.RunWritesIffFits | preprocess_for_cellpose/6_recreate_chunk_selection.py:212-276 | When the chunk names differ, as files of one folder do, a successful run writes a chunk iff it fits its source. |
| Recreate.FittingNamesMember | preprocess_for_cellpose/6_recreate_chunk_selection.py:212-276 | A name is among the written names exactly when some fitting job carries it. |
| Recreate.SucceedsSkip | preprocess_for_cellpose/6_recreate_chunk_selection.py:212-269 | A misfit produces no file: the run gets through iff it is not strict and the rest gets through. |
| Recreate.SucceedsWrite | preprocess_for_cellpose/6_recreate_chunk_selection.py:271-285 | A fitting job needs a new chunk name and, when copied, a new annotation name different from it. The rest must then get through with both names taken. |
| Recreate.DropLast4 | preprocess_for_cellpose/6_recreate_chunk_selection.py:138 | The slice `[:-4]` drops the last four characters, and leaves nothing of a shorter stem. |
| Recreate.Orphans | preprocess_for_cellpose/6_recreate_chunk_selection.py:136-138 | The orphans are exactly the annotation stems whose chunk stem is not among the chunks. |
| Recreate.OrphanOfChunk | preprocess_for_cellpose/6_recreate_chunk_selection.py:136-138 | The annotation `{c}_seg` is an orphan exactly when chunk `c` is missing. |
| Recreate.ParseAll | preprocess_for_cellpose/6_recreate_chunk_selection.py:151-160 | On success there is one job per chunk, in listing order, each carrying its name, old shape and parsed fields. |
| Recreate.ParseAllFails | preprocess_for_cellpose/6_recreate_chunk_selection.py:151-160 | Parsing the listing fails exactly when some chunk name fails to parse. |
| Recreate.Recut | preprocess_for_cellpose/6_recreate_chunk_selection.py:162-285 | The run succeeds exactly when every key resolves to one source and the loop gets through with the shapes of those sources. It then writes exactly the fitting chunks and their annotations, and skips the rest. Every failure is RuntimeError. |
| Recreate.RecreateSelection | preprocess_for_cellpose/6_recreate_chunk_selection.py:112-285 | Output equal to input, a subject folder without images and an empty chunk folder each fail. Otherwise the script succeeds exactly when every chunk name parses, every key resolves and the re-cut loop gets through. It then writes exactly the fitting chunks and skips the others. |
| ChunkFilter.ImageFolders | preprocess_for_cellpose/4_filter_black_chunks.py:56 | The image folders are exactly the listed folders whose name does not end in `_atlas_slice`, each kept no more often than listed. |
| ChunkFilter.SortedImageFolders | preprocess_for_cellpose/4_filter_black_chunks.py:56 | The folders are sorted by name and hold exactly the non-atlas folders of the listing, with their multiplicities. |
| ChunkFilter.FilterFolderImages | preprocess_for_cellpose/4_filter_black_chunks.py:59-83 | An image chunk is copied exactly when its average pixel value lies strictly above the threshold. |
| ChunkFilter.FilterFolderMissing | preprocess_for_cellpose/4_filter_black_chunks.py:85-92 | A missing-atlas warning is raised exactly for a kept chunk whose atlas partner is absent from the atlas folder, and only when atlas chunks are included. |
| ChunkFilter.FilterFolderAtlases | preprocess_for_cellpose/4_filter_black_chunks.py:85-90 | Every atlas chunk copied exists, comes from the folder's `_atlas_slice` sibling, and is the partner of a kept image chunk. |
| ChunkFilter.FilterFolderAtlasCopies | preprocess_for_cellpose/4_filter_black_chunks.py:83-90 | An atlas chunk is copied exactly when atlas chunks are included, it exists in the folder's `_atlas_slice` sibling, and it is the partner of a kept image chunk. |
| ChunkFilter.FilterFolder | preprocess_for_cellpose/4_filter_black_chunks.py:60-92 | One folder's pass copies one image per kept chunk and, when atlas chunks are included, takes exactly one atlas action after each; its first action is an image copy. |
| ChunkFilter.FilterFolderPairs | preprocess_for_cellpose/4_filter_black_chunks.py:83-92 | Without atlas chunks only images are copied. Every atlas copy and every missing-atlas report comes right after the image copy of its own chunk, and an atlas copy takes that chunk's partner from the folder's `_atlas_slice` sibling. |
| ChunkFilter.InFilterAll | preprocess_for_cellpose/4_filter_black_chunks.py:56-94 | An action is taken over the whole run exactly when the pass over some folder not ending in `_atlas_slice` takes it. |
| ChunkFilter.FilterAllImages | preprocess_for_cellpose/4_filter_black_chunks.py:56-94 | Over the whole run, a chunk name is copied exactly when some folder not ending in `_atlas_slice` lists a chunk of that name whose average is above the threshold. |
| ChunkFilter.FilterAllMissing | preprocess_for_cellpose/4_filter_black_chunks.py:56-94 | Over the whole run, a missing atlas is reported for a chunk name exactly when atlas chunks are included and some image folder lists a kept chunk of that name whose partner is absent from the folder's atlas sibling. |
| ChunkFilter.FilterAllAtlases | preprocess_for_cellpose/4_filter_black_chunks.py:56-94 | Over the whole run, an atlas file is copied from a folder exactly when atlas chunks are included, the file exists there, and the folder is the atlas sibling of an image folder with a kept chunk whose partner has that name. |
| ChunkFilter.LegacyFilterFolder | 4_filter_black_chunks.py:41-67 | Without the existence check, the older script raises FileNotFoundError exactly when a kept chunk lacks its atlas partner; otherwise it copies what the newer script copies. |
| ChunkFilter.LegacyNeverWarns | 4_filter_black_chunks.py:64-67 | A run of the older script that completes never reports a missing atlas chunk. |
| ChunkFilter.LegacyFilterAll | 4_filter_black_chunks.py:26-67 | Over every listed folder, atlas folders included, the older script fails exactly when some kept chunk lacks its atlas partner. |
| ChunkFilter.AtlasStemPieces | preprocess_for_cellpose/4_filter_black_chunks.py:87 | Splitting an atlas stem built from a chunk name and number gives back that name and that number. |
| ChunkFilter.PartnerOfAtlasName | preprocess_for_cellpose/5b_select_representative_chunks.py:140-143 | The image partner of the atlas file named by the filter step is the chunk file `{chunk_name}_chunk_{chunk_number}.tif`. |
| ChunkFilter.TileStemPieces | preprocess_for_cellpose/4_filter_black_chunks.py:66-67 | For a tile stem written by the chunking step, the chunk name is the image stem and the chunk number is `{y}_{x}`. |
| ChunkFilter.TileAtlasName | preprocess_for_cellpose/4_filter_black_chunks.py:66-87 | The atlas partner the filter looks for, for tile `(y, x)` of an image, is `{stem}_atlas_slice_chunk_{y}_{x}.tif`. |
| ChunkFilter.TileAtlasRoundTrip | preprocess_for_cellpose/5b_select_representative_chunks.py:140-143 | Going from a tile to its atlas partner and back again with the pairing rule returns the tile's own file name. |
| Collage.MiddleIndex | lfsm_batch_eval.py:45-46 | An empty folder raises IndexError; otherwise the index is inside the listing and is the middle one, `floor(count / 2)`. |
| Collage.MaxDim | lfsm_batch_eval.py:63-66 | The running maximum bounds every image dimension and is either 0 or one of them. |
| Collage.Padding | lfsm_batch_eval.py:77-86 | The two borders plus the dimension add up to the maximum; for a dimension within it, both borders are non-negative and differ by at most one, the extra pixel after. |
| Collage.PaddedToMax | lfsm_batch_eval.py:63-86 | Every image padded to the running maximum gets non-negative borders and lands exactly on the maximum. |
| Collage.CeilSqrt | lfsm_batch_eval.py:92 | The column count is the least `c` with `c * c >= n`. |
| Collage.GridSize | lfsm_batch_eval.py:91-93 | No images divides by zero. Otherwise the columns are the ceiling square root and the rows are the fewest that hold all images. |
| Collage.GridAtMostSquare | lfsm_batch_eval.py:91-93 | The grid never has more rows than columns. |
| Collage.TileOffset | lfsm_batch_eval.py:110-111 | A tile's left edge plus the tile width stays within the collage width. |
| Collage.TileInside | lfsm_batch_eval.py:95-112 | Each of the images is pasted entirely inside the collage. |
| Collage.TilesDisjoint | lfsm_batch_eval.py:109-112 | Two different tiles share no pixel, so no paste overwrites another image. |
| Config.NormalizeUserPath | utils/io_helpers.py:28-30 | A path object passes through unchanged. A text path comes back non-empty and free of backslashes. Backslashes become forward slashes before `Path` parses the text. |
| Config.PathRoot | utils/io_helpers.py:30 | A path has a root exactly when it starts with a slash. Exactly two leading slashes keep the root `//`, and one or three or more give `/`. |
| Config.KeptSegments | utils/io_helpers.py:30 | The surviving segments are pieces of the path and are never empty or `.`. |
| Config.PosixPath | utils/io_helpers.py:30 | `Path` of any text is non-empty. |
| Config.PosixPathChars | utils/io_helpers.py:30 | Parsing adds no character other than `/` and `.`, so no backslash can appear. |
| Config.PosixPathOfNormal | utils/io_helpers.py:30 | A root followed by clean, slash-free segments joined by `/` parses back to itself. |
| Config.PosixPathIdempotent | utils/io_helpers.py:30 | Parsing the string form of a parsed path gives it back unchanged. |
| Config.PosixPathDoubledSlash | utils/io_helpers.py:30 | For any two kept, slash-free segments, `x//y` becomes `x/y`: a doubled slash goes. |
| Config.PosixPathTrailingSlash | utils/io_helpers.py:30 | `a/` becomes `a`: a trailing slash goes. |
| Config.PosixPathDotSegment | utils/io_helpers.py:30 | `./a/b` becomes `a/b`: `.` segments go. |
| Config.PosixPathEmpty | utils/io_helpers.py:30 | The empty string becomes `.`. |
| Config.ReplaceBackslashes | utils/io_helpers.py:30 | The replacement keeps the length, turns each backslash into a forward slash and keeps every other character. |
| Config.NormalizeIdempotent | utils/io_helpers.py:28-30 | Normalising an already normalised path, as a path or as text, changes nothing. |
| Config.NormalizeForwardOnly | utils/io_helpers.py:30 | For text without backslashes the replacement does nothing, so normalising it is `Path`'s parsing alone. |
| Config.RequireDir | utils/io_helpers.py:58-66 | The check passes exactly when the normalised path exists and is a directory, and then returns that path; otherwise it raises RuntimeError. |
| Config.RequireFile | utils/io_helpers.py:90-98 | The check passes exactly when the normalised path exists and is a regular file, and then returns that path; otherwise it raises RuntimeError. |
| Config.DirOrFile | utils/io_helpers.py:58-98 | No path passes both checks, and every existing path passes one of them. |
| Config.RequireSubpath | utils/io_helpers.py:127-134 | The check passes exactly when `parent/sub` exists, and returns that path, which begins with the parent; otherwise it raises RuntimeError. |
| Config.ConfigNamesDistinct | utils/io_helpers.py:179-183 | The test, local and template config paths are three different files. |
| Config.ConfigPath | utils/io_helpers.py:179-199 | In test mode only the test config is used, and it is required. Otherwise the local config is preferred to the template. The result always exists, and anything else raises FileNotFoundError. |
| Config.TestModeIgnoresOthers | utils/io_helpers.py:185-191 | In test mode, adding any other config files changes nothing. |
| Config.LocalShadowsTemplate | utils/io_helpers.py:192-193 | Once a local config exists, the template does not matter, and outside test mode the test config is never chosen. |
| Folders.AtlasSampleId | preprocess_for_cellpose/2a_get_selected_atlas_sections.py:70-83 | The id is token 5 of the folder's stem, or the configured token in the custom format. An index at or past the token count raises RuntimeError. |
| Folders.AtlasIdMatchesSampler | preprocess_for_cellpose/2a_get_selected_atlas_sections.py:70-83 | For a folder name without a dot, the atlas step finds the same sample id as the section sampler. |
| Folders.AtlasIdOfDottedFolder | preprocess_for_cellpose/2a_get_selected_atlas_sections.py:70-83 | When the id is the last token and the folder name carries a suffix, the atlas step drops the suffix from the id and the sampler keeps it, so the two ids differ. |
| Folders.SubsetImages | preprocess_for_cellpose/2a_get_selected_atlas_sections.py:91 | The images processed for a sample are exactly the listed `.tif` files whose name starts with the id, in sorted order. |
| Folders.FilterIdGlob | preprocess_for_cellpose/2a_get_selected_atlas_sections.py:91 | The glob keeps exactly the names that start with the id and end in `.tif`. |
| Folders.IdGlobSharesPrefix | preprocess_for_cellpose/2a_get_selected_atlas_sections.py:91 | An image of another sample whose id merely extends this one is selected too. |
| Folders.AtlasSliceFile | preprocess_for_cellpose/2a_get_selected_atlas_sections.py:114 | The atlas file name is the image name up to its first dot, which holds no dot, followed by `_atlas_slice.tif`. |
| Folders.AtlasSliceStem | preprocess_for_cellpose/2a_get_selected_atlas_sections.py:114 | The atlas file's stem is that name head followed by `_atlas_slice`, so the file is found again by the filter step's naming. |
| Folders.ZStepToken | 1_preprocess_data.py:65 | The z-step token is one `_`-separated token: it holds no underscore. |
| Folders.ZStepTokenOf | 1_preprocess_data.py:65 | A folder named `{pre}_{t}umstep{rest}` yields exactly `t`, when `umstep` does not occur earlier. |
| Folders.ZStepTokens | 1_preprocess_data.py:65 | One token per folder, in listing order. |
| Folders.DetectZStep | 1_preprocess_data.py:65-77 | Detection succeeds exactly when all folders carry the same token, and raises ValueError otherwise. A numeric token gives its value; any other token is kept as text. |
| Folders.DetectSharedStep | 1_preprocess_data.py:63-77 | Folders that all carry the token `t` before `umstep` yield `t`, as a number when it parses and as text otherwise. |
| Folders.ChannelFoldersDistinct | 1_preprocess_data.py:92-100 | Different channels map to different channel folders, in both naming formats. |
| Folders.OutputFolder | 1_preprocess_data.py:102-126 | An output folder exists exactly when MIPs are made or images normalised. Its name starts with the channel folder's name and an underscore, and is longer. |
| Folders.OutputFoldersDistinct | 1_preprocess_data.py:102-126 | The three output folders (normalised MIPs, plain MIPs, normalised copies) differ from each other and from the channel folder. |
| Folders.CollageInfo | lfsm_batch_eval.py:40 | The id, age and genotype are tokens 5, 7 and 8 of the folder name; fewer than nine tokens raise IndexError. |
| Folders.CollageIdMatchesSampler | lfsm_batch_eval.py:40 | The collage's sample id is the one the section sampler finds. |
| Folders.Caption | lfsm_batch_eval.py:71 | The caption starts with `ID: ` followed by the sample id. |
| Labels.NonzeroPixels | utils/utils.py:223-224 | The collected values are exactly the non-zero labels that occur in the slice. |
| Labels.Dedup | utils/utils.py:223 | Deduplicating a sorted list gives a strictly increasing list with the same values, starting with the same first value. |
| Labels.UniqueNonzero | utils/utils.py:223-224 | The labels kept are exactly the non-zero values present in the slice, each once, in increasing order. |
| Labels.Zeros | utils/utils.py:226 | The output starts as an all-zero image of the slice's shape. |
| Labels.Paint | utils/utils.py:229 | One masked assignment writes the new id where the slice holds the old id and leaves every other pixel as it was. |
| Labels.PaintAll | utils/utils.py:228-229 | The loop keeps the slice's shape and never paints a pixel whose label is not among the enumerated labels. |
| Labels.PaintAllPixel | utils/utils.py:228-229 | After the loop over distinct labels, a pixel holding the `k`-th label carries id `next + k`, and any other pixel is unchanged. |
| Labels.Relabel | utils/utils.py:216-231 | The relabelled slice is a new image of the input slice's shape; the input is left as it was. |
| Labels.RelabelPixel | utils/utils.py:221-231 | Each pixel's new value depends only on its old value: background stays 0, and a label becomes its 1-based rank among the labels present. |
| Labels.RelabelRange | utils/utils.py:219-229 | A pixel is background after relabelling exactly when it was before, and every label lands in `1..N` for `N` labels present. |
| Labels.RelabelOrder | utils/utils.py:223-229 | Relabelling preserves both the order and the equality of labels between any two pixels. |
| Labels.RelabelOnto | utils/utils.py:218-229 | Every id in `1..N` is used by some pixel, so the new labels have no gaps. |
| Labels.LabelCountIsDistinct | utils/utils.py:223-224 | `N` is the number of distinct non-zero values in the slice. |
| Labels.RelabelledLabels | utils/utils.py:217-219 | The labels of the relabelled slice are exactly `1..N`. |
| Labels.RelabelFixedPixel | utils/utils.py:216-231 | Relabelling again leaves every pixel of a relabelled slice as it is. |
| Labels.RelabelIdempotent | utils/utils.py:216-231 | Relabelling is idempotent: a relabelled slice is its own relabelling. |
| Mask.SliceIndex | preprocess_for_ants/2_2D_to_nii_mask.py:27-28 | The index is the number in the second `_` token of the stem. A stem without a second token raises IndexError, and a token that is not a number raises ValueError. |
| Mask.SliceFile | preprocess_for_ants/2_2D_to_nii_mask.py:38 | The file looked up for an index matches the segmentation glob `*_Simple Segmentation.png`. |
| Mask.SliceFileRoundTrip | preprocess_for_ants/2_2D_to_nii_mask.py:26-38 | Reading the index back from the file the script looks up gives the same index, for every integer, negative ones included. |
| Mask.Segmentations | preprocess_for_ants/2_2D_to_nii_mask.py:26 | Exactly the listed names matching `*_Simple Segmentation.png`, in listing order. |
| Mask.ReadIndices | preprocess_for_ants/2_2D_to_nii_mask.py:26-28 | Reading fails exactly when some segmentation file's stem has no second token or a non-numeric one, with that file's error. On success every segmentation file contributes its index, and every index read comes from a segmentation file in the listing. |
| Mask.ReadIndicesPerFile | preprocess_for_ants/2_2D_to_nii_mask.py:26-28 | One index per segmentation file, in listing order, so a repeated index is read, and later stacked, twice. |
| Mask.SortIndices | preprocess_for_ants/2_2D_to_nii_mask.py:31 | The sorted indices are a permutation of the read indices, in non-decreasing order. |
| Mask.PresentSlices | preprocess_for_ants/2_2D_to_nii_mask.py:37-52 | The slices stacked are exactly the indices whose file exists, and they stay in sorted order; a missing file is skipped. |
| Mask.Binarize | preprocess_for_ants/2_2D_to_nii_mask.py:48 | The binarised slice has the input's shape and holds only 0 and 1, with 1 exactly where the input holds 1. |
| Mask.BinarizeIdempotent | preprocess_for_ants/2_2D_to_nii_mask.py:48 | Binarising a binarised slice changes nothing. |
| Mask.StackShape | preprocess_for_ants/2_2D_to_nii_mask.py:55 | Stacking succeeds exactly when there is at least one slice and all shapes agree. The volume then has the slice count as its middle axis. Anything else raises ValueError. |
| Mask.MaskVolume | preprocess_for_ants/2_2D_to_nii_mask.py:22-55 | A bad segmentation name raises its error first. Otherwise the build succeeds exactly when at least one indexed slice file exists and all present slices share one shape, else ValueError. The volume is (height, number of present slices, width). It holds at least one slice and no more slices than there are files. |
| Mask.PresentSlicesAll | preprocess_for_ants/2_2D_to_nii_mask.py:37-52 | When every index's file exists, no slice is skipped. |
| Mask.MaskVolumeOnePerFile | preprocess_for_ants/2_2D_to_nii_mask.py:22-55 | For segmentation files named `slice_{i:03d}_Simple Segmentation.png`, all present and of one shape, the volume has exactly one slice per segmentation file. |
| Tiling.Origins | utils/utils.py:98-99 | `range(0, dim, c)`: a zero step raises ValueError, a negative step gives nothing, and a positive step gives the ceil(dim / c) multiples `k * c`. |
| Tiling.OriginSound | utils/utils.py:98-99 | Every tile origin lies inside the axis and is a multiple of the chunk size. |
| Tiling.OriginComplete | utils/utils.py:98-99 | Every multiple of the chunk size inside the axis is an origin. |
| Tiling.OriginsIncreasing | utils/utils.py:98-99 | The origins strictly increase. |
| Tiling.OriginsExactly | utils/utils.py:98-99 | The origins are exactly the multiples of the chunk size inside the axis, strictly increasing. |
| Tiling.Clip | utils/utils.py:100 | The slice `[o:o+c]` is clipped to the axis: it holds at most `c` positions, starts at `o` when `o` is inside, and holds exactly `c` when the tile fits. |
| Tiling.ClipHome | utils/utils.py:98-100 | Every position of the axis lies in the slice of the origin `floor(p / c) * c`. |
| Tiling.ClipOwner | utils/utils.py:98-100 | A position lies only in the slice of that one origin. |
| Tiling.AxisPartition | utils/utils.py:98-100 | The clipped slices partition the axis: each position lies in exactly one of them. |
| Tiling.Grid | utils/utils.py:98-100 | A zero chunk size raises ValueError, and a negative one yields no tiles. |
| Tiling.GridHome | utils/utils.py:98-100 | Every pixel of the image lies in its home tile, and that tile is one of the grid's. |
| Tiling.GridOwner | utils/utils.py:98-100 | The only grid tile holding a pixel is its home tile. |
| Tiling.GridPartition | utils/utils.py:98-100 | The tiles partition the image: each pixel lies in exactly one tile. |
| Tiling.GridShape | utils/utils.py:98-100 | The grid lists no tile twice, and every tile starts inside the image and is the clipped square at its origin. |
| Tiling.TileOriginOfName | utils/utils.py:101 | Reading the last three `_` tokens of a tile's file name gives back its origin. |
| Tiling.TileNameInjective | utils/utils.py:101 | Different origins of one image give different file names. |
| Tiling.NameOf | utils/utils.py:101 | The name of a tile encodes its row and column origin. |
| Tiling.ChunkImage | utils/utils.py:89-101 | A zero chunk size raises ValueError. Otherwise there is one chunk per grid tile, in row-major order, and each chunk's name encodes its tile's origin. |
| Tiling.ChunkNamesDistinct | utils/utils.py:89-101 | No two chunks of one image share a file name, so no chunk overwrites another. |
| Tiling.ChunkImageOfPath | utils/utils.py:92-101 | A zero chunk size raises ValueError. Otherwise there is one chunk per grid tile, each written as `{stem}_chunk_{i}_{j}.tif`, where `stem` is the file name without its last suffix. |
| Tiling.LegacyChunkImage | utils.py:14-26 | A zero chunk size raises ValueError. Otherwise there is one chunk per grid tile, each written as `{name}_chunk_{i}_{j}.tif`, where `name` is the file name up to its first dot. |
| Tiling.ChunkNamingAgrees | utils.py:14-26 | For a file name with a single dot, the older helper and the newer one write the same chunks under the same names. |
| Tiling.ChunkNamingDiffers | utils.py:17 | For `a.b.tif` the older helper names chunks after `a` and the newer one after `a.b`. |
| Tiling.ChunkZStack | utils/utils.py:103-113 | The z-stack chunks are the 2-D chunks of the plane shape, each spanning every plane, under the same names. |
| Tiling.ZStackPartition | utils/utils.py:103-113 | Each voxel of the stack lies in some block, and no two blocks share a pixel column. |
| Tiling.TruncDiv | utils/utils.py:128 | `int(t / s)` truncates toward zero: its magnitude is the floor of the magnitudes' quotient, and its sign is that of the true quotient. |
| Tiling.SlicesPerMip | utils/utils.py:128-130 | A zero step divides by zero. Otherwise the count is accepted exactly when the thickness is at least one step, in the step's sign, and is then the truncated quotient, at least 1; a thinner slab raises ValueError. |
| Tiling.MipGroups | utils/utils.py:142-147 | One group per start in `range(0, n, k)`; every group is non-empty and ends inside the stack. |
| Tiling.MipGroupsPartition | utils/utils.py:142-147 | The groups are non-empty, hold at most `k` slices each, follow one another without gap or overlap, and cover exactly the `n` files. |
| Tiling.MipGroupAt | utils/utils.py:142-144 | Group `g` starts at file `g * k` and is clipped to the listing. |
| Tiling.PlaneToken | utils/utils.py:165-166 | The plane token exists exactly when Python indexing of the stem's tokens succeeds, otherwise IndexError is raised. The token holds no underscore. |
| Tiling.MipName | utils/utils.py:165-169 | A group's MIP is named from the plane tokens of its first and last files, and its stem splits into exactly `MIP`, the first token and the last. |
| Tiling.MipNameTokens | utils/utils.py:169 | The name `MIP_{a}_{b}.tif` reads back as the tokens `MIP`, `a`, `b`. |
| Tiling.MipNames | utils/utils.py:142-169 | Naming succeeds exactly when every group's name does; there is then one name per group, in order. |
| Tiling.CreateMips | utils/utils.py:127-172 | A bad slab thickness fails before any file is read, with the same error. Otherwise the run raises IndexError exactly when the first or last stem of some slab lacks the plane token; plane shapes are not inputs. It otherwise writes one MIP per slab, named after that slab's first and last planes. |
| Tiling.CreateMipsNameAt | utils/utils.py:142-169 | MIP `g` is `MIP_{a}_{b}.tif`, where `a` is the plane token of stem `g*k` and `b` that of stem `min((g+1)*k, n) - 1`. |
| Tiling.ZStackName | utils/utils.py:233-244 | `np.stack` raises ValueError exactly when the file list is empty or two of its arrays differ in shape. Any other list is named. |
| Tiling.ZStackNameParts | utils/utils.py:244 | The z-stack name gives back its prefix and its last file's stem. |
| ZStack.FilterTiff | archived_and_test/make_zstack.py:14 | The files kept are exactly those whose lower-cased name ends in `.tif` or `.tiff`. |
| ZStack.TiffFiles | archived_and_test/make_zstack.py:14 | The TIFF files are exactly the listed ones with a TIFF suffix, sorted by name. |
| ZStack.StackWindow | archived_and_test/make_zstack.py:14-18 | The window is the sorted TIFF files from position 266 up to 280, clipped to the listing. It is empty, and raises ValueError, exactly when there are at most 266 TIFF files; otherwise it holds 1 to 14 of them. |
| ZStack.CropCount | archived_and_test/make_zstack.py:57-58 | A positive crop size fits `floor(dim / crop)` whole crops along the axis; a negative one gives no crops. |
| ZStack.CropGrid | archived_and_test/make_zstack.py:51-70 | A crop larger than the image fails the assertion, and a zero crop size divides by zero. Otherwise there is one crop per whole cell of the grid, in row-major order. |
| ZStack.CropGridAt | archived_and_test/make_zstack.py:62-70 | Crop `k` is cell `(k // nx, k % nx)` of the grid. |
| ZStack.CropsInBounds | archived_and_test/make_zstack.py:55-68 | Every crop lies inside the image and has exactly the requested height and width. |
| ZStack.CropsDisjoint | archived_and_test/make_zstack.py:62-68 | No two crops share a pixel. |
| ZStack.CropsCover | archived_and_test/make_zstack.py:57-68 | A pixel lies in some crop exactly when it lies in the top-left region of whole crops; the remainder strips are dropped. |
| ZStack.CropNameInjective | archived_and_test/make_zstack.py:70 | Different grid cells get different file names. |
| ZStack.CropNamesDistinct | archived_and_test/make_zstack.py:62-73 | No two crops of one run share a file name, so none overwrites another. |
| Decimal.NatToString | utils/utils.py:101 | A formatted number is a non-empty run of digits with no leading zero. |
| Decimal.NatToStringInjective | utils/utils.py:101 | Different numbers format differently. |
| Decimal.ParseIntToString | preprocess_for_cellpose/6_recreate_chunk_selection.py:64-65 | `int(str(i))` gives `i` back, for every integer. |
| Decimal.PadInt | preprocess_for_ants/2_2D_to_nii_mask.py:38 | `{i:03d}` writes digits and at most a minus sign, at least as wide as the width. |
| Decimal.ParsePadInt | preprocess_for_ants/2_2D_to_nii_mask.py:28-38 | Parsing a zero-padded number gives the number back, negative numbers included. |
| Strings.FirstPiece | preprocess_for_cellpose/4_filter_black_chunks.py:66 | `s.split(pat)[0]` is the prefix of `s` before the first occurrence of the separator, or all of `s` when it does not occur. |
| Strings.LastPiece | preprocess_for_cellpose/4_filter_black_chunks.py:67 | `s.split(pat)[-1]` is the suffix of `s` after the last occurrence of the separator, which holds no occurrence, or all of `s` when it does not occur. |
| Strings.FirstPieceOfJoin | preprocess_for_cellpose/5b_select_representative_chunks.py:140 | Splitting `a + pat + b` keeps `a` as the first piece when `a` does not contain the separator and the separator cannot overlap itself. |
| Strings.LastPieceOfJoin | preprocess_for_cellpose/5b_select_representative_chunks.py:141 | Splitting `a + pat + b` keeps `b` as the last piece when `b` does not contain the separator and the separator cannot overlap itself. |
| Strings.SplitPieces | preprocess_for_cellpose/6_recreate_chunk_selection.py:41 | No piece of a split contains the separator, and joining the pieces gives the text back. |
| Strings.SplitJoin | preprocess_for_cellpose/6_recreate_chunk_selection.py:68 | Splitting a join of separator-free pieces gives the pieces back. |
| Strings.Stem | preprocess_for_cellpose/6_recreate_chunk_selection.py:41 | `Path.stem` is the name itself, or the part before its last dot when that dot is neither first nor last. |
| Strings.StemOfSuffixed | preprocess_for_cellpose/6_recreate_chunk_selection.py:279 | The stem of `base.ext` is `base`, for a non-empty base and a dot-free extension. |
| Strings.LowerAscii | archived_and_test/make_zstack.py:14 | Lower-casing keeps the length, shifts each capital letter to its small letter and keeps every other character. |

## Left out

- File and image I/O is left out: reading and writing TIFF, PNG and NIfTI files, copying, `mkdir` and `Path.resolve`. Directory listings and existence checks are inputs, and a run's output is the list of names it would write.
- `glob` order is left out. Where a script sorts, the model sorts. Where it does not, the listing order is an input.
- Hidden files and filesystem case rules are left out.
- The internals of SHA-256, numpy's `default_rng`, Python's `random` and the per-process randomised `hash()` are left out. Each enters as an opaque value carrying its contract: a digest's bytes, an offset in `[0, step)`, a permutation of `0..n-1`, a choice from the available set, or a hash value.
- Pixel arithmetic on floats is left out: the average pixel value, percentile clipping and normalisation, conversion to 8 bits, the mask product, morphology and smoothing, and the MIP maximum itself. The average enters as a `real`.
- The atlas-plate index computed in `extract_atlas_plate` is left out. It is float division plus `np.round`, followed by rotation and resizing.
- Pickers.SpacedPicks: `math.floor(i * (total / num))` is modelled with exact integers as `(i * total) div num`. The two really differ on some inputs. For total 30, num 22 and i 11, `11 * (30 / 22)` rounds to 14.999999999999998 in double precision, so the script picks file 14 where the model picks file 15.
- Float effects in `int(thickness / step)` and `ceil(sqrt(n))` are modelled as exact integer operations: truncating division, and the least `c` with `c * c >= n`.
- Python's `int()` is modelled on an optional sign followed by ASCII digits. Surrounding whitespace, underscores and non-ASCII digits are not modelled.
- Lower-casing covers ASCII letters only.
- Parsing TOML is left out. Only the choice of config file is modelled.
- Minimum and maximum values in folder names are passed in as the text the f-string would print.
- Messages, previews and warnings are left out. A warning is modelled only where it is the script's whole reaction, as in `MissingAtlas`.
- Thin driver scripts that only call the modelled helpers are left out: `preprocess_for_cellpose/1_preprocess_data.py`, `1_create_MIPs.py`, both `3_chunk_data.py` files, `2_get_selected_atlas_sections.py`, and the `preprocess_for_ants` scripts other than the mask builder. The three `determine_norm_params` scripts are left out as well.
- `mkdir(exist_ok=False)` raising FileExistsError on a second run is left out.
- Files written before an exception are left out. A run that raises is modelled as `Err` alone, although the script may already have copied or written some files.
- ChunkFilter.LegacyFilterFolder: returns only FileNotFoundError when an atlas partner is missing. The script has by then copied that chunk's image and every earlier kept pair.
- Coverage.PairUp: returns only RuntimeError at the first missing image. The script has by then copied every earlier pair.
- Recreate.Run: returns only RuntimeError on a misfit in strict mode or on an existing output. The chunks and annotations before it have already been written.
- Config.RequireSubpath: `parent / sub` is modelled as `parent + "/" + sub`. How `pathlib` joins onto `.` or `/`, or onto an absolute `sub`, is not modelled.
- Config.PosixPath: follows POSIX `pathlib`. Windows drive letters and UNC roots are not modelled.
- The `int32` dtype of the relabelled image is not modelled. Ids are unbounded integers.
- That inputs are not mutated holds by construction: every model is a function of values.
- Labels.Relabel: its own contract states only the shape. The meaning is stated by RelabelPixel, RelabelRange, RelabelOrder, RelabelOnto and RelabelledLabels.
- Mask.MaskVolume: states the volume's shape, not its voxel values. Each slice's values are stated by Binarize.
- Tiling.CreateMips: states the names and the naming errors, not the pixels. Which files each MIP covers is stated by MipGroupsPartition. The projection itself is pixel arithmetic. The existing-folder error of `mkdir(exist_ok=False)` is filesystem I/O.
- Tiling.CreateMips: plane shapes are not inputs, so the ValueError that `np.stack` raises for planes of different shapes in one slab (utils/utils.py:152) is not modelled. It would come before that slab's IndexError.
- Tiling.CreateMips: the RuntimeError for an output path of 260 or more characters, raised before each MIP is written, is not modelled. It fires only on Windows, and only after resolving the path against the filesystem.
- Folders.OutputFolder: states the prefix and the distinctness of the three folder names, not every character of `_MIP{t}um_min{a}_max{b}`.
- Tiling.MipNames: reports IndexError without saying which group failed.
- Proportional.ProportionalFill: runs with a `fuel` bound, since the loop as written need not end. `None` means the loop had not finished after `fuel` passes. SmallPoolNeverFinishes and UniformPoolNeverFinishes show it never finishes on those inputs.
- Recreate.RecreateSelection: runs the jobs in listing order. The script first groups them by source image. That changes the order of the written names and which error is reported first, but not whether the run fails or which chunks are written.
- Recreate.ParseChunk: y and x may parse as negative numbers, as `int()` allows. Such a chunk passes the bounds comparison just as it does in the script. What Python's negative slicing would then cut is not modelled.
- ZStack.CropCount: a negative crop size gives no crops, as `range` of a non-positive count does. A zero crop size divides by zero.
- A pool smaller than `sample_size + 2` is not returned whole. It is emitted only when it has exactly `sample_size + 1` items, and skipped otherwise (`Sections.SelectSections`).
- The two tiling helpers name chunks differently: `utils.py` uses the name up to the first dot and `utils/utils.py` uses `Path.stem`. `Tiling.ChunkNamingAgrees` and `Tiling.ChunkNamingDiffers` state where they agree and where they differ.
- The older filter script does not exclude `_atlas_slice` folders from its input listing, and the model keeps that behaviour (`ChunkFilter.LegacyFilterAll`).
- The atlas step reads the sample id from the folder's stem, not its full name (`Folders.AtlasIdOfDottedFolder`).

## Findings

| source | as written | input that shows it | evidently intended | confidence | as-written member | corrected member |
|---|---|---|---|---|---|---|
| 1_select_representative_sections.py:1-61 | `os.path.basename` is called but `os` is never imported | any folder where at least one image's average exceeds the threshold | `import os` at the top, so the selected files are copied | not executed | ThresholdPicker.FirstGenRunAsWritten | ThresholdPicker.FirstGenRun |
| 5b_select_representative_chunks.py:1-67 | the fill calls `random.choice` but `random` is never imported | any budget larger than the number of greedy picks, such as two chunks with the same labels and a budget of 2 | `import random`, so the fill adds random unselected chunks | not executed | LegacyCoverage.LegacyFillAsWritten | LegacyCoverage.LegacyFill |
| 5_select_representative_chunks.py:46-53 | the fill takes the argmax over all chunks, selected ones included, and adding a selected chunk changes nothing | a pool of fewer than 100 chunks, or any pool whose chunks all hold the same labels: the loop never ends | take the argmax over unselected chunks only, and stop when none is left | not executed | Proportional.ProportionalFill | Proportional.IntendedFill |

=== FILE: arith.dfy ===
/** Facts about integer multiplication and Euclidean division that the
    index arithmetic of the scripts needs. For a positive divisor, Python's
    `//` and `%` agree with Dafny's `/` and `%`. */
module Arith {

  lemma MulMonotone(a: int, b: int, c: int)
    requires a <= b && c >= 0
    ensures a * c <= b * c
  {
  }

  /** Division is determined by a quotient and a remainder in range. */
  lemma DivUnique(x: int, d: int, q: int, r: int)
    requires d > 0 && x == d * q + r && 0 <= r < d
    ensures x / d == q
  {
    var q' := x / d;
    var r' := x % d;
    assert x == d * q' + r';
    if q' < q {
      MulMonotone(q' + 1, q, d);
      assert false;
    } else if q < q' {
      MulMonotone(q + 1, q', d);
      assert false;
    }
  }

  lemma DivAddOne(x: int, d: int)
    requires d > 0
    ensures (x + d) / d == x / d + 1
  {
    DivUnique(x + d, d, x / d + 1, x % d);
  }

  lemma DivMonotone(x: int, y: int, d: int)
    requires d > 0 && x <= y
    ensures x / d <= y / d
  {
    if y / d < x / d {
      MulMonotone(y / d + 1, x / d, d);
      assert false;
    }
  }

  /** `x < d * t` bounds the quotient by `t`. */
  lemma DivBelow(x: int, d: int, t: int)
    requires d > 0 && x < d * t
    ensures x / d < t
  {
    if x / d >= t {
      MulMonotone(t, x / d, d);
      assert false;
    }
  }

  /** `ceil(n / k)` grows by one from `n - 1` to `n` exactly when `n - 1`
      is a multiple of `k`. */
  lemma CeilStep(n: nat, k: nat)
    requires n >= 1 && k >= 1
    ensures (n + k - 1) / k == (n - 1 + k - 1) / k + (if (n - 1) % k == 0 then 1 else 0)
  {
    var q := (n - 1) / k;
    var r := (n - 1) % k;
    assert n - 1 == k * q + r;
    if r == 0 {
      DivUnique(n - 1 + k - 1, k, q, k - 1);
      DivUnique(n + k - 1, k, q + 1, 0);
    } else {
      DivUnique(n - 1 + k - 1, k, q + 1, r - 1);
      DivUnique(n + k - 1, k, q + 1, r);
    }
  }

  /** `k * c < dim` exactly for the first `ceil(dim / c)` values of `k`:
      `range(0, dim, c)` has `ceil(dim / c)` elements. */
  lemma CeilBound(dim: nat, c: nat, k: nat)
    requires c >= 1
    ensures k < (dim + c - 1) / c <==> k * c < dim
  {
    var q := (dim + c - 1) / c;
    if k * c < dim {
      assert (k + 1) * c <= dim + c - 1;
      DivMonotone((k + 1) * c, dim + c - 1, c);
      DivUnique((k + 1) * c, c, k + 1, 0);
    }
    if k < q {
      MulMonotone(k + 1, q, c);
      assert c * q + (dim + c - 1) % c == dim + c - 1;
    }
  }

  /** The quotient brackets the dividend, and it is at least 1 exactly when
      the dividend is at least the divisor. */
  lemma QuotientBounds(a: nat, b: nat)
    requires b > 0
    ensures (a / b) * b <= a < (a / b + 1) * b
    ensures a / b >= 1 <==> a >= b
  {
    assert a == b * (a / b) + a % b;
    if a >= b {
      DivMonotone(b, a, b);
      DivUnique(b, b, 1, 0);
    } else {
      DivBelow(a, b, 1);
    }
  }

  /** Numbers with the same quotient and remainder are equal. */
  lemma SameQuotient(a: nat, b: nat, d: nat)
    requires d > 0 && a / d == b / d && a != b
    ensures a % d != b % d
  {
    assert a == d * (a / d) + a % d;
    assert b == d * (b / d) + b % d;
  }
}

=== FILE: chunk_filter.dfy ===
/** The black-chunk filter (`preprocess_for_cellpose/4_filter_black_chunks.py`
    and the older `4_filter_black_chunks.py`): an image chunk is kept when
    its average value is above a threshold, and its atlas partner is looked
    up under a name derived from the chunk's stem. The selectors in `Coverage`
    invert that name. Average values arrive as numbers; pixels are not
    modelled. */
module ChunkFilter {
  import opened Wrappers
  import opened Strings
  import opened Sorting
  import opened Decimal
  import opened Tiling
  import opened Coverage

  /** `stem.split("_chunk")[0]`. */
  function ChunkName(stem: string): string {
    FirstPiece(stem, "_chunk")
  }

  /** `stem.split("chunk_")[-1]`. */
  function ChunkNumber(stem: string): string {
    LastPiece(stem, "chunk_")
  }

  /** The atlas folder next to image folder `dir`. */
  function AtlasFolder(dir: string): string {
    dir + "_atlas_slice"
  }

  /** `f"{chunk_name}_atlas_slice_chunk_{chunk_number}.tif"`. */
  function AtlasName(stem: string): string {
    ChunkName(stem) + "_atlas_slice_chunk_" + ChunkNumber(stem) + ".tif"
  }

  /** A chunk is kept when its average is strictly above the threshold. */
  predicate Keep(average: real, threshold: real) {
    average > threshold
  }

  /** The input folders: every entry not ending in `_atlas_slice`. */
  function ImageFolders(names: seq<string>): (r: seq<string>)
    ensures forall x :: x in r <==> x in names && !EndsWith(x, "_atlas_slice")
    ensures multiset(r) <= multiset(names)
  {
    if |names| == 0 then []
    else
      var rest := ImageFolders(names[1..]);
      assert names == [names[0]] + names[1..];
      if EndsWith(names[0], "_atlas_slice") then rest else [names[0]] + rest
  }

  /** `sorted(...)` of the image folders. */
  function SortedImageFolders(names: seq<string>): (r: seq<string>)
    ensures SortedBy(r, LexLe)
    ensures multiset(r) == multiset(ImageFolders(names))
    ensures forall x :: x in r <==> x in names && !EndsWith(x, "_atlas_slice")
  {
    LexTotal();
    var r := InsertionSort(ImageFolders(names), LexLe);
    assert forall x :: x in r <==> x in multiset(r);
    r
  }

  function Concat<T>(parts: seq<seq<T>>): seq<T> {
    if |parts| == 0 then [] else parts[0] + Concat(parts[1..])
  }

  /** What handling one chunk file does. */
  datatype Action =
    | CopyImage(file: string)
    | CopyAtlas(folder: string, file: string)
    | MissingAtlas(file: string)

  /** A chunk file of a folder: its name and its average value. */
  datatype ChunkFile = ChunkFile(name: string, average: real)

  /** The atlas file a chunk file is paired with. */
  function AtlasFileOf(name: string): string {
    AtlasName(Stem(name))
  }

  /** One pass of the inner loop in the newer script: a kept chunk is
      copied, then its atlas partner is copied when it exists and reported
      missing otherwise. `atlases` holds the (folder, file) pairs that
      exist, and `partner` is the naming rule (`AtlasFileOf`). */
  function ChunkActions(dir: string, f: ChunkFile, threshold: real, withAtlas: bool,
                        atlases: set<(string, string)>, partner: string -> string): seq<Action>
  {
    if !Keep(f.average, threshold) then []
    else if !withAtlas then [CopyImage(f.name)]
    else if (AtlasFolder(dir), partner(f.name)) in atlases then
      [CopyImage(f.name), CopyAtlas(AtlasFolder(dir), partner(f.name))]
    else [CopyImage(f.name), MissingAtlas(f.name)]
  }

  /** A kept chunk whose atlas partner is missing. */
  predicate LacksAtlas(dir: string, f: ChunkFile, threshold: real, atlases: set<(string, string)>,
                       partner: string -> string) {
    Keep(f.average, threshold) && (AtlasFolder(dir), partner(f.name)) !in atlases
  }

  /** How many of `files` are kept. */
  function KeptCount(files: seq<ChunkFile>, threshold: real): (n: nat)
    ensures n <= |files|
  {
    if |files| == 0 then 0
    else (if Keep(files[0].average, threshold) then 1 else 0) + KeptCount(files[1..], threshold)
  }

  /** The inner loop over the chunk files of folder `dir`: one image copy
      per kept chunk, each followed by one atlas action when atlases are
      included. */
  function FilterFolder(dir: string, files: seq<ChunkFile>, threshold: real, withAtlas: bool,
                        atlases: set<(string, string)>, partner: string -> string): (r: seq<Action>)
    ensures |r| == (if withAtlas then 2 else 1) * KeptCount(files, threshold)
    ensures |r| > 0 ==> r[0].CopyImage?
  {
    if |files| == 0 then []
    else
      ChunkActions(dir, files[0], threshold, withAtlas, atlases, partner) +
      FilterFolder(dir, files[1..], threshold, withAtlas, atlases, partner)
  }

  /** Without atlases only images are copied, and an atlas copy or a
      missing-atlas report always comes right after the image copy of the
      chunk it belongs to; an atlas copy is that chunk's partner in the
      folder's atlas sibling. */
  predicate ActionsPaired(r: seq<Action>, dir: string, withAtlas: bool, partner: string -> string) {
    && (!withAtlas ==> forall j :: 0 <= j < |r| ==> r[j].CopyImage?)
    && (forall j :: 0 <= j < |r| && r[j].MissingAtlas? ==> j > 0 && r[j - 1] == CopyImage(r[j].file))
    && (forall j :: 0 <= j < |r| && r[j].CopyAtlas? ==>
          j > 0 && r[j - 1].CopyImage? && r[j] == CopyAtlas(AtlasFolder(dir), partner(r[j - 1].file)))
  }

  /** Every pass of the inner loop keeps each atlas action next to the
      image copy of its chunk. */
  lemma {:induction false} FilterFolderPairs(dir: string, files: seq<ChunkFile>, threshold: real, withAtlas: bool,
                                             atlases: set<(string, string)>, partner: string -> string)
    ensures ActionsPaired(FilterFolder(dir, files, threshold, withAtlas, atlases, partner), dir, withAtlas, partner)
  {
    if |files| > 0 {
      FilterFolderPairs(dir, files[1..], threshold, withAtlas, atlases, partner);
      var head := ChunkActions(dir, files[0], threshold, withAtlas, atlases, partner);
      var rest := FilterFolder(dir, files[1..], threshold, withAtlas, atlases, partner);
      var r := head + rest;
      assert r == FilterFolder(dir, files, threshold, withAtlas, atlases, partner);
      forall j | 0 <= j < |r|
        ensures !withAtlas ==> r[j].CopyImage?
      {
        if j >= |head| {
          assert r[j] == rest[j - |head|];
        } else {
          assert r[j] == head[j];
        }
      }
      forall j | 0 <= j < |r| && !r[j].CopyImage?
        ensures j > 0 && r[j - 1].CopyImage?
        ensures r[j].MissingAtlas? ==> r[j - 1] == CopyImage(r[j].file)
        ensures r[j].CopyAtlas? ==> r[j] == CopyAtlas(AtlasFolder(dir), partner(r[j - 1].file))
      {
        if j >= |head| {
          var i := j - |head|;
          assert r[j] == rest[i];
          assert r[j - 1] == rest[i - 1];
        } else {
          assert r[j] == head[j] && r[0] == head[0];
        }
      }
    }
  }

  /** Exactly the kept chunks are copied. */
  lemma {:induction false} FilterFolderImages(dir: string, files: seq<ChunkFile>, threshold: real, withAtlas: bool,
                                              atlases: set<(string, string)>, partner: string -> string, n: string)
    ensures CopyImage(n) in FilterFolder(dir, files, threshold, withAtlas, atlases, partner) <==>
      exists k :: 0 <= k < |files| && files[k].name == n && Keep(files[k].average, threshold)
  {
    if |files| > 0 {
      FilterFolderImages(dir, files[1..], threshold, withAtlas, atlases, partner, n);
      if exists k :: 0 <= k < |files| && files[k].name == n && Keep(files[k].average, threshold) {
        var k :| 0 <= k < |files| && files[k].name == n && Keep(files[k].average, threshold);
        if k > 0 {
          assert files[1..][k - 1] == files[k];
        }
      }
      if exists k :: 0 <= k < |files| - 1 && files[1..][k].name == n && Keep(files[1..][k].average, threshold) {
        var k :| 0 <= k < |files| - 1 && files[1..][k].name == n && Keep(files[1..][k].average, threshold);
        assert files[k + 1] == files[1..][k];
      }
    }
  }

  /** A missing partner is reported exactly for the kept chunks that lack
      one, and only when atlases are included. */
  lemma {:induction false} FilterFolderMissing(dir: string, files: seq<ChunkFile>, threshold: real, withAtlas: bool,
                                               atlases: set<(string, string)>, partner: string -> string, n: string)
    ensures MissingAtlas(n) in FilterFolder(dir, files, threshold, withAtlas, atlases, partner) <==>
      withAtlas && exists k :: 0 <= k < |files| && files[k].name == n && LacksAtlas(dir, files[k], threshold, atlases, partner)
  {
    if |files| > 0 {
      FilterFolderMissing(dir, files[1..], threshold, withAtlas, atlases, partner, n);
      if exists k :: 0 <= k < |files| && files[k].name == n && LacksAtlas(dir, files[k], threshold, atlases, partner) {
        var k :| 0 <= k < |files| && files[k].name == n && LacksAtlas(dir, files[k], threshold, atlases, partner);
        if k > 0 {
          assert files[1..][k - 1] == files[k];
        }
      }
      if exists k :: 0 <= k < |files| - 1 && files[1..][k].name == n &&
          LacksAtlas(dir, files[1..][k], threshold, atlases, partner) {
        var k :| 0 <= k < |files| - 1 && files[1..][k].name == n && LacksAtlas(dir, files[1..][k], threshold, atlases, partner);
        assert files[k + 1] == files[1..][k];
      }
    }
  }

  /** Atlas partners are copied only from the sibling atlas folder, only
      under the partner's name, and only when they exist. */
  lemma {:induction false} FilterFolderAtlases(dir: string, files: seq<ChunkFile>, threshold: real, withAtlas: bool,
                                               atlases: set<(string, string)>, partner: string -> string,
                                               d: string, a: string)
    requires CopyAtlas(d, a) in FilterFolder(dir, files, threshold, withAtlas, atlases, partner)
    ensures withAtlas && d == AtlasFolder(dir) && (d, a) in atlases
    ensures exists k :: 0 <= k < |files| && Keep(files[k].average, threshold) && a == partner(files[k].name)
  {
    if CopyAtlas(d, a) in ChunkActions(dir, files[0], threshold, withAtlas, atlases, partner) {
      assert Keep(files[0].average, threshold) && a == partner(files[0].name);
    } else {
      FilterFolderAtlases(dir, files[1..], threshold, withAtlas, atlases, partner, d, a);
      var k :| 0 <= k < |files| - 1 && Keep(files[1..][k].average, threshold) && a == partner(files[1..][k].name);
      assert files[k + 1] == files[1..][k];
    }
  }

  /** An atlas chunk is copied exactly when atlases are included, it exists
      in the sibling atlas folder, and it is the partner of a kept chunk. */
  lemma {:induction false} FilterFolderAtlasCopies(dir: string, files: seq<ChunkFile>, threshold: real, withAtlas: bool,
                                                   atlases: set<(string, string)>, partner: string -> string,
                                                   d: string, a: string)
    ensures CopyAtlas(d, a) in FilterFolder(dir, files, threshold, withAtlas, atlases, partner) <==>
      (&& withAtlas && d == AtlasFolder(dir) && (d, a) in atlases
       && exists k :: 0 <= k < |files| && Keep(files[k].average, threshold) && a == partner(files[k].name))
  {
    if CopyAtlas(d, a) in FilterFolder(dir, files, threshold, withAtlas, atlases, partner) {
      FilterFolderAtlases(dir, files, threshold, withAtlas, atlases, partner, d, a);
    }
    if |files| > 0 {
      FilterFolderAtlasCopies(dir, files[1..], threshold, withAtlas, atlases, partner, d, a);
      if exists k :: 0 <= k < |files| && Keep(files[k].average, threshold) && a == partner(files[k].name) {
        var k :| 0 <= k < |files| && Keep(files[k].average, threshold) && a == partner(files[k].name);
        if k > 0 {
          assert files[1..][k - 1] == files[k];
        }
      }
    }
  }

  /** The older inner loop: the atlas partner of every kept chunk is copied
      with no existence check, so a missing one raises FileNotFoundError. */
  function LegacyFilterFolder(dir: string, files: seq<ChunkFile>, threshold: real, withAtlas: bool,
                              atlases: set<(string, string)>, partner: string -> string): (r: Result<seq<Action>>)
    ensures r.Err? <==> withAtlas && exists k :: 0 <= k < |files| && LacksAtlas(dir, files[k], threshold, atlases, partner)
    ensures r.Err? ==> r.error == FileNotFoundError
    ensures r.Ok? ==> r.value == FilterFolder(dir, files, threshold, withAtlas, atlases, partner)
  {
    if |files| == 0 then Ok([])
    else if withAtlas && LacksAtlas(dir, files[0], threshold, atlases, partner) then Err(FileNotFoundError)
    else
      var rest := LegacyFilterFolder(dir, files[1..], threshold, withAtlas, atlases, partner);
      assert forall k :: 0 < k < |files| ==> files[k] == files[1..][k - 1];
      match rest
      case Err(e) => Err(e)
      case Ok(actions) => Ok(ChunkActions(dir, files[0], threshold, withAtlas, atlases, partner) + actions)
  }

  /** Whenever the older script runs to the end it has copied exactly what
      the newer one does, and no partner was missing. */
  lemma LegacyNeverWarns(dir: string, files: seq<ChunkFile>, threshold: real, withAtlas: bool,
                         atlases: set<(string, string)>, partner: string -> string)
    requires LegacyFilterFolder(dir, files, threshold, withAtlas, atlases, partner).Ok?
    ensures forall n :: MissingAtlas(n) !in LegacyFilterFolder(dir, files, threshold, withAtlas, atlases, partner).value
  {
    forall n
      ensures MissingAtlas(n) !in FilterFolder(dir, files, threshold, withAtlas, atlases, partner)
    {
      FilterFolderMissing(dir, files, threshold, withAtlas, atlases, partner, n);
    }
  }

  /** The folder parts `FilterAll` concatenates. */
  function FolderParts(dirs: seq<string>, listing: string -> seq<ChunkFile>, threshold: real, withAtlas: bool,
                       atlases: set<(string, string)>): (r: seq<seq<Action>>)
    ensures |r| == |dirs|
  {
    seq(|dirs|, i requires 0 <= i < |dirs| =>
      FilterFolder(dirs[i], listing(dirs[i]), threshold, withAtlas, atlases, AtlasFileOf))
  }

  /** The newer script over its sorted image folders. `listing(d)` is the
      chunk files of folder `d`, in the order `glob` gives them. */
  function FilterAll(folders: seq<string>, listing: string -> seq<ChunkFile>, threshold: real, withAtlas: bool,
                     atlases: set<(string, string)>): seq<Action>
  {
    var dirs := SortedImageFolders(folders);
    Concat(FolderParts(dirs, listing, threshold, withAtlas, atlases))
  }

  /** An action is in the concatenation exactly when it is in one part. */
  lemma {:induction false} InConcat<T>(parts: seq<seq<T>>, x: T)
    ensures x in Concat(parts) <==> exists i :: 0 <= i < |parts| && x in parts[i]
  {
    if |parts| > 0 {
      InConcat(parts[1..], x);
      if exists i :: 0 <= i < |parts| && x in parts[i] {
        var i :| 0 <= i < |parts| && x in parts[i];
        if i > 0 {
          assert parts[1..][i - 1] == parts[i];
        }
      }
      if exists i :: 0 <= i < |parts| - 1 && x in parts[1..][i] {
        var i :| 0 <= i < |parts| - 1 && x in parts[1..][i];
        assert parts[i + 1] == parts[1..][i];
      }
    }
  }

  /** Listing `files` holds a kept chunk named `n`. */
  predicate HasKept(files: seq<ChunkFile>, n: string, threshold: real) {
    exists k :: 0 <= k < |files| && files[k].name == n && Keep(files[k].average, threshold)
  }

  /** Listing `files` of folder `dir` holds a kept chunk named `n` whose
      atlas partner is missing. */
  predicate HasLacking(dir: string, files: seq<ChunkFile>, n: string, threshold: real, atlases: set<(string, string)>) {
    exists k :: 0 <= k < |files| && files[k].name == n && LacksAtlas(dir, files[k], threshold, atlases, AtlasFileOf)
  }

  /** Listing `files` holds a kept chunk whose atlas partner is named `a`. */
  predicate HasPartner(files: seq<ChunkFile>, a: string, threshold: real) {
    exists k :: 0 <= k < |files| && Keep(files[k].average, threshold) && a == AtlasFileOf(files[k].name)
  }

  /** An action is taken over the whole run exactly when the pass over
      some image folder takes it. */
  lemma InFilterAll(folders: seq<string>, listing: string -> seq<ChunkFile>, threshold: real, withAtlas: bool,
                    atlases: set<(string, string)>, x: Action)
    ensures x in FilterAll(folders, listing, threshold, withAtlas, atlases) <==>
      (exists d :: d in folders && !EndsWith(d, "_atlas_slice") &&
         x in FilterFolder(d, listing(d), threshold, withAtlas, atlases, AtlasFileOf))
  {
    var dirs := SortedImageFolders(folders);
    var parts := FolderParts(dirs, listing, threshold, withAtlas, atlases);
    InConcat(parts, x);
    if exists d :: d in folders && !EndsWith(d, "_atlas_slice") &&
         x in FilterFolder(d, listing(d), threshold, withAtlas, atlases, AtlasFileOf) {
      var d :| d in folders && !EndsWith(d, "_atlas_slice") &&
        x in FilterFolder(d, listing(d), threshold, withAtlas, atlases, AtlasFileOf);
      var i :| 0 <= i < |dirs| && dirs[i] == d;
      assert x in parts[i];
    }
    if x in Concat(parts) {
      var i :| 0 <= i < |parts| && x in parts[i];
      assert dirs[i] in dirs;
    }
  }

  /** Over all folders, a chunk named `n` is copied exactly when some image
      folder (not an `_atlas_slice` one) lists a chunk of that name whose
      average is above the threshold. */
  lemma FilterAllImages(folders: seq<string>, listing: string -> seq<ChunkFile>, threshold: real, withAtlas: bool,
                        atlases: set<(string, string)>, n: string)
    ensures CopyImage(n) in FilterAll(folders, listing, threshold, withAtlas, atlases) <==>
      (exists d :: d in folders && !EndsWith(d, "_atlas_slice") && HasKept(listing(d), n, threshold))
  {
    InFilterAll(folders, listing, threshold, withAtlas, atlases, CopyImage(n));
    forall d
      ensures CopyImage(n) in FilterFolder(d, listing(d), threshold, withAtlas, atlases, AtlasFileOf) <==>
        HasKept(listing(d), n, threshold)
    {
      FilterFolderImages(d, listing(d), threshold, withAtlas, atlases, AtlasFileOf, n);
    }
  }

  /** Over all folders, a missing partner is reported for `n` exactly when
      atlases are included and some image folder lists a kept chunk `n`
      whose partner is absent from that folder's atlas sibling. */
  lemma FilterAllMissing(folders: seq<string>, listing: string -> seq<ChunkFile>, threshold: real, withAtlas: bool,
                         atlases: set<(string, string)>, n: string)
    ensures MissingAtlas(n) in FilterAll(folders, listing, threshold, withAtlas, atlases) <==>
      (&& withAtlas
       && exists d :: d in folders && !EndsWith(d, "_atlas_slice") && HasLacking(d, listing(d), n, threshold, atlases))
  {
    InFilterAll(folders, listing, threshold, withAtlas, atlases, MissingAtlas(n));
    forall d
      ensures MissingAtlas(n) in FilterFolder(d, listing(d), threshold, withAtlas, atlases, AtlasFileOf) <==>
        withAtlas && HasLacking(d, listing(d), n, threshold, atlases)
    {
      FilterFolderMissing(d, listing(d), threshold, withAtlas, atlases, AtlasFileOf, n);
    }
  }

  /** Over all folders, atlas file `a` is copied from folder `e` exactly
      when atlases are included, `(e, a)` exists, and `e` is the atlas
      sibling of an image folder listing a kept chunk whose partner is `a`. */
  lemma FilterAllAtlases(folders: seq<string>, listing: string -> seq<ChunkFile>, threshold: real, withAtlas: bool,
                         atlases: set<(string, string)>, e: string, a: string)
    ensures CopyAtlas(e, a) in FilterAll(folders, listing, threshold, withAtlas, atlases) <==>
      (&& withAtlas && (e, a) in atlases
       && exists d :: d in folders && !EndsWith(d, "_atlas_slice") && e == AtlasFolder(d) && HasPartner(listing(d), a, threshold))
  {
    InFilterAll(folders, listing, threshold, withAtlas, atlases, CopyAtlas(e, a));
    forall d
      ensures CopyAtlas(e, a) in FilterFolder(d, listing(d), threshold, withAtlas, atlases, AtlasFileOf) <==>
        withAtlas && e == AtlasFolder(d) && (e, a) in atlases && HasPartner(listing(d), a, threshold)
    {
      FilterFolderAtlasCopies(d, listing(d), threshold, withAtlas, atlases, AtlasFileOf, e, a);
    }
  }

  /** The older script over every entry of the folder, atlas folders
      included, in `glob` order; the first missing partner stops it. */
  function LegacyFilterAll(folders: seq<string>, listing: string -> seq<ChunkFile>, threshold: real, withAtlas: bool,
                           atlases: set<(string, string)>): (r: Result<seq<Action>>)
    ensures r.Err? <==> withAtlas && exists i, k ::
      0 <= i < |folders| && 0 <= k < |listing(folders[i])| &&
      LacksAtlas(folders[i], listing(folders[i])[k], threshold, atlases, AtlasFileOf)
  {
    if |folders| == 0 then Ok([])
    else
      var first := LegacyFilterFolder(folders[0], listing(folders[0]), threshold, withAtlas, atlases, AtlasFileOf);
      var rest := LegacyFilterAll(folders[1..], listing, threshold, withAtlas, atlases);
      if first.Err? then Err(first.error)
      else if rest.Err? then
        var i, k :| 0 <= i < |folders| - 1 && 0 <= k < |listing(folders[1..][i])| &&
          LacksAtlas(folders[1..][i], listing(folders[1..][i])[k], threshold, atlases, AtlasFileOf);
        assert folders[1..][i] == folders[i + 1];
        Err(rest.error)
      else
        assert forall i :: 0 < i < |folders| ==> folders[i] == folders[1..][i - 1];
        Ok(first.value + rest.value)
  }

  /** The selectors' partner rule inverts the atlas name: from
      `{chunk_name}_atlas_slice_chunk_{chunk_number}.tif` it rebuilds
      `{chunk_name}_chunk_{chunk_number}.tif`. */
  lemma PartnerOfAtlasName(chunkName: string, chunkNumber: string)
    requires !Contains(chunkName, "_atlas") && !Contains(chunkNumber, "chunk_")
    ensures ImagePartner(chunkName + "_atlas_slice_chunk_" + chunkNumber + ".tif") ==
      chunkName + "_chunk_" + chunkNumber + ".tif"
  {
    var base := chunkName + "_atlas_slice_chunk_" + chunkNumber;
    StemOfSuffixed(base, "tif");
    assert chunkName + "_atlas_slice_chunk_" + chunkNumber + ".tif" == base + "." + "tif";
    AtlasStemPieces(chunkName, chunkNumber);
  }

  lemma AtlasStemPieces(chunkName: string, chunkNumber: string)
    requires !Contains(chunkName, "_atlas") && !Contains(chunkNumber, "chunk_")
    ensures FirstPiece(chunkName + "_atlas_slice_chunk_" + chunkNumber, "_atlas") == chunkName
    ensures LastPiece(chunkName + "_atlas_slice_chunk_" + chunkNumber, "chunk_") == chunkNumber
  {
    AtlasStemHead(chunkName, chunkNumber);
    AtlasStemTail(chunkName, chunkNumber);
  }

  lemma AtlasStemHead(chunkName: string, chunkNumber: string)
    requires !Contains(chunkName, "_atlas")
    ensures FirstPiece(chunkName + "_atlas_slice_chunk_" + chunkNumber, "_atlas") == chunkName
  {
    UniqueHead("_atlas");
    assert chunkName + "_atlas_slice_chunk_" + chunkNumber == chunkName + "_atlas" + ("_slice_chunk_" + chunkNumber);
    FirstPieceOfJoin(chunkName, "_atlas", "_slice_chunk_" + chunkNumber);
  }

  lemma AtlasStemTail(chunkName: string, chunkNumber: string)
    requires !Contains(chunkNumber, "chunk_")
    ensures LastPiece(chunkName + "_atlas_slice_chunk_" + chunkNumber, "chunk_") == chunkNumber
  {
    UniqueHead("chunk_");
    assert chunkName + "_atlas_slice_chunk_" + chunkNumber == (chunkName + "_atlas_slice_") + "chunk_" + chunkNumber;
    LastPieceOfJoin(chunkName + "_atlas_slice_", "chunk_", chunkNumber);
  }

  /** Splitting a tile's stem gives back the image stem and the origin
      text `{i}_{j}`. */
  lemma TileStemPieces(stem: string, y: nat, x: nat)
    requires !Contains(stem, "_chunk")
    ensures ChunkName(TileStem(stem, y, x)) == stem
    ensures ChunkNumber(TileStem(stem, y, x)) == NatToString(y) + "_" + NatToString(x)
  {
    var number := NatToString(y) + "_" + NatToString(x);
    TileStemText(stem, y, x);
    UniqueHead("_chunk");
    FirstPieceOfJoin(stem, "_chunk", "_" + number);
    OriginTextFree(y, x);
    TileStemTail(stem, number);
  }

  lemma TileStemText(stem: string, y: nat, x: nat)
    ensures TileStem(stem, y, x) == stem + "_chunk" + ("_" + (NatToString(y) + "_" + NatToString(x)))
    ensures TileStem(stem, y, x) == (stem + "_") + "chunk_" + (NatToString(y) + "_" + NatToString(x))
    ensures TileName(stem, y, x) == stem + "_chunk_" + (NatToString(y) + "_" + NatToString(x)) + ".tif"
  {
  }

  lemma TileStemTail(stem: string, number: string)
    requires !Contains(number, "chunk_")
    ensures LastPiece((stem + "_") + "chunk_" + number, "chunk_") == number
  {
    UniqueHead("chunk_");
    LastPieceOfJoin(stem + "_", "chunk_", number);
  }

  /** The origin text `{i}_{j}` never holds `chunk_`. */
  lemma OriginTextFree(y: nat, x: nat)
    ensures !Contains(NatToString(y) + "_" + NatToString(x), "chunk_")
  {
    var number := NatToString(y) + "_" + NatToString(x);
    NoLetterC(NatToString(y));
    NoLetterC(NatToString(x));
    assert 'c' !in number;
    MissingHead(number, "chunk_");
  }

  lemma NoLetterC(s: string)
    requires AllDigits(s)
    ensures 'c' !in s
  {
    forall k | 0 <= k < |s|
      ensures s[k] != 'c'
    {
      assert IsDigit(s[k]);
    }
  }

  /** The whole round trip: a tile written by the tiler, its atlas partner
      named by the filter, and the selectors' inverse of that name lead
      back to the tile's own file name. */
  lemma TileAtlasRoundTrip(stem: string, y: nat, x: nat)
    requires !Contains(stem, "_chunk") && !Contains(stem, "_atlas")
    ensures ImagePartner(AtlasName(Stem(TileName(stem, y, x)))) == TileName(stem, y, x)
  {
    var number := NatToString(y) + "_" + NatToString(x);
    TileAtlasName(stem, y, x);
    OriginTextFree(y, x);
    PartnerOfAtlasName(stem, number);
    TileStemText(stem, y, x);
  }

  lemma TileAtlasName(stem: string, y: nat, x: nat)
    requires !Contains(stem, "_chunk")
    ensures AtlasName(Stem(TileName(stem, y, x))) ==
      stem + "_atlas_slice_chunk_" + (NatToString(y) + "_" + NatToString(x)) + ".tif"
  {
    StemOfSuffixed(TileStem(stem, y, x), "tif");
    assert TileName(stem, y, x) == TileStem(stem, y, x) + "." + "tif";
    TileStemPieces(stem, y, x);
  }
}

=== FILE: collage.dfy ===
/** The layout arithmetic of the collage script (`lfsm_batch_eval.py`): the
    middle image of each sample, the centring padding, the grid size and the
    position of each tile. Pixel values, percentile clipping and text
    rendering are not modelled. */
module Collage {
  import opened Wrappers
  import opened Sorting
  import opened Arith

  /** `images[int(len(images) / 2)]`: the middle index, or IndexError for an
      empty folder. */
  function MiddleIndex(count: nat): (r: Result<nat>)
    ensures r.Ok? <==> count >= 1
    ensures r.Err? ==> r.error == IndexError
    ensures r.Ok? ==> r.value < count && 2 * r.value <= count < 2 * r.value + 2
  {
    var mid := count / 2;
    if mid < count then Ok(mid) else Err(IndexError)
  }

  /** The running maximum of the image dimensions, starting from 0. */
  function MaxDim(dims: seq<nat>): (m: nat)
    ensures forall k :: 0 <= k < |dims| ==> dims[k] <= m
    ensures m == 0 || m in dims
  {
    if |dims| == 0 then 0
    else Max(MaxDim(dims[..|dims| - 1]), dims[|dims| - 1])
  }

  /** The border added on each side of one axis to centre a dimension `w`
      in `m`: `(m - w) // 2` before, the rest after. */
  function Padding(m: int, w: int): (p: (int, int))
    ensures p.0 + w + p.1 == m
    ensures w <= m ==> 0 <= p.0 <= p.1 <= p.0 + 1
  {
    var before := (m - w) / 2;
    (before, m - w - before)
  }

  /** Every image padded to the running maximum lands exactly on it. */
  lemma PaddedToMax(dims: seq<nat>, k: nat)
    requires k < |dims|
    ensures var p := Padding(MaxDim(dims), dims[k]);
      p.0 >= 0 && p.1 >= 0 && p.0 + dims[k] + p.1 == MaxDim(dims)
  {
  }

  /** `int(np.ceil(np.sqrt(n)))` for an integer `n`: the least `c` with
      `c * c >= n`. */
  function CeilSqrt(n: nat): (c: nat)
    ensures c * c >= n
    ensures c == 0 || (c - 1) * (c - 1) < n
  {
    CeilSqrtFrom(n, 0)
  }

  function CeilSqrtFrom(n: nat, c: nat): (r: nat)
    requires c == 0 || (c - 1) * (c - 1) < n
    ensures r * r >= n
    ensures r == 0 || (r - 1) * (r - 1) < n
    decreases n - c
  {
    if c * c >= n then c
    else
      assert c < n by {
        if c >= n {
          MulMonotone(n, c, c);
          MulMonotone(1, c, n);
        }
      }
      CeilSqrtFrom(n, c + 1)
  }

  /** The grid: `cols` columns and `rows = ceil(n / cols)` rows; no images
      divides by zero. */
  datatype Grid = Grid(rows: nat, cols: nat)

  function GridSize(n: nat): (r: Result<Grid>)
    ensures r.Err? <==> n == 0
    ensures r.Err? ==> r.error == ZeroDivisionError
    ensures r.Ok? ==> r.value.cols >= 1 && r.value.rows * r.value.cols >= n && (r.value.rows - 1) * r.value.cols < n
    ensures r.Ok? ==> r.value.cols * r.value.cols >= n && (r.value.cols - 1) * (r.value.cols - 1) < n
  {
    var cols := CeilSqrt(n);
    if cols == 0 then Err(ZeroDivisionError)
    else
      var rows := (n + cols - 1) / cols;
      QuotientBounds(n + cols - 1, cols);
      Ok(Grid(rows, cols))
  }

  /** The grid is never taller than it is wide. */
  lemma GridAtMostSquare(n: nat)
    requires n >= 1
    ensures GridSize(n).Ok? && GridSize(n).value.rows <= GridSize(n).value.cols
  {
    var g := GridSize(n).value;
    if g.rows > g.cols {
      MulMonotone(g.cols, g.rows - 1, g.cols);
      assert false;
    }
  }

  /** The top-left corner of tile `k`: column `k % cols`, row `k // cols`. */
  function TileOffset(k: nat, cols: nat, width: nat, height: nat): (o: (nat, nat))
    requires cols >= 1
    ensures o.0 + width <= cols * width
  {
    MulMonotone(k % cols + 1, cols, width);
    ((k % cols) * width, (k / cols) * height)
  }

  /** Pixel `(x, y)` of the collage belongs to tile `k`. */
  predicate InTileAt(k: nat, cols: nat, width: nat, height: nat, x: int, y: int)
    requires cols >= 1
  {
    var o := TileOffset(k, cols, width, height);
    o.0 <= x < o.0 + width && o.1 <= y < o.1 + height
  }

  /** Each of the `n` tiles lies inside the collage. */
  lemma TileInside(n: nat, k: nat, width: nat, height: nat)
    requires k < n
    ensures GridSize(n).Ok?
    ensures var g := GridSize(n).value;
      var o := TileOffset(k, g.cols, width, height);
      o.0 + width <= g.cols * width && o.1 + height <= g.rows * height
  {
    var g := GridSize(n).value;
    var row := k / g.cols;
    QuotientBounds(k, g.cols);
    assert row < g.rows by {
      if row >= g.rows {
        MulMonotone(g.rows, row, g.cols);
      }
    }
    MulMonotone(row + 1, g.rows, height);
  }

  /** Different tiles share no pixel. */
  lemma TilesDisjoint(k1: nat, k2: nat, cols: nat, width: nat, height: nat, x: int, y: int)
    requires cols >= 1 && k1 != k2
    ensures !(InTileAt(k1, cols, width, height, x, y) && InTileAt(k2, cols, width, height, x, y))
  {
    if k1 / cols != k2 / cols {
      SeparateBands(k1 / cols, k2 / cols, height, y);
    } else {
      SameQuotient(k1, k2, cols);
      SeparateBands(k1 % cols, k2 % cols, width, x);
    }
  }

  /** Bands `[a*w, (a+1)*w)` and `[b*w, (b+1)*w)` of different indices are
      disjoint. */
  lemma SeparateBands(a: nat, b: nat, w: nat, z: int)
    requires a != b
    ensures !(a * w <= z < a * w + w && b * w <= z < b * w + w)
  {
    if a < b {
      MulMonotone(a + 1, b, w);
    } else {
      MulMonotone(b + 1, a, w);
    }
  }
}

=== FILE: config.dfy ===
/** The path and configuration helpers of `utils/io_helpers.py`: path
    normalisation, the existence checks that guard every script, and the
    test/local/template precedence for picking a configuration file. The
    filesystem is a map from existing paths to their kind; TOML parsing is
    not modelled, only the choice of file. */
module Config {
  import opened Wrappers
  import opened Strings

  /** A path argument: already a `Path`, or a string typed by the user. */
  datatype PathArg = PathValue(path: string) | Text(text: string)

  /** The root `pathlib` keeps on POSIX: exactly two leading slashes stay
      `//`, one or three and more become `/`, and a relative path has
      none. */
  function PathRoot(s: string): (r: string)
    ensures r == "" || r == "/" || r == "//"
    ensures r == "" <==> |s| == 0 || s[0] != '/'
  {
    if |s| >= 2 && s[0] == '/' && s[1] == '/' && !(|s| >= 3 && s[2] == '/') then "//"
    else if |s| >= 1 && s[0] == '/' then "/"
    else ""
  }

  /** A segment `pathlib` drops: an empty one (from a doubled or trailing
      slash) or `.`. */
  predicate Dropped(segment: string) {
    segment == "" || segment == "."
  }

  /** The `/`-separated segments that survive, in order. */
  function KeptSegments(pieces: seq<string>): (r: seq<string>)
    ensures forall k :: 0 <= k < |r| ==> !Dropped(r[k]) && r[k] in pieces
    decreases |pieces|
  {
    if |pieces| == 0 then []
    else (if Dropped(pieces[0]) then [] else [pieces[0]]) + KeptSegments(pieces[1..])
  }

  /** `str(Path(s))` on POSIX: the root, then the surviving segments joined
      by `/`; a relative path with no segment left is `.`. */
  function PosixPath(s: string): (r: string)
    ensures r != ""
  {
    var parts := KeptSegments(Split(s, '/'));
    var root := PathRoot(s);
    if root == "" && |parts| == 0 then "." else root + JoinAll(parts, '/')
  }

  /** `normalize_user_path`: a `Path` comes back unchanged, a string has
      every backslash replaced by a forward slash and is then parsed by
      `Path`. */
  function NormalizeUserPath(p: PathArg): (r: string)
    ensures p.PathValue? ==> r == p.path
    ensures p.Text? ==> r != "" && '\\' !in r
  {
    match p
    case PathValue(path) => path
    case Text(s) =>
      var t := ReplaceBackslashes(s);
      PosixPathChars(t);
      PosixPath(t)
  }

  function ReplaceBackslashes(s: string): (r: string)
    ensures |r| == |s| && '\\' !in r
    ensures forall k :: 0 <= k < |r| ==> r[k] == (if s[k] == '\\' then '/' else s[k])
  {
    seq(|s|, k requires 0 <= k < |s| => if s[k] == '\\' then '/' else s[k])
  }

  /** Parsing adds no character other than `/` and `.`. */
  lemma PosixPathChars(s: string)
    ensures forall x :: x in PosixPath(s) ==> x in s || x == '/' || x == '.'
  {
    var pieces := Split(s, '/');
    var parts := KeptSegments(pieces);
    SplitChars(s, '/');
    if |parts| > 0 {
      JoinChars(parts, '/');
    }
  }

  /** Every character of a piece of `s` is a character of `s`. */
  lemma {:induction false} SplitChars(s: string, c: char)
    ensures forall k, x :: 0 <= k < |Split(s, c)| && x in Split(s, c)[k] ==> x in s
    decreases |s|
  {
    if |s| > 0 {
      SplitChars(s[1..], c);
      var rest := Split(s[1..], c);
      assert s == [s[0]] + s[1..];
      forall k, x | 0 <= k < |Split(s, c)| && x in Split(s, c)[k]
        ensures x in s
      {
        if s[0] == c {
          assert k > 0 && Split(s, c)[k] == rest[k - 1];
        } else if k == 0 {
          assert x == s[0] || x in rest[0];
        } else {
          assert Split(s, c)[k] == rest[k];
        }
      }
    }
  }

  /** Every character of a join is the separator or comes from a part. */
  lemma {:induction false} JoinChars(parts: seq<string>, c: char)
    requires |parts| >= 1
    ensures forall x :: x in Join(parts, c) ==> x == c || exists k :: 0 <= k < |parts| && x in parts[k]
    decreases |parts|
  {
    if |parts| > 1 {
      JoinChars(parts[1..], c);
      forall x | x in Join(parts, c)
        ensures x == c || exists k :: 0 <= k < |parts| && x in parts[k]
      {
        if x !in parts[0] && x != c {
          assert x in Join(parts[1..], c);
          var k :| 0 <= k < |parts[1..]| && x in parts[1..][k];
          assert parts[k + 1] == parts[1..][k];
        }
      }
    }
  }

  /** Segments already free of drops survive unchanged. */
  lemma {:induction false} KeptClean(parts: seq<string>)
    requires forall k :: 0 <= k < |parts| ==> !Dropped(parts[k])
    ensures KeptSegments(parts) == parts
    decreases |parts|
  {
    if |parts| > 0 {
      KeptClean(parts[1..]);
    }
  }

  /** A join of non-empty parts starts with the first part's first
      character. */
  lemma JoinHead(parts: seq<string>, c: char)
    requires |parts| >= 1 && |parts[0]| >= 1
    ensures |Join(parts, c)| >= 1 && Join(parts, c)[0] == parts[0][0]
  {
  }

  /** The segments of a join of clean parts are the parts, and the join
      does not start with a slash. */
  lemma KeptOfJoin(parts: seq<string>)
    requires forall k :: 0 <= k < |parts| ==> !Dropped(parts[k]) && '/' !in parts[k]
    ensures KeptSegments(Split(JoinAll(parts, '/'), '/')) == parts
    ensures |parts| >= 1 ==> JoinAll(parts, '/')[0] != '/'
  {
    KeptClean(parts);
    if |parts| >= 1 {
      SplitJoin(parts, '/');
      JoinHead(parts, '/');
      assert parts[0][0] in parts[0];
    } else {
      assert KeptSegments([""]) == [];
    }
  }

  /** A root's slashes only add empty segments. */
  lemma KeptAfterRoot(root: string, x: string)
    requires root == "/" || root == "//"
    ensures KeptSegments(Split(root + x, '/')) == KeptSegments(Split(x, '/'))
  {
    SplitAfterPiece("", '/', x);
    assert "/" + x == "" + ['/'] + x;
    if root == "//" {
      var y := "/" + x;
      SplitAfterPiece("", '/', y);
      assert root + x == "" + ['/'] + y;
      assert Split(root + x, '/') == [""] + Split(y, '/');
    }
  }

  /** The root of a rooted path whose rest does not start with a slash. */
  lemma RootOfNormal(root: string, x: string)
    requires root == "" || root == "/" || root == "//"
    requires |x| == 0 || x[0] != '/'
    requires root == "" ==> |x| >= 1
    ensures PathRoot(root + x) == root
  {
    if root == "//" {
      assert (root + x)[0] == '/' && (root + x)[1] == '/';
      assert |root + x| >= 3 ==> (root + x)[2] == x[0];
    } else if root == "/" {
      assert (root + x)[0] == '/';
      assert |root + x| >= 2 ==> (root + x)[1] == x[0];
    } else {
      assert root + x == x;
    }
  }

  /** A path already in `pathlib`'s form parses back to itself. */
  lemma PosixPathOfNormal(root: string, parts: seq<string>)
    requires root == "" || root == "/" || root == "//"
    requires forall k :: 0 <= k < |parts| ==> !Dropped(parts[k]) && '/' !in parts[k]
    requires root == "" ==> |parts| >= 1
    ensures PosixPath(root + JoinAll(parts, '/')) == root + JoinAll(parts, '/')
  {
    var x := JoinAll(parts, '/');
    KeptOfJoin(parts);
    RootOfNormal(root, x);
    if root == "" {
      assert root + x == x;
    } else {
      KeptAfterRoot(root, x);
    }
  }

  /** Parsing a parsed path changes nothing. */
  lemma PosixPathIdempotent(s: string)
    ensures PosixPath(PosixPath(s)) == PosixPath(s)
  {
    var pieces := Split(s, '/');
    var parts := KeptSegments(pieces);
    var root := PathRoot(s);
    SplitPieces(s, '/');
    if root == "" && |parts| == 0 {
      SplitNoSeparator(".", '/');
      assert KeptSegments(["."]) == [];
    } else {
      PosixPathOfNormal(root, parts);
    }
  }

  /** A doubled slash between two kept segments goes: `x//y` becomes `x/y`. */
  lemma PosixPathDoubledSlash(x: string, y: string)
    requires x != "" && y != "" && !Dropped(x) && !Dropped(y)
    requires '/' !in x && '/' !in y
    ensures PosixPath(x + "//" + y) == x + "/" + y
  {
    var pieces := [x, "", y];
    assert Join(pieces[1..], '/') == "/" + y by {
      assert pieces[1..][1..] == [y];
    }
    assert Join(pieces, '/') == x + "//" + y;
    SplitJoin(pieces, '/');
    assert KeptSegments(pieces[1..]) == [y] by {
      assert [y][1..] == [];
      assert KeptSegments([y]) == [y];
      assert pieces[1..][1..] == [y];
    }
    assert KeptSegments(pieces) == [x, y];
    assert (x + "//" + y)[0] == x[0];
    assert Join([x, y], '/') == x + "/" + y by {
      assert [x, y][1..] == [y];
    }
  }

  /** A trailing slash goes: `a/` becomes `a`. */
  lemma PosixPathTrailingSlash()
    ensures PosixPath("a/") == "a"
  {
    var pieces := ["a", ""];
    SplitJoin(pieces, '/');
    assert "a/" == Join(pieces, '/');
    assert KeptSegments(pieces) == ["a"];
  }

  /** A leading `.` segment goes: `./a/b` becomes `a/b`. */
  lemma PosixPathDotSegment()
    ensures PosixPath("./a/b") == "a/b"
  {
    var pieces := [".", "a", "b"];
    SplitJoin(pieces, '/');
    assert "./a/b" == Join(pieces, '/');
    assert KeptSegments(pieces) == ["a", "b"];
  }

  /** An empty path is the current directory. */
  lemma PosixPathEmpty()
    ensures PosixPath("") == "."
  {
  }

  /** Normalising a normalised path changes nothing, whether the result is
      passed on as a `Path` or as a string again. */
  lemma NormalizeIdempotent(p: PathArg)
    ensures NormalizeUserPath(PathValue(NormalizeUserPath(p))) == NormalizeUserPath(p)
    ensures p.Text? ==> NormalizeUserPath(Text(NormalizeUserPath(p))) == NormalizeUserPath(p)
  {
    if p.Text? {
      var t := NormalizeUserPath(p);
      assert ReplaceBackslashes(t) == t;
      PosixPathIdempotent(ReplaceBackslashes(p.text));
    }
  }

  /** For a string with forward slashes only, normalising is just
      `pathlib`'s parsing. */
  lemma NormalizeForwardOnly(s: string)
    requires '\\' !in s
    ensures NormalizeUserPath(Text(s)) == PosixPath(s)
  {
    assert ReplaceBackslashes(s) == s;
  }

  /** What exists at a path. */
  datatype Kind = Directory | RegularFile

  /** `require_dir`: the normalised path when it exists and is a directory,
      else RuntimeError. */
  function RequireDir(p: PathArg, fs: map<string, Kind>): (r: Result<string>)
    ensures r.Ok? <==> NormalizeUserPath(p) in fs && fs[NormalizeUserPath(p)] == Directory
    ensures r.Ok? ==> r.value == NormalizeUserPath(p)
    ensures r.Err? ==> r.error == RuntimeError
  {
    var path := NormalizeUserPath(p);
    if path !in fs then Err(RuntimeError)
    else if fs[path] != Directory then Err(RuntimeError)
    else Ok(path)
  }

  /** `require_file`: the normalised path when it exists and is a regular
      file, else RuntimeError. */
  function RequireFile(p: PathArg, fs: map<string, Kind>): (r: Result<string>)
    ensures r.Ok? <==> NormalizeUserPath(p) in fs && fs[NormalizeUserPath(p)] == RegularFile
    ensures r.Ok? ==> r.value == NormalizeUserPath(p)
    ensures r.Err? ==> r.error == RuntimeError
  {
    var path := NormalizeUserPath(p);
    if path !in fs then Err(RuntimeError)
    else if fs[path] != RegularFile then Err(RuntimeError)
    else Ok(path)
  }

  /** No path passes both checks. */
  lemma DirOrFile(p: PathArg, fs: map<string, Kind>)
    ensures !(RequireDir(p, fs).Ok? && RequireFile(p, fs).Ok?)
    ensures NormalizeUserPath(p) in fs ==> RequireDir(p, fs).Ok? || RequireFile(p, fs).Ok?
  {
  }

  /** `parent / sub`. */
  function JoinPath(parent: string, sub: string): string {
    parent + "/" + sub
  }

  /** `require_subpath`: the child path when anything exists there, else
      RuntimeError. */
  function RequireSubpath(parent: string, sub: string, fs: map<string, Kind>): (r: Result<string>)
    ensures r.Ok? <==> JoinPath(parent, sub) in fs
    ensures r.Ok? ==> r.value == JoinPath(parent, sub) && r.value[..|parent|] == parent
    ensures r.Err? ==> r.error == RuntimeError
  {
    var p := JoinPath(parent, sub);
    if p in fs then Ok(p) else Err(RuntimeError)
  }

  /** The three candidate configuration files next to a script. */
  function TestConfig(scriptDir: string, base: string): string {
    JoinPath(JoinPath(scriptDir, "configs"), base + "_test.toml")
  }

  function LocalConfig(scriptDir: string, base: string): string {
    JoinPath(JoinPath(scriptDir, "configs"), base + "_local.toml")
  }

  function TemplateConfig(scriptDir: string, base: string): string {
    JoinPath(JoinPath(scriptDir, "configs"), base + "_template.toml")
  }

  /** The three candidates are different files. */
  lemma ConfigNamesDistinct(scriptDir: string, base: string)
    ensures TestConfig(scriptDir, base) != LocalConfig(scriptDir, base)
    ensures TestConfig(scriptDir, base) != TemplateConfig(scriptDir, base)
    ensures LocalConfig(scriptDir, base) != TemplateConfig(scriptDir, base)
  {
    var prefix := JoinPath(JoinPath(scriptDir, "configs"), base);
    var n := |prefix|;
    assert TestConfig(scriptDir, base) == prefix + "_test.toml";
    assert LocalConfig(scriptDir, base) == prefix + "_local.toml";
    assert TemplateConfig(scriptDir, base) == prefix + "_template.toml";
    assert TestConfig(scriptDir, base)[n + 1] == 't';
    assert LocalConfig(scriptDir, base)[n + 1] == 'l';
    assert TestConfig(scriptDir, base)[n + 3] == 's';
    assert TemplateConfig(scriptDir, base)[n + 3] == 'm';
  }

  /** `load_script_config` up to the file it reads: in test mode the test
      file or FileNotFoundError, otherwise the local file if present, else
      the template, else FileNotFoundError. */
  function ConfigPath(scriptDir: string, base: string, testMode: bool, present: set<string>): (r: Result<string>)
    ensures testMode ==> (r.Ok? <==> TestConfig(scriptDir, base) in present)
    ensures testMode && r.Ok? ==> r.value == TestConfig(scriptDir, base)
    ensures !testMode ==> (r.Ok? <==> LocalConfig(scriptDir, base) in present || TemplateConfig(scriptDir, base) in present)
    ensures !testMode && LocalConfig(scriptDir, base) in present ==> r == Ok(LocalConfig(scriptDir, base))
    ensures !testMode && r.Ok? && LocalConfig(scriptDir, base) !in present ==> r.value == TemplateConfig(scriptDir, base)
    ensures r.Ok? ==> r.value in present
    ensures r.Err? ==> r.error == FileNotFoundError
  {
    var test := TestConfig(scriptDir, base);
    var local := LocalConfig(scriptDir, base);
    var template := TemplateConfig(scriptDir, base);
    if testMode && test !in present then Err(FileNotFoundError)
    else
      var chosen := if testMode then test else if local in present then local else template;
      if chosen !in present then Err(FileNotFoundError)
      else Ok(chosen)
  }

  /** Test mode never falls back: whatever else exists, without the test
      file the load fails, and the local and template files do not change
      the outcome. */
  lemma TestModeIgnoresOthers(scriptDir: string, base: string, present: set<string>, extra: set<string>)
    requires TestConfig(scriptDir, base) !in extra
    ensures ConfigPath(scriptDir, base, true, present + extra) == ConfigPath(scriptDir, base, true, present)
  {
  }

  /** Outside test mode a local file shadows the template, and a test file
      is never read. */
  lemma LocalShadowsTemplate(scriptDir: string, base: string, present: set<string>)
    requires LocalConfig(scriptDir, base) in present
    ensures ConfigPath(scriptDir, base, false, present) == ConfigPath(scriptDir, base, false, present - {TemplateConfig(scriptDir, base)})
    ensures ConfigPath(scriptDir, base, false, present) != Ok(TestConfig(scriptDir, base))
  {
    ConfigNamesDistinct(scriptDir, base);
  }
}

=== FILE: coverage.dfy ===
/** Greedy maximum coverage over atlas chunks,
    `preprocess_for_cellpose/5b_select_representative_chunks.py`.

    Chunk `i` is the `i`-th name of the sorted atlas listing and
    `regions[i]` is the set of label values in its pixels (reading the image
    is left to the caller). The greedy phase repeatedly takes the lowest
    unselected chunk that adds the most uncovered labels; the fill phase
    tops the selection up with `random.choice` draws, which are inputs
    here. */
module Coverage {
  import opened Wrappers
  import opened Strings
  import opened Sorting

  /** Every label seen in any chunk: the keys of `region_counts`. */
  function AllRegions(regions: seq<set<int>>): set<int> {
    if |regions| == 0 then {} else AllRegions(regions[..|regions| - 1]) + regions[|regions| - 1]
  }

  lemma {:induction false} AllRegionsMember(regions: seq<set<int>>, r: int)
    ensures r in AllRegions(regions) <==> exists i :: 0 <= i < |regions| && r in regions[i]
    decreases |regions|
  {
    if |regions| > 0 {
      var last := |regions| - 1;
      AllRegionsMember(regions[..last], r);
      assert forall i :: 0 <= i < last ==> regions[..last][i] == regions[i];
    }
  }

  /** `m` maps each label to exactly the chunks that hold it. */
  ghost predicate IndexesRegions(m: map<int, set<nat>>, regions: seq<set<int>>) {
    && m.Keys == AllRegions(regions)
    && forall r, i: nat :: r in m ==> (i in m[r] <==> i < |regions| && r in regions[i])
  }

  /** `region_counts` as the loop over the listing builds it: label to the
      set of chunk indices that hold it. */
  function RegionIndex(regions: seq<set<int>>): (m: map<int, set<nat>>)
    ensures IndexesRegions(m, regions)
  {
    if |regions| == 0 then map[]
    else
      var last := |regions| - 1;
      var prev := RegionIndex(regions[..last]);
      RegionIndexStep(regions[..last], regions[last], prev);
      assert regions[..last] + [regions[last]] == regions;
      AddChunk(prev, regions[last], last)
  }

  /** `for region in regions: region_counts[region].add(idx)`. */
  function AddChunk(m: map<int, set<nat>>, labels: set<int>, idx: nat): (m': map<int, set<nat>>)
    ensures m'.Keys == m.Keys + labels
    ensures forall r :: r in m' ==> m'[r] == (if r in m then m[r] else {}) + (if r in labels then {idx} else {})
  {
    map r | r in m.Keys + labels :: (if r in m then m[r] else {}) + (if r in labels then {idx} else {})
  }

  lemma RegionIndexStep(front: seq<set<int>>, labels: set<int>, prev: map<int, set<nat>>)
    requires IndexesRegions(prev, front)
    ensures IndexesRegions(AddChunk(prev, labels, |front|), front + [labels])
  {
    var regions := front + [labels];
    var m := AddChunk(prev, labels, |front|);
    assert regions[..|front|] == front;
    assert AllRegions(regions) == AllRegions(front) + labels;
    forall r, i: nat | r in m
      ensures i in m[r] <==> i < |regions| && r in regions[i]
    {
      AllRegionsMember(front, r);
      if i < |front| {
        assert front[i] == regions[i];
      }
      if r in prev {
        IndexEntry(prev, front, r, i);
      }
    }
    assert m.Keys == AllRegions(regions);
    assert IndexesRegions(m, regions);
  }

  lemma IndexEntry(prev: map<int, set<nat>>, front: seq<set<int>>, r: int, i: nat)
    requires IndexesRegions(prev, front) && r in prev
    ensures i in prev[r] <==> i < |front| && r in front[i]
  {
  }

  /** The number of distinct labels is the number of index entries. */
  lemma RegionTotal(regions: seq<set<int>>)
    ensures |RegionIndex(regions)| == |AllRegions(regions)|
  {
    assert RegionIndex(regions).Keys == AllRegions(regions);
  }

  /** All indices of `order` name chunks. */
  predicate InRange(regions: seq<set<int>>, order: seq<nat>) {
    forall k :: 0 <= k < |order| ==> order[k] < |regions|
  }

  /** The labels of the chunks in `order`. */
  function UnionOf(regions: seq<set<int>>, order: seq<nat>): set<int>
    requires InRange(regions, order)
  {
    if |order| == 0 then {}
    else UnionOf(regions, order[..|order| - 1]) + regions[order[|order| - 1]]
  }

  lemma {:induction false} UnionMember(regions: seq<set<int>>, order: seq<nat>, r: int)
    requires InRange(regions, order)
    ensures r in UnionOf(regions, order) <==> exists k :: 0 <= k < |order| && r in regions[order[k]]
    decreases |order|
  {
    if |order| > 0 {
      var last := |order| - 1;
      UnionMember(regions, order[..last], r);
      assert forall k :: 0 <= k < last ==> order[..last][k] == order[k];
    }
  }

  lemma UnionInAll(regions: seq<set<int>>, order: seq<nat>)
    requires InRange(regions, order)
    ensures UnionOf(regions, order) <= AllRegions(regions)
  {
    forall r | r in UnionOf(regions, order)
      ensures r in AllRegions(regions)
    {
      UnionMember(regions, order, r);
      var k :| 0 <= k < |order| && r in regions[order[k]];
      AllRegionsMember(regions, r);
    }
  }

  /** The union depends only on which chunks are chosen, and grows with
      them. */
  lemma UnionMonotone(regions: seq<set<int>>, a: seq<nat>, b: seq<nat>)
    requires InRange(regions, a) && InRange(regions, b)
    requires forall x :: x in a ==> x in b
    ensures UnionOf(regions, a) <= UnionOf(regions, b)
  {
    forall r | r in UnionOf(regions, a)
      ensures r in UnionOf(regions, b)
    {
      UnionMember(regions, a, r);
      UnionMember(regions, b, r);
      var k :| 0 <= k < |a| && r in regions[a[k]];
      assert a[k] in b;
      var j :| 0 <= j < |b| && b[j] == a[k];
    }
  }

  /** `len(regions - covered_regions)`. */
  function Gain(regions: seq<set<int>>, i: nat, covered: set<int>): nat
    requires i < |regions|
  {
    |regions[i] - covered|
  }

  /** The chunk the greedy rule must take: unselected, adding at least one
      label, adding the most labels, and the lowest index among those. */
  predicate GreedyChoice(regions: seq<set<int>>, selected: set<nat>, covered: set<int>, b: nat) {
    && b < |regions| && b !in selected
    && Gain(regions, b, covered) >= 1
    && (forall j: nat :: j < |regions| && j !in selected ==> Gain(regions, j, covered) <= Gain(regions, b, covered))
    && (forall j: nat :: j < b && j !in selected ==> Gain(regions, j, covered) < Gain(regions, b, covered))
  }

  /** The scan over chunks `0..k-1`: the best chunk so far and the largest
      gain so far (`max_new_regions`, starting at 0). */
  function ScanBest(regions: seq<set<int>>, selected: set<nat>, covered: set<int>, k: nat)
    : (r: (Option<nat>, nat))
    requires k <= |regions|
    ensures forall j: nat :: j < k && j !in selected ==> Gain(regions, j, covered) <= r.1
    ensures r.0.None? <==> r.1 == 0
    ensures r.0.Some? ==> var b := r.0.value;
      b < k && b !in selected && Gain(regions, b, covered) == r.1 &&
      forall j: nat :: j < b && j !in selected ==> Gain(regions, j, covered) < r.1
  {
    if k == 0 then (None, 0)
    else
      var prev := ScanBest(regions, selected, covered, k - 1);
      if k - 1 in selected then prev
      else if Gain(regions, k - 1, covered) > prev.1 then (Some(k - 1), Gain(regions, k - 1, covered))
      else prev
  }

  /** One greedy step; `None` is the script's `break`. */
  function Best(regions: seq<set<int>>, selected: set<nat>, covered: set<int>): (r: Option<nat>)
    ensures r.Some? ==> GreedyChoice(regions, selected, covered, r.value)
    ensures r.None? <==> forall j: nat :: j < |regions| && j !in selected ==> Gain(regions, j, covered) == 0
  {
    ScanBest(regions, selected, covered, |regions|).0
  }

  /** The greedy choice is unique, so `Best` is the only rule consistent with
      it. */
  lemma GreedyChoiceUnique(regions: seq<set<int>>, selected: set<nat>, covered: set<int>, a: nat, b: nat)
    requires GreedyChoice(regions, selected, covered, a)
    requires GreedyChoice(regions, selected, covered, b)
    ensures a == b
  {
  }

  /** When no unselected chunk adds a label, everything is covered. */
  lemma ZeroGainCovers(regions: seq<set<int>>, order: seq<nat>)
    requires InRange(regions, order)
    requires forall j: nat :: j < |regions| && j !in Elements(order) ==> Gain(regions, j, UnionOf(regions, order)) == 0
    ensures AllRegions(regions) <= UnionOf(regions, order)
  {
    var covered := UnionOf(regions, order);
    forall r | r in AllRegions(regions)
      ensures r in covered
    {
      AllRegionsMember(regions, r);
      var i :| 0 <= i < |regions| && r in regions[i];
      if i in Elements(order) {
        var k :| 0 <= k < |order| && order[k] == i;
        assert r in regions[order[k]];
        UnionMember(regions, order, r);
      } else {
        assert Gain(regions, i, covered) == 0;
        assert |regions[i] - covered| == 0;
        assert regions[i] - covered == {};
        assert r !in regions[i] - covered;
      }
    }
  }

  /** While some label is uncovered, some unselected chunk adds it, so the
      `break` is never taken. */
  lemma UncoveredHasGain(regions: seq<set<int>>, order: seq<nat>)
    requires InRange(regions, order)
    requires |UnionOf(regions, order)| < |AllRegions(regions)|
    ensures Best(regions, Elements(order), UnionOf(regions, order)).Some?
  {
    if Best(regions, Elements(order), UnionOf(regions, order)).None? {
      NoGainMeansCovered(regions, order);
    }
  }

  lemma NoGainMeansCovered(regions: seq<set<int>>, order: seq<nat>)
    requires InRange(regions, order)
    requires Best(regions, Elements(order), UnionOf(regions, order)).None?
    ensures UnionOf(regions, order) == AllRegions(regions)
  {
    ZeroGainCovers(regions, order);
    UnionInAll(regions, order);
  }

  lemma SubsetCard(part: set<nat>, all: set<nat>)
    requires part <= all
    ensures |part| <= |all|
  {
    assert all == (all - part) + part;
    assert (all - part) * part == {};
  }

  /** A subset as large as its superset is the superset. */
  lemma FullSubset(all: set<int>, part: set<int>)
    requires part <= all && |part| >= |all|
    ensures part == all
  {
    assert all * part == part;
    assert |all - part| == 0;
    assert all - part == {};
    assert forall x :: x in all ==> x in part;
  }

  /** Every pick of `order` was the greedy choice given the picks before
      it. */
  predicate GreedyTrace(regions: seq<set<int>>, order: seq<nat>)
    decreases |order|
  {
    |order| == 0 ||
      var front := order[..|order| - 1];
      && GreedyTrace(regions, front)
      && InRange(regions, front)
      && GreedyChoice(regions, Elements(front), UnionOf(regions, front), order[|order| - 1])
  }

  lemma {:induction false} TraceFacts(regions: seq<set<int>>, order: seq<nat>)
    requires GreedyTrace(regions, order)
    ensures InRange(regions, order)
    ensures Distinct(order)
    decreases |order|
  {
    if |order| > 0 {
      var last := |order| - 1;
      var front := order[..last];
      TraceFacts(regions, front);
      assert forall k :: 0 <= k < last ==> order[k] == front[k];
      assert order[last] !in Elements(front);
    }
  }

  lemma TraceExtend(regions: seq<set<int>>, order: seq<nat>, b: nat)
    requires GreedyTrace(regions, order)
    requires InRange(regions, order)
    requires GreedyChoice(regions, Elements(order), UnionOf(regions, order), b)
    ensures GreedyTrace(regions, order + [b])
    ensures UnionOf(regions, order + [b]) == UnionOf(regions, order) + regions[b]
  {
    assert (order + [b])[..|order|] == order;
  }

  /** Two greedy traces of the same length are the same trace: the greedy
      rule leaves no choice. */
  lemma {:induction false} GreedyTraceUnique(regions: seq<set<int>>, a: seq<nat>, b: seq<nat>)
    requires GreedyTrace(regions, a) && GreedyTrace(regions, b) && |a| == |b|
    ensures a == b
    decreases |a|
  {
    if |a| > 0 {
      var last := |a| - 1;
      GreedyTraceUnique(regions, a[..last], b[..last]);
      GreedyChoiceUnique(regions, Elements(a[..last]), UnionOf(regions, a[..last]), a[last], b[last]);
      assert a == a[..last] + [a[last]];
      assert b == b[..last] + [b[last]];
    }
  }

  lemma {:induction false} TracePrefix(regions: seq<set<int>>, order: seq<nat>, k: nat)
    requires GreedyTrace(regions, order) && k <= |order|
    ensures GreedyTrace(regions, order[..k])
    decreases |order|
  {
    if k < |order| {
      var front := order[..|order| - 1];
      TracePrefix(regions, front, k);
      assert front[..k] == order[..k];
    } else {
      assert order[..k] == order;
    }
  }

  lemma RegionInAll(regions: seq<set<int>>, i: nat)
    requires i < |regions|
    ensures regions[i] <= AllRegions(regions)
  {
    forall r | r in regions[i]
      ensures r in AllRegions(regions)
    {
      AllRegionsMember(regions, r);
    }
  }

  /** The pick at position `k` of a greedy trace is the greedy choice after
      the picks before it. */
  lemma TraceStepAt(regions: seq<set<int>>, order: seq<nat>, k: nat)
    requires GreedyTrace(regions, order) && k < |order|
    ensures GreedyTrace(regions, order[..k]) && InRange(regions, order[..k])
    ensures GreedyChoice(regions, Elements(order[..k]), UnionOf(regions, order[..k]), order[k])
  {
    TracePrefix(regions, order, k + 1);
    assert order[..k + 1][..k] == order[..k];
    assert order[..k + 1][k] == order[k];
  }

  /** A chunk that adds a label shows the labels covered so far are not all
      of them. */
  lemma GainShowsUncovered(regions: seq<set<int>>, covered: set<int>, x: nat)
    requires x < |regions| && Gain(regions, x, covered) >= 1
    ensures covered != AllRegions(regions)
  {
    RegionInAll(regions, x);
    assert regions[x] - AllRegions(regions) == {};
  }

  /** A greedy trace that goes on past `front` found a label `front` left
      uncovered. */
  lemma LongerTraceUncovers(regions: seq<set<int>>, front: seq<nat>, order: seq<nat>)
    requires GreedyTrace(regions, front) && GreedyTrace(regions, order) && |front| < |order|
    ensures InRange(regions, front)
    ensures UnionOf(regions, front) != AllRegions(regions)
  {
    var k := |front|;
    TraceStepAt(regions, order, k);
    GreedyTraceUnique(regions, front, order[..k]);
    GainShowsUncovered(regions, UnionOf(regions, front), order[k]);
  }

  /** A finished run of the greedy loop under `budget`: greedy picks, no more
      than the budget, and an early stop only once every label is
      covered. */
  predicate CompleteRun(regions: seq<set<int>>, budget: int, order: seq<nat>) {
    && GreedyTrace(regions, order)
    && InRange(regions, order)
    && |order| <= Max(budget, 0)
    && (|order| < budget ==> UnionOf(regions, order) == AllRegions(regions))
  }

  /** The greedy phase has a single possible outcome: any loop that makes
      greedy picks and stops by the same rule computes the same list. */
  lemma GreedyRunUnique(regions: seq<set<int>>, budget: int, a: seq<nat>, b: seq<nat>)
    requires CompleteRun(regions, budget, a) && CompleteRun(regions, budget, b)
    ensures a == b
  {
    if |a| < |b| {
      LongerTraceUncovers(regions, a, b);
      assert false;
    } else if |b| < |a| {
      LongerTraceUncovers(regions, b, a);
      assert false;
    }
    GreedyTraceUnique(regions, a, b);
  }

  lemma AddGainCard(covered: set<int>, add: set<int>)
    requires |add - covered| >= 1
    ensures |covered + add| >= |covered| + 1
  {
    assert covered + add == covered + (add - covered);
    assert covered * (add - covered) == {};
  }

  lemma InRangeAppend(regions: seq<set<int>>, order: seq<nat>, b: nat)
    requires InRange(regions, order) && b < |regions|
    ensures InRange(regions, order + [b])
  {
    assert forall k :: 0 <= k < |order| ==> (order + [b])[k] == order[k];
  }

  /** One greedy pick extends the trace and covers at least one more label. */
  lemma GreedyStep(regions: seq<set<int>>, order: seq<nat>, b: nat)
    requires GreedyTrace(regions, order) && InRange(regions, order)
    requires Best(regions, Elements(order), UnionOf(regions, order)) == Some(b)
    ensures InRange(regions, order + [b]) && GreedyTrace(regions, order + [b])
    ensures UnionOf(regions, order + [b]) == UnionOf(regions, order) + regions[b]
    ensures |UnionOf(regions, order + [b])| >= |UnionOf(regions, order)| + 1
    ensures UnionOf(regions, order + [b]) <= AllRegions(regions)
  {
    var covered := UnionOf(regions, order);
    assert GreedyChoice(regions, Elements(order), covered, b);
    AddGainCard(covered, regions[b]);
    TraceExtend(regions, order, b);
    InRangeAppend(regions, order, b);
    UnionInAll(regions, order + [b]);
  }

  /** The greedy phase. `order` lists the picks in the order they are made. */
  method Greedy(regions: seq<set<int>>, budget: int) returns (order: seq<nat>, covered: set<int>)
    ensures InRange(regions, order)
    ensures covered == UnionOf(regions, order)
    ensures Distinct(order)
    // each pick is the greedy choice given the earlier ones
    ensures GreedyTrace(regions, order)
    // at most min(budget, #labels) picks
    ensures |order| <= Max(budget, 0) && |order| <= |AllRegions(regions)|
    // stopping early means everything is covered
    ensures |order| < budget ==> covered == AllRegions(regions)
    ensures budget >= |AllRegions(regions)| ==> covered == AllRegions(regions)
    ensures CompleteRun(regions, budget, order)
  {
    order := [];
    covered := {};
    while |order| < budget && |covered| < |AllRegions(regions)|
      invariant GreedyTrace(regions, order)
      invariant InRange(regions, order)
      invariant covered == UnionOf(regions, order)
      invariant |order| <= |covered|
      invariant |order| <= Max(budget, 0)
      decreases |AllRegions(regions)| - |covered|
    {
      UncoveredHasGain(regions, order);
      // the script's `break` on `best_image is None` cannot happen
      var b := Best(regions, Elements(order), covered).value;
      GreedyStep(regions, order, b);
      order := order + [b];
      covered := covered + regions[b];
    }
    GreedyExit(regions, budget, order);
  }

  /** When the loop stops, the run is complete: an early stop has covered
      every label, and there are no more picks than labels. */
  lemma GreedyExit(regions: seq<set<int>>, budget: int, order: seq<nat>)
    requires GreedyTrace(regions, order) && InRange(regions, order)
    requires |order| <= |UnionOf(regions, order)| && |order| <= Max(budget, 0)
    requires !(|order| < budget && |UnionOf(regions, order)| < |AllRegions(regions)|)
    ensures Distinct(order)
    ensures |order| <= |AllRegions(regions)|
    ensures |order| < budget ==> UnionOf(regions, order) == AllRegions(regions)
    ensures budget >= |AllRegions(regions)| ==> UnionOf(regions, order) == AllRegions(regions)
    ensures CompleteRun(regions, budget, order)
  {
    var covered := UnionOf(regions, order);
    UnionInAll(regions, order);
    TraceFacts(regions, order);
    if |order| < budget || budget >= |AllRegions(regions)| {
      FullSubset(AllRegions(regions), covered);
    }
  }

  /** The fill phase: while the selection is short and some chunk is left,
      add `sorted(available)[draw % len]`. One draw per added chunk. */
  method Fill(n: nat, selected: set<nat>, budget: int, draws: seq<nat>) returns (out: set<nat>)
    requires forall i :: i in selected ==> i < n
    requires |draws| >= n
    ensures selected <= out
    ensures forall i :: i in out ==> i < n
    ensures |out| == if |selected| >= budget then |selected| else Min(budget, n)
  {
    out := selected;
    var available := Below(n) - selected;
    SplitBelow(n, selected);
    var t := 0;
    while |out| < budget && |available| > 0
      invariant selected <= out
      invariant out * available == {}
      invariant out + available == Below(n)
      invariant |out| + |available| == n
      invariant t + |selected| == |out|
      invariant |out| <= Max(budget, |selected|)
      decreases |available|
    {
      var pool := SortedSet(available, n);
      var idx := pool[draws[t] % |pool|];
      MoveOne(out, available, idx);
      out := out + {idx};
      available := available - {idx};
      t := t + 1;
    }
  }

  /** `f"{chunk_name}_chunk_{chunk_number}.tif"` for an atlas chunk stem:
      the text before the first `_atlas` and the text after the last
      `chunk_`. */
  function PartnerName(atlasStem: string): string {
    FirstPiece(atlasStem, "_atlas") + "_chunk_" + LastPiece(atlasStem, "chunk_") + ".tif"
  }

  datatype ChunkPair = ChunkPair(image: string, atlas: string)

  /** The copy loop over `(atlas, wanted image)` pairs: the error `missing`
      at the first wanted image absent from the image folder. */
  function PairUp(atlas: seq<string>, wanted: seq<string>, images: set<string>, missing: PyError)
    : (r: Result<seq<ChunkPair>>)
    requires |atlas| == |wanted|
    ensures r.Err? <==> exists k :: 0 <= k < |wanted| && wanted[k] !in images
    ensures r.Err? ==> r.error == missing
    ensures r.Ok? ==> |r.value| == |atlas| && forall k :: 0 <= k < |atlas| ==>
      r.value[k] == ChunkPair(wanted[k], atlas[k]) && wanted[k] in images
  {
    if |atlas| == 0 then Ok([])
    else if wanted[0] !in images then Err(missing)
    else
      match PairUp(atlas[1..], wanted[1..], images, missing)
      case Err(e) =>
        assert exists k :: 0 <= k < |wanted| - 1 && wanted[1..][k] !in images;
        Err(e)
      case Ok(rest) =>
        assert forall k :: 1 <= k < |wanted| ==> wanted[1..][k - 1] == wanted[k];
        Ok([ChunkPair(wanted[0], atlas[0])] + rest)
  }

  /** The image chunk file an atlas chunk file pairs with. */
  function ImagePartner(atlasName: string): string {
    PartnerName(Stem(atlasName))
  }

  /** Each selected atlas chunk with its image partner, where `partner` is
      the naming rule (`ImagePartner` in these scripts) and `missing` the
      error a missing partner raises. */
  function Pairs(atlasNames: seq<string>, picked: seq<nat>, images: set<string>,
                 partner: string -> string, missing: PyError)
    : (r: Result<seq<ChunkPair>>)
    requires forall k :: 0 <= k < |picked| ==> picked[k] < |atlasNames|
    ensures r.Err? <==> exists k :: 0 <= k < |picked| && partner(atlasNames[picked[k]]) !in images
    ensures r.Err? ==> r.error == missing
    ensures r.Ok? ==> |r.value| == |picked| && forall k :: 0 <= k < |picked| ==>
      && r.value[k].atlas == atlasNames[picked[k]]
      && r.value[k].image == partner(r.value[k].atlas)
      && r.value[k].image in images
  {
    var atlas := seq(|picked|, k requires 0 <= k < |picked| => atlasNames[picked[k]]);
    var wanted := seq(|picked|, k requires 0 <= k < |picked| => partner(atlas[k]));
    var r := PairUp(atlas, wanted, images, missing);
    assert forall k :: 0 <= k < |picked| ==> wanted[k] == partner(atlasNames[picked[k]]);
    r
  }

  /** Both phases: `order` is the greedy phase's picks and `picked` the
      final selection, `sorted(selected_images)`. */
  method SelectIndices(regions: seq<set<int>>, budget: int, draws: seq<nat>)
    returns (order: seq<nat>, picked: seq<nat>)
    requires |draws| >= |regions|
    ensures StrictlyIncreasing(picked) && InRange(regions, picked)
    ensures |picked| == Min(Max(budget, 0), |regions|)
    ensures GreedyTrace(regions, order)
    ensures forall x :: x in order ==> x in picked
    ensures budget >= |AllRegions(regions)| ==> UnionOf(regions, picked) == AllRegions(regions)
  {
    var covered;
    order, covered := Greedy(regions, budget);
    var selected := Elements(order);
    DistinctCard(order);
    SubsetCard(selected, Below(|regions|));
    var out := Fill(|regions|, selected, budget, draws);
    picked := SortedSet(out, |regions|);
    UnionMonotone(regions, order, picked);
    UnionInAll(regions, picked);
  }

  /** The whole script over the sorted atlas listing. */
  method SelectRepresentativeChunks(atlasNames: seq<string>, regions: seq<set<int>>, budget: int,
                                    draws: seq<nat>, images: set<string>)
    returns (picked: seq<nat>, r: Result<seq<ChunkPair>>)
    requires |regions| == |atlasNames| && |draws| >= |regions|
    ensures InRange(regions, picked)
    ensures |atlasNames| == 0 ==> r == Err(RuntimeError)
    ensures |atlasNames| > 0 ==> r == Pairs(atlasNames, picked, images, ImagePartner, RuntimeError)
    ensures |picked| == Min(Max(budget, 0), |regions|)
    ensures budget >= |AllRegions(regions)| ==> UnionOf(regions, picked) == AllRegions(regions)
  {
    if |atlasNames| == 0 {
      return [], Err(RuntimeError);
    }
    var order;
    order, picked := SelectIndices(regions, budget, draws);
    r := Pairs(atlasNames, picked, images, ImagePartner, RuntimeError);
  }
}

=== FILE: decimal.dfy ===
/** Decimal rendering and parsing of integers: Python's `str(n)` / f-string
    `{n}`, the zero-padded `{n:03d}`, and `int(token)`. */
module Decimal {
  import opened Wrappers

  predicate IsDigit(c: char) {
    '0' <= c <= '9'
  }

  predicate AllDigits(s: string) {
    forall k :: 0 <= k < |s| ==> IsDigit(s[k])
  }

  function DigitChar(d: nat): (c: char)
    requires d < 10
    ensures IsDigit(c)
  {
    ('0' as int + d) as char
  }

  /** Value of a string of decimal digits (leading zeros allowed). */
  function DigitsValue(s: string): nat
    requires AllDigits(s)
  {
    if |s| == 0 then 0
    else DigitsValue(s[..|s| - 1]) * 10 + (s[|s| - 1] as int - '0' as int)
  }

  /** `str(n)` for a natural number: no leading zeros, at least one digit. */
  function NatToString(n: nat): (r: string)
    ensures |r| >= 1 && AllDigits(r)
    ensures |r| > 1 ==> r[0] != '0'
    decreases n
  {
    if n < 10 then [DigitChar(n)] else NatToString(n / 10) + [DigitChar(n % 10)]
  }

  /** `str(i)` for any integer. */
  function IntToString(i: int): (r: string)
    ensures |r| >= 1
    ensures forall k :: 0 <= k < |r| ==> IsDigit(r[k]) || r[k] == '-'
  {
    if i < 0 then "-" + NatToString(-i) else NatToString(i)
  }

  function Zeros(k: nat): (r: string)
    ensures |r| == k && AllDigits(r)
    ensures forall j :: 0 <= j < k ==> r[j] == '0'
  {
    seq(k, _ => '0')
  }

  /** `f"{n:0{width}d}"` for a natural number. */
  function PadNat(n: nat, width: int): (r: string)
    ensures AllDigits(r) && |r| >= 1
    ensures |r| >= width
  {
    var s := NatToString(n);
    if |s| >= width then s else Zeros(width - |s|) + s
  }

  /** `f"{i:0{width}d}"`: the sign counts towards the width and the zeros go
      between the sign and the digits. */
  function PadInt(i: int, width: int): (r: string)
    ensures forall k :: 0 <= k < |r| ==> IsDigit(r[k]) || r[k] == '-'
    ensures |r| >= width
  {
    if i < 0 then "-" + PadNat(-i, width - 1) else PadNat(i, width)
  }

  /** Python's `int(token)` on the tokens the scripts parse: an optional sign
      followed by at least one ASCII digit; anything else is a ValueError
      (`None`). */
  function ParseInt(s: string): (r: Option<int>)
    ensures r.Some? ==> |s| >= 1
  {
    if |s| >= 2 && (s[0] == '-' || s[0] == '+') && AllDigits(s[1..]) then
      Some(if s[0] == '-' then -(DigitsValue(s[1..]) as int) else DigitsValue(s[1..]))
    else if |s| >= 1 && AllDigits(s) then Some(DigitsValue(s))
    else None
  }

  lemma {:induction false} DigitsOfNat(n: nat)
    ensures DigitsValue(NatToString(n)) == n
    decreases n
  {
    var s := NatToString(n);
    if n >= 10 {
      DigitsOfNat(n / 10);
      assert s[..|s| - 1] == NatToString(n / 10);
    }
  }

  lemma {:induction false} LeadingZeros(k: nat, s: string)
    requires AllDigits(s)
    ensures AllDigits(Zeros(k) + s)
    ensures DigitsValue(Zeros(k) + s) == DigitsValue(s)
    decreases |s|
  {
    var z := Zeros(k) + s;
    if |s| == 0 {
      assert z == Zeros(k);
      ZerosValue(k);
    } else {
      assert z[..|z| - 1] == Zeros(k) + s[..|s| - 1];
      LeadingZeros(k, s[..|s| - 1]);
    }
  }

  lemma {:induction false} ZerosValue(k: nat)
    ensures DigitsValue(Zeros(k)) == 0
  {
    if k > 0 {
      assert Zeros(k)[..k - 1] == Zeros(k - 1);
      ZerosValue(k - 1);
    }
  }

  lemma PadNatValue(n: nat, width: int)
    ensures DigitsValue(PadNat(n, width)) == n
  {
    DigitsOfNat(n);
    var s := NatToString(n);
    if |s| < width {
      LeadingZeros(width - |s|, s);
    }
  }

  /** A plain run of digits parses to its value. */
  lemma ParseDigits(s: string)
    requires |s| >= 1 && AllDigits(s)
    ensures ParseInt(s) == Some(DigitsValue(s))
  {
    assert IsDigit(s[0]);
  }

  /** A minus sign before a run of digits negates its value. */
  lemma ParseMinus(s: string)
    requires |s| >= 1 && AllDigits(s)
    ensures ParseInt("-" + s) == Some(-(DigitsValue(s) as int))
  {
    assert ("-" + s)[1..] == s;
  }

  /** `int(str(i)) == i`. */
  lemma ParseIntToString(i: int)
    ensures ParseInt(IntToString(i)) == Some(i)
  {
    if i < 0 {
      DigitsOfNat(-i);
      ParseMinus(NatToString(-i));
    } else {
      DigitsOfNat(i);
      ParseDigits(NatToString(i));
    }
  }

  lemma ParsePadNegative(i: int, width: int)
    requires i < 0
    ensures ParseInt(PadInt(i, width)) == Some(i)
  {
    var digits := PadNat(-i, width - 1);
    assert PadInt(i, width) == "-" + digits;
    PadNatValue(-i, width - 1);
    ParseMinus(digits);
  }

  lemma ParsePadNonnegative(i: int, width: int)
    requires i >= 0
    ensures ParseInt(PadInt(i, width)) == Some(i)
  {
    var digits := PadNat(i, width);
    assert PadInt(i, width) == digits;
    PadNatValue(i, width);
    ParseDigits(digits);
  }

  /** `int(f"{i:0{width}d}") == i`: zero padding survives the round trip. */
  lemma ParsePadInt(i: int, width: int)
    ensures ParseInt(PadInt(i, width)) == Some(i)
  {
    if i < 0 {
      ParsePadNegative(i, width);
    } else {
      ParsePadNonnegative(i, width);
    }
  }

  /** Different naturals render differently. */
  lemma NatToStringInjective(m: nat, n: nat)
    requires NatToString(m) == NatToString(n)
    ensures m == n
  {
    DigitsOfNat(m);
    DigitsOfNat(n);
  }
}

=== FILE: first_sections.dfy ===
/** The first-generation picker, `1_select_representative_sections.py`: keep
    the files whose average value is above a threshold, then take
    `sample_size` evenly spaced ones, clamping the last index into range.

    The listing is in whatever order `glob` returns it (the script does not
    sort), so indices here are positions in that listing. Average pixel
    values are inputs. */
module ThresholdPicker {
  import opened Wrappers
  import opened Sorting
  import opened Arith

  /** Positions of the files kept by `pixel_value > intensity_threshold`, in
      listing order. */
  function Kept(avgs: seq<real>, threshold: real): (r: seq<nat>)
    ensures StrictlyIncreasing(r)
    ensures forall k :: 0 <= k < |r| ==> r[k] < |avgs| && avgs[r[k]] > threshold
    ensures forall i :: 0 <= i < |avgs| && avgs[i] > threshold ==> i in r
  {
    if |avgs| == 0 then []
    else
      var rest := Kept(avgs[..|avgs| - 1], threshold);
      if avgs[|avgs| - 1] > threshold then rest + [|avgs| - 1] else rest
  }

  /** `len // (s - 1) if s > 1 else len`. */
  function PickStep(len: nat, s: int): nat {
    if s > 1 then len / (s - 1) else len
  }

  /** `[min(i * step, len - 1) for i in range(s)]`. */
  function Picks(len: nat, s: int): (r: seq<nat>)
    requires len >= 1
    ensures |r| == (if s > 0 then s else 0)
    ensures forall i :: 0 <= i < |r| ==> r[i] < len
  {
    seq(if s > 0 then s else 0, i requires i >= 0 => Min(i * PickStep(len, s), len - 1))
  }

  /** For `2 <= s <= len` only the last pick can reach `len`, and it does
      exactly when `s - 1` divides `len`; then the step is at least 2. */
  lemma StepFacts(len: nat, s: int, j: nat)
    requires 2 <= s <= len && j < s
    ensures PickStep(len, s) >= 1
    ensures j * PickStep(len, s) <= len
    ensures j * PickStep(len, s) >= len ==> j == s - 1 && len % (s - 1) == 0 && PickStep(len, s) >= 2
  {
    var step := PickStep(len, s);
    assert (s - 1) * step + len % (s - 1) == len;
    MulMonotone(j, s - 1, step);
    if j * step >= len {
      assert j * step == (s - 1) * step;
      if j < s - 1 {
        MulMonotone(j + 1, s - 1, step);
      }
    }
  }

  /** Two multiples of a positive step below a bound: the smaller one stays
      below `len - 1`, since only a last multiple equal to `len` can reach it
      and then the step is at least 2. */
  lemma PickGap(i: nat, j: nat, step: nat, len: nat)
    requires i < j && step >= 1 && j * step <= len
    requires j * step >= len ==> step >= 2
    ensures i * step < j * step && i * step < len - 1
  {
    MulMonotone(i, j - 1, step);
    assert (j - 1) * step + step == j * step;
  }

  lemma MinStrict(x: int, y: int, m: int)
    requires x < y && x < m
    ensures Min(x, m) < Min(y, m)
  {
  }

  lemma PickPair(len: nat, s: int, i: nat, j: nat)
    requires 2 <= s <= len && i < j < s
    ensures Picks(len, s)[i] < Picks(len, s)[j]
  {
    var step := PickStep(len, s);
    StepFacts(len, s, j);
    PickGap(i, j, step, len);
    MinStrict(i * step, j * step, len - 1);
  }

  /** With at least `s` kept files the picks are exactly `s` indices,
      starting at 0 and strictly increasing. */
  lemma PicksIncreasing(len: nat, s: int)
    requires 1 <= len && s <= len
    ensures StrictlyIncreasing(Picks(len, s))
    ensures s >= 1 ==> |Picks(len, s)| == s && Picks(len, s)[0] == 0
  {
    var r := Picks(len, s);
    if s > 1 {
      forall i, j | 0 <= i < j < s
        ensures r[i] < r[j]
      {
        PickPair(len, s, i, j);
      }
    }
  }

  /** The clamp `min(..., len - 1)` changes some pick exactly when `s - 1`
      divides the kept length. */
  lemma ClampFires(len: nat, s: int)
    requires 1 <= s <= len
    ensures (forall i :: 0 <= i < s ==> Picks(len, s)[i] == i * PickStep(len, s))
      <==> !(s > 1 && len % (s - 1) == 0)
  {
    var r := Picks(len, s);
    var step := PickStep(len, s);
    if s > 1 {
      if len % (s - 1) == 0 {
        StepFacts(len, s, s - 1);
        assert (s - 1) * step == len;
        assert r[s - 1] == len - 1;
      } else {
        forall i | 0 <= i < s
          ensures r[i] == i * step
        {
          StepFacts(len, s, i);
        }
      }
    }
  }

  /** The selection the script makes, as positions in the listing. The
      preview of the first and last kept image fails on an empty kept list. */
  function SelectFirstGen(avgs: seq<real>, threshold: real, sampleSize: int): (r: Result<seq<nat>>)
    ensures |Kept(avgs, threshold)| == 0 <==> r == Err(IndexError)
    ensures 0 < |Kept(avgs, threshold)| < sampleSize ==> r == Ok(Kept(avgs, threshold))
    ensures r.Ok? ==> forall k :: 0 <= k < |r.value| ==> r.value[k] in Kept(avgs, threshold)
    ensures r.Ok? ==> StrictlyIncreasing(r.value)
    ensures 1 <= sampleSize <= |Kept(avgs, threshold)| ==>
      r.Ok? && |r.value| == sampleSize && r.value[0] == Kept(avgs, threshold)[0]
  {
    var kept := Kept(avgs, threshold);
    if |kept| == 0 then Err(IndexError)
    else if |kept| < sampleSize then Ok(kept)
    else
      var ps := Picks(|kept|, sampleSize);
      PicksIncreasing(|kept|, sampleSize);
      GatherIncreasing(kept, ps);
      Ok(Gather(kept, ps))
  }

  /** `[kept[p] for p in ps]`. */
  function Gather(kept: seq<nat>, ps: seq<nat>): (out: seq<nat>)
    requires forall k :: 0 <= k < |ps| ==> ps[k] < |kept|
    ensures |out| == |ps|
    ensures forall k :: 0 <= k < |ps| ==> out[k] == kept[ps[k]]
  {
    seq(|ps|, k requires 0 <= k < |ps| => kept[ps[k]])
  }

  /** Increasing positions into an increasing list pick an increasing
      sublist. */
  lemma GatherIncreasing(kept: seq<nat>, ps: seq<nat>)
    requires StrictlyIncreasing(kept) && StrictlyIncreasing(ps)
    requires forall k :: 0 <= k < |ps| ==> ps[k] < |kept|
    ensures StrictlyIncreasing(Gather(kept, ps))
    ensures forall k :: 0 <= k < |ps| ==> Gather(kept, ps)[k] in kept
  {
    var out := Gather(kept, ps);
    forall i, j | 0 <= i < j < |out|
      ensures out[i] < out[j]
    {
      assert ps[i] < ps[j];
    }
  }

  /** The script as written: `os` is never imported, so every run that gets
      past the preview stops at `os.path.basename`, before copying. */
  function FirstGenRunAsWritten(avgs: seq<real>, threshold: real, sampleSize: int): (r: Result<seq<nat>>)
    ensures SelectFirstGen(avgs, threshold, sampleSize).Err? ==> r == SelectFirstGen(avgs, threshold, sampleSize)
    ensures r.Err?
  {
    match SelectFirstGen(avgs, threshold, sampleSize)
    case Err(e) => Err(e)
    case Ok(_) => Err(NameError)
  }

  /** With `import os` added: each selected file is copied under its own
      base name into the new folder. */
  function FirstGenRun(names: seq<string>, avgs: seq<real>, threshold: real, sampleSize: int)
    : (r: Result<seq<string>>)
    requires |names| == |avgs|
    ensures r.Err? <==> |Kept(avgs, threshold)| == 0
    ensures r.Ok? ==> forall k :: 0 <= k < |r.value| ==>
      exists i :: 0 <= i < |names| && avgs[i] > threshold && r.value[k] == names[i]
  {
    match SelectFirstGen(avgs, threshold, sampleSize)
    case Err(e) => Err(e)
    case Ok(ix) =>
      KeptMembers(avgs, threshold, ix);
      Ok(seq(|ix|, k requires 0 <= k < |ix| => names[ix[k]]))
  }

  /** Positions drawn from the kept list name kept files. */
  lemma KeptMembers(avgs: seq<real>, threshold: real, ix: seq<nat>)
    requires forall k :: 0 <= k < |ix| ==> ix[k] in Kept(avgs, threshold)
    ensures forall k :: 0 <= k < |ix| ==> ix[k] < |avgs| && avgs[ix[k]] > threshold
  {
    var kept := Kept(avgs, threshold);
    forall k | 0 <= k < |ix|
      ensures ix[k] < |avgs| && avgs[ix[k]] > threshold
    {
      var m :| 0 <= m < |kept| && kept[m] == ix[k];
    }
  }

  /** Distinct listing names give distinct destination names. */
  lemma FirstGenRunDistinct(names: seq<string>, avgs: seq<real>, threshold: real, sampleSize: int)
    requires |names| == |avgs| && Distinct(names)
    ensures var r := FirstGenRun(names, avgs, threshold, sampleSize);
      r.Ok? ==> Distinct(r.value)
  {
    var sel := SelectFirstGen(avgs, threshold, sampleSize);
    if sel.Ok? {
      var ix := sel.value;
      var r := FirstGenRun(names, avgs, threshold, sampleSize).value;
      forall i, j | 0 <= i < j < |r|
        ensures r[i] != r[j]
      {
        assert ix[i] < ix[j];
      }
    }
  }

  /** Every run of the script as written that keeps some file fails,
      whereas the intended script copies. */
  lemma FirstGenMissingImport(names: seq<string>, avgs: seq<real>, threshold: real, sampleSize: int)
    requires |names| == |avgs| && |Kept(avgs, threshold)| > 0
    ensures FirstGenRunAsWritten(avgs, threshold, sampleSize) == Err(NameError)
    ensures FirstGenRun(names, avgs, threshold, sampleSize).Ok?
  {
  }
}

=== FILE: folders.dfy ===
/** The folder- and file-name rules of the driver scripts: the atlas-slice
    extraction step (`preprocess_for_cellpose/2a_get_selected_atlas_sections.py`),
    the root preprocessing driver (`1_preprocess_data.py`) and the collage
    script (`lfsm_batch_eval.py`). Each script reads its metadata from the
    `_`-separated tokens of an acquisition folder name such as
    `20250730_10_05_08_NB_CS0318_M_P728_C57_LAS_488Bg_561NeuN_640Iba1_4x_4umstep_Destripe_DONE`. */
module Folders {
  import opened Wrappers
  import opened Strings
  import opened Sorting
  import opened Decimal
  import opened Sections

  // ---------------------------------------------------------------------
  // Atlas-slice extraction
  // ---------------------------------------------------------------------

  /** The sample id of the atlas step: the same token rule as the sampler,
      but applied to the folder's `stem` rather than its full name. */
  function AtlasSampleId(folderName: string, customFormat: bool, customIndex: int): (r: Result<string>)
    ensures var parts := Split(Stem(folderName), '_');
      var index := IdIndex(customFormat, customIndex);
      && (index >= |parts| ==> r == Err(RuntimeError))
      && (0 <= index < |parts| ==> r == Ok(parts[index]))
  {
    SampleId(Stem(folderName), IdIndex(customFormat, customIndex))
  }

  /** A name without a dot is its own stem. */
  lemma StemOfUndotted(name: string)
    requires '.' !in name
    ensures Stem(name) == name
  {
    assert LastDot(name).None?;
  }

  /** Without a dot in the folder name the stem is the name, so the atlas
      step and the sampler find the same id. */
  lemma AtlasIdMatchesSampler(folderName: string, customFormat: bool, customIndex: int)
    requires '.' !in folderName
    ensures AtlasSampleId(folderName, customFormat, customIndex) == SampleId(folderName, IdIndex(customFormat, customIndex))
  {
    StemOfUndotted(folderName);
  }

  /** Extending the last part extends the join. */
  lemma {:induction false} JoinExtendLast(parts: seq<string>, x: string)
    requires |parts| >= 1
    ensures Join(parts, '_') + x == Join(parts[..|parts| - 1] + [parts[|parts| - 1] + x], '_')
    decreases |parts|
  {
    if |parts| > 1 {
      JoinExtendLast(parts[1..], x);
      var ext := parts[..|parts| - 1] + [parts[|parts| - 1] + x];
      assert ext[1..] == parts[1..][..|parts[1..]| - 1] + [parts[1..][|parts[1..]| - 1] + x];
    }
  }

  /** The atlas step reads the id from the stem, which drops the suffix. */
  lemma DottedAtlasId(tokens: seq<string>, ext: string)
    requires |tokens| == 6 && forall k :: 0 <= k < 6 ==> '_' !in tokens[k] && '.' !in tokens[k]
    requires |tokens[5]| > 0 && |ext| > 0 && '.' !in ext
    ensures AtlasSampleId(Join(tokens, '_') + "." + ext, false, 0) == Ok(tokens[5])
  {
    StemOfSuffixed(Join(tokens, '_'), ext);
    SampleIdOfTokens(tokens, 5);
  }

  /** The sampler reads the id from the full name, suffix included. */
  lemma DottedSamplerId(tokens: seq<string>, ext: string)
    requires |tokens| == 6 && forall k :: 0 <= k < 6 ==> '_' !in tokens[k]
    requires '_' !in ext
    ensures SampleId(Join(tokens, '_') + "." + ext, 5) == Ok(tokens[5] + "." + ext)
  {
    var x := "." + ext;
    var dotted := tokens[..5] + [tokens[5] + x];
    JoinExtendLast(tokens, x);
    assert Join(tokens, '_') + "." + ext == Join(tokens, '_') + x;
    assert tokens[5] + x == tokens[5] + "." + ext;
    assert '_' !in tokens[5] + "." + ext;
    SampleIdOfTokens(dotted, 5);
  }

  /** When the sample id is the last token and the folder name carries a
      suffix, the atlas step drops the suffix from the id and the sampler
      keeps it. */
  lemma AtlasIdOfDottedFolder(tokens: seq<string>, ext: string)
    requires |tokens| == 6 && forall k :: 0 <= k < 6 ==> '_' !in tokens[k] && '.' !in tokens[k]
    requires |tokens[5]| > 0 && |ext| > 0 && '.' !in ext && '_' !in ext
    ensures AtlasSampleId(Join(tokens, '_') + "." + ext, false, 0) == Ok(tokens[5])
    ensures SampleId(Join(tokens, '_') + "." + ext, 5) == Ok(tokens[5] + "." + ext)
  {
    DottedAtlasId(tokens, ext);
    DottedSamplerId(tokens, ext);
  }

  /** The glob pattern `{sample_id}*.tif` on a file name: the id as a prefix
      and `.tif` as a suffix, not overlapping. */
  predicate MatchesIdGlob(sid: string, name: string) {
    |name| >= |sid| + 4 && name[..|sid|] == sid && EndsWith(name, ".tif")
  }

  /** The selected images of one sample, sorted. */
  function SubsetImages(sid: string, names: seq<string>): (r: seq<string>)
    ensures forall n :: n in r <==> n in names && MatchesIdGlob(sid, n)
    ensures SortedBy(r, LexLe)
    ensures |r| <= |names|
  {
    var matching := FilterIdGlob(sid, names);
    LexTotal();
    var r := InsertionSort(matching, LexLe);
    assert forall n :: n in r <==> n in matching by {
      assert multiset(r) == multiset(matching);
      forall n
        ensures n in r <==> n in multiset(r)
        ensures n in matching <==> n in multiset(matching)
      {
      }
    }
    r
  }

  function FilterIdGlob(sid: string, names: seq<string>): (r: seq<string>)
    ensures forall n :: n in r <==> n in names && MatchesIdGlob(sid, n)
    ensures |r| <= |names|
  {
    if |names| == 0 then []
    else
      var rest := FilterIdGlob(sid, names[1..]);
      assert names == [names[0]] + names[1..];
      if MatchesIdGlob(sid, names[0]) then [names[0]] + rest else rest
  }

  /** The pattern is a prefix match: images of a sample whose id extends
      this one are selected too. */
  lemma IdGlobSharesPrefix(sid: string, ext: string, rest: string, names: seq<string>)
    requires sid + ext + rest + ".tif" in names
    ensures sid + ext + rest + ".tif" in SubsetImages(sid, names)
  {
    var n := sid + ext + rest + ".tif";
    assert n[..|sid|] == sid;
    assert n[|n| - 4..] == ".tif";
  }

  /** The atlas slice's file name: the image name up to its first dot, then
      `_atlas_slice.tif`. */
  function AtlasSliceFile(name: string): (r: string)
    ensures EndsWith(r, "_atlas_slice.tif")
    ensures r[..|r| - 16] == FirstPiece(name, ".")
    ensures '.' !in FirstPiece(name, ".")
  {
    var head := FirstPiece(name, ".");
    NoDotBefore(name, head);
    var r := head + "_atlas_slice.tif";
    assert r[..|r| - 16] == head;
    r
  }

  lemma NoDotBefore(name: string, head: string)
    requires head == FirstPiece(name, ".")
    ensures '.' !in head
  {
    forall k | 0 <= k < |head|
      ensures head[k] != '.'
    {
      assert !OccursAt(name, ".", k);
      assert name[k..k + 1] == [name[k]];
    }
  }

  /** The atlas file's stem is the image's name head with `_atlas_slice`
      appended, so the name can be matched back to its image. */
  lemma AtlasSliceStem(name: string)
    requires |FirstPiece(name, ".")| > 0
    ensures Stem(AtlasSliceFile(name)) == FirstPiece(name, ".") + "_atlas_slice"
  {
    var head := FirstPiece(name, ".");
    StemOfSuffixed(head + "_atlas_slice", "tif");
    assert AtlasSliceFile(name) == head + "_atlas_slice" + "." + "tif";
  }

  // ---------------------------------------------------------------------
  // Root preprocessing driver
  // ---------------------------------------------------------------------

  /** The z-step token of a folder name: the text before the first
      `umstep`, then its last `_`-separated token. */
  function ZStepToken(name: string): (r: string)
    ensures '_' !in r
  {
    var parts := Split(FirstPiece(name, "umstep"), '_');
    SplitPieces(FirstPiece(name, "umstep"), '_');
    parts[|parts| - 1]
  }

  /** A name of the form `{pre}_{t}umstep{rest}` yields `t`, when `t` has no
      underscore and `umstep` does not occur earlier. */
  lemma {:induction false} ZStepTokenOf(pre: string, t: string, rest: string)
    requires '_' !in t
    requires !Contains(pre + "_" + t, "umstep")
    ensures ZStepToken(pre + "_" + t + "umstep" + rest) == t
  {
    UniqueHead("umstep");
    FirstPieceOfJoin(pre + "_" + t, "umstep", rest);
    SplitConcat(pre, '_', t);
    SplitNoSeparator(t, '_');
    assert pre + "_" + t == pre + ['_'] + t;
  }

  /** The detected z step: an integer, or the token itself when `int()`
      fails (the script only prints a message and carries on with the
      string). */
  datatype ZStep = ZInt(n: int) | ZText(text: string)

  /** The tokens of all input folders. */
  function ZStepTokens(names: seq<string>): (r: seq<string>)
    ensures |r| == |names|
    ensures forall k :: 0 <= k < |names| ==> r[k] == ZStepToken(names[k])
  {
    seq(|names|, k requires 0 <= k < |names| => ZStepToken(names[k]))
  }

  /** Auto-detection of the z step: exactly one distinct token across the
      folders, else ValueError. */
  function DetectZStep(names: seq<string>): (r: Result<ZStep>)
    ensures r.Err? ==> r.error == ValueError
    ensures r.Ok? <==> |names| > 0 && forall k :: 0 <= k < |names| ==> ZStepToken(names[k]) == ZStepToken(names[0])
    ensures r.Ok? && r.value.ZInt? ==> ParseInt(ZStepToken(names[0])) == Some(r.value.n)
    ensures r.Ok? && r.value.ZText? ==> ParseInt(ZStepToken(names[0])).None? && r.value.text == ZStepToken(names[0])
  {
    var tokens := ZStepTokens(names);
    SingleToken(tokens);
    if |Elements(tokens)| != 1 then Err(ValueError)
    else
      match ParseInt(tokens[0])
      case Some(n) => Ok(ZInt(n))
      case None => Ok(ZText(tokens[0]))
  }

  /** One distinct token means a non-empty list of equal tokens. */
  lemma {:induction false} SingleToken(tokens: seq<string>)
    ensures |Elements(tokens)| == 1 <==> |tokens| > 0 && forall k :: 0 <= k < |tokens| ==> tokens[k] == tokens[0]
  {
    if |tokens| > 0 && forall k :: 0 <= k < |tokens| ==> tokens[k] == tokens[0] {
      assert Elements(tokens) == {tokens[0]};
    }
    if |Elements(tokens)| == 1 && |tokens| > 0 {
      forall k | 0 <= k < |tokens|
        ensures tokens[k] == tokens[0]
      {
        var pair := {tokens[0], tokens[k]};
        assert pair <= Elements(tokens);
        var others := Elements(tokens) - pair;
        assert Elements(tokens) == pair + others;
        assert |pair| <= 1;
      }
    }
    if |tokens| == 0 {
      assert Elements(tokens) == {};
    }
  }

  /** Folders named `{pre}_{t}umstep{rest}` with one shared `t` give the
      step `t`. */
  lemma DetectSharedStep(names: seq<string>, pres: seq<string>, rests: seq<string>, t: string)
    requires |names| > 0 && |pres| == |names| && |rests| == |names|
    requires '_' !in t
    requires forall k :: 0 <= k < |names| ==>
      names[k] == pres[k] + "_" + t + "umstep" + rests[k] && !Contains(pres[k] + "_" + t, "umstep")
    ensures DetectZStep(names).Ok?
    ensures ParseInt(t).Some? ==> DetectZStep(names) == Ok(ZInt(ParseInt(t).value))
    ensures ParseInt(t).None? ==> DetectZStep(names) == Ok(ZText(t))
  {
    forall k | 0 <= k < |names|
      ensures ZStepToken(names[k]) == t
    {
      ZStepTokenOf(pres[k], t, rests[k]);
    }
  }

  /** `{0: a, 1: b, 2: c}.get(channel)` formatted into a string: `None` for
      any other channel. */
  function Wavelength(oldFormat: bool, channel: int): string {
    if channel == 0 then (if oldFormat then "00" else "488")
    else if channel == 1 then (if oldFormat then "01" else "561")
    else if channel == 2 then (if oldFormat then "02" else "640")
    else "None"
  }

  /** The token index of the z plane in the image names. */
  function ZPlaneIndex(oldFormat: bool): nat {
    if oldFormat then 0 else 2
  }

  /** The channel's image folder inside an acquisition folder. */
  function ChannelFolder(oldFormat: bool, channel: int): string {
    if oldFormat then "stitched_" + Wavelength(true, channel)
    else "Ex_" + Wavelength(false, channel) + "_Ch" + IntToString(channel) + "_stitched"
  }

  /** The three channels of either format have three different folders. */
  lemma ChannelFoldersDistinct(oldFormat: bool, c1: int, c2: int)
    requires 0 <= c1 <= 2 && 0 <= c2 <= 2 && c1 != c2
    ensures ChannelFolder(oldFormat, c1) != ChannelFolder(oldFormat, c2)
  {
    var f1 := ChannelFolder(oldFormat, c1);
    var f2 := ChannelFolder(oldFormat, c2);
    if oldFormat {
      assert f1[10] != f2[10];
    } else {
      assert f1[3] == Wavelength(false, c1)[0] && f2[3] == Wavelength(false, c2)[0];
    }
  }

  /** What the driver writes for one channel folder. */
  function OutputFolder(channelFolder: string, createMips: bool, normalize: bool,
                        thickness: string, minVal: string, maxVal: string): (r: Option<string>)
    ensures r.None? <==> !createMips && !normalize
    ensures r.Some? ==> |r.value| > |channelFolder| + 1 && r.value[..|channelFolder| + 1] == channelFolder + "_"
  {
    if createMips then
      if normalize then Some(channelFolder + "_MIP" + thickness + "um_min" + minVal + "_max" + maxVal)
      else Some(channelFolder + "_MIP" + thickness + "um")
    else if normalize then Some(channelFolder + "_normalized_min" + minVal + "_max" + maxVal)
    else None
  }

  /** The three kinds of output never share a folder, and none is the
      channel folder itself (so the copy never targets its source). */
  lemma OutputFoldersDistinct(channelFolder: string, thickness: string, minVal: string, maxVal: string)
    ensures var a := OutputFolder(channelFolder, true, true, thickness, minVal, maxVal).value;
      var b := OutputFolder(channelFolder, true, false, thickness, minVal, maxVal).value;
      var c := OutputFolder(channelFolder, false, true, thickness, minVal, maxVal).value;
      a != b && a != c && b != c && a != channelFolder && b != channelFolder && c != channelFolder
  {
    var n := |channelFolder|;
    var a := OutputFolder(channelFolder, true, true, thickness, minVal, maxVal).value;
    var b := OutputFolder(channelFolder, true, false, thickness, minVal, maxVal).value;
    var c := OutputFolder(channelFolder, false, true, thickness, minVal, maxVal).value;
    assert a[n + 1] == 'M' && b[n + 1] == 'M' && c[n + 1] == 'n';
    assert |a| > |b|;
  }

  // ---------------------------------------------------------------------
  // Collage labels
  // ---------------------------------------------------------------------

  /** Id, age and genotype of a sample: tokens 5, 7 and 8 of the folder
      name; fewer than nine tokens is an IndexError. */
  datatype SampleInfo = SampleInfo(id: string, age: string, genotype: string)

  function CollageInfo(folderName: string): (r: Result<SampleInfo>)
    ensures r.Ok? <==> |Split(folderName, '_')| >= 9
    ensures r.Err? ==> r.error == IndexError
    ensures r.Ok? ==> var parts := Split(folderName, '_');
      r.value == SampleInfo(parts[5], parts[7], parts[8])
  {
    var parts := Split(folderName, '_');
    if |parts| < 9 then Err(IndexError)
    else Ok(SampleInfo(parts[5], parts[7], parts[8]))
  }

  /** The collage reads the id from the same token as the sampler's
      default. */
  lemma CollageIdMatchesSampler(folderName: string)
    requires CollageInfo(folderName).Ok?
    ensures SampleId(folderName, 5) == Ok(CollageInfo(folderName).value.id)
  {
  }

  /** The caption drawn on each collage tile. */
  function Caption(info: SampleInfo): (r: string)
    ensures |r| >= 4 && r[..4] == "ID: " && info.id <= r[4..]
  {
    var r := "ID: " + info.id + ", Age: " + info.age + ", Genotype: " + info.genotype;
    assert r[4..] == info.id + ", Age: " + info.age + ", Genotype: " + info.genotype;
    r
  }
}

=== FILE: labels.dfy ===
/** `relabel_sequential_for_preview` of `utils/utils.py`: the distinct
    nonzero labels of a 2-D label image, in ascending order, are renumbered
    1..N, and background 0 stays 0. The image is a grid of integer labels;
    the int32 type of the result is not modelled. */
module Labels {
  import opened Sorting

  /** A label image, row by row. */
  type Image = seq<seq<int>>

  /** Two images with the same number of rows and the same row lengths. */
  predicate SameShape(a: Image, b: Image) {
    |a| == |b| && forall i :: 0 <= i < |a| ==> |a[i]| == |b[i]|
  }

  /** Label `v` appears at some pixel of `img`. */
  predicate Occurs(img: Image, v: int) {
    exists i, j :: 0 <= i < |img| && 0 <= j < |img[i]| && img[i][j] == v
  }

  /** The nonzero labels of a row, in order. */
  function NonzeroRow(row: seq<int>): (r: seq<int>)
    ensures forall v :: v in r <==> v in row && v != 0
  {
    if |row| == 0 then []
    else
      assert row == [row[0]] + row[1..];
      (if row[0] != 0 then [row[0]] else []) + NonzeroRow(row[1..])
  }

  /** The nonzero pixels of the image, row by row. */
  function NonzeroPixels(img: Image): (r: seq<int>)
    ensures forall v :: v in r <==> v != 0 && Occurs(img, v)
  {
    if |img| == 0 then []
    else
      var rest := NonzeroPixels(img[1..]);
      var r := NonzeroRow(img[0]) + rest;
      forall v
        ensures v in r <==> v != 0 && Occurs(img, v)
      {
        if v in r {
          if v in NonzeroRow(img[0]) {
            var j :| 0 <= j < |img[0]| && img[0][j] == v;
            assert img[0][j] == v;
          } else {
            assert v in rest;
            var i, j :| 0 <= i < |img[1..]| && 0 <= j < |img[1..][i]| && img[1..][i][j] == v;
            assert img[i + 1][j] == v;
          }
        }
        if v != 0 && Occurs(img, v) {
          var i, j :| 0 <= i < |img| && 0 <= j < |img[i]| && img[i][j] == v;
          if i == 0 {
            assert v in img[0];
          } else {
            assert img[1..][i - 1][j] == v;
          }
        }
      }
      r
  }

  /** Dropping repeats from a sorted list gives a strictly increasing one
      with the same elements. */
  function Dedup(s: seq<int>): (r: seq<int>)
    requires forall i, j :: 0 <= i < j < |s| ==> s[i] <= s[j]
    ensures StrictlyIncreasing(r)
    ensures forall v :: v in r <==> v in s
    ensures |s| > 0 ==> |r| > 0 && r[0] == s[0]
  {
    if |s| == 0 then []
    else
      var rest := Dedup(s[1..]);
      assert s == [s[0]] + s[1..];
      if |rest| > 0 && rest[0] == s[0] then rest
      else
        assert forall v :: v in rest ==> s[0] < v by {
          forall v | v in rest
            ensures s[0] < v
          {
            var k :| 1 <= k < |s| && s[k] == v;
          }
        }
        [s[0]] + rest
  }

  /** `np.unique(label_slice)` without 0: the distinct nonzero labels in
      ascending order. */
  function UniqueNonzero(img: Image): (r: seq<int>)
    ensures StrictlyIncreasing(r)
    ensures forall v :: v in r <==> v != 0 && Occurs(img, v)
  {
    var pixels := NonzeroPixels(img);
    assert Total(IntLe);
    var sorted := InsertionSort(pixels, IntLe);
    SortedAll(sorted);
    assert forall v :: v in sorted <==> v in pixels by {
      forall v
        ensures v in sorted <==> v in multiset(sorted)
        ensures v in pixels <==> v in multiset(pixels)
      {
      }
    }
    Dedup(sorted)
  }

  /** The position of `v` in a list that holds it. */
  function IndexOf(s: seq<int>, v: int): (k: nat)
    requires v in s
    ensures k < |s| && s[k] == v
  {
    if s[0] == v then 0 else 1 + IndexOf(s[1..], v)
  }

  /** An image of zeros with the shape of `img`: `np.zeros_like`. */
  function Zeros(img: Image): (r: Image)
    ensures SameShape(r, img)
    ensures forall i, j :: 0 <= i < |r| && 0 <= j < |r[i]| ==> r[i][j] == 0
  {
    seq(|img|, i requires 0 <= i < |img| => seq(|img[i]|, j => 0))
  }

  /** `relabeled[label_slice == oldId] = newId`. */
  function Paint(out: Image, img: Image, oldId: int, newId: int): (r: Image)
    requires SameShape(out, img)
    ensures SameShape(r, img)
    ensures forall i, j :: 0 <= i < |img| && 0 <= j < |img[i]| ==>
      r[i][j] == (if img[i][j] == oldId then newId else out[i][j])
  {
    seq(|img|, i requires 0 <= i < |img| =>
      seq(|img[i]|, j requires 0 <= j < |img[i]| => if img[i][j] == oldId then newId else out[i][j]))
  }

  /** The loop `for new_id, old_id in enumerate(labels, start=next)`: a
      pixel whose label is not in `labels` is never painted. */
  function PaintAll(out: Image, img: Image, labels: seq<int>, next: nat): (r: Image)
    requires SameShape(out, img)
    ensures SameShape(r, img)
    ensures forall i, j :: 0 <= i < |img| && 0 <= j < |img[i]| && img[i][j] !in labels ==> r[i][j] == out[i][j]
    decreases |labels|
  {
    if |labels| == 0 then out
    else PaintAll(Paint(out, img, labels[0], next), img, labels[1..], next + 1)
  }

  /** After the loop, a pixel holding the `k`-th label carries `next + k`
      and every other pixel keeps its value. */
  lemma {:induction false} PaintAllPixel(out: Image, img: Image, labels: seq<int>, next: nat, i: nat, j: nat)
    requires SameShape(out, img) && Distinct(labels)
    requires i < |img| && j < |img[i]|
    ensures var r := PaintAll(out, img, labels, next);
      r[i][j] == (if img[i][j] in labels then next + IndexOf(labels, img[i][j]) else out[i][j])
    decreases |labels|
  {
    if |labels| > 0 {
      var painted := Paint(out, img, labels[0], next);
      assert Distinct(labels[1..]);
      PaintAllPixel(painted, img, labels[1..], next + 1, i, j);
      var v := img[i][j];
      if v == labels[0] {
        assert forall k :: 0 <= k < |labels[1..]| ==> labels[1..][k] == labels[k + 1];
        assert v !in labels[1..];
      } else if v in labels {
        assert v in labels[1..] by {
          var k :| 0 <= k < |labels| && labels[k] == v;
          assert labels[1..][k - 1] == v;
        }
      }
    }
  }

  /** `relabel_sequential_for_preview`: the result is a new image, the
      argument is left as it was. */
  function Relabel(img: Image): (r: Image)
    ensures SameShape(r, img)
  {
    PaintAll(Zeros(img), img, UniqueNonzero(img), 1)
  }

  /** The new id of label `v`: 0 for the background, else one more than
      its rank among the nonzero labels. */
  function NewId(img: Image, v: int): nat
    requires v == 0 || Occurs(img, v)
  {
    if v == 0 then 0 else 1 + IndexOf(UniqueNonzero(img), v)
  }

  /** Every pixel of the result is the new id of the pixel's old label. */
  lemma RelabelPixel(img: Image, i: nat, j: nat)
    requires i < |img| && j < |img[i]|
    ensures Relabel(img)[i][j] == NewId(img, img[i][j])
  {
    var labels := UniqueNonzero(img);
    assert Occurs(img, img[i][j]);
    PaintAllPixel(Zeros(img), img, labels, 1, i, j);
  }

  /** The number of distinct nonzero labels, N. */
  function LabelCount(img: Image): nat {
    |UniqueNonzero(img)|
  }

  /** The labels in ascending order, as their positions in a strictly
      increasing list. */
  lemma IncreasingIndex(s: seq<int>, u: int, v: int)
    requires StrictlyIncreasing(s) && u in s && v in s
    ensures u < v <==> IndexOf(s, u) < IndexOf(s, v)
    ensures u == v <==> IndexOf(s, u) == IndexOf(s, v)
  {
    var a, b := IndexOf(s, u), IndexOf(s, v);
    if a < b {
      assert s[a] < s[b];
    } else if b < a {
      assert s[b] < s[a];
    }
  }

  /** Background stays 0, and every nonzero label gets an id in 1..N. */
  lemma RelabelRange(img: Image, i: nat, j: nat)
    requires i < |img| && j < |img[i]|
    ensures img[i][j] == 0 <==> Relabel(img)[i][j] == 0
    ensures img[i][j] != 0 ==> 1 <= Relabel(img)[i][j] <= LabelCount(img)
  {
    RelabelPixel(img, i, j);
    assert Occurs(img, img[i][j]);
  }

  /** New ids follow the ascending order of the old labels, so the
      renumbering is injective on the nonzero labels. */
  lemma RelabelOrder(img: Image, i1: nat, j1: nat, i2: nat, j2: nat)
    requires i1 < |img| && j1 < |img[i1]| && i2 < |img| && j2 < |img[i2]|
    requires img[i1][j1] != 0 && img[i2][j2] != 0
    ensures img[i1][j1] < img[i2][j2] <==> Relabel(img)[i1][j1] < Relabel(img)[i2][j2]
    ensures img[i1][j1] == img[i2][j2] <==> Relabel(img)[i1][j1] == Relabel(img)[i2][j2]
  {
    RelabelPixel(img, i1, j1);
    RelabelPixel(img, i2, j2);
    assert Occurs(img, img[i1][j1]) && Occurs(img, img[i2][j2]);
    IncreasingIndex(UniqueNonzero(img), img[i1][j1], img[i2][j2]);
  }

  /** Every id in 1..N is used by some pixel. */
  lemma RelabelOnto(img: Image, id: nat)
    requires 1 <= id <= LabelCount(img)
    ensures exists i, j :: 0 <= i < |img| && 0 <= j < |img[i]| && Relabel(img)[i][j] == id
  {
    var labels := UniqueNonzero(img);
    var v := labels[id - 1];
    assert v in labels;
    var i, j :| 0 <= i < |img| && 0 <= j < |img[i]| && img[i][j] == v;
    RelabelPixel(img, i, j);
  }

  /** The set of nonzero labels of the image. */
  function LabelSet(img: Image): set<int> {
    set i, j | 0 <= i < |img| && 0 <= j < |img[i]| && img[i][j] != 0 :: img[i][j]
  }

  /** N is the number of distinct nonzero labels of the image. */
  lemma LabelCountIsDistinct(img: Image)
    ensures LabelCount(img) == |LabelSet(img)|
  {
    var labels := UniqueNonzero(img);
    forall v
      ensures v in Elements(labels) <==> v in LabelSet(img)
    {
      if v in LabelSet(img) {
        var i, j :| 0 <= i < |img| && 0 <= j < |img[i]| && img[i][j] != 0 && img[i][j] == v;
        assert Occurs(img, v);
      }
    }
    assert Elements(labels) == LabelSet(img);
    DistinctCard(labels);
  }

  /** The ids 1..n, in order. */
  function Ids(n: nat): (r: seq<int>)
    ensures |r| == n && StrictlyIncreasing(r)
    ensures forall x :: x in r <==> 1 <= x <= n
  {
    var r := seq(n, k requires 0 <= k < n => k + 1);
    forall x | 1 <= x <= n
      ensures x in r
    {
      assert r[x - 1] == x;
    }
    r
  }

  /** In a strictly increasing list, entries grow at least as fast as
      their positions. */
  lemma {:induction false} Gap(s: seq<int>, a: nat, b: nat)
    requires StrictlyIncreasing(s) && a <= b < |s|
    ensures s[b] - s[a] >= b - a
    decreases b - a
  {
    if a < b {
      Gap(s, a + 1, b);
    }
  }

  /** A strictly increasing list of `n` values from 1..n is 1, 2, ..., n. */
  lemma IncreasingIds(s: seq<int>, n: nat)
    requires StrictlyIncreasing(s) && |s| == n
    requires forall x :: x in s ==> 1 <= x <= n
    ensures s == Ids(n)
  {
    forall k | 0 <= k < |s|
      ensures s[k] == k + 1
    {
      assert s[0] in s && s[n - 1] in s;
      Gap(s, 0, k);
      Gap(s, k, n - 1);
    }
  }

  /** A value is a nonzero label of the relabelled image exactly when it
      is one of 1..N. */
  lemma RelabelledMember(img: Image, v: int)
    ensures v in UniqueNonzero(Relabel(img)) <==> v in Ids(LabelCount(img))
  {
    var r := Relabel(img);
    if v != 0 && Occurs(r, v) {
      var i, j :| 0 <= i < |r| && 0 <= j < |r[i]| && r[i][j] == v;
      RelabelRange(img, i, j);
    }
    if v in Ids(LabelCount(img)) {
      RelabelOnto(img, v);
    }
  }

  /** The nonzero labels of a relabelled image, in ascending order, are
      exactly 1..N. */
  lemma RelabelledLabels(img: Image)
    ensures UniqueNonzero(Relabel(img)) == Ids(LabelCount(img))
  {
    var n := LabelCount(img);
    var u := UniqueNonzero(Relabel(img));
    var ids := Ids(n);
    forall v
      ensures v in u <==> v in ids
    {
      RelabelledMember(img, v);
    }
    assert Elements(u) == Elements(ids);
    DistinctCard(u);
    DistinctCard(ids);
    IncreasingIds(u, n);
  }

  /** A relabelled pixel keeps its value under a second relabelling. */
  lemma RelabelFixedPixel(img: Image, i: nat, j: nat)
    requires i < |Relabel(img)| && j < |Relabel(img)[i]|
    ensures Relabel(Relabel(img))[i][j] == Relabel(img)[i][j]
  {
    var r := Relabel(img);
    var v := r[i][j];
    RelabelPixel(r, i, j);
    if v != 0 {
      RelabelledLabels(img);
      var u := UniqueNonzero(r);
      assert Occurs(r, v);
      var k := IndexOf(u, v);
      assert u[k] == k + 1;
    }
  }

  /** Relabelling a relabelled image changes nothing: its labels are
      already 1..N in order. */
  lemma RelabelIdempotent(img: Image)
    ensures Relabel(Relabel(img)) == Relabel(img)
  {
    var r := Relabel(img);
    var rr := Relabel(r);
    forall i | 0 <= i < |r|
      ensures rr[i] == r[i]
    {
      forall j | 0 <= j < |r[i]|
        ensures rr[i][j] == r[i][j]
      {
        RelabelFixedPixel(img, i, j);
      }
    }
  }
}

=== FILE: legacy_coverage.dfy ===
/** The older chunk selector, `5b_select_representative_chunks.py` at the
    repository root. Its greedy phase uses the same rule as `Coverage`, but
    the listing is whatever order `glob` returns (an input here), the loop
    has no `break` and a step without a best chunk would change nothing.
    The fill phase calls `random.choice` although `random` is never
    imported, and has no guard for an exhausted pool. Partner images are
    looked up in the sibling `filtered_image_chunks` folder and copied with
    no existence check. */
module LegacyCoverage {
  import opened Wrappers
  import opened Sorting
  import opened Coverage

  /** The greedy loop without `break`: `if best_image is not None` guards
      the update instead. It still makes progress on every pass, and it
      computes the same picks as the newer loop. */
  method LegacyGreedy(regions: seq<set<int>>, budget: int) returns (order: seq<nat>, covered: set<int>)
    ensures CompleteRun(regions, budget, order)
    ensures covered == UnionOf(regions, order)
    ensures Distinct(order)
    ensures |order| <= |AllRegions(regions)|
    ensures budget >= |AllRegions(regions)| ==> covered == AllRegions(regions)
  {
    order := [];
    covered := {};
    while |order| < budget && |covered| < |AllRegions(regions)|
      invariant GreedyTrace(regions, order)
      invariant InRange(regions, order)
      invariant covered == UnionOf(regions, order)
      invariant |order| <= |covered|
      invariant |order| <= Max(budget, 0)
      decreases |AllRegions(regions)| - |covered|
    {
      UncoveredHasGain(regions, order);
      var best := Best(regions, Elements(order), covered);
      if best.Some? {
        var b := best.value;
        GreedyStep(regions, order, b);
        order := order + [b];
        covered := covered + regions[b];
      } else {
        // no chunk adds a label only once all are covered
        assert false;
      }
    }
    UnionInAll(regions, order);
    TraceFacts(regions, order);
    if |order| < budget || budget >= |AllRegions(regions)| {
      FullSubset(AllRegions(regions), covered);
    }
  }

  /** The fill loop as written: its first pass evaluates `random`, an
      unbound name. */
  function LegacyFillAsWritten(selected: set<nat>, budget: int): (r: Result<set<nat>>)
    ensures r.Err? <==> |selected| < budget
    ensures r.Err? ==> r.error == NameError
    ensures r.Ok? ==> r.value == selected
  {
    if |selected| < budget then Err(NameError) else Ok(selected)
  }

  /** The fill loop with `import random` added: it draws from the remaining
      chunks until the selection reaches `budget`, and `random.choice` of an
      empty list raises IndexError when the pool runs out first. The list
      order of `available_images` is an unspecified set order; since each
      draw is arbitrary, the ascending order stands in for it. */
  method LegacyFill(n: nat, selected: set<nat>, budget: int, draws: seq<nat>) returns (r: Result<set<nat>>)
    requires forall i :: i in selected ==> i < n
    requires |draws| >= n
    ensures budget > n ==> r == Err(IndexError)
    ensures budget <= n ==> r.Ok?
    ensures r.Ok? ==> selected <= r.value && (forall i :: i in r.value ==> i < n)
    ensures r.Ok? ==> |r.value| == Max(budget, |selected|)
  {
    var out := selected;
    var available := Below(n) - selected;
    SplitBelow(n, selected);
    var t := 0;
    while |out| < budget
      invariant selected <= out
      invariant out * available == {}
      invariant out + available == Below(n)
      invariant |out| + |available| == n
      invariant t + |selected| == |out|
      invariant |out| <= Max(budget, |selected|)
      decreases |available|
    {
      if |available| == 0 {
        return Err(IndexError);
      }
      var pool := SortedSet(available, n);
      var idx := pool[draws[t] % |pool|];
      MoveOne(out, available, idx);
      out := out + {idx};
      available := available - {idx};
      t := t + 1;
    }
    r := Ok(out);
  }

  /** Every run whose greedy phase ends short of the budget fails in the
      fill as written, where the fill with the import succeeds as long as
      the pool is large enough. */
  lemma LegacyFillFails(n: nat, selected: set<nat>, budget: int)
    requires |selected| < budget
    ensures LegacyFillAsWritten(selected, budget) == Err(NameError)
  {
  }

  /** `atlas_chunk.parent.parent / "filtered_image_chunks" / name`: the
      partner's name is the one `ImagePartner` gives; `siblingImages` lists
      that folder. `shutil.copy2` of a missing file raises
      FileNotFoundError. */
  function LegacyPairs(atlasNames: seq<string>, selected: set<nat>, siblingImages: set<string>)
    : (r: Result<seq<ChunkPair>>)
    requires forall i :: i in selected ==> i < |atlasNames|
    ensures r.Err? <==> exists i :: i in selected && ImagePartner(atlasNames[i]) !in siblingImages
    ensures r.Err? ==> r.error == FileNotFoundError
    ensures r.Ok? ==> |r.value| == |selected| && forall k :: 0 <= k < |r.value| ==>
      && r.value[k].atlas == atlasNames[SortedSet(selected, |atlasNames|)[k]]
      && r.value[k].image == ImagePartner(r.value[k].atlas) && r.value[k].image in siblingImages
  {
    var picked := SortedSet(selected, |atlasNames|);
    var r := Pairs(atlasNames, picked, siblingImages, ImagePartner, FileNotFoundError);
    assert forall i :: i in selected <==> i in picked;
    r
  }

  /** The script as written, over the `glob` listing: greedy phase, then
      the fill fails unless the greedy phase alone reached the budget. */
  method LegacySelectionAsWritten(atlasNames: seq<string>, regions: seq<set<int>>, budget: int,
                                  siblingImages: set<string>)
    returns (order: seq<nat>, r: Result<seq<ChunkPair>>)
    requires |regions| == |atlasNames|
    ensures CompleteRun(regions, budget, order)
    ensures |order| < budget ==> r == Err(NameError)
    ensures |order| >= budget ==> r == LegacyPairs(atlasNames, Elements(order), siblingImages)
  {
    var covered;
    order, covered := LegacyGreedy(regions, budget);
    var selected := Elements(order);
    DistinctCard(order);
    match LegacyFillAsWritten(selected, budget)
    case Err(e) =>
      r := Err(e);
    case Ok(sel) =>
      r := LegacyPairs(atlasNames, sel, siblingImages);
  }

  /** The script with `import random` added. */
  method LegacySelection(atlasNames: seq<string>, regions: seq<set<int>>, budget: int,
                         draws: seq<nat>, siblingImages: set<string>)
    returns (selected: set<nat>, r: Result<seq<ChunkPair>>)
    requires |regions| == |atlasNames| && |draws| >= |regions|
    ensures forall i :: i in selected ==> i < |regions|
    ensures budget > |regions| ==> r == Err(IndexError)
    ensures budget <= |regions| ==> r == LegacyPairs(atlasNames, selected, siblingImages)
    ensures budget <= |regions| ==> |selected| == Max(budget, 0)
    ensures budget >= |AllRegions(regions)| ==> AllRegions(regions) <= UnionOf(regions, SortedSet(selected, |regions|))
  {
    var order, covered := LegacyGreedy(regions, budget);
    var greedy := Elements(order);
    DistinctCard(order);
    var filled := LegacyFill(|regions|, greedy, budget, draws);
    if filled.Err? {
      selected := greedy;
      r := Err(filled.error);
    } else {
      selected := filled.value;
      r := LegacyPairs(atlasNames, selected, siblingImages);
    }
    var picked := SortedSet(selected, |regions|);
    assert forall x :: x in order ==> x in greedy && x in picked;
    UnionMonotone(regions, order, picked);
  }
}

=== FILE: legacy_sections.dfy ===
/** The older section sampler, `2_select_representative_sections.py` at the
    repository root. Its normal branch is the same spacing / permutation /
    sort / trim as `Sections`, but:
    - the sample id is always token 5, with no bounds check (IndexError);
    - the seed is Python's `hash(sample_id) % 2**32`, which changes from
      process to process: the hash is an arbitrary input here;
    - the degenerate branch never assigns `positions`, so its trim reads the
      count left over from an earlier folder (NameError if there was none);
    - the stack window is `[start, min(start + z, n))`;
    - the closing message reads `destination_path`, which only the copy
      branch ever binds.
    The folder loop is modelled as a fold that carries those two leftover
    variables. */
module LegacySections {
  import opened Wrappers
  import opened Strings
  import opened Sorting
  import opened Sections

  /** `folder_parent.split("_")[5]`. */
  function LegacySampleId(folderName: string): (r: Result<string>)
    ensures |Split(folderName, '_')| <= 5 <==> r == Err(IndexError)
    ensures r.Ok? ==> r.value == Split(folderName, '_')[5]
  {
    var parts := Split(folderName, '_');
    if |parts| > 5 then Ok(parts[5]) else Err(IndexError)
  }

  /** `hash(sample_id) % 2**32` for a given hash value `h` (Python's `%`
      with a positive modulus never returns a negative value, like Dafny's). */
  function LegacySeed(h: int): (seed: nat)
    ensures seed < 0x1_0000_0000
    ensures exists q :: h == q * 0x1_0000_0000 + seed
  {
    var seed := h % 0x1_0000_0000;
    assert h == (h / 0x1_0000_0000) * 0x1_0000_0000 + seed;
    seed
  }

  /** Variables that outlive one folder in the script's loop. */
  datatype Leftovers = Leftovers(positions: Option<nat>, destinationBound: bool)

  /** One folder's selection. `stale` is the length of `positions` left by
      an earlier folder; the result carries the length this folder leaves. */
  function LegacySelect(n: nat, sampleSize: int, offset: int, perm: seq<nat>, stale: Option<nat>)
    : (r: Result<(Selection, Option<nat>)>)
    requires DrawsValid(n, sampleSize, offset, perm)
    ensures n == 0 ==> r == Err(RuntimeError)
    // the degenerate branch with nothing left over fails
    ensures 0 < n < sampleSize + 2 && stale.None? ==> r == Err(NameError)
    // it leaves `positions` untouched
    ensures 0 < n < sampleSize + 2 && r.Ok? ==> r.value.1 == stale
    // the normal branch agrees with the newer sampler
    ensures n >= sampleSize + 2 ==> match SelectSections(n, sampleSize, offset, perm)
      case Err(e) => r == Err(e)
      case Ok(sel) => r.Ok? && r.value.0 == sel
    // and leaves a count of s - 1 or s behind
    ensures n >= sampleSize + 2 && r.Ok? ==>
      r.value.1.Some? && (r.value.1.value == sampleSize + 1 || r.value.1.value == sampleSize + 2)
  {
    if n == 0 then Err(RuntimeError)
    else
      var s := sampleSize + 2;
      if n < s then
        match stale
        case None => Err(NameError)
        case Some(count) =>
          match Trim(AllIndices(n), count, s)
          case Err(e) => Err(e)
          case Ok(sel) => Ok((sel, stale))
      else if s - 1 == 0 then Err(ZeroDivisionError)
      else if s - 1 < 0 then Err(ValueError)
      else
        var step := Step(n, s);
        var ps := Positions(offset, step, s, n);
        SurvivorCount(n, s, offset);
        SpacedInRange(n, s, offset);
        var sorted := SortPicked(Picked(perm, ps, n), n);
        Ok((Trim(sorted, |ps|, s).value, Some(|ps|)))
  }

  /** A leftover count from a normal-branch folder makes the degenerate
      branch emit rather than skip: `n - 2` items when all `s` positions had
      survived (IndexError for a single file), `n - 1` when `s - 1` had. The
      newer sampler emits only when `n == s - 1` and skips otherwise. */
  lemma StaleCountEmits(n: nat, sampleSize: int, count: nat)
    requires 0 < n < sampleSize + 2
    requires count == sampleSize + 1 || count == sampleSize + 2
    ensures count == sampleSize + 2 && n == 1 ==>
      LegacySelect(n, sampleSize, 0, [], Some(count)) == Err(IndexError)
    ensures count == sampleSize + 2 && n > 1 ==>
      LegacySelect(n, sampleSize, 0, [], Some(count)) == Ok((Emitted(AllIndices(n)[1..n - 1]), Some(count)))
    ensures count == sampleSize + 1 ==>
      LegacySelect(n, sampleSize, 0, [], Some(count)) == Ok((Emitted(AllIndices(n)[1..]), Some(count)))
  {
  }

  /** `start = max(i - z//2, 0)`, `end = min(start + z, n)`: the older stack
      window. */
  function LegacyStackWindow(i: nat, n: nat, z: int): (w: seq<nat>)
    requires i < n
    ensures forall k :: 0 <= k < |w| ==> w[k] < n
    ensures forall k :: 0 < k < |w| ==> w[k] == w[k - 1] + 1
    ensures z >= 1 ==> i in w
    ensures |w| >= 1 <==> z >= 1
    ensures z >= 0 ==> var start := if i - z / 2 > 0 then i - z / 2 else 0;
      |w| == (if z < n - start then z else n - start)
    // at the low boundary the stack keeps its full depth when the sample has it
    ensures 0 <= z <= n && i < z / 2 ==> |w| == z
  {
    var start := if i - z / 2 > 0 then i - z / 2 else 0;
    var end := if start + z < n then start + z else n;
    var w := seq(if end > start then end - start else 0, k => start + k);
    assert z >= 1 ==> w[i - start] == i;
    w
  }

  /** What one folder hands to the copy/stack collaborator. */
  function LegacyOutput(sid: string, files: seq<string>, sel: Selection, makeStacks: bool, z: int)
    : (out: FolderOutput)
    requires sel.Emitted? ==> forall k :: 0 <= k < |sel.indices| ==> sel.indices[k] < |files|
    ensures sel.Skipped? ==> out == Nothing
    ensures sel.Emitted? && !makeStacks ==> out == Copies(CopyNames(sid, files, sel.indices))
    ensures sel.Emitted? && makeStacks ==> out.Stacks? && |out.windows| == |sel.indices|
  {
    match sel
    case Skipped => Nothing
    case Emitted(ix) =>
      if makeStacks then
        Stacks(seq(|ix|, k requires 0 <= k < |ix| => LegacyStackWindow(ix[k], |files|, z)))
      else Copies(CopyNames(sid, files, ix))
  }

  /** One input folder and the random draws its sample would use. */
  datatype Folder = Folder(parentName: string, files: seq<string>, offset: int, perm: seq<nat>)

  predicate FolderDrawsValid(f: Folder, sampleSize: int) {
    DrawsValid(|f.files|, sampleSize, f.offset, f.perm)
  }

  /** One pass of the loop body: `np.stack` of an empty window raises
      ValueError, and the closing message needs a bound `destination_path`,
      which only a copied file binds. */
  function LegacyFolder(f: Folder, sampleSize: int, makeStacks: bool, z: int, st: Leftovers)
    : (r: Result<(FolderOutput, Leftovers)>)
    requires FolderDrawsValid(f, sampleSize)
    // in stack mode the first folder that is not skipped fails at the message
    ensures makeStacks && !st.destinationBound && r.Ok? ==> r.value.0 == Nothing
    ensures r.Ok? ==> r.value.1.destinationBound ==> st.destinationBound || (r.value.0.Copies? && |r.value.0.names| > 0)
    ensures r.Ok? && r.value.0.Stacks? ==> forall k :: 0 <= k < |r.value.0.windows| ==> |r.value.0.windows[k]| >= 1
  {
    match LegacySampleId(f.parentName)
    case Err(e) => Err(e)
    case Ok(sid) =>
      match LegacySelect(|f.files|, sampleSize, f.offset, f.perm, st.positions)
      case Err(e) => Err(e)
      case Ok((sel, positions)) =>
        LegacySelectInRange(|f.files|, sampleSize, f.offset, f.perm, st.positions);
        var out := LegacyOutput(sid, f.files, sel, makeStacks, z);
        var bound := st.destinationBound || (out.Copies? && |out.names| > 0);
        if sel.Skipped? then Ok((out, Leftovers(positions, st.destinationBound)))
        else if out.Stacks? && exists k :: 0 <= k < |out.windows| && |out.windows[k]| == 0 then Err(ValueError)
        else if !bound then Err(NameError)
        else Ok((out, Leftovers(positions, bound)))
  }

  lemma LegacySelectInRange(n: nat, sampleSize: int, offset: int, perm: seq<nat>, stale: Option<nat>)
    requires DrawsValid(n, sampleSize, offset, perm)
    ensures var r := LegacySelect(n, sampleSize, offset, perm, stale);
      r.Ok? && r.value.0.Emitted? ==> forall k :: 0 <= k < |r.value.0.indices| ==> r.value.0.indices[k] < n
  {
    var r := LegacySelect(n, sampleSize, offset, perm, stale);
    if r.Ok? && r.value.0.Emitted? && n >= sampleSize + 2 {
      assert r.value.0 == SelectSections(n, sampleSize, offset, perm).value;
    }
  }

  /** The whole loop over the configured folders, stopping at the first
      exception. */
  function LegacyRun(folders: seq<Folder>, sampleSize: int, makeStacks: bool, z: int, st: Leftovers)
    : (r: Result<seq<FolderOutput>>)
    requires forall k :: 0 <= k < |folders| ==> FolderDrawsValid(folders[k], sampleSize)
    ensures r.Ok? ==> |r.value| == |folders|
    decreases |folders|
  {
    if |folders| == 0 then Ok([])
    else
      match LegacyFolder(folders[0], sampleSize, makeStacks, z, st)
      case Err(e) => Err(e)
      case Ok((out, st')) =>
        match LegacyRun(folders[1..], sampleSize, makeStacks, z, st')
        case Err(e) => Err(e)
        case Ok(outs) => Ok([out] + outs)
  }

  /** Every count the loop carries came from a normal branch, so it is
      `s - 1` or `s` (or absent). */
  predicate LeftoverCountValid(st: Leftovers, sampleSize: int) {
    st.positions.Some? ==> st.positions.value == sampleSize + 1 || st.positions.value == sampleSize + 2
  }

  lemma LegacyFolderKeepsCount(f: Folder, sampleSize: int, makeStacks: bool, z: int, st: Leftovers)
    requires FolderDrawsValid(f, sampleSize)
    requires LeftoverCountValid(st, sampleSize)
    ensures var r := LegacyFolder(f, sampleSize, makeStacks, z, st);
      r.Ok? ==> LeftoverCountValid(r.value.1, sampleSize)
  {
  }

  /** A run whose first folder is too small to sample fails with NameError
      (nothing has assigned `positions` yet). */
  lemma FirstSmallFolderFails(folders: seq<Folder>, sampleSize: int, makeStacks: bool, z: int)
    requires |folders| >= 1
    requires forall k :: 0 <= k < |folders| ==> FolderDrawsValid(folders[k], sampleSize)
    requires LegacySampleId(folders[0].parentName).Ok?
    requires 0 < |folders[0].files| < sampleSize + 2
    ensures LegacyRun(folders, sampleSize, makeStacks, z, Leftovers(None, false)) == Err(NameError)
  {
  }

  /** In stack mode the first folder that produces stacks fails: with
      ValueError at the first empty window when the depth is not positive,
      otherwise with NameError at the closing message. */
  lemma StackModeMessageFails(f: Folder, sampleSize: int, z: int)
    requires FolderDrawsValid(f, sampleSize)
    requires LegacySampleId(f.parentName).Ok?
    requires sampleSize >= 0 && |f.files| >= sampleSize + 2
    ensures z >= 1 || sampleSize == 0 ==> LegacyFolder(f, sampleSize, true, z, Leftovers(None, false)) == Err(NameError)
    ensures z <= 0 && sampleSize >= 1 ==> LegacyFolder(f, sampleSize, true, z, Leftovers(None, false)) == Err(ValueError)
  {
    NormalBranchEmits(|f.files|, sampleSize, f.offset, f.perm);
    var sel := SelectSections(|f.files|, sampleSize, f.offset, f.perm).value;
    LegacySelectInRange(|f.files|, sampleSize, f.offset, f.perm, None);
    if sampleSize >= 1 {
      var ix := sel.indices;
      assert LegacyStackWindow(ix[0], |f.files|, z) == LegacyOutput(LegacySampleId(f.parentName).value, f.files, sel, true, z).windows[0];
    }
  }
}

=== FILE: mask.dfy ===
/** Assembling a brain mask from 2-D segmentations
    (`preprocess_for_ants/2_2D_to_nii_mask.py`): slice indices are read from
    the segmentation file names, sorted, turned back into file names, and
    each present slice is binarised and stacked along the second axis. Image
    contents are grids of label values; NIfTI writing is not modelled. */
module Mask {
  import opened Wrappers
  import opened Strings
  import opened Sorting
  import opened Decimal

  const SegSuffix: string := "_Simple Segmentation.png"

  /** The glob `*_Simple Segmentation.png`. */
  predicate IsSegmentation(name: string) {
    EndsWith(name, SegSuffix)
  }

  /** `int(stem.split("_")[1])`: IndexError without a second token,
      ValueError when it is not a number. */
  function SliceIndex(stem: string): (r: Result<int>)
    ensures r.Ok? ==> |Split(stem, '_')| >= 2 && ParseInt(Split(stem, '_')[1]) == Some(r.value)
    ensures |Split(stem, '_')| < 2 ==> r == Err(IndexError)
    ensures |Split(stem, '_')| >= 2 && ParseInt(Split(stem, '_')[1]).None? ==> r == Err(ValueError)
  {
    var parts := Split(stem, '_');
    if |parts| < 2 then Err(IndexError)
    else
      match ParseInt(parts[1])
      case None => Err(ValueError)
      case Some(i) => Ok(i)
  }

  /** The file the script looks for: `slice_{i:03d}_Simple Segmentation.png`. */
  function SliceFile(i: int): (r: string)
    ensures IsSegmentation(r)
  {
    var r := "slice" + "_" + PadInt(i, 3) + "_" + "Simple Segmentation" + "." + "png";
    assert r[|r| - |SegSuffix|..] == SegSuffix;
    r
  }

  lemma PadIntClean(i: int)
    ensures '_' !in PadInt(i, 3) && '.' !in PadInt(i, 3)
  {
    forall k | 0 <= k < |PadInt(i, 3)|
      ensures PadInt(i, 3)[k] != '_' && PadInt(i, 3)[k] != '.'
    {
      assert IsDigit(PadInt(i, 3)[k]) || PadInt(i, 3)[k] == '-';
    }
  }

  /** The stem of a slice file. */
  lemma SliceFileStem(i: int)
    ensures Stem(SliceFile(i)) == "slice" + "_" + PadInt(i, 3) + "_" + "Simple Segmentation"
  {
    StemOfSuffixed("slice" + "_" + PadInt(i, 3) + "_" + "Simple Segmentation", "png");
  }

  /** The index token of `{a}_{p}_{b}` is `p`. */
  lemma SliceIndexOf(a: string, p: string, b: string)
    requires '_' !in a && '_' !in p && '_' !in b
    ensures ParseInt(p).Some? ==> SliceIndex(a + "_" + p + "_" + b) == Ok(ParseInt(p).value)
    ensures ParseInt(p).None? ==> SliceIndex(a + "_" + p + "_" + b) == Err(ValueError)
  {
    SplitThree(a, p, b, '_');
    assert a + "_" + p + "_" + b == a + ['_'] + p + ['_'] + b;
  }

  /** Reading the index back from a name the script writes gives the index,
      so names written with three-digit padding are found again. */
  lemma SliceFileRoundTrip(i: int)
    ensures SliceIndex(Stem(SliceFile(i))) == Ok(i)
  {
    var p := PadInt(i, 3);
    var tail := "Simple Segmentation";
    assert '_' !in tail;
    PadIntClean(i);
    SliceFileStem(i);
    SliceIndexOf("slice", p, tail);
    ParsePadInt(i, 3);
  }

  /** The names the glob `*_Simple Segmentation.png` matches, in listing
      order. */
  function Segmentations(names: seq<string>): (r: seq<string>)
    ensures forall n :: n in r <==> n in names && IsSegmentation(n)
    ensures |r| <= |names|
  {
    if |names| == 0 then []
    else
      assert names == [names[0]] + names[1..];
      (if IsSegmentation(names[0]) then [names[0]] else []) + Segmentations(names[1..])
  }

  /** The indices of the segmentation files, in listing order; the first
      bad name raises. */
  function ReadIndices(names: seq<string>): (r: Result<seq<int>>)
    ensures r.Err? <==> exists n :: n in names && IsSegmentation(n) && SliceIndex(Stem(n)).Err?
    ensures r.Err? ==> exists n :: n in names && IsSegmentation(n) && SliceIndex(Stem(n)) == Err(r.error)
    ensures r.Ok? ==> |r.value| <= |names|
    ensures r.Ok? ==> forall x :: x in r.value ==> exists n :: n in names && IsSegmentation(n) && SliceIndex(Stem(n)) == Ok(x)
    ensures r.Ok? ==> forall n :: n in names && IsSegmentation(n) ==> SliceIndex(Stem(n)).Ok? && SliceIndex(Stem(n)).value in r.value
  {
    if |names| == 0 then Ok([])
    else
      var rest :- ReadIndices(names[1..]);
      assert names == [names[0]] + names[1..];
      if !IsSegmentation(names[0]) then Ok(rest)
      else
        var i :- SliceIndex(Stem(names[0]));
        Ok([i] + rest)
  }

  /** A file and its index in front of files paired with their indices. */
  lemma IndexedCons(seg: string, x: int, segs: seq<string>, xs: seq<int>)
    requires SliceIndex(Stem(seg)) == Ok(x)
    requires |segs| == |xs| && forall k :: 0 <= k < |segs| ==> SliceIndex(Stem(segs[k])) == Ok(xs[k])
    ensures forall k :: 0 <= k < |[seg] + segs| ==> SliceIndex(Stem(([seg] + segs)[k])) == Ok(([x] + xs)[k])
  {
    forall k | 0 <= k < |[seg] + segs| ensures SliceIndex(Stem(([seg] + segs)[k])) == Ok(([x] + xs)[k]) {
      if k > 0 {
        assert ([seg] + segs)[k] == segs[k - 1] && ([x] + xs)[k] == xs[k - 1];
      }
    }
  }

  /** One index per segmentation file, in the same order: the script
      appends once per matched file, so a repeated index is read twice. */
  lemma {:induction false} ReadIndicesPerFile(names: seq<string>)
    requires ReadIndices(names).Ok?
    ensures |ReadIndices(names).value| == |Segmentations(names)|
    ensures forall k :: 0 <= k < |Segmentations(names)| ==>
      SliceIndex(Stem(Segmentations(names)[k])) == Ok(ReadIndices(names).value[k])
    decreases |names|
  {
    if |names| > 0 {
      var tail := names[1..];
      ReadIndicesPerFile(tail);
      if IsSegmentation(names[0]) {
        var x := SliceIndex(Stem(names[0])).value;
        assert Segmentations(names) == [names[0]] + Segmentations(tail);
        assert ReadIndices(names).value == [x] + ReadIndices(tail).value;
        IndexedCons(names[0], x, Segmentations(tail), ReadIndices(tail).value);
      } else {
        assert Segmentations(names) == Segmentations(tail);
      }
    }
  }

  /** `slice_indices.sort()`. */
  function SortIndices(xs: seq<int>): (r: seq<int>)
    ensures multiset(r) == multiset(xs)
    ensures forall i, j :: 0 <= i < j < |r| ==> r[i] <= r[j]
  {
    assert Total(IntLe);
    var r := InsertionSort(xs, IntLe);
    SortedAll(r);
    r
  }

  /** The indices whose file is present, in order; a missing file is only
      reported. */
  function PresentSlices(indices: seq<int>, present: set<string>): (r: seq<int>)
    ensures |r| <= |indices|
    ensures forall x :: x in r <==> x in indices && SliceFile(x) in present
    ensures (forall i, j :: 0 <= i < j < |indices| ==> indices[i] <= indices[j]) ==>
      forall i, j :: 0 <= i < j < |r| ==> r[i] <= r[j]
  {
    if |indices| == 0 then []
    else
      var rest := PresentSlices(indices[1..], present);
      assert indices == [indices[0]] + indices[1..];
      if SliceFile(indices[0]) in present then
        SortedCons(indices, rest);
        [indices[0]] + rest
      else rest
  }

  /** The head of a sorted list goes in front of any sorted selection of
      its elements. */
  lemma SortedCons(indices: seq<int>, rest: seq<int>)
    requires |indices| > 0 && forall x :: x in rest ==> x in indices
    requires (forall i, j :: 0 <= i < j < |indices[1..]| ==> indices[1..][i] <= indices[1..][j]) ==>
      forall i, j :: 0 <= i < j < |rest| ==> rest[i] <= rest[j]
    ensures (forall i, j :: 0 <= i < j < |indices| ==> indices[i] <= indices[j]) ==>
      forall i, j :: 0 <= i < j < |[indices[0]] + rest| ==> ([indices[0]] + rest)[i] <= ([indices[0]] + rest)[j]
  {
    var r := [indices[0]] + rest;
    if forall i, j :: 0 <= i < j < |indices| ==> indices[i] <= indices[j] {
      assert forall i, j :: 0 <= i < j < |indices[1..]| ==> indices[1..][i] == indices[i + 1] && indices[1..][j] == indices[j + 1];
      forall x | x in rest
        ensures indices[0] <= x
      {
        var k :| 0 <= k < |indices| && indices[k] == x;
      }
      assert forall j :: 0 < j < |r| ==> r[j] == rest[j - 1] && r[j] in rest;
    }
  }

  /** `np.where(img == 1, 1, 0)`. */
  function Binarize(img: seq<seq<int>>): (r: seq<seq<int>>)
    ensures |r| == |img|
    ensures forall i :: 0 <= i < |img| ==> |r[i]| == |img[i]|
    ensures forall i, j :: 0 <= i < |img| && 0 <= j < |img[i]| ==> (r[i][j] == 1 <==> img[i][j] == 1)
    ensures forall i, j :: 0 <= i < |img| && 0 <= j < |img[i]| ==> r[i][j] == 0 || r[i][j] == 1
  {
    seq(|img|, i requires 0 <= i < |img| => seq(|img[i]|, j requires 0 <= j < |img[i]| => if img[i][j] == 1 then 1 else 0))
  }

  /** A binary mask is its own binarisation. */
  lemma BinarizeIdempotent(img: seq<seq<int>>)
    ensures Binarize(Binarize(img)) == Binarize(img)
  {
    var b := Binarize(img);
    var bb := Binarize(b);
    assert forall i :: 0 <= i < |b| ==> bb[i] == b[i];
  }

  /** `np.stack(slices, axis=1)` on the slices' shapes: no slices or
      differing shapes raise ValueError; otherwise the volume has the slice
      count as its middle axis. */
  function StackShape(shapes: seq<(nat, nat)>): (r: Result<(nat, nat, nat)>)
    ensures r.Ok? <==> |shapes| > 0 && forall k :: 0 <= k < |shapes| ==> shapes[k] == shapes[0]
    ensures r.Ok? ==> r.value == (shapes[0].0, |shapes|, shapes[0].1)
    ensures r.Err? ==> r.error == ValueError
  {
    if |shapes| == 0 then Err(ValueError)
    else if exists k :: 0 <= k < |shapes| && shapes[k] != shapes[0] then Err(ValueError)
    else Ok((shapes[0].0, |shapes|, shapes[0].1))
  }

  /** The script end to end, up to the volume's shape: `shapeOf` gives the
      shape of each present slice file. */
  function MaskVolume(names: seq<string>, present: set<string>, shapeOf: string -> (nat, nat)): (r: Result<(nat, nat, nat)>)
    ensures r.Ok? ==> r.value.1 <= |names|
    ensures r.Ok? ==> r.value.1 >= 1
    // a bad segmentation name raises before any slice is read
    ensures ReadIndices(names).Err? ==> r == Err(ReadIndices(names).error)
    // otherwise the present slices, in sorted order, must be non-empty and
    // of one shape; the volume has their count as its middle axis
    ensures ReadIndices(names).Ok? ==>
      var slices := PresentSlices(SortIndices(ReadIndices(names).value), present);
      && (r.Ok? <==> (|slices| > 0 &&
            forall k :: 0 <= k < |slices| ==> shapeOf(SliceFile(slices[k])) == shapeOf(SliceFile(slices[0]))))
      && (r.Err? ==> r.error == ValueError)
      && (r.Ok? ==> r.value == (shapeOf(SliceFile(slices[0])).0, |slices|, shapeOf(SliceFile(slices[0])).1))
  {
    var indices :- ReadIndices(names);
    var sorted := SortIndices(indices);
    assert |sorted| == |indices| by {
      assert |multiset(sorted)| == |multiset(indices)|;
    }
    var slices := PresentSlices(sorted, present);
    StackShape(SliceShapes(slices, shapeOf))
  }

  /** The shape of each slice file, in order. */
  function SliceShapes(slices: seq<int>, shapeOf: string -> (nat, nat)): (r: seq<(nat, nat)>)
    ensures |r| == |slices|
    ensures forall k :: 0 <= k < |r| ==> r[k] == shapeOf(SliceFile(slices[k]))
  {
    seq(|slices|, k requires 0 <= k < |slices| => shapeOf(SliceFile(slices[k])))
  }

  /** Every index whose file is present survives the presence check. */
  lemma {:induction false} PresentSlicesAll(indices: seq<int>, present: set<string>)
    requires forall x :: x in indices ==> SliceFile(x) in present
    ensures PresentSlices(indices, present) == indices
    decreases |indices|
  {
    if |indices| > 0 {
      assert indices == [indices[0]] + indices[1..];
      PresentSlicesAll(indices[1..], present);
    }
  }

  /** Script-style names: every segmentation file is `SliceFile` of the
      index its name carries. */
  predicate ScriptNamed(names: seq<string>) {
    forall n :: n in names && IsSegmentation(n) ==>
      SliceIndex(Stem(n)).Ok? && SliceFile(SliceIndex(Stem(n)).value) == n
  }

  /** With script-style names every index read, and every index of its
      sorted copy, names a file of the listing. */
  lemma SortedIndicesNamed(names: seq<string>)
    requires ScriptNamed(names)
    ensures ReadIndices(names).Ok?
    ensures forall x :: x in SortIndices(ReadIndices(names).value) ==> SliceFile(x) in names
  {
    var xs := ReadIndices(names).value;
    var sorted := SortIndices(xs);
    forall x | x in sorted
      ensures SliceFile(x) in names
    {
      assert x in multiset(sorted);
      assert x in xs;
      var n :| n in names && IsSegmentation(n) && SliceIndex(Stem(n)) == Ok(x);
    }
  }

  /** For files named the way the script names them, all present and of one
      shape, every segmentation file becomes one slice of the volume. */
  lemma MaskVolumeOnePerFile(names: seq<string>, present: set<string>, shapeOf: string -> (nat, nat),
                             dims: (nat, nat))
    requires forall n :: n in names ==> n in present
    requires ScriptNamed(names)
    requires forall n :: n in names ==> shapeOf(n) == dims
    requires |Segmentations(names)| > 0
    ensures MaskVolume(names, present, shapeOf) == Ok((dims.0, |Segmentations(names)|, dims.1))
  {
    SortedIndicesNamed(names);
    var xs := ReadIndices(names).value;
    ReadIndicesPerFile(names);
    var sorted := SortIndices(xs);
    assert |sorted| == |xs| by {
      assert |multiset(sorted)| == |multiset(xs)|;
    }
    PresentSlicesAll(sorted, present);
    var slices := PresentSlices(sorted, present);
    assert slices == sorted;
    var shapes := SliceShapes(slices, shapeOf);
    assert forall k :: 0 <= k < |shapes| ==> shapes[k] == dims by {
      forall k | 0 <= k < |shapes| ensures shapes[k] == dims {
        assert slices[k] in sorted;
      }
    }
    assert StackShape(shapes) == Ok((dims.0, |shapes|, dims.1));
    assert MaskVolume(names, present, shapeOf) == StackShape(shapes);
  }
}

=== FILE: pickers.dfy ===
/** The two simple random-chunk pickers: the evenly spaced picker of the
    `5a_select_random_chunks.py` scripts and the every-k picker of
    `select_images_and_randomize_order.py`. Both take the sorted listing,
    choose indices, shuffle them with `random.shuffle` (a permutation given
    as input here) and copy file `k` of the shuffled list under the name
    `f"{k}_{name}"`. */
module Pickers {
  import opened Wrappers
  import opened Sorting
  import opened Decimal
  import opened Arith
  import Sections

  // ---------------------------------------------------------------------
  // Shuffle and destination names
  // ---------------------------------------------------------------------

  /** A permutation of `0..n-1` takes every value. */
  lemma PermutationOnto(perm: seq<nat>, n: nat)
    requires Sections.IsPermutation(perm, n)
    ensures forall i: nat :: i < n ==> i in perm
  {
    DistinctCard(perm);
    var S := Elements(perm);
    assert S <= Below(n);
    assert Below(n) - S == {} by {
      assert |Below(n)| == |S| + |Below(n) - S| by {
        assert Below(n) == S + (Below(n) - S);
        assert S * (Below(n) - S) == {};
      }
    }
    forall i: nat | i < n
      ensures i in perm
    {
      assert i in Below(n);
    }
  }

  /** `random.shuffle(xs)` given the permutation it applies: position `k`
      receives `xs[perm[k]]`. */
  function Shuffle<T>(xs: seq<T>, perm: seq<nat>): (r: seq<T>)
    requires Sections.IsPermutation(perm, |xs|)
    ensures |r| == |xs|
    ensures forall k :: 0 <= k < |r| ==> r[k] in xs
    ensures forall x :: x in xs ==> x in r
  {
    var r := seq(|xs|, k requires 0 <= k < |xs| => xs[perm[k]]);
    PermutationOnto(perm, |xs|);
    forall x | x in xs
      ensures x in r
    {
      var i :| 0 <= i < |xs| && xs[i] == x;
      assert i in perm;
      var k :| 0 <= k < |perm| && perm[k] == i;
      assert r[k] == x;
    }
    r
  }

  /** A list without repeats holds each of its elements once. */
  lemma {:induction false} DistinctMultiset<T>(s: seq<T>)
    requires Distinct(s)
    ensures forall x :: multiset(s)[x] == (if x in s then 1 else 0)
  {
    if |s| > 0 {
      var t := s[..|s| - 1];
      DistinctMultiset(t);
      assert s == t + [s[|s| - 1]];
      assert s[|s| - 1] !in t;
    }
  }

  /** Shuffling a list without repeats is a permutation of it: the same
      elements, each once. */
  lemma ShufflePermutes<T>(xs: seq<T>, perm: seq<nat>)
    requires Sections.IsPermutation(perm, |xs|) && Distinct(xs)
    ensures Distinct(Shuffle(xs, perm))
    ensures multiset(Shuffle(xs, perm)) == multiset(xs)
  {
    var r := Shuffle(xs, perm);
    forall i, j | 0 <= i < j < |r|
      ensures r[i] != r[j]
    {
      assert perm[i] != perm[j];
    }
    DistinctMultiset(xs);
    DistinctMultiset(r);
  }

  /** `f"{counter}_{name}"`. */
  function Prefixed(counter: nat, name: string): (r: string)
    ensures |r| == |NatToString(counter)| + 1 + |name|
    ensures r[..|NatToString(counter)|] == NatToString(counter)
    ensures r[|NatToString(counter)|] == '_'
    ensures forall j :: 0 <= j < |NatToString(counter)| ==> r[j] != '_'
  {
    var d := NatToString(counter);
    var r := d + "_" + name;
    assert forall j :: 0 <= j < |d| ==> r[j] == d[j] && IsDigit(d[j]);
    r
  }

  /** Two prefixed names with different counters differ, whatever the
      names: the counter is all digits and ends at the first `_`. */
  lemma PrefixedInjective(a: nat, x: string, b: nat, y: string)
    requires Prefixed(a, x) == Prefixed(b, y)
    ensures a == b
  {
    var da := NatToString(a);
    var db := NatToString(b);
    var s := Prefixed(a, x);
    assert |da| == |db|;
    assert da == s[..|da|] == db;
    NatToStringInjective(a, b);
  }

  /** A copy of listing file `source` to `destination`. */
  datatype Copy = Copy(source: nat, destination: string)

  /** The copy loop over the shuffled indices. */
  function Copies(files: seq<string>, order: seq<nat>): (r: seq<Copy>)
    requires forall k :: 0 <= k < |order| ==> order[k] < |files|
    ensures |r| == |order|
    ensures forall k :: 0 <= k < |r| ==> r[k].source == order[k]
    ensures forall k :: 0 <= k < |r| ==> r[k].destination == Prefixed(k, files[order[k]])
  {
    seq(|order|, k requires 0 <= k < |order| => Copy(order[k], Prefixed(k, files[order[k]])))
  }

  /** The counters make every destination name different. */
  lemma CopiesDistinct(files: seq<string>, order: seq<nat>)
    requires forall k :: 0 <= k < |order| ==> order[k] < |files|
    ensures var r := Copies(files, order);
      forall i, j :: 0 <= i < j < |r| ==> r[i].destination != r[j].destination
  {
    var r := Copies(files, order);
    forall i, j | 0 <= i < j < |r|
      ensures r[i].destination != r[j].destination
    {
      if r[i].destination == r[j].destination {
        PrefixedInjective(i, files[order[i]], j, files[order[j]]);
      }
    }
  }

  // ---------------------------------------------------------------------
  // Evenly spaced picker
  // ---------------------------------------------------------------------

  /** `num_files_to_select`, lowered to the number of files when it asks
      for more. */
  function Clamp(requested: int, total: nat): (num: int)
    ensures num <= total && num <= requested
    ensures num == requested || num == total
  {
    if requested > total then total else requested
  }

  /** `[math.floor(i * (total / num)) for i in range(num)]`, with the
      spacing taken as the exact quotient. `total / num` raises
      ZeroDivisionError for `num == 0`; a negative `num` gives an empty
      range. */
  function SpacedPicks(total: nat, num: int): (r: Result<seq<nat>>)
    ensures num == 0 <==> r == Err(ZeroDivisionError)
    ensures num < 0 ==> r == Ok([])
    ensures r.Ok? ==> |r.value| == Max(num, 0)
    ensures num > 0 ==> r.Ok? && forall i :: 0 <= i < num ==> r.value[i] * num <= i * total < (r.value[i] + 1) * num
  {
    if num == 0 then Err(ZeroDivisionError)
    else if num < 0 then Ok([])
    else
      var ps := seq(num, i requires 0 <= i => (i * total) / num);
      PicksBelow(total, num, ps);
      Ok(ps)
  }

  lemma PicksBelow(total: nat, num: nat, ps: seq<nat>)
    requires num > 0 && |ps| == num && forall i :: 0 <= i < num ==> ps[i] == (i * total) / num
    ensures forall i :: 0 <= i < num ==> ps[i] * num <= i * total < (ps[i] + 1) * num
  {
    forall i | 0 <= i < num
      ensures ps[i] * num <= i * total < (ps[i] + 1) * num
    {
      QuotientBounds(i * total, num);
    }
  }

  /** For `1 <= num <= total` the picks start at 0, rise strictly and stay
      below `total`. */
  lemma SpacedPicksFacts(total: nat, num: int)
    requires num <= total
    ensures num >= 1 ==> var ps := SpacedPicks(total, num).value;
      && |ps| == num && ps[0] == 0
      && StrictlyIncreasing(ps)
      && forall k :: 0 <= k < |ps| ==> ps[k] < total
  {
    if num < 1 {
      return;
    }
    var ps := SpacedPicks(total, num).value;
    forall k | 0 <= k < num
      ensures ps[k] < total
    {
      MulMonotone(k + 1, num, total);
      DivBelow(k * total, num, total);
    }
    forall i, j | 0 <= i < j < num
      ensures ps[i] < ps[j]
    {
      MulMonotone(i + 1, j, total);
      assert (i + 1) * total == i * total + total;
      DivMonotone(i * total + num, j * total, num);
      DivAddOne(i * total, num);
    }
  }

  /** `preprocess_for_cellpose/5a_select_random_chunks.py`: an empty chunk
      folder raises RuntimeError; otherwise the clamped spaced picks,
      shuffled, are copied with counter prefixes. */
  function RandomChunks(files: seq<string>, requested: int, perm: seq<nat>): (r: Result<seq<Copy>>)
    requires Sections.IsPermutation(perm, Max(Clamp(requested, |files|), 0))
    ensures |files| == 0 <==> r == Err(RuntimeError)
    ensures |files| > 0 && requested == 0 ==> r == Err(ZeroDivisionError)
    ensures |files| > 0 && requested != 0 ==> r.Ok? && |r.value| == Max(Min(requested, |files|), 0)
    ensures r.Ok? ==> forall k :: 0 <= k < |r.value| ==> r.value[k].source < |files|
  {
    if |files| == 0 then Err(RuntimeError)
    else
      var num := Clamp(requested, |files|);
      match SpacedPicks(|files|, num)
      case Err(e) => Err(e)
      case Ok(ps) =>
        SpacedPicksFacts(|files|, num);
        Ok(Copies(files, Shuffle(ps, perm)))
  }

  /** `5a_select_random_chunks.py` at the repository root: no guard, so an
      empty folder clamps the count to 0 and then divides 0 by 0. */
  function LegacyRandomChunks(files: seq<string>, requested: int, perm: seq<nat>): (r: Result<seq<Copy>>)
    requires Sections.IsPermutation(perm, Max(Clamp(requested, |files|), 0))
    ensures |files| == 0 && requested >= 0 ==> r == Err(ZeroDivisionError)
    ensures r.Err? <==> Clamp(requested, |files|) == 0
    ensures r.Ok? ==> |r.value| == Max(Min(requested, |files|), 0)
    ensures r.Ok? ==> forall k :: 0 <= k < |r.value| ==> r.value[k].source < |files|
  {
    var num := Clamp(requested, |files|);
    match SpacedPicks(|files|, num)
    case Err(e) => Err(e)
    case Ok(ps) =>
      SpacedPicksFacts(|files|, num);
      Ok(Copies(files, Shuffle(ps, perm)))
  }

  /** Both versions agree once the folder is not empty. */
  lemma LegacyAgreesOnNonEmpty(files: seq<string>, requested: int, perm: seq<nat>)
    requires Sections.IsPermutation(perm, Max(Clamp(requested, |files|), 0))
    requires |files| > 0
    ensures LegacyRandomChunks(files, requested, perm) == RandomChunks(files, requested, perm)
  {
  }

  /** Copying a shuffled list of distinct indices copies each of them
      exactly once, under distinct names. */
  lemma ShuffledCopies(files: seq<string>, xs: seq<nat>, perm: seq<nat>)
    requires Sections.IsPermutation(perm, |xs|) && Distinct(xs)
    requires forall k :: 0 <= k < |xs| ==> xs[k] < |files|
    ensures var cs := Copies(files, Shuffle(xs, perm));
      && (forall i, j :: 0 <= i < j < |cs| ==> cs[i].destination != cs[j].destination)
      && (forall i, j :: 0 <= i < j < |cs| ==> cs[i].source != cs[j].source)
      && (forall k :: 0 <= k < |cs| ==> cs[k].source in xs)
      && (forall x :: x in xs ==> exists k :: 0 <= k < |cs| && cs[k].source == x)
  {
    var order := Shuffle(xs, perm);
    ShufflePermutes(xs, perm);
    CopiesDistinct(files, order);
    var cs := Copies(files, order);
    forall x | x in xs
      ensures exists k :: 0 <= k < |cs| && cs[k].source == x
    {
      var k :| 0 <= k < |order| && order[k] == x;
      assert cs[k].source == x;
    }
  }

  /** Every spaced run copies distinct files to distinct names, and the
      copied files are exactly the spaced picks. */
  lemma RandomChunksCopies(files: seq<string>, requested: int, perm: seq<nat>)
    requires Sections.IsPermutation(perm, Max(Clamp(requested, |files|), 0))
    requires RandomChunks(files, requested, perm).Ok?
    ensures var cs := RandomChunks(files, requested, perm).value;
      var ps := SpacedPicks(|files|, Clamp(requested, |files|)).value;
      && (forall i, j :: 0 <= i < j < |cs| ==> cs[i].destination != cs[j].destination)
      && (forall i, j :: 0 <= i < j < |cs| ==> cs[i].source != cs[j].source)
      && (forall k :: 0 <= k < |cs| ==> cs[k].source in ps)
      && (forall p :: p in ps ==> exists k :: 0 <= k < |cs| && cs[k].source == p)
  {
    var num := Clamp(requested, |files|);
    var ps := SpacedPicks(|files|, num).value;
    SpacedPicksFacts(|files|, num);
    ShuffledCopies(files, ps, perm);
  }

  // ---------------------------------------------------------------------
  // Every-k picker
  // ---------------------------------------------------------------------

  /** `[i for i in range(n) if i % k == 0]`; Python's `%` and Dafny's agree
      on whether the remainder is zero, whatever the sign of `k`. */
  function Multiples(n: nat, k: int): (r: seq<nat>)
    requires k != 0
    ensures StrictlyIncreasing(r)
    ensures forall i :: 0 <= i < |r| ==> r[i] < n && r[i] % k == 0
    ensures forall i: nat :: i < n && i % k == 0 ==> i in r
  {
    if n == 0 then []
    else Multiples(n - 1, k) + (if (n - 1) % k == 0 then [n - 1] else [])
  }

  /** There are `ceil(n / |k|)` multiples below `n`. */
  lemma {:induction false} MultiplesCount(n: nat, k: int)
    requires k != 0
    ensures var a := if k < 0 then -k else k;
      |Multiples(n, k)| == (n + a - 1) / a
  {
    var a := if k < 0 then -k else k;
    if n > 0 {
      MultiplesCount(n - 1, k);
      CeilStep(n, a);
      assert ((n - 1) % k == 0) == ((n - 1) % a == 0);
    } else {
      DivUnique(a - 1, a, 0, a - 1);
    }
  }

  /** `select_images_and_randomize_order.py`: with no files the
      comprehension never evaluates `i % k`, so only a non-empty listing
      with `k == 0` raises. */
  function EveryK(files: seq<string>, k: int, perm: seq<nat>): (r: Result<seq<Copy>>)
    requires k != 0 ==> Sections.IsPermutation(perm, |Multiples(|files|, k)|)
    ensures r.Err? <==> |files| > 0 && k == 0
    ensures r.Err? ==> r.error == ZeroDivisionError
    ensures r.Ok? && k != 0 ==> |r.value| == |Multiples(|files|, k)|
    ensures r.Ok? ==> forall c :: 0 <= c < |r.value| ==>
      r.value[c].source < |files| && r.value[c].source % k == 0
  {
    if |files| == 0 then Ok([])
    else if k == 0 then Err(ZeroDivisionError)
    else
      var order := Shuffle(Multiples(|files|, k), perm);
      Ok(Copies(files, order))
  }

  /** Every multiple of `k` is copied exactly once, under distinct names. */
  lemma EveryKCopies(files: seq<string>, k: int, perm: seq<nat>)
    requires k != 0 && Sections.IsPermutation(perm, |Multiples(|files|, k)|)
    ensures var cs := EveryK(files, k, perm).value;
      && (forall i, j :: 0 <= i < j < |cs| ==> cs[i].destination != cs[j].destination)
      && (forall i, j :: 0 <= i < j < |cs| ==> cs[i].source != cs[j].source)
      && (forall x: nat :: x < |files| && x % k == 0 ==> exists c :: 0 <= c < |cs| && cs[c].source == x)
  {
    var ms := Multiples(|files|, k);
    if |files| > 0 {
      ShuffledCopies(files, ms, perm);
      var cs := EveryK(files, k, perm).value;
      assert cs == Copies(files, Shuffle(ms, perm));
      forall x: nat | x < |files| && x % k == 0
        ensures exists c :: 0 <= c < |cs| && cs[c].source == x
      {
        assert x in ms;
      }
    }
  }
}

=== FILE: proportional.dfy ===
/** `5_select_representative_chunks.py`: the greedy phase with a fixed
    budget of 100, then a "proportional representation" fill. Each fill
    pass scores every chunk, selected or not, by how under-represented its
    labels are, and adds the first chunk of highest score. Adding a chunk
    that is already selected changes nothing, so the loop can run forever.

    Each chunk's labels are given as `np.unique` returns them: an ascending
    list without repeats. */
module Proportional {
  import opened Wrappers
  import opened Sorting
  import opened Coverage
  import LegacyCoverage

  /** The hard-coded selection size. */
  const Target: nat := 100

  /** `set(np.unique(...))` for every chunk. */
  function LabelSets(u: seq<seq<int>>): (regions: seq<set<int>>)
    ensures |regions| == |u|
    ensures forall i :: 0 <= i < |u| ==> regions[i] == Elements(u[i])
  {
    seq(|u|, i requires 0 <= i < |u| => Elements(u[i]))
  }

  /** The number of chunks among `0..k-1` whose labels contain `r`. */
  function Holders(u: seq<seq<int>>, r: int, k: nat): nat
    requires k <= |u|
  {
    if k == 0 then 0 else Holders(u, r, k - 1) + (if r in u[k - 1] then 1 else 0)
  }

  /** The number of selected chunks among `0..k-1` whose labels contain
      `r`. */
  function SelectedHolders(u: seq<seq<int>>, selected: set<nat>, r: int, k: nat): nat
    requires k <= |u|
  {
    if k == 0 then 0
    else SelectedHolders(u, selected, r, k - 1) + (if k - 1 in selected && r in u[k - 1] then 1 else 0)
  }

  /** `len(region_counts[r])` is the number of holders of `r`. */
  lemma {:induction false} HoldersCount(u: seq<seq<int>>, r: int, k: nat)
    requires k <= |u|
    ensures Holders(u, r, k) == |set j: nat | j < k && r in u[j]|
  {
    if k > 0 {
      HoldersCount(u, r, k - 1);
      var before := set j: nat | j < k - 1 && r in u[j];
      var now := set j: nat | j < k && r in u[j];
      if r in u[k - 1] {
        assert now == before + {k - 1};
      } else {
        assert now == before;
      }
    }
  }

  /** The holders counted through the region index agree with `Holders`. */
  lemma HoldersIndexed(u: seq<seq<int>>, r: int)
    requires r in AllRegions(LabelSets(u))
    ensures var m := RegionIndex(LabelSets(u));
      r in m && Holders(u, r, |u|) == |m[r]|
  {
    var regions := LabelSets(u);
    var m := RegionIndex(regions);
    HoldersCount(u, r, |u|);
    assert IndexesRegions(m, regions);
    assert r in m;
    forall j: nat
      ensures j in m[r] <==> j < |u| && r in u[j]
    {
      IndexEntry(m, regions, r, j);
      if j < |u| {
        assert regions[j] == Elements(u[j]);
      }
    }
    assert m[r] == set j: nat | j < |u| && r in u[j];
  }

  /** A label has no more selected holders than holders. */
  lemma {:induction false} SelectedHoldersAtMost(u: seq<seq<int>>, selected: set<nat>, r: int, k: nat)
    requires k <= |u|
    ensures SelectedHolders(u, selected, r, k) <= Holders(u, r, k)
  {
    if k > 0 {
      SelectedHoldersAtMost(u, selected, r, k - 1);
    }
  }

  /** `sum(current_counts.get(region, 0) - len(region_counts[region]) ...)`
      over a list of labels. */
  function Imbalance(u: seq<seq<int>>, selected: set<nat>, labels: seq<int>): int {
    if |labels| == 0 then 0
    else
      SelectedHolders(u, selected, labels[0], |u|) - Holders(u, labels[0], |u|)
        + Imbalance(u, selected, labels[1..])
  }

  /** `imbalance_scores[i]`. */
  function Score(u: seq<seq<int>>, selected: set<nat>, i: nat): int
    requires i < |u|
  {
    Imbalance(u, selected, u[i])
  }

  lemma {:induction false} ImbalanceNonPositive(u: seq<seq<int>>, selected: set<nat>, labels: seq<int>)
    ensures Imbalance(u, selected, labels) <= 0
  {
    if |labels| > 0 {
      SelectedHoldersAtMost(u, selected, labels[0], |u|);
      ImbalanceNonPositive(u, selected, labels[1..]);
    }
  }

  /** No chunk ever scores above zero. */
  lemma ScoreNonPositive(u: seq<seq<int>>, selected: set<nat>, i: nat)
    requires i < |u|
    ensures Score(u, selected, i) <= 0
  {
    ImbalanceNonPositive(u, selected, u[i]);
  }

  /** `max(imbalance_scores, key=imbalance_scores.get)` over chunks
      `0..k-1`: Python's `max` keeps the first of equal maxima. */
  function ScanMax(u: seq<seq<int>>, selected: set<nat>, k: nat): (b: nat)
    requires 1 <= k <= |u|
    ensures b < k
    ensures forall j :: 0 <= j < k ==> Score(u, selected, j) <= Score(u, selected, b)
    ensures forall j :: 0 <= j < b ==> Score(u, selected, j) < Score(u, selected, b)
  {
    if k == 1 then 0
    else
      var prev := ScanMax(u, selected, k - 1);
      if Score(u, selected, k - 1) > Score(u, selected, prev) then k - 1 else prev
  }

  /** The chunk one fill pass adds, over all chunks. */
  function FirstMax(u: seq<seq<int>>, selected: set<nat>): nat
    requires |u| >= 1
  {
    ScanMax(u, selected, |u|)
  }

  /** Each chunk's labels come from `np.unique`: ascending, without repeats,
      so summing over the list is summing over the chunk's label set. */
  predicate LabelListsUnique(u: seq<seq<int>>) {
    forall i :: 0 <= i < |u| ==> StrictlyIncreasing(u[i])
  }

  /** The fill loop as written, run for at most `fuel` passes: `None` when
      it has not finished by then. `max` of an empty dictionary raises
      ValueError. */
  function ProportionalFill(u: seq<seq<int>>, selected: set<nat>, fuel: nat): (r: Option<Result<set<nat>>>)
    requires LabelListsUnique(u)
    requires forall i :: i in selected ==> i < |u|
    ensures |selected| < Target && |u| == 0 ==> r == Some(Err(ValueError))
    ensures r.Some? && r.value.Err? ==> r.value.error == ValueError && |u| == 0
    ensures r.Some? && r.value.Ok? ==>
      selected <= r.value.value && |r.value.value| >= Target && forall i :: i in r.value.value ==> i < |u|
    decreases fuel
  {
    if |selected| >= Target then Some(Ok(selected))
    else if |u| == 0 then Some(Err(ValueError))
    else if fuel == 0 then None
    else ProportionalFill(u, selected + {FirstMax(u, selected)}, fuel - 1)
  }

  /** Once the best-scoring chunk is already selected, no number of passes
      finishes the loop. */
  lemma {:induction false} FillStuck(u: seq<seq<int>>, selected: set<nat>, fuel: nat)
    requires LabelListsUnique(u)
    requires forall i :: i in selected ==> i < |u|
    requires |selected| < Target && |u| >= 1 && FirstMax(u, selected) in selected
    ensures ProportionalFill(u, selected, fuel) == None
    decreases fuel
  {
    if fuel > 0 {
      assert selected + {FirstMax(u, selected)} == selected;
      FillStuck(u, selected, fuel - 1);
    }
  }

  /** With fewer than 100 chunks the loop never finishes. */
  lemma {:induction false} SmallPoolNeverFinishes(u: seq<seq<int>>, selected: set<nat>, fuel: nat)
    requires LabelListsUnique(u)
    requires forall i :: i in selected ==> i < |u|
    requires 1 <= |u| < Target
    ensures ProportionalFill(u, selected, fuel) == None
    decreases fuel
  {
    SubsetCard(selected, Below(|u|));
    if fuel > 0 {
      SmallPoolNeverFinishes(u, selected + {FirstMax(u, selected)}, fuel - 1);
    }
  }

  /** `n` chunks that all hold the same single label. */
  function Uniform(n: nat): (u: seq<seq<int>>)
    ensures |u| == n && forall i :: 0 <= i < n ==> u[i] == [0]
  {
    seq(n, i => [0])
  }

  /** On a uniform pool every chunk scores the same, so the first chunk
      wins every pass. */
  lemma UniformFirstMax(n: nat, selected: set<nat>)
    requires n >= 1
    ensures FirstMax(Uniform(n), selected) == 0
  {
    var u := Uniform(n);
    var b := FirstMax(u, selected);
    assert u[0] == u[b];
    assert Score(u, selected, 0) == Score(u, selected, b);
  }

  lemma UniformLabels(n: nat)
    requires n >= 1
    ensures AllRegions(LabelSets(Uniform(n))) == {0}
    ensures forall i :: 0 <= i < n ==> LabelSets(Uniform(n))[i] == {0}
  {
    var regions := LabelSets(Uniform(n));
    assert forall i :: 0 <= i < n ==> regions[i] == {0};
    forall r | r in AllRegions(regions)
      ensures r == 0
    {
      AllRegionsMember(regions, r);
    }
    RegionInAll(regions, 0);
  }

  /** On a uniform pool the greedy phase takes chunk 0 and stops. */
  lemma UniformGreedy(n: nat, order: seq<nat>)
    requires n >= 1
    requires CompleteRun(LabelSets(Uniform(n)), Target, order)
    ensures order == [0]
  {
    var regions := LabelSets(Uniform(n));
    UniformLabels(n);
    assert Gain(regions, 0, {}) == 1;
    assert forall j: nat :: j < |regions| ==> Gain(regions, j, {}) == 1;
    assert GreedyChoice(regions, {}, {}, 0);
    assert [0][..0] == [];
    assert GreedyTrace(regions, [0]);
    assert UnionOf(regions, [0]) == UnionOf(regions, []) + regions[0];
    GreedyRunUnique(regions, Target, order, [0]);
  }

  /** Script 5 never finishes on a pool of any size whose chunks all hold
      the same labels: after the greedy phase the first chunk scores best
      for ever. */
  lemma UniformPoolNeverFinishes(n: nat, order: seq<nat>, fuel: nat)
    requires n >= 1
    requires CompleteRun(LabelSets(Uniform(n)), Target, order)
    ensures LabelListsUnique(Uniform(n))
    ensures ProportionalFill(Uniform(n), Elements(order), fuel) == None
  {
    UniformGreedy(n, order);
    assert Elements(order) == {0};
    UniformFirstMax(n, {0});
    FillStuck(Uniform(n), {0}, fuel);
  }

  /** Script 5 as written, run for at most `fuel` fill passes. */
  method ProportionalSelection(u: seq<seq<int>>, fuel: nat) returns (order: seq<nat>, r: Option<Result<set<nat>>>)
    requires LabelListsUnique(u)
    ensures CompleteRun(LabelSets(u), Target, order)
    ensures r == ProportionalFill(u, Elements(order), fuel)
    ensures 1 <= |u| < Target ==> r == None
    ensures r.Some? && r.value.Ok? ==> Elements(order) <= r.value.value && |r.value.value| >= Target
  {
    var covered;
    order, covered := LegacyCoverage.LegacyGreedy(LabelSets(u), Target);
    assert forall i :: i in Elements(order) ==> i < |u|;
    r := ProportionalFill(u, Elements(order), fuel);
    if 1 <= |u| < Target {
      SmallPoolNeverFinishes(u, Elements(order), fuel);
    }
  }

  /** The first unselected chunk of highest score among `0..k-1`. */
  function ScanMaxUnselected(u: seq<seq<int>>, selected: set<nat>, k: nat): (b: Option<nat>)
    requires k <= |u|
    ensures b.None? <==> forall j: nat :: j < k ==> j in selected
    ensures b.Some? ==> b.value < k && b.value !in selected
    ensures b.Some? ==> forall j: nat :: j < k && j !in selected ==> Score(u, selected, j) <= Score(u, selected, b.value)
    ensures b.Some? ==> forall j: nat :: j < b.value && j !in selected ==> Score(u, selected, j) < Score(u, selected, b.value)
  {
    if k == 0 then None
    else
      var prev := ScanMaxUnselected(u, selected, k - 1);
      if k - 1 in selected then prev
      else if prev.None? || Score(u, selected, k - 1) > Score(u, selected, prev.value) then Some(k - 1)
      else prev
  }

  /** The fill the comment "ensure proportional representation" describes:
      add the best-scoring chunk not yet selected, until 100 are selected
      or none is left. It always ends. */
  function IntendedFill(u: seq<seq<int>>, selected: set<nat>): (r: set<nat>)
    requires forall i :: i in selected ==> i < |u|
    ensures selected <= r
    ensures forall i :: i in r ==> i < |u|
    ensures |r| == Max(|selected|, Min(Target, |u|))
    decreases |u| - |selected|
  {
    SubsetCard(selected, Below(|u|));
    if |selected| >= Target then selected
    else
      match ScanMaxUnselected(u, selected, |u|)
      case None =>
        assert selected == Below(|u|);
        selected
      case Some(b) =>
        SubsetCard(selected + {b}, Below(|u|));
        IntendedFill(u, selected + {b})
  }
}

=== FILE: recreate.dfy ===
/** Re-extracting an existing chunk selection from newly processed source
    images (`preprocess_for_cellpose/6_recreate_chunk_selection.py`): chunk
    names are parsed back into sample id, source stem and tile origin, every
    (sample, stem) key must resolve to exactly one source image before
    anything is written, each chunk is re-cut only when it fits the new
    source, and no existing file is ever overwritten. Pixel arrays are
    reduced to their shapes. */
module Recreate {
  import opened Wrappers
  import opened Strings
  import opened Sorting
  import opened Decimal
  import opened Tiling

  /** What `parse_chunk_filename` returns, without the file handle. */
  datatype Parsed = Parsed(y: int, x: int, sampleId: string, sourceStem: string)

  /** `parts[i]`, with the IndexError of an index outside the list. */
  function Token(parts: seq<string>, i: int): (r: Result<string>)
    ensures r.Ok? <==> PyIndex(parts, i).Some?
    ensures r.Ok? ==> r.value == PyIndex(parts, i).value
    ensures r.Err? ==> r.error == IndexError
  {
    match PyIndex(parts, i)
    case Some(t) => Ok(t)
    case None => Err(IndexError)
  }

  /** `int(token)`, with the ValueError of a malformed number. */
  function TokenInt(t: string): (r: Result<int>)
    ensures r.Ok? <==> ParseInt(t).Some?
    ensures r.Ok? ==> r.value == ParseInt(t).value
    ensures r.Err? ==> r.error == ValueError
  {
    match ParseInt(t)
    case Some(n) => Ok(n)
    case None => Err(ValueError)
  }

  function Max3(a: int, b: int, c: int): int {
    Max(Max(a, b), c)
  }

  /** `parse_chunk_filename` on a chunk's stem, with the three configured
      token indices. */
  function ParseChunk(stem: string, sidIx: int, mipIx: int, chunkIx: int): (r: Result<Parsed>)
    ensures r.Ok? ==> |Split(stem, '_')| > Max3(sidIx, mipIx, chunkIx + 2)
    ensures r.Ok? ==> PyIndex(Split(stem, '_'), mipIx) == Some("MIP")
    ensures r.Ok? ==> PyIndex(Split(stem, '_'), chunkIx) == Some("chunk")
    ensures r.Ok? ==> PyIndex(Split(stem, '_'), sidIx) == Some(r.value.sampleId)
    ensures r.Ok? ==> r.value.sourceStem != ""
    ensures r.Ok? ==> ParseInt(PyIndex(Split(stem, '_'), chunkIx + 1).value) == Some(r.value.y)
    ensures r.Ok? ==> ParseInt(PyIndex(Split(stem, '_'), chunkIx + 2).value) == Some(r.value.x)
  {
    var parts := Split(stem, '_');
    if |parts| <= Max3(sidIx, mipIx, chunkIx + 2) then Err(RuntimeError)
    else
      var mip :- Token(parts, mipIx);
      if mip != "MIP" then Err(RuntimeError)
      else
        var chunk :- Token(parts, chunkIx);
        if chunk != "chunk" then Err(RuntimeError)
        else
          var yText :- Token(parts, chunkIx + 1);
          var y :- TokenInt(yText);
          var xText :- Token(parts, chunkIx + 2);
          var x :- TokenInt(xText);
          var sid :- Token(parts, sidIx);
          var source := JoinAll(PySlice(parts, mipIx, chunkIx), '_');
          if source == "" then Err(RuntimeError)
          else Ok(Parsed(y, x, sid, source))
  }

  /** With non-negative indices no token lookup can fail: the length check
      comes first. A parse that succeeds has the `MIP` token before the
      `chunk` token, and the source stem is the tokens from `MIP` up to
      `chunk`, so it starts with `MIP`. */
  lemma ParseChunkShape(stem: string, sidIx: nat, mipIx: nat, chunkIx: nat)
    ensures ParseChunk(stem, sidIx, mipIx, chunkIx) != Err(IndexError)
    ensures chunkIx <= mipIx ==> ParseChunk(stem, sidIx, mipIx, chunkIx).Err?
    ensures ParseChunk(stem, sidIx, mipIx, chunkIx).Ok? ==>
      var parts := Split(stem, '_');
      && mipIx < chunkIx
      && ParseChunk(stem, sidIx, mipIx, chunkIx).value.sourceStem == Join(parts[mipIx..chunkIx], '_')
      && parts[mipIx..chunkIx][0] == "MIP"
  {
    var parts := Split(stem, '_');
    if chunkIx <= mipIx && |parts| > Max3(sidIx, mipIx, chunkIx + 2) {
      if chunkIx == mipIx {
        assert parts[mipIx] == parts[chunkIx];
      } else {
        assert PySlice(parts, mipIx, chunkIx) == [];
      }
    }
  }

  /** A word between two separators becomes one token. */
  lemma SplitWord(p: string, w: string, rest: string)
    requires '_' !in w
    ensures Split(p + ("_" + w + "_") + rest, '_') == Split(p, '_') + [w] + Split(rest, '_')
  {
    assert p + ("_" + w + "_") + rest == p + "_" + (w + "_" + rest);
    SplitConcat(p, '_', w + "_" + rest);
    SplitAfterPiece(w, '_', rest);
  }

  /** The tokens of a projection chunk's stem. */
  lemma SplitMipChunk(sid: string, a: string, b: string, si: string, sj: string)
    requires '_' !in sid && '_' !in a && '_' !in b && '_' !in si && '_' !in sj
    ensures Split(sid + "_MIP_" + a + "_" + b + "_chunk_" + si + "_" + sj, '_') == [sid, "MIP", a, b, "chunk", si, sj]
  {
    SplitNoSeparator(sid, '_');
    SplitNoSeparator(a, '_');
    SplitNoSeparator(b, '_');
    SplitNoSeparator(si, '_');
    SplitNoSeparator(sj, '_');
    assert "_MIP_" == "_" + "MIP" + "_";
    var p1 := sid + "_MIP_" + a;
    SplitWord(sid, "MIP", a);
    assert Split(p1, '_') == [sid, "MIP", a];
    var p2 := p1 + "_" + b;
    SplitConcat(p1, '_', b);
    assert "_chunk_" == "_" + "chunk" + "_";
    var p3 := p2 + "_chunk_" + si;
    SplitWord(p2, "chunk", si);
    assert Split(p3, '_') == [sid, "MIP", a, b, "chunk", si];
    SplitConcat(p3, '_', sj);
  }

  /** The stem of the chunk at `(i, j)` of projection `MIP_{a}_{b}` of
      sample `sid`. */
  function MipChunkStem(sid: string, a: string, b: string, i: nat, j: nat): string {
    TileStem(sid + "_MIP_" + a + "_" + b, i, j)
  }

  lemma ParseNat(n: nat)
    ensures ParseInt(NatToString(n)) == Some(n)
  {
    assert IntToString(n) == NatToString(n);
    ParseIntToString(n);
  }

  /** Round trip with the default indices (sample id 0, `MIP` 1, `chunk` 4):
      the parse recovers the sample id, the projection's stem and the tile
      origin the name was written from. */
  lemma ParseChunkRoundTrip(sid: string, a: string, b: string, i: nat, j: nat)
    requires '_' !in sid && '_' !in a && '_' !in b
    ensures ParseChunk(MipChunkStem(sid, a, b, i, j), 0, 1, 4) == Ok(Parsed(i, j, sid, "MIP_" + a + "_" + b))
  {
    var si := NatToString(i);
    var sj := NatToString(j);
    NoUnderscore(si);
    NoUnderscore(sj);
    SplitMipChunk(sid, a, b, si, sj);
    var parts := [sid, "MIP", a, b, "chunk", si, sj];
    assert Split(MipChunkStem(sid, a, b, i, j), '_') == parts;
    ParseNat(i);
    ParseNat(j);
    assert PySlice(parts, 1, 4) == ["MIP", a, b];
    assert Join(["MIP", a, b], '_') == "MIP_" + a + "_" + b by {
      assert ["MIP", a, b][1..] == [a, b];
      assert [a, b][1..] == [b];
      assert Join([a, b], '_') == a + "_" + b;
    }
  }

  /** `find_source_candidates`: the subject's files whose stem contains the
      source stem, in listing order. */
  function Candidates(files: seq<string>, sourceStem: string): (r: seq<string>)
    ensures forall p :: p in r <==> p in files && Contains(Stem(p), sourceStem)
    ensures |r| <= |files|
  {
    if |files| == 0 then []
    else
      var rest := Candidates(files[1..], sourceStem);
      assert files == [files[0]] + files[1..];
      if Contains(Stem(files[0]), sourceStem) then [files[0]] + rest else rest
  }

  /** The preflight verdict for one (sample id, source stem) key. */
  datatype Verdict = MissingSubject | MissingStem | Ambiguous | Resolved(source: string)

  /** A list of one candidate names the only matching file. */
  lemma OnlyCandidate(files: seq<string>, sourceStem: string)
    requires |Candidates(files, sourceStem)| == 1
    ensures Candidates(files, sourceStem)[0] in files
    ensures Contains(Stem(Candidates(files, sourceStem)[0]), sourceStem)
    ensures forall p :: p in files && Contains(Stem(p), sourceStem) ==> p == Candidates(files, sourceStem)[0]
  {
    var cands := Candidates(files, sourceStem);
    assert cands[0] in cands;
    forall p | p in files && Contains(Stem(p), sourceStem)
      ensures p == cands[0]
    {
      assert p in cands;
    }
  }

  function Classify(key: (string, string), subjects: map<string, seq<string>>): (v: Verdict)
    ensures v == MissingSubject <==> key.0 !in subjects
    ensures v == MissingStem <==> key.0 in subjects && |Candidates(subjects[key.0], key.1)| == 0
    ensures v == Ambiguous <==> key.0 in subjects && |Candidates(subjects[key.0], key.1)| > 1
    ensures v.Resolved? ==> key.0 in subjects && v.source in subjects[key.0] && Contains(Stem(v.source), key.1)
    ensures v.Resolved? ==> forall p :: p in subjects[key.0] && Contains(Stem(p), key.1) ==> p == v.source
  {
    if key.0 !in subjects then MissingSubject
    else
      var files := subjects[key.0];
      var n := |Candidates(files, key.1)|;
      if n == 0 then MissingStem
      else if n > 1 then Ambiguous
      else
        OnlyCandidate(files, key.1);
        Resolved(Candidates(files, key.1)[0])
  }

  /** The upfront completeness check: every key must resolve, otherwise
      RuntimeError before any output is written. */
  function Preflight(keys: seq<(string, string)>, subjects: map<string, seq<string>>)
    : (r: Result<map<(string, string), string>>)
    ensures r.Err? <==> exists k :: k in keys && !Classify(k, subjects).Resolved?
    ensures r.Err? ==> r.error == RuntimeError
    ensures r.Ok? ==> r.value.Keys == Elements(keys)
    ensures r.Ok? ==> forall k :: k in keys ==> Resolved(r.value[k]) == Classify(k, subjects)
  {
    if |keys| == 0 then Ok(map[])
    else
      var tail := keys[1..];
      var rest := Preflight(tail, subjects);
      var v := Classify(keys[0], subjects);
      if !v.Resolved? then
        assert keys[0] in keys;
        Err(RuntimeError)
      else if rest.Err? then
        assert exists k :: k in keys && !Classify(k, subjects).Resolved? by {
          var k :| k in tail && !Classify(k, subjects).Resolved?;
          assert k in keys;
        }
        Err(RuntimeError)
      else
        var m := rest.value[keys[0] := v.source];
        PreflightCons(keys, k => Classify(k, subjects), rest.value, v.source);
        assert forall k :: k in keys ==> Resolved(m[k]) == Classify(k, subjects);
        Ok(m)
  }

  /** One resolved key in front of a resolved tail: the preflight map grows
      by that key and still agrees with the verdicts. */
  lemma PreflightCons<K>(keys: seq<K>, verdict: K -> Verdict, rest: map<K, string>, source: string)
    requires |keys| > 0
    requires verdict(keys[0]) == Resolved(source)
    requires rest.Keys == Elements(keys[1..])
    requires forall k :: k in keys[1..] ==> Resolved(rest[k]) == verdict(k)
    ensures rest[keys[0] := source].Keys == Elements(keys)
    ensures forall k :: k in keys ==> Resolved(rest[keys[0] := source][k]) == verdict(k)
  {
    var tail := keys[1..];
    var m := rest[keys[0] := source];
    assert keys == [keys[0]] + tail;
    assert Elements(keys) == Elements(tail) + {keys[0]};
    forall k | k in keys ensures Resolved(m[k]) == verdict(k) {
      if k != keys[0] { assert k in tail; }
    }
  }

  /** How one chunk job ends: re-cut, or skipped with a message. */
  datatype Outcome = Write | Skip

  /** The chunk fits the new source: same number of axes, the same depth for
      a stack, and the tile inside the source on the two image axes. */
  predicate Fits(prior: seq<int>, source: seq<int>, y: int, x: int) {
    if |prior| == 2 then |source| == 2 && y + prior[0] <= source[0] && x + prior[1] <= source[1]
    else if |prior| == 3 then |source| == 3 && source[0] == prior[0] && y + prior[1] <= source[1] && x + prior[2] <= source[2]
    else false
  }

  /** The checks before re-cutting one chunk: a failed check raises
      RuntimeError in strict mode and skips the chunk otherwise. */
  function CheckJob(prior: seq<int>, source: seq<int>, y: int, x: int, strict: bool): (r: Result<Outcome>)
    ensures r == Ok(Write) <==> Fits(prior, source, y, x)
    ensures r.Err? <==> strict && !Fits(prior, source, y, x)
    ensures r.Err? ==> r.error == RuntimeError
  {
    var fail := if strict then Err(RuntimeError) else Ok(Skip);
    if |prior| == 2 then
      if |source| != 2 then fail
      else if y + prior[0] > source[0] || x + prior[1] > source[1] then fail
      else Ok(Write)
    else if |prior| == 3 then
      if |source| != 3 then fail
      else if source[0] != prior[0] then fail
      else if y + prior[1] > source[1] || x + prior[2] > source[2] then fail
      else Ok(Write)
    else fail
  }

  /** One chunk to re-cut: its file name, what its name parses to, and the
      shape of the old chunk. */
  datatype Job = Job(name: string, parsed: Parsed, prior: seq<int>)

  function KeyOf(j: Job): (string, string) {
    (j.parsed.sampleId, j.parsed.sourceStem)
  }

  /** What a finished run wrote: chunk files, the number skipped, and the
      annotation files copied along. */
  datatype Report = Report(written: seq<string>, skipped: nat, annotations: seq<string>)

  /** `{stem}_seg.npy`, the annotation file of a chunk. */
  function SegName(chunkName: string): string {
    Stem(chunkName) + "_seg.npy"
  }

  /** Name `n` is the file of a job whose chunk fits its source. */
  predicate WrittenBy(jobs: seq<Job>, shapes: map<(string, string), seq<int>>, n: string) {
    exists k :: 0 <= k < |jobs| && jobs[k].name == n && KeyOf(jobs[k]) in shapes && FitsSource(jobs[k], shapes)
  }

  predicate FitsSource(j: Job, shapes: map<(string, string), seq<int>>)
    requires KeyOf(j) in shapes
  {
    Fits(j.prior, shapes[KeyOf(j)], j.parsed.y, j.parsed.x)
  }

  /** The safety half of what a finished run promises: every job is either
      written or skipped, nothing already present is overwritten,
      annotations are copied only from existing ones, no file is written
      twice, every chunk written has a job that fits its source, and strict
      mode skips nothing. Which jobs are written is `ExpectedReport`. */
  predicate SoundReport(jobs: seq<Job>, shapes: map<(string, string), seq<int>>, strict: bool,
                        segs: set<string>, taken: set<string>, rep: Report)
  {
    && |rep.written| + rep.skipped == |jobs|
    && (forall n :: n in rep.written ==> n !in taken)
    && (forall n :: n in rep.annotations ==> n !in taken && n in segs)
    && Distinct(rep.written + rep.annotations)
    && (forall n :: n in rep.written ==> WrittenBy(jobs, shapes, n))
    && (strict ==> rep.skipped == 0)
  }

  /** The re-cutting loop. `shapes` maps each resolved key to the shape of
      its source image, `segs` lists the annotation files next to the old
      chunks, and `taken` the names already present in the output folder. */
  function Run(jobs: seq<Job>, shapes: map<(string, string), seq<int>>, strict: bool, copySeg: bool,
               segs: set<string>, taken: set<string>): (r: Result<Report>)
    requires forall k :: 0 <= k < |jobs| ==> KeyOf(jobs[k]) in shapes
    ensures r.Err? ==> r.error == RuntimeError
    ensures r.Ok? ==> SoundReport(jobs, shapes, strict, segs, taken, r.value)
    decreases |jobs|
  {
    if |jobs| == 0 then Ok(Report([], 0, []))
    else
      var j := jobs[0];
      var check := CheckJob(j.prior, shapes[KeyOf(j)], j.parsed.y, j.parsed.x, strict);
      if check.Err? then Err(RuntimeError)
      else if check.value == Skip then
        var rest :- Run(jobs[1..], shapes, strict, copySeg, segs, taken);
        SkipSound(jobs, shapes, strict, segs, taken, rest);
        Ok(Report(rest.written, rest.skipped + 1, rest.annotations))
      else if j.name in taken then Err(RuntimeError)
      else
        var seg := SegName(j.name);
        var copy := copySeg && seg in segs;
        if copy && seg in taken + {j.name} then Err(RuntimeError)
        else
          var now := if copy then taken + {j.name, seg} else taken + {j.name};
          var rest :- Run(jobs[1..], shapes, strict, copySeg, segs, now);
          var mine := if copy then [seg] else [];
          WriteSound(jobs, shapes, strict, segs, taken, now, mine, rest);
          Ok(Report([j.name] + rest.written, rest.skipped, mine + rest.annotations))
  }

  /** A skipped job adds one to the count and keeps the rest sound. */
  lemma SkipSound(jobs: seq<Job>, shapes: map<(string, string), seq<int>>, strict: bool,
                  segs: set<string>, taken: set<string>, rest: Report)
    requires |jobs| > 0 && !strict
    requires SoundReport(jobs[1..], shapes, strict, segs, taken, rest)
    ensures SoundReport(jobs, shapes, strict, segs, taken, Report(rest.written, rest.skipped + 1, rest.annotations))
  {
    JobsShift(jobs, shapes, rest.written);
  }

  /** A written job, with its annotation when copied, goes in front of a
      sound run over the rest that avoided both names. */
  lemma WriteSound(jobs: seq<Job>, shapes: map<(string, string), seq<int>>, strict: bool,
                   segs: set<string>, taken: set<string>, now: set<string>, mine: seq<string>, rest: Report)
    requires |jobs| > 0 && KeyOf(jobs[0]) in shapes && FitsSource(jobs[0], shapes)
    requires jobs[0].name !in taken
    requires |mine| <= 1 && (|mine| == 1 ==> mine[0] != jobs[0].name && mine[0] !in taken && mine[0] in segs)
    requires now == taken + {jobs[0].name} + Elements(mine)
    requires SoundReport(jobs[1..], shapes, strict, segs, now, rest)
    ensures SoundReport(jobs, shapes, strict, segs, taken, Report([jobs[0].name] + rest.written, rest.skipped, mine + rest.annotations))
  {
    JobsShift(jobs, shapes, rest.written);
    assert WrittenBy(jobs, shapes, jobs[0].name);
    DistinctWithFresh(jobs[0].name, mine, rest.written, rest.annotations, now);
    assert [jobs[0].name] + rest.written + (mine + rest.annotations) == ([jobs[0].name] + rest.written) + (mine + rest.annotations);
  }

  lemma JobsShift(jobs: seq<Job>, shapes: map<(string, string), seq<int>>, names: seq<string>)
    requires |jobs| > 0
    requires forall n :: n in names ==> WrittenBy(jobs[1..], shapes, n)
    ensures forall n :: n in names ==> WrittenBy(jobs, shapes, n)
  {
    forall n | n in names
      ensures WrittenBy(jobs, shapes, n)
    {
      var k :| 0 <= k < |jobs[1..]| && jobs[1..][k].name == n && KeyOf(jobs[1..][k]) in shapes && FitsSource(jobs[1..][k], shapes);
      assert jobs[k + 1] == jobs[1..][k];
    }
  }

  lemma DistinctWithFresh(name: string, mine: seq<string>, written: seq<string>, annotations: seq<string>,
                          now: set<string>)
    requires Distinct(written + annotations)
    requires forall n :: n in written ==> n !in now
    requires forall n :: n in annotations ==> n !in now
    requires name in now && forall n :: n in mine ==> n in now
    requires |mine| <= 1 && (|mine| == 1 ==> mine[0] != name)
    ensures Distinct([name] + written + (mine + annotations))
  {
    var s := [name] + written + (mine + annotations);
    forall i, j | 0 <= i < j < |s|
      ensures s[i] != s[j]
    {
      if i == 0 {
        assert s[j] in written || s[j] in mine || s[j] in annotations;
      } else if i <= |written| && j > |written| + |mine| {
        assert s[i] == (written + annotations)[i - 1];
        assert s[j] == (written + annotations)[j - 1 - |mine|];
      } else if i <= |written| && j > |written| {
        assert s[i] in written && s[j] in mine;
      } else if i > |written| && i <= |written| + |mine| {
        assert s[i] in mine && s[j] in annotations;
      } else if i > |written| {
        assert s[i] == (written + annotations)[i - 1 - |mine|];
        assert s[j] == (written + annotations)[j - 1 - |mine|];
      } else {
        assert s[i] == (written + annotations)[i - 1];
        assert s[j] == (written + annotations)[j - 1];
      }
    }
  }

  /** The job fits its source, whose shape `shapes` records. */
  predicate Fitting(j: Job, shapes: map<(string, string), seq<int>>) {
    KeyOf(j) in shapes && Fits(j.prior, shapes[KeyOf(j)], j.parsed.y, j.parsed.x)
  }

  /** The annotation a written job copies along: its `_seg.npy` file, when
      copying is on and the file exists. */
  function CopiedSeg(j: Job, copySeg: bool, segs: set<string>): seq<string> {
    if copySeg && SegName(j.name) in segs then [SegName(j.name)] else []
  }

  /** Every file the fitting jobs put in the output folder, in job order:
      each chunk, followed by its annotation when that is copied. */
  function Outputs(jobs: seq<Job>, shapes: map<(string, string), seq<int>>, copySeg: bool, segs: set<string>)
    : seq<string>
    decreases |jobs|
  {
    if |jobs| == 0 then []
    else
      (if Fitting(jobs[0], shapes) then [jobs[0].name] + CopiedSeg(jobs[0], copySeg, segs) else [])
      + Outputs(jobs[1..], shapes, copySeg, segs)
  }

  /** The chunk names of the fitting jobs, in job order. */
  function FittingNames(jobs: seq<Job>, shapes: map<(string, string), seq<int>>): (r: seq<string>)
    ensures |r| <= |jobs|
    decreases |jobs|
  {
    if |jobs| == 0 then []
    else (if Fitting(jobs[0], shapes) then [jobs[0].name] else []) + FittingNames(jobs[1..], shapes)
  }

  /** The annotations copied along with the fitting jobs, in job order. */
  function CopiedSegs(jobs: seq<Job>, shapes: map<(string, string), seq<int>>, copySeg: bool, segs: set<string>)
    : seq<string>
    decreases |jobs|
  {
    if |jobs| == 0 then []
    else
      (if Fitting(jobs[0], shapes) then CopiedSeg(jobs[0], copySeg, segs) else [])
      + CopiedSegs(jobs[1..], shapes, copySeg, segs)
  }

  /** The run gets through: strict mode meets no misfit, and the files the
      fitting jobs produce are all new and all different. */
  predicate RunSucceeds(jobs: seq<Job>, shapes: map<(string, string), seq<int>>, strict: bool, copySeg: bool,
                        segs: set<string>, taken: set<string>) {
    && (strict ==> forall k :: 0 <= k < |jobs| ==> Fitting(jobs[k], shapes))
    && Distinct(Outputs(jobs, shapes, copySeg, segs))
    && (forall n :: n in Outputs(jobs, shapes, copySeg, segs) ==> n !in taken)
  }

  /** The report of a run that gets through: every fitting chunk written,
      every other one skipped, and the annotations of the written ones. */
  function ExpectedReport(jobs: seq<Job>, shapes: map<(string, string), seq<int>>, copySeg: bool, segs: set<string>)
    : Report
  {
    var names := FittingNames(jobs, shapes);
    Report(names, |jobs| - |names|, CopiedSegs(jobs, shapes, copySeg, segs))
  }

  /** The re-cutting loop succeeds exactly when strict mode meets no misfit
      and no output collides with an existing file or with another output;
      then it writes exactly the fitting chunks, in order, and skips the
      rest. */
  lemma {:induction false} RunOutcome(jobs: seq<Job>, shapes: map<(string, string), seq<int>>, strict: bool,
                                      copySeg: bool, segs: set<string>, taken: set<string>)
    requires forall k :: 0 <= k < |jobs| ==> KeyOf(jobs[k]) in shapes
    ensures Run(jobs, shapes, strict, copySeg, segs, taken).Ok? <==> RunSucceeds(jobs, shapes, strict, copySeg, segs, taken)
    ensures Run(jobs, shapes, strict, copySeg, segs, taken).Ok? ==>
      Run(jobs, shapes, strict, copySeg, segs, taken).value == ExpectedReport(jobs, shapes, copySeg, segs)
    decreases |jobs|
  {
    if |jobs| > 0 {
      var j := jobs[0];
      if !Fitting(j, shapes) {
        SucceedsSkip(jobs, shapes, strict, copySeg, segs, taken);
        ExpectedSkip(jobs, shapes, copySeg, segs);
        RunOutcome(jobs[1..], shapes, strict, copySeg, segs, taken);
      } else {
        var seg := SegName(j.name);
        var copy := copySeg && seg in segs;
        var now := if copy then taken + {j.name, seg} else taken + {j.name};
        SucceedsWrite(jobs, shapes, strict, copySeg, segs, taken);
        ExpectedWrite(jobs, shapes, copySeg, segs);
        RunOutcome(jobs[1..], shapes, strict, copySeg, segs, now);
      }
    }
  }

  /** Every job fits exactly when the first one and all later ones do. */
  lemma AllFitTail(jobs: seq<Job>, shapes: map<(string, string), seq<int>>)
    requires |jobs| > 0
    ensures (forall k :: 0 <= k < |jobs| ==> Fitting(jobs[k], shapes)) <==>
      Fitting(jobs[0], shapes) && forall k :: 0 <= k < |jobs[1..]| ==> Fitting(jobs[1..][k], shapes)
  {
    assert forall k :: 0 <= k < |jobs[1..]| ==> jobs[1..][k] == jobs[k + 1];
  }

  /** A misfit produces nothing: the run gets through exactly when it is
      not strict and the rest gets through. */
  lemma SucceedsSkip(jobs: seq<Job>, shapes: map<(string, string), seq<int>>, strict: bool, copySeg: bool,
                     segs: set<string>, taken: set<string>)
    requires |jobs| > 0 && !Fitting(jobs[0], shapes)
    ensures RunSucceeds(jobs, shapes, strict, copySeg, segs, taken) <==>
      !strict && RunSucceeds(jobs[1..], shapes, strict, copySeg, segs, taken)
  {
    AllFitTail(jobs, shapes);
    assert Outputs(jobs, shapes, copySeg, segs) == Outputs(jobs[1..], shapes, copySeg, segs);
  }

  /** A fitting job's chunk and annotation must be new and different; the
      rest must then get through with both names taken. */
  lemma SucceedsWrite(jobs: seq<Job>, shapes: map<(string, string), seq<int>>, strict: bool, copySeg: bool,
                      segs: set<string>, taken: set<string>)
    requires |jobs| > 0 && Fitting(jobs[0], shapes)
    ensures var j := jobs[0];
      var seg := SegName(j.name);
      var copy := copySeg && seg in segs;
      RunSucceeds(jobs, shapes, strict, copySeg, segs, taken) <==>
        && j.name !in taken
        && !(copy && seg in taken + {j.name})
        && RunSucceeds(jobs[1..], shapes, strict, copySeg, segs, if copy then taken + {j.name, seg} else taken + {j.name})
  {
    var j := jobs[0];
    var seg := SegName(j.name);
    var copy := copySeg && seg in segs;
    var rest := Outputs(jobs[1..], shapes, copySeg, segs);
    AllFitTail(jobs, shapes);
    assert Outputs(jobs, shapes, copySeg, segs) == [j.name] + (if copy then [seg] else []) + rest;
    FreshFront(j.name, seg, copy, rest, taken);
  }

  /** The outputs of one job in front of the rest are fresh and different
      exactly when the job's own names are, and the rest are with them taken. */
  lemma FreshFront(name: string, seg: string, copy: bool, rest: seq<string>, taken: set<string>)
    ensures var all := [name] + (if copy then [seg] else []) + rest;
      (Distinct(all) && forall n :: n in all ==> n !in taken) <==>
        && name !in taken
        && !(copy && seg in taken + {name})
        && Distinct(rest)
        && (forall n :: n in rest ==> n !in (if copy then taken + {name, seg} else taken + {name}))
  {
    var mine := [name] + (if copy then [seg] else []);
    DistinctSplit(mine, rest);
    if copy {
      assert mine == [name, seg];
      assert Distinct(mine) ==> mine[0] != mine[1];
    } else {
      assert mine == [name];
    }
    assert Distinct(mine) <==> !(copy && seg == name);
    assert forall n :: n in mine <==> n == name || (copy && n == seg);
    assert forall n :: n in mine + rest <==> n in mine || n in rest;
  }

  /** The expected report of a misfit followed by the rest. */
  lemma ExpectedSkip(jobs: seq<Job>, shapes: map<(string, string), seq<int>>, copySeg: bool, segs: set<string>)
    requires |jobs| > 0 && !Fitting(jobs[0], shapes)
    ensures var e := ExpectedReport(jobs[1..], shapes, copySeg, segs);
      ExpectedReport(jobs, shapes, copySeg, segs) == Report(e.written, e.skipped + 1, e.annotations)
  {
  }

  /** The expected report of a fitting job followed by the rest. */
  lemma ExpectedWrite(jobs: seq<Job>, shapes: map<(string, string), seq<int>>, copySeg: bool, segs: set<string>)
    requires |jobs| > 0 && Fitting(jobs[0], shapes)
    ensures var e := ExpectedReport(jobs[1..], shapes, copySeg, segs);
      ExpectedReport(jobs, shapes, copySeg, segs) ==
        Report([jobs[0].name] + e.written, e.skipped, CopiedSeg(jobs[0], copySeg, segs) + e.annotations)
  {
  }

  /** A chunk name is among the fitting names exactly when some fitting job
      carries it. */
  lemma {:induction false} FittingNamesMember(jobs: seq<Job>, shapes: map<(string, string), seq<int>>, n: string)
    ensures n in FittingNames(jobs, shapes) <==> exists k :: 0 <= k < |jobs| && jobs[k].name == n && Fitting(jobs[k], shapes)
    decreases |jobs|
  {
    if |jobs| > 0 {
      FittingNamesMember(jobs[1..], shapes, n);
      assert forall k :: 0 < k < |jobs| ==> jobs[k] == jobs[1..][k - 1];
      if exists k :: 0 <= k < |jobs[1..]| && jobs[1..][k].name == n && Fitting(jobs[1..][k], shapes) {
        var k :| 0 <= k < |jobs[1..]| && jobs[1..][k].name == n && Fitting(jobs[1..][k], shapes);
        assert jobs[k + 1] == jobs[1..][k];
      }
    }
  }

  /** `p.stem[:-4]`: the stem without its last four characters. */
  function DropLast4(s: string): (r: string)
    ensures |s| >= 4 ==> r == s[..|s| - 4]
    ensures |s| < 4 ==> r == ""
  {
    PySlice(s, 0, -4)
  }

  /** The annotation files (`*_seg.npy`, given by stem) whose chunk is not
      in the folder; they are only reported. */
  function Orphans(segStems: seq<string>, chunkStems: set<string>): (r: seq<string>)
    ensures forall s :: s in r <==> s in segStems && DropLast4(s) !in chunkStems
    ensures |r| <= |segStems|
  {
    if |segStems| == 0 then []
    else
      var rest := Orphans(segStems[1..], chunkStems);
      assert segStems == [segStems[0]] + segStems[1..];
      if DropLast4(segStems[0]) !in chunkStems then [segStems[0]] + rest else rest
  }

  /** An annotation `{c}_seg` is an orphan exactly when `c` is not a chunk
      stem. */
  lemma OrphanOfChunk(c: string, segStems: seq<string>, chunkStems: set<string>)
    requires c + "_seg" in segStems
    ensures c + "_seg" in Orphans(segStems, chunkStems) <==> c !in chunkStems
  {
    assert (c + "_seg")[..|c + "_seg"| - 4] == c;
  }

  /** The job list in listing order, or the first chunk name that does not
      parse. */
  function ParseAll(chunks: seq<(string, seq<int>)>, sidIx: int, mipIx: int, chunkIx: int): (r: Result<seq<Job>>)
    ensures r.Ok? ==> |r.value| == |chunks|
    ensures r.Ok? ==> forall k :: 0 <= k < |chunks| ==>
      r.value[k].name == chunks[k].0 && r.value[k].prior == chunks[k].1 &&
      ParseChunk(Stem(chunks[k].0), sidIx, mipIx, chunkIx) == Ok(r.value[k].parsed)
  {
    if |chunks| == 0 then Ok([])
    else
      var p :- ParseChunk(Stem(chunks[0].0), sidIx, mipIx, chunkIx);
      var rest :- ParseAll(chunks[1..], sidIx, mipIx, chunkIx);
      var r := [Job(chunks[0].0, p, chunks[0].1)] + rest;
      forall k | 0 <= k < |chunks|
        ensures r[k].name == chunks[k].0 && r[k].prior == chunks[k].1
        ensures ParseChunk(Stem(chunks[k].0), sidIx, mipIx, chunkIx) == Ok(r[k].parsed)
      {
        if k > 0 {
          assert chunks[k] == chunks[1..][k - 1] && r[k] == rest[k - 1];
        }
      }
      Ok(r)
  }

  /** The parse fails exactly when some chunk name does not parse. */
  lemma {:induction false} ParseAllFails(chunks: seq<(string, seq<int>)>, sidIx: int, mipIx: int, chunkIx: int)
    ensures ParseAll(chunks, sidIx, mipIx, chunkIx).Err? <==>
      exists k :: 0 <= k < |chunks| && ParseChunk(Stem(chunks[k].0), sidIx, mipIx, chunkIx).Err?
    decreases |chunks|
  {
    if |chunks| > 0 {
      ParseAllFails(chunks[1..], sidIx, mipIx, chunkIx);
      if ParseChunk(Stem(chunks[0].0), sidIx, mipIx, chunkIx).Ok? {
        forall k | 0 < k < |chunks|
          ensures chunks[k] == chunks[1..][k - 1]
        {
        }
        if ParseAll(chunks[1..], sidIx, mipIx, chunkIx).Err? {
          var k :| 0 <= k < |chunks[1..]| && ParseChunk(Stem(chunks[1..][k].0), sidIx, mipIx, chunkIx).Err?;
          assert chunks[k + 1] == chunks[1..][k];
        }
      }
    }
  }

  /** Every job's (sample id, source stem) key resolves to exactly one
      source image. */
  predicate AllResolved(jobs: seq<Job>, subjects: map<string, seq<string>>) {
    forall k :: 0 <= k < |jobs| ==> Classify(KeyOf(jobs[k]), subjects).Resolved?
  }

  /** With distinct chunk names (the files of one folder), a successful run
      writes a chunk exactly when it fits its source. */
  lemma RunWritesIffFits(jobs: seq<Job>, shapes: map<(string, string), seq<int>>, strict: bool,
                         copySeg: bool, segs: set<string>, taken: set<string>)
    requires forall k :: 0 <= k < |jobs| ==> KeyOf(jobs[k]) in shapes
    requires forall i, j :: 0 <= i < j < |jobs| ==> jobs[i].name != jobs[j].name
    ensures var r := Run(jobs, shapes, strict, copySeg, segs, taken);
      r.Ok? ==> forall k :: 0 <= k < |jobs| ==> (jobs[k].name in r.value.written <==> FitsSource(jobs[k], shapes))
  {
    var r := Run(jobs, shapes, strict, copySeg, segs, taken);
    RunOutcome(jobs, shapes, strict, copySeg, segs, taken);
    if r.Ok? {
      forall k | 0 <= k < |jobs|
        ensures jobs[k].name in r.value.written <==> FitsSource(jobs[k], shapes)
      {
        FittingNamesMember(jobs, shapes, jobs[k].name);
      }
    }
  }

  /** The keys of the jobs. */
  function JobKeys(jobs: seq<Job>): set<(string, string)> {
    set k | 0 <= k < |jobs| :: KeyOf(jobs[k])
  }

  /** The shape of the source image each job's key resolves to (an
      unresolved key, which stops the script before any shape is read,
      gets no shape). */
  function ResolvedShapes(jobs: seq<Job>, subjects: map<string, seq<string>>, sourceShape: string -> seq<int>)
    : map<(string, string), seq<int>>
  {
    map key | key in JobKeys(jobs) ::
      if Classify(key, subjects).Resolved? then sourceShape(Classify(key, subjects).source) else []
  }

  /** The key list handed to the preflight holds exactly the jobs' keys. */
  lemma KeysOfJobs(jobs: seq<Job>, keys: seq<(string, string)>, subjects: map<string, seq<string>>)
    requires |keys| == |jobs| && forall k :: 0 <= k < |jobs| ==> keys[k] == KeyOf(jobs[k])
    ensures Elements(keys) == JobKeys(jobs)
    ensures (exists key :: key in keys && !Classify(key, subjects).Resolved?) <==> !AllResolved(jobs, subjects)
  {
    forall key | key in JobKeys(jobs)
      ensures key in keys
    {
      var k :| 0 <= k < |jobs| && key == KeyOf(jobs[k]);
      assert keys[k] == key;
    }
    forall key | key in keys
      ensures key in JobKeys(jobs)
    {
      var k :| 0 <= k < |keys| && keys[k] == key;
      assert KeyOf(jobs[k]) == key;
    }
    if !AllResolved(jobs, subjects) {
      var k :| 0 <= k < |jobs| && !Classify(KeyOf(jobs[k]), subjects).Resolved?;
      assert keys[k] in keys;
    }
  }

  /** The shapes built from a successful preflight are the shapes of the
      sources the keys resolve to. */
  lemma PreflightShapes(jobs: seq<Job>, subjects: map<string, seq<string>>, sourceShape: string -> seq<int>,
                        sources: map<(string, string), string>)
    requires sources.Keys == JobKeys(jobs)
    requires forall key :: key in JobKeys(jobs) ==> Resolved(sources[key]) == Classify(key, subjects)
    ensures (map key | key in sources.Keys :: sourceShape(sources[key])) == ResolvedShapes(jobs, subjects, sourceShape)
    ensures forall k :: 0 <= k < |jobs| ==> KeyOf(jobs[k]) in sources.Keys
  {
    forall k | 0 <= k < |jobs|
      ensures KeyOf(jobs[k]) in JobKeys(jobs)
    {
    }
  }

  /** Preflight over the jobs' keys, then the re-cutting loop with the
      source shape of each resolved key. */
  function Recut(jobs: seq<Job>, subjects: map<string, seq<string>>, sourceShape: string -> seq<int>,
                 strict: bool, copySeg: bool, segs: set<string>, taken: set<string>): (r: Result<Report>)
    ensures r.Ok? <==> (AllResolved(jobs, subjects) &&
      RunSucceeds(jobs, ResolvedShapes(jobs, subjects, sourceShape), strict, copySeg, segs, taken))
    ensures r.Err? ==> r.error == RuntimeError
    ensures r.Ok? ==> r.value == ExpectedReport(jobs, ResolvedShapes(jobs, subjects, sourceShape), copySeg, segs)
    ensures r.Ok? ==> forall n :: n in r.value.written ==> n !in taken
  {
    var keys := seq(|jobs|, k requires 0 <= k < |jobs| => KeyOf(jobs[k]));
    KeysOfJobs(jobs, keys, subjects);
    var sources :- Preflight(keys, subjects);
    var shapes := map key | key in sources.Keys :: sourceShape(sources[key]);
    PreflightShapes(jobs, subjects, sourceShape, sources);
    RunOutcome(jobs, shapes, strict, copySeg, segs, taken);
    Run(jobs, shapes, strict, copySeg, segs, taken)
  }

  /** The whole script after configuration: the output folder must differ
      from the input folder, every subject folder and the chunk folder must
      hold TIFF files, every chunk name must parse and every key resolve;
      only then are chunks re-cut. `sourceShape` gives the shape of each
      source image, `chunks` the sorted chunk files with their old shapes. */
  function RecreateSelection(inputDir: string, outputDir: string, subjects: map<string, seq<string>>,
                             chunks: seq<(string, seq<int>)>, sidIx: int, mipIx: int, chunkIx: int,
                             sourceShape: string -> seq<int>, strict: bool, copySeg: bool,
                             segs: set<string>, taken: set<string>): (r: Result<Report>)
    ensures outputDir == inputDir ==> r == Err(RuntimeError)
    ensures (exists s :: s in subjects && |subjects[s]| == 0) ==> r.Err?
    ensures |chunks| == 0 ==> r.Err?
    ensures r.Ok? ==> |r.value.written| + r.value.skipped == |chunks|
    ensures r.Ok? ==> forall n :: n in r.value.written ==> n !in taken
    ensures r.Ok? ==> forall k :: 0 <= k < |chunks| ==> ParseChunk(Stem(chunks[k].0), sidIx, mipIx, chunkIx).Ok?
    // it gets through exactly when the folders are usable, every name parses,
    // every key resolves and the re-cut loop gets through
    ensures r.Ok? <==> (
      && outputDir != inputDir
      && (forall s :: s in subjects ==> |subjects[s]| > 0)
      && |chunks| > 0
      && ParseAll(chunks, sidIx, mipIx, chunkIx).Ok?
      && var jobs := ParseAll(chunks, sidIx, mipIx, chunkIx).value;
         AllResolved(jobs, subjects) &&
         RunSucceeds(jobs, ResolvedShapes(jobs, subjects, sourceShape), strict, copySeg, segs, taken))
    // and then it writes the fitting chunks and skips the others
    ensures r.Ok? ==> var jobs := ParseAll(chunks, sidIx, mipIx, chunkIx).value;
      r.value == ExpectedReport(jobs, ResolvedShapes(jobs, subjects, sourceShape), copySeg, segs)
  {
    if outputDir == inputDir then Err(RuntimeError)
    else if exists s :: s in subjects && |subjects[s]| == 0 then Err(RuntimeError)
    else if |chunks| == 0 then Err(RuntimeError)
    else
      var jobs :- ParseAll(chunks, sidIx, mipIx, chunkIx);
      Recut(jobs, subjects, sourceShape, strict, copySeg, segs, taken)
  }
}

=== FILE: sections.dfy ===
/** The representative-section sampler of
    `preprocess_for_cellpose/2_select_representative_sections.py`.

    For one sample folder the script takes the sorted listing of `n` section
    files, inflates the user's sample size by two, picks evenly spaced
    positions with a random offset, maps them through a random permutation of
    `0..n-1`, sorts the picks back into listing order and trims the first (and
    possibly the last) pick. Files are identified by their index in the sorted
    listing, so `sorted(picked files)` is the ascending order of the picked
    indices. The two random draws (the offset and the permutation) are
    parameters. */
module Sections {
  import opened Wrappers
  import opened Strings
  import opened Sorting
  import opened Decimal
  import opened Arith

  // ---------------------------------------------------------------------
  // Sample id and seed
  // ---------------------------------------------------------------------

  /** The position of the sample id among the `_`-separated tokens of the
      folder name: the configured value in custom format, 5 otherwise. */
  function IdIndex(customFormat: bool, customIndex: int): int {
    if customFormat then customIndex else 5
  }

  /** Token `index` of the `_`-split folder name. An index at or past the
      token count raises RuntimeError; a negative index counts from the end
      (Python indexing) and raises IndexError when it is too negative. */
  function SampleId(folderName: string, index: int): (r: Result<string>)
    ensures var parts := Split(folderName, '_');
      && (index >= |parts| ==> r == Err(RuntimeError))
      && (0 <= index < |parts| ==> r == Ok(parts[index]))
      && (index < -|parts| ==> r == Err(IndexError))
      && (-|parts| <= index < 0 ==> r == Ok(parts[|parts| + index]))
  {
    var parts := Split(folderName, '_');
    if index >= |parts| then Err(RuntimeError)
    else
      match PyIndex(parts, index)
      case None => Err(IndexError)
      case Some(t) => Ok(t)
  }

  /** A folder name assembled from underscore-free tokens yields its token at
      the id index, and the id never holds an underscore. */
  lemma SampleIdOfTokens(tokens: seq<string>, index: nat)
    requires |tokens| >= 1
    requires forall k :: 0 <= k < |tokens| ==> '_' !in tokens[k]
    ensures index < |tokens| ==> SampleId(Join(tokens, '_'), index) == Ok(tokens[index])
    ensures index >= |tokens| ==> SampleId(Join(tokens, '_'), index) == Err(RuntimeError)
  {
    SplitJoin(tokens, '_');
  }

  newtype byte = x: int | 0 <= x < 256

  /** Little-endian value of a byte string (`int.from_bytes(bs, "little")`). */
  function LittleEndian(bs: seq<byte>): nat {
    if |bs| == 0 then 0 else bs[0] as nat + 256 * LittleEndian(bs[1..])
  }

  /** The `k` low-order bytes of `v`, least significant first. */
  function LittleEndianBytes(v: nat, k: nat): (bs: seq<byte>)
    ensures |bs| == k
  {
    if k == 0 then [] else [(v % 256) as byte] + LittleEndianBytes(v / 256, k - 1)
  }

  function Pow256(k: nat): (p: nat)
    ensures p >= 1
  {
    if k == 0 then 1 else 256 * Pow256(k - 1)
  }

  lemma {:induction false} LittleEndianBound(bs: seq<byte>)
    ensures LittleEndian(bs) < Pow256(|bs|)
  {
    if |bs| > 0 {
      LittleEndianBound(bs[1..]);
    }
  }

  lemma {:induction false} LittleEndianRoundTrip(bs: seq<byte>)
    ensures LittleEndianBytes(LittleEndian(bs), |bs|) == bs
  {
    if |bs| > 0 {
      var v := LittleEndian(bs);
      assert v % 256 == bs[0] as nat;
      assert v / 256 == LittleEndian(bs[1..]);
      LittleEndianRoundTrip(bs[1..]);
    }
  }

  /** `stable_seed`: the first four bytes of the id's SHA-256 digest, read
      little-endian. The digest is supplied by the caller (SHA-256 is not
      part of this model); the seed fits in 32 bits and its four bytes are
      exactly the digest's first four bytes. */
  function StableSeed(digest: seq<byte>): (seed: nat)
    requires |digest| == 32
    ensures seed < 0x1_0000_0000
    ensures LittleEndianBytes(seed, 4) == digest[..4]
  {
    LittleEndianBound(digest[..4]);
    LittleEndianRoundTrip(digest[..4]);
    LittleEndian(digest[..4])
  }

  /** Equal ids give equal seeds; different seeds come from digests that
      differ in their first four bytes. */
  lemma StableSeedInjective(d1: seq<byte>, d2: seq<byte>)
    requires |d1| == 32 && |d2| == 32
    ensures StableSeed(d1) == StableSeed(d2) <==> d1[..4] == d2[..4]
  {
  }

  // ---------------------------------------------------------------------
  // Spaced positions
  // ---------------------------------------------------------------------

  /** `offset + np.arange(count) * step`, keeping the values below `n`. */
  function Positions(offset: int, step: int, count: nat, n: int): (ps: seq<int>)
    ensures |ps| <= count
    ensures forall k :: 0 <= k < |ps| ==> ps[k] < n
  {
    if count == 0 then []
    else
      var last := offset + (count - 1) * step;
      Positions(offset, step, count - 1, n) + (if last < n then [last] else [])
  }

  /** `offset + i*step` for `i` in `0..count-1`, unfiltered. */
  function Arange(offset: int, step: int, count: nat): (ps: seq<int>)
    ensures |ps| == count
  {
    seq(count, i => offset + i * step)
  }

  lemma {:induction false} PositionsAllBelow(offset: int, step: int, count: nat, n: int)
    requires forall i :: 0 <= i < count ==> offset + i * step < n
    ensures Positions(offset, step, count, n) == Arange(offset, step, count)
  {
    if count > 0 {
      PositionsAllBelow(offset, step, count - 1, n);
      assert Arange(offset, step, count) == Arange(offset, step, count - 1) + [offset + (count - 1) * step];
    }
  }

  /** The spacing `n // (s - 1)` of the normal branch. */
  function Step(n: nat, s: int): (step: nat)
    requires s >= 2 && n >= s
    ensures step >= 1 && (s - 1) * step <= n
  {
    n / (s - 1)
  }

  /** With `n >= s >= 2`, `step = n // (s-1)` and an offset in `[0, step)`,
      the first `s - 1` positions are always below `n`: the positions that
      survive are the first `s - 1` or all `s`. */
  lemma {:induction false} SurvivorCount(n: nat, s: int, offset: int)
    requires s >= 2 && n >= s
    requires 0 <= offset < Step(n, s)
    ensures var ps := Positions(offset, Step(n, s), s, n);
      && (|ps| == s - 1 || |ps| == s)
      && ps[..s - 1] == Arange(offset, Step(n, s), s - 1)
      && (|ps| == s <==> offset + (s - 1) * Step(n, s) < n)
  {
    var step := Step(n, s);
    forall i | 0 <= i < s - 1
      ensures offset + i * step < n
    {
      MulMonotone(i, s - 2, step);
      assert (s - 2) * step + step == (s - 1) * step;
    }
    PositionsAllBelow(offset, step, s - 1, n);
  }

  lemma {:induction false} ArangeIncreasing(offset: int, step: int, count: nat)
    requires step >= 1
    ensures StrictlyIncreasing(Arange(offset, step, count))
  {
    var ps := Arange(offset, step, count);
    forall i, j | 0 <= i < j < count
      ensures ps[i] < ps[j]
    {
      MulMonotone(i + 1, j, step);
    }
  }

  // ---------------------------------------------------------------------
  // Permutation draw and re-sorting
  // ---------------------------------------------------------------------

  /** `perm` is a permutation of `0..n-1`, as `rng.permutation(n)` returns. */
  predicate IsPermutation(perm: seq<nat>, n: nat) {
    |perm| == n && (forall i :: 0 <= i < n ==> perm[i] < n) && Distinct(perm)
  }

  /** `[files[perm[p]] for p in positions]`, as indices into the listing:
      distinct positions pick distinct files. */
  function Picked(perm: seq<nat>, ps: seq<int>, n: nat): (r: seq<nat>)
    requires IsPermutation(perm, n)
    requires forall k :: 0 <= k < |ps| ==> 0 <= ps[k] < n
    requires StrictlyIncreasing(ps)
    ensures |r| == |ps|
    ensures forall k :: 0 <= k < |r| ==> r[k] == perm[ps[k]] && r[k] < n
    ensures Distinct(r)
  {
    seq(|ps|, k requires 0 <= k < |ps| => perm[ps[k]])
  }

  /** `sorted(picked files)`: the picked indices in listing order, none lost
      and none repeated. */
  function SortPicked(picked: seq<nat>, n: nat): (r: seq<nat>)
    requires forall k :: 0 <= k < |picked| ==> picked[k] < n
    requires Distinct(picked)
    ensures StrictlyIncreasing(r)
    ensures forall x :: x in r <==> x in picked
    ensures |r| == |picked|
  {
    DistinctCard(picked);
    SortedSet(Elements(picked), n)
  }

  // ---------------------------------------------------------------------
  // Trimming and the whole per-sample selection
  // ---------------------------------------------------------------------

  /** What the sampler does with one sample: emit a list of listing indices,
      or skip the sample (the `continue`). */
  datatype Selection = Emitted(indices: seq<nat>) | Skipped

  /** The "drop first / last" step, driven by `len(positions) - s`: zero
      drops both ends, minus one drops the first, anything else skips the
      sample. `del` on too short a list raises IndexError. */
  function Trim(samples: seq<nat>, count: int, s: int): (r: Result<Selection>)
    ensures count - s == 0 ==>
      (if |samples| >= 2 then r == Ok(Emitted(samples[1..|samples| - 1])) else r == Err(IndexError))
    ensures count - s == -1 ==>
      (if |samples| >= 1 then r == Ok(Emitted(samples[1..])) else r == Err(IndexError))
    ensures count - s != 0 && count - s != -1 ==> r == Ok(Skipped)
  {
    if count - s == 0 then
      if |samples| >= 2 then Ok(Emitted(samples[1..|samples| - 1])) else Err(IndexError)
    else if count - s == -1 then
      if |samples| >= 1 then Ok(Emitted(samples[1..])) else Err(IndexError)
    else Ok(Skipped)
  }

  /** The contract of the two random draws, in the branch that draws them:
      `rng.integers(0, step)` lies in `[0, step)` and `rng.permutation(n)`
      is a permutation. */
  predicate DrawsValid(n: nat, sampleSize: int, offset: int, perm: seq<nat>) {
    var s := sampleSize + 2;
    (n >= s && s >= 2) ==> (0 <= offset < Step(n, s) && IsPermutation(perm, n))
  }

  /** The sample's positions and its trimmed selection, for `n` listed files
      and the user's `sampleSize`. */
  function SelectSections(n: nat, sampleSize: int, offset: int, perm: seq<nat>): (r: Result<Selection>)
    requires DrawsValid(n, sampleSize, offset, perm)
    ensures n == 0 ==> r == Err(RuntimeError)
    // degenerate branch: not enough files
    ensures 0 < n == sampleSize + 1 ==> r == Ok(Emitted(AllIndices(n)[1..]))
    ensures 0 < n < sampleSize + 1 ==> r == Ok(Skipped)
    // a sample size below zero cannot be spaced
    ensures n > 0 && sampleSize == -1 ==> r == Err(ZeroDivisionError)
    ensures n > 0 && sampleSize < -1 ==> r == Err(ValueError)
    // normal branch: never skipped, never an error
    ensures n >= sampleSize + 2 && sampleSize >= 0 ==> r.Ok? && r.value.Emitted?
    // whatever is emitted has exactly the user's size, in listing order
    ensures r.Ok? && r.value.Emitted? ==>
      && |r.value.indices| == sampleSize
      && StrictlyIncreasing(r.value.indices)
      && (forall k :: 0 <= k < |r.value.indices| ==> r.value.indices[k] < n)
  {
    if n == 0 then Err(RuntimeError)
    else
      var s := sampleSize + 2;
      if n < s then
        Trim(AllIndices(n), n, s)
      else if s - 1 == 0 then Err(ZeroDivisionError)
      else if s - 1 < 0 then Err(ValueError)
      else
        var step := Step(n, s);
        var ps := Positions(offset, step, s, n);
        SurvivorCount(n, s, offset);
        SpacedInRange(n, s, offset);
        var picked := Picked(perm, ps, n);
        var sorted := SortPicked(picked, n);
        Trim(sorted, |ps|, s)
  }

  /** The surviving positions are strictly increasing and inside `[0, n)`. */
  lemma {:induction false} PositionsArePrefix(n: nat, s: int, offset: int)
    requires s >= 2 && n >= s
    requires 0 <= offset < Step(n, s)
    ensures var ps := Positions(offset, Step(n, s), s, n);
      ps == Arange(offset, Step(n, s), |ps|)
  {
    var step := Step(n, s);
    SurvivorCount(n, s, offset);
    var ps := Positions(offset, step, s, n);
    if |ps| == s - 1 {
      assert ps == ps[..s - 1];
    } else {
      var last := offset + (s - 1) * step;
      var prev := Positions(offset, step, s - 1, n);
      assert last < n;
      assert ps == prev + [last];
      assert prev == ps[..s - 1];
      assert Arange(offset, step, s) == Arange(offset, step, s - 1) + [last];
    }
  }

  lemma {:induction false} SpacedInRange(n: nat, s: int, offset: int)
    requires s >= 2 && n >= s
    requires 0 <= offset < Step(n, s)
    ensures var ps := Positions(offset, Step(n, s), s, n);
      StrictlyIncreasing(ps) && forall k :: 0 <= k < |ps| ==> 0 <= ps[k] < n
  {
    var step := Step(n, s);
    var ps := Positions(offset, step, s, n);
    PositionsArePrefix(n, s, offset);
    ArangeIncreasing(offset, step, |ps|);
    forall k | 0 <= k < |ps|
      ensures 0 <= ps[k]
    {
      MulMonotone(0, k, step);
    }
  }

  /** The surviving count is `s - 1` or `s`, so in the normal branch the
      trim always emits, and what it emits has `s - 2` items: the `continue`
      is reachable only from the degenerate branch. */
  lemma NormalBranchEmits(n: nat, sampleSize: int, offset: int, perm: seq<nat>)
    requires sampleSize >= 0 && n >= sampleSize + 2
    requires DrawsValid(n, sampleSize, offset, perm)
    ensures var r := SelectSections(n, sampleSize, offset, perm);
      r.Ok? && r.value.Emitted? && |r.value.indices| == sampleSize
  {
    SurvivorCount(n, sampleSize + 2, offset);
  }

  /** Every emitted index is a permuted spaced position: the picks are
      `perm[p]` for distinct surviving positions `p`. */
  lemma EmittedArePermutedPositions(n: nat, sampleSize: int, offset: int, perm: seq<nat>, x: nat)
    requires sampleSize >= 0 && n >= sampleSize + 2
    requires DrawsValid(n, sampleSize, offset, perm)
    requires SelectSections(n, sampleSize, offset, perm).Ok?
    requires SelectSections(n, sampleSize, offset, perm).value.Emitted?
    requires x in SelectSections(n, sampleSize, offset, perm).value.indices
    ensures exists p :: p in Positions(offset, Step(n, sampleSize + 2), sampleSize + 2, n) && 0 <= p < n && perm[p] == x
  {
    var s := sampleSize + 2;
    var step := Step(n, s);
    SurvivorCount(n, s, offset);
    SpacedInRange(n, s, offset);
    var ps := Positions(offset, step, s, n);
    var picked := Picked(perm, ps, n);
    var sorted := SortPicked(picked, n);
    assert x in sorted;
    assert x in picked;
    var k :| 0 <= k < |picked| && picked[k] == x;
    assert ps[k] in ps;
  }

  /** The normal branch emits the sorted picks without their first item,
      and without their last item too when all `s` positions survive. */
  lemma SelectSectionsTrimmed(n: nat, sampleSize: int, offset: int, perm: seq<nat>)
    requires sampleSize >= 0 && n >= sampleSize + 2
    requires DrawsValid(n, sampleSize, offset, perm)
    ensures var ps := Positions(offset, Step(n, sampleSize + 2), sampleSize + 2, n);
      && (|ps| == sampleSize + 1 || |ps| == sampleSize + 2)
      && StrictlyIncreasing(ps) && (forall k :: 0 <= k < |ps| ==> 0 <= ps[k] < n)
    ensures var ps := Positions(offset, Step(n, sampleSize + 2), sampleSize + 2, n);
      var sp := SortPicked(Picked(perm, ps, n), n);
      SelectSections(n, sampleSize, offset, perm) ==
        Ok(Emitted(if |ps| == sampleSize + 2 then sp[1..|sp| - 1] else sp[1..]))
  {
    SurvivorCount(n, sampleSize + 2, offset);
    SpacedInRange(n, sampleSize + 2, offset);
  }

  // ---------------------------------------------------------------------
  // Stack expansion
  // ---------------------------------------------------------------------

  /** `[max(i - z//2, 0), min(i + z//2 + 1, n))`: the window of listing
      indices stacked around selected index `i`. A negative depth makes
      `z // 2` negative, so the range is empty. */
  function StackWindow(i: nat, n: nat, z: int): (w: seq<nat>)
    requires i < n
    ensures |w| >= 1 <==> z >= 0
    ensures z >= 0 ==> i in w
    ensures forall k :: 0 <= k < |w| ==> w[k] < n
    ensures forall k :: 0 < k < |w| ==> w[k] == w[k - 1] + 1
    ensures z >= 0 ==> |w| <= 2 * (z / 2) + 1
    ensures z >= 0 ==> (|w| == 2 * (z / 2) + 1 <==> z / 2 <= i && i + z / 2 + 1 <= n)
  {
    var half := z / 2;
    var start := if i - half > 0 then i - half else 0;
    var end := if i + half + 1 < n then i + half + 1 else n;
    var w := seq(if end > start then end - start else 0, k => start + k);
    assert z >= 0 ==> w[i - start] == i;
    w
  }

  /** The stack around the first section of a 20-section sample with depth 5
      holds sections 0, 1 and 2 only. */
  lemma StackWindowAtStart()
    ensures StackWindow(0, 20, 5) == [0, 1, 2]
  {
  }

  // ---------------------------------------------------------------------
  // One sample folder end to end
  // ---------------------------------------------------------------------

  /** What one folder produces: copies named `{sample_id}_{file}`, or the
      index windows of the z-stacks, or nothing (skipped sample). */
  datatype FolderOutput =
    | Copies(names: seq<string>)
    | Stacks(windows: seq<seq<nat>>)
    | Nothing

  /** `name` is the copy name of one of the folder's files. */
  predicate CopyOf(name: string, sid: string, files: seq<string>) {
    exists j :: 0 <= j < |files| && name == sid + "_" + files[j]
  }

  /** Destination names `{sample_id}_{file}` of the emitted files. */
  function CopyNames(sid: string, files: seq<string>, ix: seq<nat>): (names: seq<string>)
    requires forall k :: 0 <= k < |ix| ==> ix[k] < |files|
    ensures |names| == |ix|
    ensures forall k :: 0 <= k < |names| ==> names[k] == sid + "_" + files[ix[k]]
    ensures forall k :: 0 <= k < |names| ==> CopyOf(names[k], sid, files)
  {
    var names := seq(|ix|, k requires 0 <= k < |ix| => sid + "_" + files[ix[k]]);
    assert forall k :: 0 <= k < |names| ==> CopyOf(names[k], sid, files) by {
      forall k | 0 <= k < |names|
        ensures CopyOf(names[k], sid, files)
      {
        var j := ix[k];
        assert 0 <= j < |files| && names[k] == sid + "_" + files[j];
      }
    }
    names
  }

  /** The stack window of every emitted index. */
  function Windows(ix: seq<nat>, n: nat, z: int): (ws: seq<seq<nat>>)
    requires forall k :: 0 <= k < |ix| ==> ix[k] < n
    ensures |ws| == |ix|
    ensures forall k :: 0 <= k < |ws| ==> (ix[k] in ws[k] <==> z >= 0)
    ensures forall k :: 0 <= k < |ws| ==> (|ws[k]| == 0 <==> z < 0)
  {
    seq(|ix|, k requires 0 <= k < |ix| => StackWindow(ix[k], n, z))
  }

  /** One pass of the script's folder loop: sample id, empty-folder check,
      selection, then copy or stack. */
  function SampleFolder(parentName: string, files: seq<string>, customFormat: bool, customIndex: int,
                        sampleSize: int, makeStacks: bool, z: int, offset: int, perm: seq<nat>)
    : (r: Result<FolderOutput>)
    requires DrawsValid(|files|, sampleSize, offset, perm)
    ensures IdIndex(customFormat, customIndex) >= |Split(parentName, '_')| ==> r == Err(RuntimeError)
    ensures SampleId(parentName, IdIndex(customFormat, customIndex)).Ok? && |files| == 0 ==> r == Err(RuntimeError)
    ensures r.Ok? && r.value.Copies? ==>
      && |r.value.names| == sampleSize
      && SampleId(parentName, IdIndex(customFormat, customIndex)).Ok?
      && var sid := SampleId(parentName, IdIndex(customFormat, customIndex)).value;
         forall k :: 0 <= k < |r.value.names| ==>
           CopyOf(r.value.names[k], sid, files)
    ensures r.Ok? && r.value.Stacks? ==>
      |r.value.windows| == sampleSize &&
      forall k :: 0 <= k < |r.value.windows| ==> |r.value.windows[k]| >= 1
    // a negative depth gives empty windows, and `np.stack` of nothing raises
    ensures makeStacks && z < 0 && sampleSize >= 1 && SampleId(parentName, IdIndex(customFormat, customIndex)).Ok? &&
      SelectSections(|files|, sampleSize, offset, perm).Ok? && SelectSections(|files|, sampleSize, offset, perm).value.Emitted?
      ==> r == Err(ValueError)
    // what is written follows the selection: its error, nothing for a
    // skipped sample, and one copy or window per selected file, in order
    ensures SampleId(parentName, IdIndex(customFormat, customIndex)).Ok? ==>
      var sid := SampleId(parentName, IdIndex(customFormat, customIndex)).value;
      var sel := SelectSections(|files|, sampleSize, offset, perm);
      && (sel.Err? ==> r == Err(sel.error))
      && (sel == Ok(Skipped) ==> r == Ok(Nothing))
      && (sel.Ok? && sel.value.Emitted? && !makeStacks ==>
            && r.Ok? && r.value.Copies? && |r.value.names| == |sel.value.indices|
            && forall k :: 0 <= k < |r.value.names| ==> r.value.names[k] == sid + "_" + files[sel.value.indices[k]])
      && (sel.Ok? && sel.value.Emitted? && makeStacks && z >= 0 ==>
            r == Ok(Stacks(Windows(sel.value.indices, |files|, z))))
    ensures SampleId(parentName, IdIndex(customFormat, customIndex)).Err? ==>
      r == Err(SampleId(parentName, IdIndex(customFormat, customIndex)).error)
  {
    match SampleId(parentName, IdIndex(customFormat, customIndex))
    case Err(e) => Err(e)
    case Ok(sid) =>
      match SelectSections(|files|, sampleSize, offset, perm)
      case Err(e) => Err(e)
      case Ok(Skipped) => Ok(Nothing)
      case Ok(Emitted(ix)) =>
        if makeStacks then
          var ws := Windows(ix, |files|, z);
          assert z < 0 && |ix| > 0 ==> |ws[0]| == 0;
          if exists k :: 0 <= k < |ws| && |ws[k]| == 0 then Err(ValueError)
          else Ok(Stacks(ws))
        else
          Ok(Copies(CopyNames(sid, files, ix)))
  }
  /** No copy overwrites another: distinct file names give distinct
      destination names, since the selected indices strictly increase and
      every name carries the same sample-id prefix. */
  lemma SampleFolderCopiesDistinct(parentName: string, files: seq<string>, customFormat: bool, customIndex: int,
                                   sampleSize: int, z: int, offset: int, perm: seq<nat>)
    requires DrawsValid(|files|, sampleSize, offset, perm)
    requires Distinct(files)
    ensures var r := SampleFolder(parentName, files, customFormat, customIndex, sampleSize, false, z, offset, perm);
      r.Ok? && r.value.Copies? ==> Distinct(r.value.names)
  {
    var r := SampleFolder(parentName, files, customFormat, customIndex, sampleSize, false, z, offset, perm);
    if r.Ok? && r.value.Copies? {
      var sid := SampleId(parentName, IdIndex(customFormat, customIndex)).value;
      var ix := SelectSections(|files|, sampleSize, offset, perm).value.indices;
      forall i, j | 0 <= i < j < |r.value.names| ensures r.value.names[i] != r.value.names[j] {
        assert ix[i] < ix[j];
        assert files[ix[i]] != files[ix[j]];
        PrefixKeepsApart(sid + "_", files[ix[i]], files[ix[j]]);
      }
    }
  }

  /** A common prefix keeps different tails apart. */
  lemma PrefixKeepsApart(p: string, a: string, b: string)
    requires a != b
    ensures p + a != p + b
  {
    assert a == (p + a)[|p|..];
    assert b == (p + b)[|p|..];
  }
}

=== FILE: sorting.dfy ===
/** Python's `sorted(...)` as the model uses it: a stable insertion sort for
    lists that may hold duplicates, and the ascending enumeration of a finite
    set of indices (`sorted(set_of_ints)`). */
module Sorting {

  ghost predicate Total<T(!new)>(le: (T, T) -> bool) {
    forall a, b :: le(a, b) || le(b, a)
  }

  predicate SortedBy<T>(s: seq<T>, le: (T, T) -> bool) {
    forall k :: 0 < k < |s| ==> le(s[k - 1], s[k])
  }

  predicate StrictlyIncreasing(s: seq<int>) {
    forall i, j :: 0 <= i < j < |s| ==> s[i] < s[j]
  }

  /** `<=` on integers, as an ordering to sort by. */
  predicate IntLe(a: int, b: int) {
    a <= b
  }

  /** Sorted by adjacent pairs means sorted by every pair. */
  lemma {:induction false} SortedAll(r: seq<int>)
    requires SortedBy(r, IntLe)
    ensures forall i, j :: 0 <= i < j < |r| ==> r[i] <= r[j]
    decreases |r|
  {
    if |r| > 1 {
      SortedAll(r[1..]);
      forall j | 1 <= j < |r|
        ensures r[0] <= r[j]
      {
        assert r[1..][j - 1] == r[j];
        if j > 1 {
          assert r[1..][0] <= r[1..][j - 1];
        }
      }
      forall i, j | 0 <= i < j < |r|
        ensures r[i] <= r[j]
      {
        if i > 0 {
          assert r[1..][i - 1] <= r[1..][j - 1];
        }
      }
    }
  }

  function Insert<T(!new)>(x: T, s: seq<T>, le: (T, T) -> bool): (r: seq<T>)
    requires Total(le) && SortedBy(s, le)
    ensures multiset(r) == multiset(s) + multiset{x}
    ensures SortedBy(r, le)
    ensures |r| == |s| + 1
    ensures |s| > 0 ==> r[0] == x || r[0] == s[0]
  {
    if |s| == 0 then [x]
    else if le(x, s[0]) then [x] + s
    else
      var rest := Insert(x, s[1..], le);
      assert s == [s[0]] + s[1..];
      [s[0]] + rest
  }

  /** `sorted(s)`: the same elements, in order. */
  function InsertionSort<T(!new)>(s: seq<T>, le: (T, T) -> bool): (r: seq<T>)
    requires Total(le)
    ensures multiset(r) == multiset(s)
    ensures SortedBy(r, le)
    ensures |r| == |s|
  {
    if |s| == 0 then []
    else
      assert s == [s[0]] + s[1..];
      Insert(s[0], InsertionSort(s[1..], le), le)
  }

  /** The members of `S` in `[lo, hi)`, in ascending order. */
  function Ascending(S: set<nat>, lo: nat, hi: nat): (r: seq<nat>)
    ensures StrictlyIncreasing(r)
    ensures forall k :: 0 <= k < |r| ==> r[k] in S && lo <= r[k] < hi
    ensures forall x :: x in S && lo <= x < hi ==> x in r
    decreases hi - lo
  {
    if hi <= lo then []
    else
      var rest := Ascending(S, lo + 1, hi);
      if lo in S then
        var r := [lo] + rest;
        AscendingCons(lo, rest);
        r
      else rest
  }

  /** Putting a smaller value in front keeps a list increasing. */
  lemma AscendingCons(x: int, rest: seq<int>)
    requires StrictlyIncreasing(rest) && forall k :: 0 <= k < |rest| ==> x < rest[k]
    ensures StrictlyIncreasing([x] + rest)
    ensures forall y :: y in [x] + rest <==> y == x || y in rest
  {
    var r := [x] + rest;
    assert forall k :: 0 < k < |r| ==> r[k] == rest[k - 1];
  }

  /** `sorted(S)` for a set of indices below `n`. */
  function SortedSet(S: set<nat>, n: nat): (r: seq<nat>)
    requires forall x :: x in S ==> x < n
    ensures StrictlyIncreasing(r)
    ensures forall x :: x in r <==> x in S
    ensures |r| == |S|
  {
    var r := Ascending(S, 0, n);
    DistinctCard(r);
    assert Elements(r) == S;
    r
  }

  /** A list whose elements are pairwise distinct. */
  predicate Distinct<T(==)>(s: seq<T>) {
    forall i, j :: 0 <= i < j < |s| ==> s[i] != s[j]
  }

  lemma DistinctConcat<T>(a: seq<T>, b: seq<T>)
    requires Distinct(a) && Distinct(b)
    requires forall i, j :: 0 <= i < |a| && 0 <= j < |b| ==> a[i] != b[j]
    ensures Distinct(a + b)
  {
  }

  /** A concatenation is duplicate-free exactly when both halves are and
      they share no element. */
  lemma DistinctSplit<T>(a: seq<T>, b: seq<T>)
    ensures Distinct(a + b) <==> Distinct(a) && Distinct(b) && forall x :: x in b ==> x !in a
  {
    var s := a + b;
    if Distinct(s) {
      forall i, j | 0 <= i < j < |a|
        ensures a[i] != a[j]
      {
        assert s[i] == a[i] && s[j] == a[j];
      }
      forall i, j | 0 <= i < j < |b|
        ensures b[i] != b[j]
      {
        assert s[|a| + i] == b[i] && s[|a| + j] == b[j];
      }
      forall i, j | 0 <= i < |a| && 0 <= j < |b|
        ensures a[i] != b[j]
      {
        assert s[i] == a[i] && s[|a| + j] == b[j];
      }
    }
    if Distinct(a) && Distinct(b) && forall x :: x in b ==> x !in a {
      forall i, j | 0 <= i < |a| && 0 <= j < |b|
        ensures a[i] != b[j]
      {
        assert b[j] in b;
      }
      DistinctConcat(a, b);
    }
  }

  function Elements<T>(s: seq<T>): set<T> {
    set x | x in s
  }

  /** A duplicate-free list has as many elements as its set. */
  lemma {:induction false} DistinctCard<T>(s: seq<T>)
    requires Distinct(s)
    ensures |Elements(s)| == |s|
  {
    if |s| > 0 {
      var t := s[..|s| - 1];
      DistinctCard(t);
      assert Elements(s) == Elements(t) + {s[|s| - 1]};
      assert s[|s| - 1] !in t;
    } else {
      assert Elements(s) == {};
    }
  }

  function Min(a: int, b: int): int {
    if a < b then a else b
  }

  function Max(a: int, b: int): int {
    if a < b then b else a
  }

  /** `list(range(n))`. */
  function AllIndices(n: nat): (r: seq<nat>)
    ensures |r| == n && forall k :: 0 <= k < n ==> r[k] == k
  {
    seq(n, k => k)
  }

  /** `set(range(n))`. */
  function Below(n: nat): (S: set<nat>)
    ensures forall i: nat :: i in S <==> i < n
    ensures |S| == n
  {
    var r := AllIndices(n);
    DistinctCard(r);
    var S := Elements(r);
    forall i: nat
      ensures i in S <==> i < n
    {
      if i < n {
        assert r[i] == i;
      }
    }
    S
  }

  /** Moving one element from a pool into a disjoint selection keeps them
      disjoint, keeps their union, and shifts one from one count to the
      other. */
  lemma MoveOne<T>(out: set<T>, pool: set<T>, x: T)
    requires x in pool && out * pool == {}
    ensures |out + {x}| == |out| + 1 && |pool - {x}| == |pool| - 1
    ensures (out + {x}) * (pool - {x}) == {}
    ensures (out + {x}) + (pool - {x}) == out + pool
  {
    assert x !in out;
  }

  /** A selection and the rest of `range(n)` split its `n` indices. */
  lemma SplitBelow(n: nat, selected: set<nat>)
    requires forall i :: i in selected ==> i < n
    ensures selected * (Below(n) - selected) == {}
    ensures selected + (Below(n) - selected) == Below(n)
    ensures |selected| + |Below(n) - selected| == n
  {
    var rest := Below(n) - selected;
    assert selected <= Below(n);
    assert selected + rest == Below(n);
  }
}

=== FILE: strings.dfy ===
/** Python string operations the naming rules rely on, over `seq<char>`.

    `FirstPiece(s, p)` is `s.split(p)[0]`, `LastPiece(s, p)` is
    `s.split(p)[-1]` (both scan left to right for non-overlapping matches, as
    CPython does), `Split`/`Join` are `s.split(c)` / `c.join(parts)` for a
    one-character separator, and `Stem` is `pathlib.PurePath.stem`. */
module Strings {
  import opened Wrappers
  import opened Sorting

  /** `pat` occurs in `s` starting at index `i`. */
  predicate OccursAt(s: string, pat: string, i: nat) {
    i + |pat| <= |s| && s[i..i + |pat|] == pat
  }

  /** Leftmost occurrence of `pat` in `s` at or after `i`. */
  function FindFrom(s: string, pat: string, i: nat): (r: Option<nat>)
    requires i <= |s|
    ensures r.Some? ==> i <= r.value <= |s| && OccursAt(s, pat, r.value)
    ensures r.Some? ==> forall j :: i <= j < r.value ==> !OccursAt(s, pat, j)
    ensures r.None? ==> forall j :: i <= j ==> !OccursAt(s, pat, j)
    decreases |s| - i
  {
    if OccursAt(s, pat, i) then Some(i)
    else if i == |s| then None
    else FindFrom(s, pat, i + 1)
  }

  function Find(s: string, pat: string): Option<nat> {
    FindFrom(s, pat, 0)
  }

  /** Python's `pat in s`. */
  predicate Contains(s: string, pat: string) {
    Find(s, pat).Some?
  }

  lemma ContainsIff(s: string, pat: string)
    ensures Contains(s, pat) <==> exists j :: OccursAt(s, pat, j)
  {
  }

  /** A one-character pattern occurs exactly where that character does. */
  lemma ContainsChar(s: string, c: char)
    ensures Contains(s, [c]) <==> c in s
  {
    ContainsIff(s, [c]);
    forall j: nat | j < |s|
      ensures OccursAt(s, [c], j) <==> s[j] == c
    {
      assert s[j..j + 1][0] == s[j];
    }
    if c in s {
      var j :| 0 <= j < |s| && s[j] == c;
      assert OccursAt(s, [c], j);
    }
  }

  /** A pattern cannot occur in a string lacking its first character. */
  lemma MissingHead(s: string, pat: string)
    requires |pat| > 0 && pat[0] !in s
    ensures !Contains(s, pat)
  {
    ContainsIff(s, pat);
    forall j: nat | j + |pat| <= |s|
      ensures !OccursAt(s, pat, j)
    {
      assert s[j..j + |pat|][0] == s[j];
    }
  }

  /** `s.split(pat)[0]`: everything before the first occurrence of `pat`. */
  function FirstPiece(s: string, pat: string): (r: string)
    requires |pat| > 0
    ensures r <= s
    ensures r == s || OccursAt(s, pat, |r|)
    ensures forall j: nat :: j < |r| ==> !OccursAt(s, pat, j)
    ensures !Contains(s, pat) <==> r == s
  {
    match Find(s, pat)
    case None => s
    case Some(i) => s[..i]
  }

  /** Where the last piece starts when the scan resumes at `i`: past each
      occurrence found, until none is left. */
  function LastStart(s: string, pat: string, i: nat): (k: nat)
    requires |pat| > 0 && i <= |s|
    ensures i <= k <= |s|
    ensures FindFrom(s, pat, k).None?
    decreases |s| - i
  {
    match FindFrom(s, pat, i)
    case None => i
    case Some(j) => LastStart(s, pat, j + |pat|)
  }

  /** The scan stops where it started or right after an occurrence. */
  lemma {:induction false} LastStartBack(s: string, pat: string, i: nat)
    requires |pat| > 0 && i <= |s|
    ensures var k := LastStart(s, pat, i);
      k == i || (i + |pat| <= k && OccursAt(s, pat, k - |pat|))
    decreases |s| - i
  {
    var f := FindFrom(s, pat, i);
    if f.Some? {
      LastStartBack(s, pat, f.value + |pat|);
    }
  }

  /** No occurrence at or after `k` means none in `s[k..]`. */
  lemma NoneAfter(s: string, pat: string, k: nat)
    requires k <= |s| && FindFrom(s, pat, k).None?
    ensures !Contains(s[k..], pat)
  {
    var t := s[k..];
    ContainsIff(t, pat);
    forall j: nat | OccursAt(t, pat, j)
      ensures false
    {
      assert s[k + j..k + j + |pat|] == t[j..j + |pat|];
      assert OccursAt(s, pat, k + j);
    }
  }

  /** `s.split(pat)[-1]`: what follows the last separator the left-to-right
      scan finds. */
  function LastPiece(s: string, pat: string): (r: string)
    requires |pat| > 0
    ensures |r| <= |s| && r == s[|s| - |r|..]
    ensures !Contains(r, pat)
    ensures r == s || (|r| + |pat| <= |s| && OccursAt(s, pat, |s| - |r| - |pat|))
  {
    var k := LastStart(s, pat, 0);
    NoneAfter(s, pat, k);
    LastStartBack(s, pat, 0);
    assert s[0..] == s;
    s[k..]
  }

  /** No proper suffix of `pat` is also a prefix of it, so two occurrences of
      `pat` can never overlap. */
  ghost predicate NoBorder(pat: string) {
    forall d :: 0 < d < |pat| ==> pat[d..] != pat[..|pat| - d]
  }

  lemma OccursInPart(a: string, b: string, pat: string, j: nat)
    requires OccursAt(a + b, pat, j) && j + |pat| <= |a|
    ensures OccursAt(a, pat, j)
  {
    assert (a + b)[j..j + |pat|] == a[j..j + |pat|];
  }

  lemma OccursShift(a: string, b: string, pat: string, j: nat)
    requires OccursAt(b, pat, j)
    ensures OccursAt(a + b, pat, |a| + j)
  {
    assert (a + b)[|a| + j..|a| + j + |pat|] == b[j..j + |pat|];
  }

  lemma OverlapIsBorder(s: string, pat: string, i: nat, k: nat)
    requires OccursAt(s, pat, i) && OccursAt(s, pat, k) && i < k < i + |pat|
    ensures pat[k - i..] == pat[..|pat| - (k - i)]
  {
    var d := k - i;
    assert pat[d..] == s[k..i + |pat|];
    assert s[k..i + |pat|] == pat[..|pat| - d];
  }

  /** Two occurrences of a border-free pattern are at least `|pat|` apart. */
  lemma NoOverlap(s: string, pat: string, i: nat, k: nat)
    requires NoBorder(pat) && OccursAt(s, pat, i) && OccursAt(s, pat, k) && i < k
    ensures i + |pat| <= k
  {
    if k < i + |pat| {
      OverlapIsBorder(s, pat, i, k);
      assert false;
    }
  }

  /** The first piece of `a + pat + b` is `a` when `a` holds no `pat`. */
  lemma {:induction false} FirstPieceOfJoin(a: string, pat: string, b: string)
    requires |pat| > 0 && NoBorder(pat) && !Contains(a, pat)
    ensures FirstPiece(a + pat + b, pat) == a
  {
    var s := a + pat + b;
    assert s[|a|..|a| + |pat|] == pat;
    assert OccursAt(s, pat, |a|);
    var i := Find(s, pat).value;
    if i < |a| {
      if i + |pat| <= |a| {
        assert s == a + (pat + b);
        OccursInPart(a, pat + b, pat, i);
        assert false;
      } else {
        NoOverlap(s, pat, i, |a|);
        assert false;
      }
    }
    assert s[..|a|] == a;
  }

  /** An occurrence past `a + pat` in `a + pat + b` is one in `b`. */
  lemma OccursInTail(a: string, pat: string, b: string, k: nat)
    requires OccursAt(a + pat + b, pat, k) && k >= |a| + |pat|
    ensures OccursAt(b, pat, k - |a| - |pat|)
  {
    var s := a + pat + b;
    var j := k - |a| - |pat|;
    assert s[k..k + |pat|] == b[j..j + |pat|];
  }

  /** Past the `pat` in front of `b`, `a + pat + b` holds no `pat` when `b`
      holds none. */
  lemma NoneAfterJoin(a: string, pat: string, b: string)
    requires !Contains(b, pat)
    ensures FindFrom(a + pat + b, pat, |a| + |pat|).None?
  {
    ContainsIff(b, pat);
    forall k: nat | |a| + |pat| <= k && OccursAt(a + pat + b, pat, k)
      ensures false
    {
      OccursInTail(a, pat, b, k);
    }
  }

  /** When `pat` occurs at `m` and nowhere after it, scanning from any point
      up to `m` ends right after that occurrence. */
  lemma {:induction false} LastStartAt(s: string, pat: string, m: nat, i: nat)
    requires |pat| > 0 && NoBorder(pat) && OccursAt(s, pat, m) && i <= m
    requires FindFrom(s, pat, m + |pat|).None?
    ensures LastStart(s, pat, i) == m + |pat|
    decreases m - i
  {
    var j := LastStartSkip(s, pat, i);
    if j < m {
      NoOverlap(s, pat, j, m);
      LastStartAt(s, pat, m, j + |pat|);
    }
  }

  /** One step of the scan: it resumes after the occurrence it finds. */
  lemma LastStartSkip(s: string, pat: string, i: nat) returns (j: nat)
    requires |pat| > 0 && i <= |s| && FindFrom(s, pat, i).Some?
    ensures j == FindFrom(s, pat, i).value && j + |pat| <= |s|
    ensures forall k :: i <= k < j ==> !OccursAt(s, pat, k)
    ensures LastStart(s, pat, i) == LastStart(s, pat, j + |pat|)
  {
    j := FindFrom(s, pat, i).value;
  }

  /** The last piece of `a + pat + b` is `b` when `b` holds no `pat`,
      whatever `a` holds. */
  lemma LastPieceOfJoin(a: string, pat: string, b: string)
    requires |pat| > 0 && NoBorder(pat) && !Contains(b, pat)
    ensures LastPiece(a + pat + b, pat) == b
  {
    var s := a + pat + b;
    assert s[|a|..|a| + |pat|] == pat;
    NoneAfterJoin(a, pat, b);
    LastStartAt(s, pat, |a|, 0);
    assert s[|a| + |pat|..] == b;
  }

  /** Python's `str.split(c)` for a single-character separator. */
  function Split(s: string, c: char): (r: seq<string>)
    ensures |r| >= 1
    decreases |s|
  {
    if |s| == 0 then [""]
    else
      var rest := Split(s[1..], c);
      if s[0] == c then [""] + rest
      else [[s[0]] + rest[0]] + rest[1..]
  }

  /** Python's `c.join(parts)` for a non-empty list of parts. */
  function Join(parts: seq<string>, c: char): string
    requires |parts| >= 1
  {
    if |parts| == 1 then parts[0] else parts[0] + [c] + Join(parts[1..], c)
  }

  /** `c.join(parts)` for a possibly empty list. */
  function JoinAll(parts: seq<string>, c: char): (r: string)
    ensures |parts| == 0 ==> r == ""
  {
    if |parts| == 0 then "" else Join(parts, c)
  }

  lemma {:induction false} SplitPieces(s: string, c: char)
    ensures forall k :: 0 <= k < |Split(s, c)| ==> c !in Split(s, c)[k]
    ensures Join(Split(s, c), c) == s
    decreases |s|
  {
    if |s| > 0 {
      SplitPieces(s[1..], c);
      var rest := Split(s[1..], c);
      if s[0] == c {
        assert Join([""] + rest, c) == "" + [c] + Join(rest, c);
        assert s == [s[0]] + s[1..];
      } else {
        var r := Split(s, c);
        if |rest| == 1 {
          assert r == [[s[0]] + rest[0]];
        } else {
          assert r[1..] == rest[1..];
          assert Join(r, c) == [s[0]] + rest[0] + [c] + Join(rest[1..], c);
        }
        assert s == [s[0]] + s[1..];
      }
    }
  }

  lemma {:induction false} SplitNoSeparator(p: string, c: char)
    requires c !in p
    ensures Split(p, c) == [p]
    decreases |p|
  {
    if |p| > 0 {
      SplitNoSeparator(p[1..], c);
      assert [p[0]] + p[1..] == p;
    }
  }

  lemma {:induction false} SplitAfterPiece(p: string, c: char, rest: string)
    requires c !in p
    ensures Split(p + [c] + rest, c) == [p] + Split(rest, c)
    decreases |p|
  {
    if |p| == 0 {
      assert p + [c] + rest == [c] + rest;
      assert (p + [c] + rest)[1..] == rest;
    } else {
      var s := p + [c] + rest;
      assert s[1..] == p[1..] + [c] + rest;
      SplitAfterPiece(p[1..], c, rest);
      assert [p[0]] + p[1..] == p;
    }
  }

  /** Splitting a join gives back the parts, when no part holds the
      separator. */
  lemma {:induction false} SplitJoin(parts: seq<string>, c: char)
    requires |parts| >= 1
    requires forall k :: 0 <= k < |parts| ==> c !in parts[k]
    ensures Split(Join(parts, c), c) == parts
    decreases |parts|
  {
    if |parts| == 1 {
      SplitNoSeparator(parts[0], c);
    } else {
      SplitJoin(parts[1..], c);
      SplitAfterPiece(parts[0], c, Join(parts[1..], c));
      assert [parts[0]] + parts[1..] == parts;
    }
  }

  /** Three separator-free tokens joined by the separator split back into themselves. */
  lemma {:induction false} SplitThree(a: string, p: string, b: string, c: char)
    requires c !in a && c !in p && c !in b
    ensures Split(a + [c] + p + [c] + b, c) == [a, p, b]
  {
    SplitNoSeparator(b, c);
    SplitAfterPiece(p, c, b);
    SplitAfterPiece(a, c, p + [c] + b);
    assert a + [c] + p + [c] + b == a + [c] + (p + [c] + b);
  }

  /** One step of `Split` on a list with a known head. */
  lemma SplitCons(x: char, t: string, c: char)
    ensures x == c ==> Split([x] + t, c) == [""] + Split(t, c)
    ensures x != c ==> Split([x] + t, c) == [[x] + Split(t, c)[0]] + Split(t, c)[1..]
  {
    assert ([x] + t)[1..] == t;
  }

  /** The first piece of split pieces, with a character put in front. */
  function ConsPiece(x: char, sep: bool, pieces: seq<string>): seq<string>
    requires |pieces| >= 1
  {
    if sep then [""] + pieces else [[x] + pieces[0]] + pieces[1..]
  }

  lemma ConsPieceAppend(x: char, sep: bool, left: seq<string>, right: seq<string>)
    requires |left| >= 1
    ensures ConsPiece(x, sep, left + right) == ConsPiece(x, sep, left) + right
  {
    if !sep {
      assert (left + right)[0] == left[0];
      assert (left + right)[1..] == left[1..] + right;
    }
  }

  /** The inductive step of `SplitConcat`: a character put in front of
      the left side goes to the first piece of its split. */
  lemma SplitConcatStep(x: char, t: string, c: char, b: string)
    requires Split(t + [c] + b, c) == Split(t, c) + Split(b, c)
    ensures Split([x] + t + [c] + b, c) == Split([x] + t, c) + Split(b, c)
  {
    var u := t + [c] + b;
    assert [x] + t + [c] + b == [x] + u;
    SplitCons(x, u, c);
    SplitCons(x, t, c);
    var left, right := Split(t, c), Split(b, c);
    assert Split([x] + u, c) == ConsPiece(x, x == c, left + right);
    assert Split([x] + t, c) == ConsPiece(x, x == c, left);
    ConsPieceAppend(x, x == c, left, right);
  }

  /** Splitting at one separator splits both sides independently. */
  lemma {:induction false} SplitConcat(a: string, c: char, b: string)
    ensures Split(a + [c] + b, c) == Split(a, c) + Split(b, c)
    decreases |a|
  {
    if |a| == 0 {
      assert a + [c] + b == [c] + b;
      SplitCons(c, b, c);
      assert Split(a, c) == [""];
    } else {
      SplitConcat(a[1..], c, b);
      SplitConcatStep(a[0], a[1..], c, b);
      assert [a[0]] + a[1..] == a;
    }
  }

  /** A pattern whose first character does not occur again has no border. */
  lemma UniqueHead(pat: string)
    requires |pat| > 0 && forall k :: 0 < k < |pat| ==> pat[k] != pat[0]
    ensures NoBorder(pat)
  {
    forall d | 0 < d < |pat|
      ensures pat[d..] != pat[..|pat| - d]
    {
      assert pat[d..][0] == pat[d];
      assert pat[..|pat| - d][0] == pat[0];
    }
  }

  /** Python's `s.endswith(suffix)`. */
  predicate EndsWith(s: string, suffix: string) {
    |suffix| <= |s| && s[|s| - |suffix|..] == suffix
  }

  /** Index of the last `'.'` in `s`, if any. */
  function LastDot(s: string): (r: Option<nat>)
    ensures r.Some? ==> r.value < |s| && s[r.value] == '.'
    ensures r.Some? ==> forall j :: r.value < j < |s| ==> s[j] != '.'
    ensures r.None? ==> '.' !in s
  {
    if |s| == 0 then None
    else if s[|s| - 1] == '.' then Some(|s| - 1)
    else
      var r := LastDot(s[..|s| - 1]);
      assert s == s[..|s| - 1] + [s[|s| - 1]];
      r
  }

  /** `PurePath(name).stem`: the name without its last suffix, where a suffix
      starts at a dot that is neither the first nor the last character. */
  function Stem(name: string): (r: string)
    ensures r <= name
    ensures r != name ==> name[|r|] == '.' && 0 < |r| < |name| - 1
    ensures r != name ==> '.' !in name[|r| + 1..]
  {
    match LastDot(name)
    case Some(i) => if 0 < i < |name| - 1 then name[..i] else name
    case None => name
  }

  lemma {:induction false} StemOfSuffixed(base: string, ext: string)
    requires |base| > 0 && |ext| > 0 && '.' !in ext
    ensures Stem(base + "." + ext) == base
  {
    var name := base + "." + ext;
    assert name[|base|] == '.';
    assert name[..|base|] == base;
    forall j | |base| < j < |name|
      ensures name[j] != '.'
    {
      assert name[j] == ext[j - |base| - 1];
    }
    assert LastDot(name) == Some(|base|);
  }

  /** ASCII lower-casing, the only case folding the modelled names need. */
  function LowerAscii(s: string): (r: string)
    ensures |r| == |s|
    ensures forall k :: 0 <= k < |s| ==> (if 'A' <= s[k] <= 'Z' then r[k] as int == s[k] as int + 32 else r[k] == s[k])
  {
    seq(|s|, k requires 0 <= k < |s| => if 'A' <= s[k] <= 'Z' then (s[k] as int + 32) as char else s[k])
  }

  /** Python's `<=` on strings: code-point order, a prefix first. */
  predicate LexLe(a: string, b: string)
    decreases |a|
  {
    if |a| == 0 then true
    else if |b| == 0 then false
    else if a[0] != b[0] then a[0] < b[0]
    else LexLe(a[1..], b[1..])
  }

  lemma {:induction false} LexConnex(a: string, b: string)
    ensures LexLe(a, b) || LexLe(b, a)
    decreases |a|
  {
    if |a| > 0 && |b| > 0 && a[0] == b[0] {
      LexConnex(a[1..], b[1..]);
    }
  }

  lemma LexTotal()
    ensures Total(LexLe)
  {
    forall a: string, b: string
      ensures LexLe(a, b) || LexLe(b, a)
    {
      LexConnex(a, b);
    }
  }
}

=== FILE: tiling.dfy ===
/** Cutting an image into `chunk_size` squares (`chunk_image` and
    `chunk_z_stack` in utils/utils.py, `chunk_image` in utils.py), grouping
    z planes into maximum-intensity projections (`create_mips_from_folder`),
    and the file names these steps write, which later steps parse back. */
module Tiling {
  import opened Wrappers
  import opened Strings
  import opened Decimal
  import opened Sorting
  import opened Arith

  /** `chunk_size=512`, the default of `chunk_image` in utils.py. */
  const DefaultChunkSize: nat := 512

  /** `range(0, dim, c)`: a zero step raises ValueError, and a negative step
      starting from 0 never reaches a non-negative bound. */
  function Origins(dim: nat, c: int): (r: Result<seq<nat>>)
    ensures c == 0 <==> r.Err?
    ensures r.Err? ==> r.error == ValueError
    ensures c < 0 ==> r == Ok([])
    ensures c > 0 ==> r.Ok? && |r.value| == (dim + c - 1) / c
    ensures c > 0 ==> forall k :: 0 <= k < |r.value| ==> r.value[k] == k * c
  {
    if c == 0 then Err(ValueError)
    else if c < 0 then Ok([])
    else Ok(seq((dim + c - 1) / c, k requires 0 <= k => (MulMonotone(0, k, c); k * c) as nat))
  }

  /** Origin number `k` of an axis of length `dim` is a multiple of `c`
      inside the axis. */
  lemma OriginSound(dim: nat, c: nat, k: nat)
    requires c >= 1 && k < (dim + c - 1) / c
    ensures 0 <= k * c < dim && (k * c) % c == 0
  {
    CeilBound(dim, c, k);
    DivUnique(k * c, c, k, 0);
  }

  /** A multiple of `c` inside the axis is origin number `x / c`. */
  lemma OriginComplete(dim: nat, c: nat, x: nat)
    requires c >= 1 && x < dim && x % c == 0
    ensures x / c < (dim + c - 1) / c && (x / c) * c == x
  {
    assert (x / c) * c == x;
    CeilBound(dim, c, x / c);
  }

  /** The origins increase. */
  lemma OriginsIncreasing(dim: nat, c: nat)
    requires c >= 1
    ensures StrictlyIncreasing(Origins(dim, c).value)
  {
    var os := Origins(dim, c).value;
    forall i, j | 0 <= i < j < |os|
      ensures os[i] < os[j]
    {
      assert os[i] == i * c && os[j] == j * c;
      MulMonotone(i + 1, j, c);
    }
  }

  /** The origins are exactly the multiples of `c` below `dim`, in
      increasing order. */
  lemma OriginsExactly(dim: nat, c: nat, x: int)
    requires c >= 1
    ensures x in Origins(dim, c).value <==> 0 <= x < dim && x % c == 0
    ensures StrictlyIncreasing(Origins(dim, c).value)
  {
    var os := Origins(dim, c).value;
    if x in os {
      var k :| 0 <= k < |os| && os[k] == x;
      OriginSound(dim, c, k);
    }
    if 0 <= x < dim && x % c == 0 {
      OriginComplete(dim, c, x);
      assert os[x / c] == x;
    }
    OriginsIncreasing(dim, c);
  }

  /** A half-open index range `[lo, hi)` along one axis. */
  datatype Span = Span(lo: nat, hi: nat)

  predicate InSpan(p: int, s: Span) {
    s.lo <= p < s.hi
  }

  /** `a[o:o + c]` on an axis of length `dim`: the slice stops at the edge. */
  function Clip(o: nat, c: nat, dim: nat): (s: Span)
    ensures s.lo <= s.hi <= dim && s.hi - s.lo <= c
    ensures o < dim && c >= 1 ==> s.lo == o < s.hi
    ensures o < dim && o + c <= dim ==> s.hi - s.lo == c
  {
    Span(Min(o, dim), Min(o + c, dim))
  }

  /** An index at most `c - 1` past an origin lies in that origin's
      clipped tile. */
  lemma InOwnClip(o: nat, c: nat, dim: nat, p: nat)
    requires o <= p < o + c && p < dim
    ensures InSpan(p, Clip(o, c, dim))
  {
  }

  /** An origin number whose origin lies before an index of the axis is an
      origin number of the axis. */
  lemma HomeIndex(dim: nat, c: nat, p: nat, q: nat)
    requires c >= 1 && q * c <= p < dim
    ensures q < (dim + c - 1) / c
  {
    CeilBound(dim, c, q);
  }

  /** The origin `q * c` with `q = p / c` is at most `c - 1` before `p`. */
  lemma HomeOffset(c: nat, p: nat, q: nat)
    requires c >= 1 && q == p / c
    ensures q * c <= p < q * c + c
  {
    QuotientBounds(p, c);
    assert (q + 1) * c == q * c + c;
  }

  /** Index `p` lies in the clipped tile at origin `(p / c) * c`, and that
      origin is in the axis. */
  lemma ClipHome(dim: nat, c: nat, p: nat)
    requires c >= 1 && p < dim
    ensures p / c < (dim + c - 1) / c && InSpan(p, Clip((p / c) * c, c, dim))
  {
    var q := p / c;
    HomeOffset(c, p, q);
    HomeIndex(dim, c, p, q);
    InOwnClip(q * c, c, dim, p);
  }

  /** The clipped tile at origin `k * c` holds `p` only when `k = p / c`. */
  lemma ClipOwner(dim: nat, c: nat, k: nat, p: nat)
    requires c >= 1 && InSpan(p, Clip(k * c, c, dim))
    ensures k == p / c
  {
    DivUnique(p, c, k, p - k * c);
  }

  /** Every index of an axis lies in exactly one clipped tile, the one at
      origin number `p / c`. */
  lemma AxisPartition(dim: nat, c: nat, p: nat)
    requires c >= 1 && p < dim
    ensures var os := Origins(dim, c).value;
      p / c < |os| && InSpan(p, Clip(os[p / c], c, dim))
    ensures var os := Origins(dim, c).value;
      forall k :: 0 <= k < |os| && InSpan(p, Clip(os[k], c, dim)) ==> k == p / c
  {
    var os := Origins(dim, c).value;
    ClipHome(dim, c, p);
    assert os[p / c] == (p / c) * c;
    forall k | 0 <= k < |os| && InSpan(p, Clip(os[k], c, dim))
      ensures k == p / c
    {
      assert os[k] == k * c;
      ClipOwner(dim, c, k, p);
    }
  }

  /** `img[i:i + c, j:j + c]`: the clipped rows and columns of one tile. */
  datatype Tile = Tile(rows: Span, cols: Span)

  predicate InTile(p: int, q: int, t: Tile) {
    InSpan(p, t.rows) && InSpan(q, t.cols)
  }

  function Row(y: nat, xs: seq<nat>, c: nat, height: nat, width: nat): (r: seq<Tile>)
    ensures |r| == |xs|
  {
    seq(|xs|, b requires 0 <= b < |xs| => Tile(Clip(y, c, height), Clip(xs[b], c, width)))
  }

  /** The two nested loops over row origins `ys` and column origins `xs`,
      in the order they write the tiles. */
  function Rows(ys: seq<nat>, xs: seq<nat>, c: nat, height: nat, width: nat): (r: seq<Tile>)
    ensures |r| == |ys| * |xs|
  {
    if |ys| == 0 then []
    else
      var r := Row(ys[0], xs, c, height, width) + Rows(ys[1..], xs, c, height, width);
      assert |r| == |xs| + (|ys| - 1) * |xs|;
      r
  }

  /** The tile at row origin number `a` and column origin number `b` is
      written. */
  lemma {:induction false} RowsHas(ys: seq<nat>, xs: seq<nat>, c: nat, height: nat, width: nat, a: nat, b: nat)
    requires a < |ys| && b < |xs|
    ensures Tile(Clip(ys[a], c, height), Clip(xs[b], c, width)) in Rows(ys, xs, c, height, width)
  {
    if a == 0 {
      assert Row(ys[0], xs, c, height, width)[b] == Tile(Clip(ys[a], c, height), Clip(xs[b], c, width));
    } else {
      RowsHas(ys[1..], xs, c, height, width, a - 1, b);
      assert ys[1..][a - 1] == ys[a];
    }
  }

  /** Every written tile sits at some row and column origin. */
  lemma {:induction false} RowsSource(ys: seq<nat>, xs: seq<nat>, c: nat, height: nat, width: nat, t: Tile)
    returns (a: nat, b: nat)
    requires t in Rows(ys, xs, c, height, width)
    ensures a < |ys| && b < |xs| && t == Tile(Clip(ys[a], c, height), Clip(xs[b], c, width))
  {
    var row := Row(ys[0], xs, c, height, width);
    if t in row {
      var j :| 0 <= j < |xs| && row[j] == t;
      a, b := 0, j;
    } else {
      var a', b' := RowsSource(ys[1..], xs, c, height, width, t);
      a, b := a' + 1, b';
    }
  }

  /** A tile is written exactly when its row and column origins are. */
  lemma RowsMember(ys: seq<nat>, xs: seq<nat>, c: nat, height: nat, width: nat, t: Tile)
    ensures t in Rows(ys, xs, c, height, width) <==>
      exists y, x :: y in ys && x in xs && t == Tile(Clip(y, c, height), Clip(x, c, width))
  {
    if t in Rows(ys, xs, c, height, width) {
      var a, b := RowsSource(ys, xs, c, height, width, t);
      assert ys[a] in ys && xs[b] in xs;
    }
    if exists y, x :: y in ys && x in xs && t == Tile(Clip(y, c, height), Clip(x, c, width)) {
      var y, x :| y in ys && x in xs && t == Tile(Clip(y, c, height), Clip(x, c, width));
      var a :| 0 <= a < |ys| && ys[a] == y;
      var b :| 0 <= b < |xs| && xs[b] == x;
      RowsHas(ys, xs, c, height, width, a, b);
    }
  }

  /** Origins in range and increasing give pairwise different tiles. */
  lemma {:induction false} RowsDistinct(ys: seq<nat>, xs: seq<nat>, c: nat, height: nat, width: nat)
    requires StrictlyIncreasing(ys) && StrictlyIncreasing(xs)
    requires forall a :: 0 <= a < |ys| ==> ys[a] < height
    requires forall b :: 0 <= b < |xs| ==> xs[b] < width
    ensures Distinct(Rows(ys, xs, c, height, width))
  {
    if |ys| > 0 {
      RowsDistinct(ys[1..], xs, c, height, width);
      var row := Row(ys[0], xs, c, height, width);
      var rest := Rows(ys[1..], xs, c, height, width);
      forall i, j | 0 <= i < |row| && 0 <= j < |rest|
        ensures row[i] != rest[j]
      {
        assert rest[j] in rest;
        var a, b := RowsSource(ys[1..], xs, c, height, width, rest[j]);
        assert rest[j].rows.lo == ys[a + 1] > ys[0] == row[i].rows.lo;
      }
      DistinctConcat(row, rest);
    }
  }

  /** The tiles of a `height` x `width` image, row by row. */
  function Grid(height: nat, width: nat, c: int): (r: Result<seq<Tile>>)
    ensures c == 0 <==> r.Err?
    ensures r.Err? ==> r.error == ValueError
    ensures c < 0 ==> r == Ok([])
  {
    if c == 0 then Err(ValueError)
    else if c < 0 then Ok([])
    else Ok(Rows(Origins(height, c).value, Origins(width, c).value, c, height, width))
  }

  /** Origin number `k` of `os` is the only one whose clipped tile holds
      index `p`. */
  predicate SoleOwner(os: seq<nat>, c: nat, dim: nat, p: nat, k: nat) {
    k < |os| && InSpan(p, Clip(os[k], c, dim)) &&
    forall j :: 0 <= j < |os| && InSpan(p, Clip(os[j], c, dim)) ==> j == k
  }

  /** Origin number `p / c`, at `(p / c) * c`, is the sole owner of index
      `p`. */
  lemma AxisOwner(dim: nat, c: nat, p: nat)
    requires c >= 1 && p < dim
    ensures var os := Origins(dim, c).value;
      SoleOwner(os, c, dim, p, p / c) && os[p / c] == (p / c) * c
  {
    AxisPartition(dim, c, p);
  }

  /** A written tile holding `(p, q)` is the one at the sole owners of `p`
      and `q`. */
  lemma RowsOwner(ys: seq<nat>, xs: seq<nat>, c: nat, height: nat, width: nat, p: nat, q: nat, a: nat, b: nat, t: Tile)
    requires SoleOwner(ys, c, height, p, a) && SoleOwner(xs, c, width, q, b)
    requires t in Rows(ys, xs, c, height, width) && InTile(p, q, t)
    ensures t == Tile(Clip(ys[a], c, height), Clip(xs[b], c, width))
  {
    var a', b' := RowsSource(ys, xs, c, height, width, t);
  }

  /** The square tile whose origin is pixel `(p, q)` rounded down to
      multiples of `c`, clipped to the image. */
  function HomeTile(height: nat, width: nat, c: nat, p: nat, q: nat): Tile
    requires c >= 1
  {
    Tile(Clip((p / c) * c, c, height), Clip((q / c) * c, c, width))
  }

  /** The home tile of a pixel is written and holds the pixel. */
  lemma GridHome(height: nat, width: nat, c: nat, p: nat, q: nat)
    requires c >= 1 && p < height && q < width
    ensures HomeTile(height, width, c, p, q) in Grid(height, width, c).value
    ensures InTile(p, q, HomeTile(height, width, c, p, q))
  {
    var ys := Origins(height, c).value;
    var xs := Origins(width, c).value;
    var a, b := p / c, q / c;
    AxisOwner(height, c, p);
    AxisOwner(width, c, q);
    RowsHas(ys, xs, c, height, width, a, b);
  }

  /** A written tile holding pixel `(p, q)` is its home tile. */
  lemma GridOwner(height: nat, width: nat, c: nat, p: nat, q: nat, t: Tile)
    requires c >= 1 && p < height && q < width
    requires t in Grid(height, width, c).value && InTile(p, q, t)
    ensures t == HomeTile(height, width, c, p, q)
  {
    var ys := Origins(height, c).value;
    var xs := Origins(width, c).value;
    var a, b := p / c, q / c;
    AxisOwner(height, c, p);
    AxisOwner(width, c, q);
    RowsOwner(ys, xs, c, height, width, p, q, a, b, t);
  }

  /** The tiles cover the image without overlap: every pixel lies in
      exactly one of them. */
  lemma GridPartition(height: nat, width: nat, c: nat, p: nat, q: nat)
    requires c >= 1 && p < height && q < width
    ensures exists t :: t in Grid(height, width, c).value && InTile(p, q, t)
    ensures forall t, u ::
      (t in Grid(height, width, c).value && u in Grid(height, width, c).value &&
       InTile(p, q, t) && InTile(p, q, u)) ==> t == u
  {
    GridHome(height, width, c, p, q);
    forall t, u | t in Grid(height, width, c).value && u in Grid(height, width, c).value &&
                  InTile(p, q, t) && InTile(p, q, u)
      ensures t == u
    {
      GridOwner(height, width, c, p, q, t);
      GridOwner(height, width, c, p, q, u);
    }
  }

  /** Every tile of the grid starts inside the image and is the clipped
      square at its own origin; no tile is written twice. */
  lemma GridShape(height: nat, width: nat, c: nat)
    requires c >= 1
    ensures Distinct(Grid(height, width, c).value)
    ensures forall t :: t in Grid(height, width, c).value ==>
      t.rows.lo < height && t.cols.lo < width &&
      t == Tile(Clip(t.rows.lo, c, height), Clip(t.cols.lo, c, width))
  {
    var ys := Origins(height, c).value;
    var xs := Origins(width, c).value;
    OriginsBelow(height, c);
    OriginsBelow(width, c);
    RowsDistinct(ys, xs, c, height, width);
    forall t | t in Grid(height, width, c).value
      ensures t.rows.lo < height && t.cols.lo < width
      ensures t == Tile(Clip(t.rows.lo, c, height), Clip(t.cols.lo, c, width))
    {
      var a, b := RowsSource(ys, xs, c, height, width, t);
    }
  }

  lemma OriginsBelow(dim: nat, c: nat)
    requires c >= 1
    ensures StrictlyIncreasing(Origins(dim, c).value)
    ensures forall k :: 0 <= k < |Origins(dim, c).value| ==> Origins(dim, c).value[k] < dim
  {
    var os := Origins(dim, c).value;
    OriginsExactly(dim, c, 0);
    forall k | 0 <= k < |os|
      ensures os[k] < dim
    {
      OriginsExactly(dim, c, os[k]);
    }
  }

  /** `"{}_chunk_{}_{}".format(stem, i, j)`, the name without its suffix. */
  function TileStem(stem: string, y: nat, x: nat): string {
    stem + "_chunk_" + NatToString(y) + "_" + NatToString(x)
  }

  function TileName(stem: string, y: nat, x: nat): string {
    TileStem(stem, y, x) + ".tif"
  }

  /** Reads a tile origin back from the last three `_` tokens of a file's
      stem: `chunk`, then the row and column numbers. */
  function TileOrigin(name: string): Option<(int, int)> {
    var parts := Split(Stem(name), '_');
    if |parts| < 3 || parts[|parts| - 3] != "chunk" then None
    else
      match (ParseInt(parts[|parts| - 2]), ParseInt(parts[|parts| - 1]))
      case (Some(y), Some(x)) => Some((y, x))
      case _ => None
  }

  lemma NoUnderscore(s: string)
    requires AllDigits(s)
    ensures '_' !in s
  {
    forall k | 0 <= k < |s|
      ensures s[k] != '_'
    {
      assert IsDigit(s[k]);
    }
  }

  /** A tile's file name gives back the tile's origin, whatever the image
      stem. */
  lemma TileOriginOfName(stem: string, y: nat, x: nat)
    ensures TileOrigin(TileName(stem, y, x)) == Some((y, x))
  {
    var sy := NatToString(y);
    var sx := NatToString(x);
    TileNamePieces(stem, y, x);
    ParseIntToString(y);
    ParseIntToString(x);
    var parts := Split(Stem(TileName(stem, y, x)), '_');
    assert parts[|parts| - 3] == "chunk" && parts[|parts| - 2] == sy && parts[|parts| - 1] == sx;
  }

  /** The stem of a tile's file name splits into the image stem's pieces
      followed by `chunk` and the two origin numbers. */
  lemma TileNamePieces(stem: string, y: nat, x: nat)
    ensures Split(Stem(TileName(stem, y, x)), '_') == Split(stem, '_') + ["chunk", NatToString(y), NatToString(x)]
  {
    var sy := NatToString(y);
    var sx := NatToString(x);
    var tail := Join(["chunk", sy, sx], '_');
    assert Join([sy, sx], '_') == sy + ['_'] + sx;
    assert tail == "chunk" + ['_'] + (sy + ['_'] + sx);
    assert TileStem(stem, y, x) == stem + ['_'] + tail;
    StemOfSuffixed(TileStem(stem, y, x), "tif");
    assert TileName(stem, y, x) == TileStem(stem, y, x) + "." + "tif";
    SplitConcat(stem, '_', tail);
    NoUnderscore(sy);
    NoUnderscore(sx);
    SplitJoin(["chunk", sy, sx], '_');
  }

  /** Different origins give different file names. */
  lemma TileNameInjective(stem: string, y: nat, x: nat, y': nat, x': nat)
    requires TileName(stem, y, x) == TileName(stem, y', x')
    ensures y == y' && x == x'
  {
    TileOriginOfName(stem, y, x);
    TileOriginOfName(stem, y', x');
  }

  /** The file a tile is written to. */
  function NameOf(stem: string, t: Tile): (name: string)
    ensures TileOrigin(name) == Some((t.rows.lo, t.cols.lo))
  {
    TileOriginOfName(stem, t.rows.lo, t.cols.lo);
    TileName(stem, t.rows.lo, t.cols.lo)
  }

  /** One tile file: its name and the pixels it holds. */
  datatype Chunk = Chunk(name: string, tile: Tile)

  /** `chunk_image` in utils/utils.py, for an image named `stem`: one file
      per tile, named after the tile's origin. */
  function ChunkImage(stem: string, height: nat, width: nat, c: int): (r: Result<seq<Chunk>>)
    ensures c == 0 <==> r.Err?
    ensures r.Err? ==> r.error == ValueError
    ensures r.Ok? ==> |r.value| == |Grid(height, width, c).value|
    ensures r.Ok? ==> forall k :: 0 <= k < |r.value| ==>
      && r.value[k].tile == Grid(height, width, c).value[k]
      && TileOrigin(r.value[k].name) == Some((r.value[k].tile.rows.lo, r.value[k].tile.cols.lo))
  {
    match Grid(height, width, c)
    case Err(e) => Err(e)
    case Ok(tiles) =>
      Ok(seq(|tiles|, k requires 0 <= k < |tiles| => Chunk(NameOf(stem, tiles[k]), tiles[k])))
  }

  /** No two tiles of one image are written to the same file. */
  lemma ChunkNamesDistinct(stem: string, height: nat, width: nat, c: nat)
    requires c >= 1
    ensures var chunks := ChunkImage(stem, height, width, c).value;
      forall i, j :: 0 <= i < j < |chunks| ==> chunks[i].name != chunks[j].name
  {
    var chunks := ChunkImage(stem, height, width, c).value;
    var g := Grid(height, width, c).value;
    GridShape(height, width, c);
    forall i, j | 0 <= i < j < |chunks|
      ensures chunks[i].name != chunks[j].name
    {
      assert g[i] in g && g[j] in g;
      assert g[i] != g[j];
      assert TileOrigin(chunks[i].name) == Some((g[i].rows.lo, g[i].cols.lo));
      assert TileOrigin(chunks[j].name) == Some((g[j].rows.lo, g[j].cols.lo));
    }
  }

  /** `image_name = path.stem`, the name without its last suffix: every
      tile file is named after the stem of the image's file name. */
  function ChunkImageOfPath(fileName: string, height: nat, width: nat, c: int): (r: Result<seq<Chunk>>)
    ensures r.Err? <==> c == 0
    ensures r.Ok? ==> |r.value| == |Grid(height, width, c).value|
    ensures r.Ok? ==> forall k :: 0 <= k < |r.value| ==>
      r.value[k].name == TileName(Stem(fileName), r.value[k].tile.rows.lo, r.value[k].tile.cols.lo)
  {
    ChunkImage(Stem(fileName), height, width, c)
  }

  /** `chunk_image` in utils.py: the image name is everything before the
      first `.` of the file name, and the tile size defaults to 512. */
  function LegacyChunkImage(fileName: string, height: nat, width: nat, c: int := DefaultChunkSize)
    : (r: Result<seq<Chunk>>)
    ensures r.Err? <==> c == 0
    ensures r.Ok? ==> |r.value| == |Grid(height, width, c).value|
    ensures r.Ok? ==> forall k :: 0 <= k < |r.value| ==>
      r.value[k].name == TileName(FirstPiece(fileName, "."), r.value[k].tile.rows.lo, r.value[k].tile.cols.lo)
  {
    ChunkImage(FirstPiece(fileName, "."), height, width, c)
  }

  /** Both naming rules agree on a file name with a single dot. */
  lemma ChunkNamingAgrees(base: string, ext: string, height: nat, width: nat, c: int)
    requires |base| > 0 && |ext| > 0 && '.' !in base && '.' !in ext
    ensures LegacyChunkImage(base + "." + ext, height, width, c) == ChunkImageOfPath(base + "." + ext, height, width, c)
  {
    StemOfSuffixed(base, ext);
    ContainsChar(base, '.');
    FirstPieceOfJoin(base, ".", ext);
    assert base + "." + ext == base + "." + ext;
  }

  /** With a second dot the rules part: `a.b.tif` gives `a` in utils.py
      and `a.b` in utils/utils.py. */
  lemma ChunkNamingDiffers()
    ensures FirstPiece("a.b.tif", ".") == "a"
    ensures Stem("a.b.tif") == "a.b"
  {
    assert OccursAt("a.b.tif", ".", 1);
    StemOfSuffixed("a.b", "tif");
    assert "a.b" + "." + "tif" == "a.b.tif";
  }

  /** One z-stack tile: every plane of the stack over one 2-D tile. */
  datatype Block = Block(name: string, planes: Span, tile: Tile)

  /** `chunk_z_stack`: axes 1 and 2 are tiled as a 2-D image is, and every
      block keeps the full depth. */
  function ChunkZStack(stem: string, depth: nat, height: nat, width: nat, c: int): (r: Result<seq<Block>>)
    ensures r.Err? <==> ChunkImage(stem, height, width, c).Err?
    ensures r.Ok? ==> |r.value| == |ChunkImage(stem, height, width, c).value|
    ensures r.Ok? ==> forall k :: 0 <= k < |r.value| ==>
      && r.value[k].planes == Span(0, depth)
      && Chunk(r.value[k].name, r.value[k].tile) == ChunkImage(stem, height, width, c).value[k]
  {
    match ChunkImage(stem, height, width, c)
    case Err(e) => Err(e)
    case Ok(chunks) =>
      Ok(seq(|chunks|, k requires 0 <= k < |chunks| => Block(chunks[k].name, Span(0, depth), chunks[k].tile)))
  }

  /** The blocks of a stack are the grid's tiles, in order, each over all
      planes. */
  lemma BlocksAreGrid(stem: string, depth: nat, height: nat, width: nat, c: nat)
    requires c >= 1
    ensures ChunkZStack(stem, depth, height, width, c).Ok?
    ensures var blocks := ChunkZStack(stem, depth, height, width, c).value;
      && |blocks| == |Grid(height, width, c).value|
      && forall k :: 0 <= k < |blocks| ==>
        blocks[k].tile == Grid(height, width, c).value[k] && blocks[k].planes == Span(0, depth)
  {
  }

  /** Every voxel of the stack lies in exactly one block. */
  lemma ZStackPartition(stem: string, depth: nat, height: nat, width: nat, c: nat, z: nat, p: nat, q: nat)
    requires c >= 1 && z < depth && p < height && q < width
    ensures var blocks := ChunkZStack(stem, depth, height, width, c).value;
      exists k :: 0 <= k < |blocks| && InSpan(z, blocks[k].planes) && InTile(p, q, blocks[k].tile)
    ensures var blocks := ChunkZStack(stem, depth, height, width, c).value;
      forall i, j :: 0 <= i < j < |blocks| && InTile(p, q, blocks[i].tile) ==> !InTile(p, q, blocks[j].tile)
  {
    BlocksAreGrid(stem, depth, height, width, c);
    var blocks := ChunkZStack(stem, depth, height, width, c).value;
    var g := Grid(height, width, c).value;
    GridHome(height, width, c, p, q);
    GridShape(height, width, c);
    var t := HomeTile(height, width, c, p, q);
    var k :| 0 <= k < |g| && g[k] == t;
    assert InSpan(z, blocks[k].planes) && InTile(p, q, blocks[k].tile);
    forall i, j | 0 <= i < j < |blocks| && InTile(p, q, blocks[i].tile)
      ensures !InTile(p, q, blocks[j].tile)
    {
      assert g[i] in g && g[j] in g && g[i] != g[j];
      GridOwner(height, width, c, p, q, g[i]);
      if InTile(p, q, g[j]) {
        GridOwner(height, width, c, p, q, g[j]);
      }
    }
  }

  function Abs(a: int): nat {
    if a < 0 then -a else a
  }

  /** `m` is the floor of `a / b`. */
  predicate FloorOf(m: nat, a: nat, b: nat) {
    m * b <= a < (m + 1) * b
  }

  lemma FloorOfQuotient(a: nat, b: nat)
    requires b > 0
    ensures a / b >= 0 && FloorOf(a / b, a, b) && (a / b >= 1 <==> a >= b)
  {
    QuotientBounds(a, b);
    DivMonotone(0, a, b);
  }

  /** `int(t / s)`: the quotient truncated toward zero. Its size is the
      floor of `|t| / |s|`, and it is positive only when the signs agree. */
  function TruncDiv(t: int, s: int): (q: int)
    requires s != 0
    ensures FloorOf(Abs(q), Abs(t), Abs(s))
    ensures Abs(q) >= 1 <==> Abs(t) >= Abs(s)
    ensures q > 0 ==> (t >= 0) == (s > 0)
    ensures (t >= 0) == (s > 0) ==> q >= 0
  {
    FloorOfQuotient(Abs(t), Abs(s));
    var m: int := Abs(t) / Abs(s);
    var q: int := if (t >= 0) == (s > 0) then m else -m;
    assert Abs(q) == m;
    q
  }

  /** `int(mip_thickness / z_step_size)`: a zero step raises
      ZeroDivisionError, and a thickness below one step raises ValueError. */
  function SlicesPerMip(thickness: int, step: int): (r: Result<nat>)
    ensures step == 0 <==> r == Err(ZeroDivisionError)
    ensures r.Ok? <==> (0 < step <= thickness || thickness <= step < 0)
    ensures r.Err? && step != 0 ==> r.error == ValueError
    ensures r.Ok? ==> r.value >= 1 && FloorOf(r.value, Abs(thickness), Abs(step))
  {
    if step == 0 then Err(ZeroDivisionError)
    else
      var q := TruncDiv(thickness, step);
      if q < 1 then Err(ValueError)
      else
        assert Abs(q) == q;
        Ok(q)
  }

  /** The plane groups `[s, min(s + k, n))` for `s` in `range(0, n, k)`;
      each is non-empty and ends inside the stack. */
  function MipGroups(n: nat, k: nat): (r: seq<Span>)
    requires k >= 1
    ensures |r| == |Origins(n, k).value|
    ensures forall g :: 0 <= g < |r| ==> r[g].lo < r[g].hi <= n
  {
    OriginsBelow(n, k);
    var os := Origins(n, k).value;
    seq(|os|, g requires 0 <= g < |os| => Clip(os[g], k, n))
  }

  /** Group number `g` starts at plane `g * k`, inside the stack. */
  lemma MipGroupAt(n: nat, k: nat, g: nat)
    requires k >= 1 && g < |MipGroups(n, k)|
    ensures g * k < n && MipGroups(n, k)[g] == Clip(g * k, k, n)
  {
    OriginSound(n, k, g);
  }

  /** Consecutive multiples: `(g - 1) * k + k == g * k`. */
  lemma MulStep(g: nat, k: nat)
    requires g >= 1
    ensures (g - 1) * k + k == g * k
  {
  }

  /** Every group is non-empty, ends inside the stack and holds at most `k`
      planes. */
  lemma MipGroupsBounded(n: nat, k: nat, g: nat)
    requires k >= 1 && g < |MipGroups(n, k)|
    ensures var s := MipGroups(n, k)[g]; s.lo < s.hi <= n && s.hi - s.lo <= k
  {
    MipGroupAt(n, k, g);
  }

  /** Each group ends where the next one starts. */
  lemma MipGroupsAdjacent(n: nat, k: nat, g: nat)
    requires k >= 1 && 0 < g < |MipGroups(n, k)|
    ensures MipGroups(n, k)[g - 1].hi == MipGroups(n, k)[g].lo
  {
    MipGroupAt(n, k, g - 1);
    MipGroupAt(n, k, g);
    MulStep(g, k);
  }

  /** The first group starts at plane 0 and the last one ends at plane
      `n`; there are groups exactly when there are planes. */
  lemma MipGroupsEnds(n: nat, k: nat)
    requires k >= 1
    ensures n == 0 <==> |MipGroups(n, k)| == 0
    ensures |MipGroups(n, k)| > 0 ==> MipGroups(n, k)[0].lo == 0
    ensures |MipGroups(n, k)| > 0 ==> MipGroups(n, k)[|MipGroups(n, k)| - 1].hi == n
  {
    var m := |MipGroups(n, k)|;
    CeilBound(n, k, 0);
    if m > 0 {
      MipGroupAt(n, k, 0);
      MipGroupAt(n, k, m - 1);
      CeilBound(n, k, m);
      MulStep(m, k);
    }
  }

  /** The groups are non-empty, hold at most `k` planes, and follow each
      other without gap or overlap from plane 0 to plane `n`. */
  lemma MipGroupsPartition(n: nat, k: nat)
    requires k >= 1
    ensures var gs := MipGroups(n, k);
      forall g :: 0 <= g < |gs| ==> gs[g].lo < gs[g].hi <= n && gs[g].hi - gs[g].lo <= k
    ensures var gs := MipGroups(n, k);
      forall g :: 0 < g < |gs| ==> gs[g - 1].hi == gs[g].lo
    ensures var gs := MipGroups(n, k);
      n == 0 <==> |gs| == 0
    ensures var gs := MipGroups(n, k);
      |gs| > 0 ==> gs[0].lo == 0 && gs[|gs| - 1].hi == n
  {
    forall g | 0 <= g < |MipGroups(n, k)|
      ensures var s := MipGroups(n, k)[g]; s.lo < s.hi <= n && s.hi - s.lo <= k
    {
      MipGroupsBounded(n, k, g);
    }
    forall g | 0 < g < |MipGroups(n, k)|
      ensures MipGroups(n, k)[g - 1].hi == MipGroups(n, k)[g].lo
    {
      MipGroupsAdjacent(n, k, g);
    }
    MipGroupsEnds(n, k);
  }

  /** `stem.split('_')[index]`: the z token of a plane's file stem, an
      IndexError when the stem has too few tokens. */
  function PlaneToken(stem: string, index: int): (r: Result<string>)
    ensures r.Err? <==> PyIndex(Split(stem, '_'), index).None?
    ensures r.Err? ==> r.error == IndexError
    ensures r.Ok? ==> '_' !in r.value
  {
    SplitPieces(stem, '_');
    match PyIndex(Split(stem, '_'), index)
    case None => Err(IndexError)
    case Some(t) => Ok(t)
  }

  /** `f"MIP_{first_plane}_{last_plane}.tif"` for one group of the sorted
      plane stems. */
  function MipName(stems: seq<string>, group: Span, index: int): (r: Result<string>)
    requires group.lo < group.hi <= |stems|
    ensures r.Err? <==> PlaneToken(stems[group.lo], index).Err? || PlaneToken(stems[group.hi - 1], index).Err?
    ensures r.Err? ==> r.error == IndexError
    ensures r.Ok? ==> (Split(Stem(r.value), '_') ==
      ["MIP", PlaneToken(stems[group.lo], index).value, PlaneToken(stems[group.hi - 1], index).value])
  {
    match (PlaneToken(stems[group.lo], index), PlaneToken(stems[group.hi - 1], index))
    case (Ok(a), Ok(b)) =>
      MipNameTokens(a, b);
      Ok("MIP_" + a + "_" + b + ".tif")
    case (Err(e), _) => Err(e)
    case (_, Err(e)) => Err(e)
  }

  lemma MipNameTokens(a: string, b: string)
    requires '_' !in a && '_' !in b
    ensures Split(Stem("MIP_" + a + "_" + b + ".tif"), '_') == ["MIP", a, b]
  {
    var base := "MIP_" + a + "_" + b;
    StemOfSuffixed(base, "tif");
    assert base + "." + "tif" == "MIP_" + a + "_" + b + ".tif";
    assert Join([a, b], '_') == a + ['_'] + b;
    assert Join(["MIP", a, b], '_') == base;
    SplitJoin(["MIP", a, b], '_');
  }

  /** The names of all projections of one folder, in group order; a bad
      group stops the run with IndexError. */
  function MipNames(stems: seq<string>, groups: seq<Span>, index: int): (r: Result<seq<string>>)
    requires forall g :: 0 <= g < |groups| ==> groups[g].lo < groups[g].hi <= |stems|
    ensures r.Ok? <==> forall g :: 0 <= g < |groups| ==> MipName(stems, groups[g], index).Ok?
    ensures r.Err? ==> r.error == IndexError
    ensures r.Ok? ==> (|r.value| == |groups| &&
      forall g :: 0 <= g < |groups| ==> r.value[g] == MipName(stems, groups[g], index).value)
  {
    if forall g :: 0 <= g < |groups| ==> MipName(stems, groups[g], index).Ok? then
      Ok(seq(|groups|, g requires 0 <= g < |groups| => MipName(stems, groups[g], index).value))
    else Err(IndexError)
  }

  /** `create_mips_from_folder` over the sorted plane stems of a folder. */
  function CreateMips(stems: seq<string>, thickness: int, step: int, index: int): (r: Result<seq<string>>)
    ensures SlicesPerMip(thickness, step).Err? ==> r == Err(SlicesPerMip(thickness, step).error)
    ensures r.Ok? ==> |r.value| == |MipGroups(|stems|, SlicesPerMip(thickness, step).value)|
    // with a valid thickness: IndexError exactly when some group's first or
    // last stem lacks the plane token, otherwise one MIP name per group
    ensures SlicesPerMip(thickness, step).Ok? ==>
      var gs := MipGroups(|stems|, SlicesPerMip(thickness, step).value);
      && (r.Ok? <==> forall g :: 0 <= g < |gs| ==> MipName(stems, gs[g], index).Ok?)
      && (r.Err? ==> r.error == IndexError)
      && (r.Ok? ==> forall g :: 0 <= g < |gs| ==> r.value[g] == MipName(stems, gs[g], index).value)
  {
    match SlicesPerMip(thickness, step)
    case Err(e) => Err(e)
    case Ok(k) =>
      var groups := MipGroups(|stems|, k);
      var r := MipNames(stems, groups, index);
      r
  }

  /** MIP number `g` is named by the plane tokens of stem `g * k` and of the
      last stem of its slab, `min((g + 1) * k, n) - 1`. */
  lemma CreateMipsNameAt(stems: seq<string>, thickness: int, step: int, index: int, g: nat)
    requires SlicesPerMip(thickness, step).Ok?
    requires CreateMips(stems, thickness, step, index).Ok?
    requires g < |CreateMips(stems, thickness, step, index).value|
    ensures var k := SlicesPerMip(thickness, step).value;
      var last := Min((g + 1) * k, |stems|) - 1;
      && g * k <= last < |stems|
      && PlaneToken(stems[g * k], index).Ok? && PlaneToken(stems[last], index).Ok?
      && CreateMips(stems, thickness, step, index).value[g] ==
           "MIP_" + PlaneToken(stems[g * k], index).value + "_" + PlaneToken(stems[last], index).value + ".tif"
  {
    var k := SlicesPerMip(thickness, step).value;
    var gs := MipGroups(|stems|, k);
    MipGroupAt(|stems|, k, g);
    assert (g + 1) * k == g * k + k;
    assert gs[g] == Span(g * k, Min((g + 1) * k, |stems|));
    assert MipName(stems, gs[g], index).Ok?;
  }

  /** `f"{out_prefix}_zstack_{names[0]}_to_{names[-1]}.tif"`. `shapes[k]`
      is the array shape of file `k`; `np.stack` runs first and raises
      ValueError on an empty list or on arrays of different shapes. */
  function ZStackName(prefix: string, stems: seq<string>, shapes: seq<seq<nat>>): (r: Result<string>)
    requires |shapes| == |stems|
    ensures r.Err? <==> (|stems| == 0 || exists k :: 0 <= k < |shapes| && shapes[k] != shapes[0])
    ensures r.Err? ==> r.error == ValueError
  {
    if |stems| == 0 then Err(ValueError)
    else if exists k :: 0 <= k < |shapes| && shapes[k] != shapes[0] then Err(ValueError)
    else Ok(prefix + "_zstack_" + stems[0] + "_to_" + stems[|stems| - 1] + ".tif")
  }

  lemma ZStackBaseHead(prefix: string, first: string, last: string)
    requires !Contains(prefix, "_zstack")
    ensures FirstPiece(prefix + "_zstack_" + first + "_to_" + last, "_zstack") == prefix
  {
    var rest := "_" + first + "_to_" + last;
    UniqueHead("_zstack");
    assert prefix + "_zstack_" + first + "_to_" + last == prefix + "_zstack" + rest;
    FirstPieceOfJoin(prefix, "_zstack", rest);
  }

  lemma ZStackBaseTail(prefix: string, first: string, last: string)
    requires !Contains(last, "to_")
    ensures LastPiece(prefix + "_zstack_" + first + "_to_" + last, "to_") == last
  {
    var head := prefix + "_zstack_" + first + "_";
    UniqueHead("to_");
    assert prefix + "_zstack_" + first + "_to_" + last == head + "to_" + last;
    LastPieceOfJoin(head, "to_", last);
  }

  lemma ZStackBaseParts(prefix: string, first: string, last: string)
    requires !Contains(prefix, "_zstack") && !Contains(last, "to_")
    ensures FirstPiece(prefix + "_zstack_" + first + "_to_" + last, "_zstack") == prefix
    ensures LastPiece(prefix + "_zstack_" + first + "_to_" + last, "to_") == last
  {
    ZStackBaseHead(prefix, first, last);
    ZStackBaseTail(prefix, first, last);
  }

  /** The prefix and the last plane's name can be read back from a stack's
      file name. */
  lemma ZStackNameParts(prefix: string, stems: seq<string>, shapes: seq<seq<nat>>)
    requires |shapes| == |stems| && ZStackName(prefix, stems, shapes).Ok?
    requires !Contains(prefix, "_zstack") && !Contains(stems[|stems| - 1], "to_")
    ensures FirstPiece(Stem(ZStackName(prefix, stems, shapes).value), "_zstack") == prefix
    ensures LastPiece(Stem(ZStackName(prefix, stems, shapes).value), "to_") == stems[|stems| - 1]
  {
    var first := stems[0];
    var last := stems[|stems| - 1];
    var base := prefix + "_zstack_" + first + "_to_" + last;
    StemOfSuffixed(base, "tif");
    assert ZStackName(prefix, stems, shapes).value == base + "." + "tif";
    ZStackBaseParts(prefix, first, last);
  }
}

=== FILE: wrappers.dfy ===
/** Failure-carrying datatypes shared by every module of the model.

    The scripts signal failure by raising Python exceptions; each raise the
    model keeps becomes an `Err` carrying the exception class. */
module Wrappers {

  datatype Option<+T> = None | Some(value: T)

  /** The Python exception classes the modelled scripts raise, explicitly or
      through the interpreter (a bad index, a division by zero, ...). */
  datatype PyError =
    | RuntimeError
    | ValueError
    | IndexError
    | ZeroDivisionError
    | NameError
    | FileNotFoundError
    | AssertionError
    | TypeError

  datatype Result<+T> = Ok(value: T) | Err(error: PyError) {
    predicate IsFailure() {
      Err?
    }

    function PropagateFailure<U>(): Result<U>
      requires Err?
    {
      Err(error)
    }

    function Extract(): T
      requires Ok?
    {
      value
    }
  }

  /** Python's `seq[i]` for an `int` index: negative indices count from the
      end, anything outside `[-|s|, |s|)` is an IndexError (`None`). */
  function PyIndex<T>(s: seq<T>, i: int): (r: Option<T>)
    ensures 0 <= i < |s| ==> r == Some(s[i])
    ensures -|s| <= i < 0 ==> r == Some(s[|s| + i])
    ensures r.None? <==> (i < -|s| || |s| <= i)
  {
    if 0 <= i < |s| then Some(s[i])
    else if -|s| <= i < 0 then Some(s[|s| + i])
    else None
  }

  /** A slice bound as Python normalises it: negative bounds count from the
      end, and the result is clamped to `[0, n]`. */
  function SliceBound(i: int, n: nat): (b: nat)
    ensures b <= n
    ensures 0 <= i <= n ==> b == i
  {
    if i < 0 then (if i + n < 0 then 0 else i + n)
    else if i > n then n
    else i
  }

  /** Python's `s[a:b]`: never fails, and is empty when the normalised
      bounds cross. */
  function PySlice<T>(s: seq<T>, a: int, b: int): (r: seq<T>)
    ensures 0 <= a <= b <= |s| ==> r == s[a..b]
    ensures 0 <= b <= a ==> r == []
    ensures |r| <= |s|
  {
    var lo := SliceBound(a, |s|);
    var hi := SliceBound(b, |s|);
    if lo < hi then s[lo..hi] else []
  }
}

=== FILE: zstack.dfy ===
/** The two helpers of `archived_and_test/make_zstack.py`: compiling a fixed
    window of a folder's TIFF files into one stack, and cutting a stack into
    equal crops, the remainder at the far edges being dropped. Pixel data
    and TIFF writing are not modelled. */
module ZStack {
  import opened Wrappers
  import opened Strings
  import opened Sorting
  import opened Decimal
  import opened Arith
  import opened Tiling
  import opened Collage

  // ---------------------------------------------------------------------
  // The stack window
  // ---------------------------------------------------------------------

  /** `f.lower().endswith(('.tif', '.tiff'))`. */
  predicate IsTiff(name: string) {
    EndsWith(LowerAscii(name), ".tif") || EndsWith(LowerAscii(name), ".tiff")
  }

  function FilterTiff(names: seq<string>): (r: seq<string>)
    ensures forall n :: n in r <==> n in names && IsTiff(n)
    ensures |r| <= |names|
  {
    if |names| == 0 then []
    else
      var rest := FilterTiff(names[1..]);
      assert names == [names[0]] + names[1..];
      if IsTiff(names[0]) then [names[0]] + rest else rest
  }

  /** The sorted TIFF files of the folder. */
  function TiffFiles(names: seq<string>): (r: seq<string>)
    ensures forall n :: n in r <==> n in names && IsTiff(n)
    ensures SortedBy(r, LexLe)
    ensures |r| <= |names|
  {
    var tiffs := FilterTiff(names);
    LexTotal();
    var r := InsertionSort(tiffs, LexLe);
    assert forall n :: n in r <==> n in tiffs by {
      assert multiset(r) == multiset(tiffs);
      forall n
        ensures n in r <==> n in multiset(r)
        ensures n in tiffs <==> n in multiset(tiffs)
      {
      }
    }
    r
  }

  const WindowStart := 266
  const WindowEnd := 280

  /** `file_list[266:280]`, with the ValueError of an empty window. */
  function StackWindow(names: seq<string>): (r: Result<seq<string>>)
    ensures r.Ok? <==> |TiffFiles(names)| > WindowStart
    ensures r.Err? ==> r.error == ValueError
    ensures r.Ok? ==> 1 <= |r.value| <= WindowEnd - WindowStart
    ensures r.Ok? ==> r.value == TiffFiles(names)[WindowStart..Min(WindowEnd, |TiffFiles(names)|)]
    ensures r.Ok? ==> forall n :: n in r.value ==> n in names && IsTiff(n)
  {
    var files := TiffFiles(names);
    var window := PySlice(files, WindowStart, WindowEnd);
    if |window| == 0 then Err(ValueError)
    else
      assert window == files[WindowStart..Min(WindowEnd, |files|)];
      assert forall n :: n in window ==> n in files;
      Ok(window)
  }

  // ---------------------------------------------------------------------
  // The crop grid
  // ---------------------------------------------------------------------

  /** `dim // crop` as the loop bound: for a negative crop size Python's
      floor division is at most zero, so the loop is empty. */
  function CropCount(dim: nat, crop: int): (n: nat)
    requires crop != 0
    ensures crop > 0 ==> n * crop <= dim < (n + 1) * crop
    ensures crop < 0 ==> n == 0
  {
    if crop > 0 then
      var n := dim / crop;
      QuotientBounds(dim, crop);
      assert n * crop <= dim < (n + 1) * crop;
      n
    else 0
  }

  /** One crop: its file name and the rows and columns it keeps (all
      planes are kept). */
  datatype Crop = Crop(name: string, rows: Span, cols: Span)

  function CropName(i: nat, j: nat): string {
    "crop_y" + NatToString(i) + "_x" + NatToString(j) + ".tiff"
  }

  function CropAt(i: nat, j: nat, h: nat, w: nat): Crop {
    Crop(CropName(i, j), Span(i * h, (i + 1) * h), Span(j * w, (j + 1) * w))
  }

  /** The crops of row `i`, left to right. */
  function GridRow(i: nat, nx: nat, h: nat, w: nat): (r: seq<Crop>)
    ensures |r| == nx
  {
    seq(nx, j requires 0 <= j < nx => CropAt(i, j, h, w))
  }

  /** The two nested loops: rows `0..ny-1`, each row left to right. */
  function Grid(ny: nat, nx: nat, h: nat, w: nat): (r: seq<Crop>)
    ensures |r| == ny * nx
  {
    if ny == 0 then [] else Grid(ny - 1, nx, h, w) + GridRow(ny - 1, nx, h, w)
  }

  /** Division by a positive `n` splits `k` into row and column. */
  lemma RowColumn(k: nat, n: nat)
    requires n > 0
    ensures k == (k / n) * n + k % n && 0 <= k % n < n
  {
  }

  /** Grid position `i * nx + j` is row `i`, column `j`. */
  lemma CropAtCell(i: nat, j: nat, nx: nat)
    requires j < nx
    ensures (i * nx + j) / nx == i && (i * nx + j) % nx == j
  {
    DivUnique(i * nx + j, nx, i, j);
    RowColumn(i * nx + j, nx);
  }

  /** The crop at position `k` is the one of row `k / nx` and column
      `k % nx`. */
  lemma {:induction false} GridAt(ny: nat, nx: nat, h: nat, w: nat, k: nat)
    requires k < ny * nx
    ensures nx > 0 && k / nx < ny && k % nx < nx
    ensures Grid(ny, nx, h, w)[k] == CropAt(k / nx, k % nx, h, w)
    decreases ny
  {
    var prev := Grid(ny - 1, nx, h, w);
    assert Grid(ny, nx, h, w) == prev + GridRow(ny - 1, nx, h, w);
    assert |prev| == (ny - 1) * nx;
    if k < (ny - 1) * nx {
      GridAt(ny - 1, nx, h, w, k);
    } else {
      var j := k - (ny - 1) * nx;
      assert (ny - 1) * nx + nx == ny * nx;
      CropAtCell(ny - 1, j, nx);
    }
  }

  /** `crop_z_stacks`: the size check raises AssertionError, a zero crop
      size divides by zero, and otherwise crop `(i, j)` comes at position
      `i * nx + j`. */
  function CropGrid(height: nat, width: nat, h: int, w: int): (r: Result<seq<Crop>>)
    ensures !(h <= height && w <= width) ==> r == Err(AssertionError)
    ensures h <= height && w <= width && (h == 0 || w == 0) ==> r == Err(ZeroDivisionError)
    ensures r.Ok? ==> h != 0 && w != 0 && |r.value| == CropCount(height, h) * CropCount(width, w)
    ensures r.Ok? && |r.value| > 0 ==> h > 0 && w > 0 && r.value == Grid(CropCount(height, h), CropCount(width, w), h, w)
  {
    if !(h <= height && w <= width) then Err(AssertionError)
    else if h == 0 || w == 0 then Err(ZeroDivisionError)
    else if h < 0 || w < 0 then Ok([])
    else Ok(Grid(CropCount(height, h), CropCount(width, w), h, w))
  }

  /** The crop at position `k` of the grid, with its row and column. */
  lemma CropGridAt(height: nat, width: nat, h: int, w: int, k: nat)
    requires CropGrid(height, width, h, w).Ok? && k < |CropGrid(height, width, h, w).value|
    ensures h > 0 && w > 0
    ensures var nx := CropCount(width, w);
      nx > 0 && k / nx < CropCount(height, h) && k % nx < nx &&
      CropGrid(height, width, h, w).value[k] == CropAt(k / nx, k % nx, h, w)
  {
    GridAt(CropCount(height, h), CropCount(width, w), h, w, k);
  }

  /** Every crop lies inside the image and has the full crop size. */
  lemma CropsInBounds(height: nat, width: nat, h: int, w: int, k: nat)
    requires CropGrid(height, width, h, w).Ok? && k < |CropGrid(height, width, h, w).value|
    ensures var c := CropGrid(height, width, h, w).value[k];
      c.rows.hi <= height && c.cols.hi <= width && c.rows.hi - c.rows.lo == h && c.cols.hi - c.cols.lo == w
  {
    CropGridAt(height, width, h, w, k);
    var nx := CropCount(width, w);
    var ny := CropCount(height, h);
    CellInside(k / nx, k % nx, ny, nx, h, w);
  }

  /** Different positions of a grid with `nx` columns give different
      (row, column) pairs. */
  lemma PositionsDiffer(k1: nat, k2: nat, nx: nat)
    requires nx > 0 && k1 != k2
    ensures k1 / nx != k2 / nx || k1 % nx != k2 % nx
  {
    RowColumn(k1, nx);
    RowColumn(k2, nx);
  }

  /** Pixel `(p, q)` lies in crop `c` (on every plane). */
  predicate InCrop(p: int, q: int, c: Crop) {
    InSpan(p, c.rows) && InSpan(q, c.cols)
  }

  /** Crops at different grid cells share no pixel. */
  lemma CropAtDisjoint(i1: nat, j1: nat, i2: nat, j2: nat, h: nat, w: nat, p: int, q: int)
    requires i1 != i2 || j1 != j2
    ensures !(InCrop(p, q, CropAt(i1, j1, h, w)) && InCrop(p, q, CropAt(i2, j2, h, w)))
  {
    var c1, c2 := CropAt(i1, j1, h, w), CropAt(i2, j2, h, w);
    assert c1.rows == Span(i1 * h, i1 * h + h) && c2.rows == Span(i2 * h, i2 * h + h);
    assert c1.cols == Span(j1 * w, j1 * w + w) && c2.cols == Span(j2 * w, j2 * w + w);
    if i1 != i2 {
      SeparateBands(i1, i2, h, p);
    } else {
      SeparateBands(j1, j2, w, q);
    }
  }

  /** Different crops share no pixel. */
  lemma CropsDisjoint(height: nat, width: nat, h: int, w: int, k1: nat, k2: nat, p: int, q: int)
    requires CropGrid(height, width, h, w).Ok?
    requires k1 < k2 < |CropGrid(height, width, h, w).value|
    ensures !(InCrop(p, q, CropGrid(height, width, h, w).value[k1]) && InCrop(p, q, CropGrid(height, width, h, w).value[k2]))
  {
    var nx := CropCount(width, w);
    CropGridAt(height, width, h, w, k1);
    CropGridAt(height, width, h, w, k2);
    PositionsDiffer(k1, k2, nx);
    CropAtDisjoint(k1 / nx, k1 % nx, k2 / nx, k2 % nx, h, w, p, q);
  }

  /** A pixel lies in the crop of its cell. */
  lemma CellOfPixel(h: nat, w: nat, p: nat, q: nat)
    requires h > 0 && w > 0
    ensures InCrop(p, q, CropAt(p / h, q / w, h, w))
  {
    QuotientBounds(p, h);
    QuotientBounds(q, w);
  }

  /** A crop of an `ny` by `nx` grid ends inside the whole crops. */
  lemma CellInside(i: nat, j: nat, ny: nat, nx: nat, h: nat, w: nat)
    requires i < ny && j < nx
    ensures CropAt(i, j, h, w).rows.hi <= ny * h && CropAt(i, j, h, w).cols.hi <= nx * w
  {
    MulMonotone(i + 1, ny, h);
    MulMonotone(j + 1, nx, w);
  }

  /** Position `i * nx + j` of the grid holds the crop of cell `(i, j)`. */
  lemma GridCell(ny: nat, nx: nat, h: nat, w: nat, i: nat, j: nat)
    requires i < ny && j < nx
    ensures i * nx + j < ny * nx && Grid(ny, nx, h, w)[i * nx + j] == CropAt(i, j, h, w)
  {
    MulMonotone(i + 1, ny, nx);
    CropAtCell(i, j, nx);
    GridAt(ny, nx, h, w, i * nx + j);
  }

  /** A pixel inside the whole grid has its cell inside the grid. */
  lemma CellInGrid(ny: nat, nx: nat, h: nat, w: nat, p: nat, q: nat)
    requires h > 0 && w > 0 && p < ny * h && q < nx * w
    ensures p / h < ny && q / w < nx && InCrop(p, q, CropAt(p / h, q / w, h, w))
  {
    DivBelow(p, h, ny);
    DivBelow(q, w, nx);
    CellOfPixel(h, w, p, q);
  }

  /** A pixel of a cell's crop lies in some crop of the grid. */
  lemma GridCovers(ny: nat, nx: nat, h: nat, w: nat, i: nat, j: nat, p: int, q: int)
    requires i < ny && j < nx && InCrop(p, q, CropAt(i, j, h, w))
    ensures exists k :: 0 <= k < ny * nx && InCrop(p, q, Grid(ny, nx, h, w)[k])
  {
    GridCell(ny, nx, h, w, i, j);
    var k := i * nx + j;
    assert 0 <= k < ny * nx && InCrop(p, q, Grid(ny, nx, h, w)[k]);
  }

  /** Every pixel of a crop lies inside the whole crops. */
  lemma CropWithin(height: nat, width: nat, h: int, w: int, k: nat, p: int, q: int)
    requires CropGrid(height, width, h, w).Ok?
    requires k < |CropGrid(height, width, h, w).value|
    requires InCrop(p, q, CropGrid(height, width, h, w).value[k])
    ensures 0 <= p < CropCount(height, h) * h && 0 <= q < CropCount(width, w) * w
  {
    CropGridAt(height, width, h, w, k);
    var nx := CropCount(width, w);
    CellInside(k / nx, k % nx, CropCount(height, h), nx, h, w);
  }

  /** A pixel is in some crop exactly when it is inside the whole crops:
      the last `height % h` rows and `width % w` columns are dropped. */
  lemma CropsCover(height: nat, width: nat, h: int, w: int, p: int, q: int)
    requires CropGrid(height, width, h, w).Ok?
    ensures var crops := CropGrid(height, width, h, w).value;
      (exists k :: 0 <= k < |crops| && InCrop(p, q, crops[k])) <==>
      (0 <= p < CropCount(height, h) * h && 0 <= q < CropCount(width, w) * w)
  {
    var crops := CropGrid(height, width, h, w).value;
    if 0 <= p < CropCount(height, h) * h && 0 <= q < CropCount(width, w) * w {
      assert h > 0 && w > 0;
      var ny, nx := CropCount(height, h), CropCount(width, w);
      CellInGrid(ny, nx, h, w, p, q);
      GridCovers(ny, nx, h, w, p / h, q / w, p, q);
    }
    if exists k :: 0 <= k < |crops| && InCrop(p, q, crops[k]) {
      var k :| 0 <= k < |crops| && InCrop(p, q, crops[k]);
      CropWithin(height, width, h, w, k, p, q);
    }
  }

  /** The `_`-separated tokens of a crop name. */
  lemma CropNameTokens(i: nat, j: nat)
    ensures Split(CropName(i, j), '_') == ["crop", "y" + NatToString(i), "x" + NatToString(j) + ".tiff"]
  {
    var s, t := NatToString(i), NatToString(j);
    NoUnderscore(s);
    NoUnderscore(t);
    var y, x := "y" + s, "x" + t + ".tiff";
    assert '_' !in y && '_' !in x;
    assert CropName(i, j) == "crop" + ['_'] + y + ['_'] + x;
    SplitThree("crop", y, x, '_');
  }

  /** Crop names are distinct: the name determines the crop's position. */
  lemma CropNameInjective(i1: nat, j1: nat, i2: nat, j2: nat)
    requires CropName(i1, j1) == CropName(i2, j2)
    ensures i1 == i2 && j1 == j2
  {
    CropNameTokens(i1, j1);
    CropNameTokens(i2, j2);
    var y1, y2 := "y" + NatToString(i1), "y" + NatToString(i2);
    var x1, x2 := "x" + NatToString(j1) + ".tiff", "x" + NatToString(j2) + ".tiff";
    assert y1 == y2 && x1 == x2;
    assert NatToString(i1) == y1[1..] && NatToString(i2) == y2[1..];
    assert NatToString(j1) == x1[1..|x1| - 5] && NatToString(j2) == x2[1..|x2| - 5];
    NatToStringInjective(i1, i2);
    NatToStringInjective(j1, j2);
  }

  /** No two crops of one grid are written to the same file. */
  lemma CropNamesDistinct(height: nat, width: nat, h: int, w: int, k1: nat, k2: nat)
    requires CropGrid(height, width, h, w).Ok?
    requires k1 < k2 < |CropGrid(height, width, h, w).value|
    ensures CropGrid(height, width, h, w).value[k1].name != CropGrid(height, width, h, w).value[k2].name
  {
    var nx := CropCount(width, w);
    CropGridAt(height, width, h, w, k1);
    CropGridAt(height, width, h, w, k2);
    PositionsDiffer(k1, k2, nx);
    if CropName(k1 / nx, k1 % nx) == CropName(k2 / nx, k2 % nx) {
      CropNameInjective(k1 / nx, k1 % nx, k2 / nx, k2 % nx);
    }
  }
}
